=== FILE: README.md ===
# poker-analyzer core, modelled in Dafny

This project models the pure core of poker-analyzer, a tool that reads
online poker hand histories and computes statistics from them. The
modules follow the program's own structure:

- **Cards and card codes** (`cards.dfy`, `cardcodes.dfy`). A card is a
  rank index into `RANKS = 'AKQJT98765432'` (lower is stronger) and a suit
  index into `SUITS = ['s', 'h', 'd', 'c']`. The module covers
  `sort_by_rank`, `all_cards`, `to_card_code`, `all_combos_of_card_code`,
  `all_card_codes` and `number_of_combos`.
- **Hand ranker** (`ranking.dfy`, `grouping.dfy`, `hand_shapes.dfy`,
  `hand_composition.dfy`, `straight_detection.dfy`, `hand_order.dfy`).
  This is `EvalHand._calc_hand` with its helpers `split_by_suits`,
  `split_by_ranks`, `find_kickers` and `compare_by_ranks`. It also covers the order `EvalHand.__lt__`/`__eq__`.
- **Pattern matcher** (`patterns.dfy`). This is `cards_match_pattern` for
  exact codes, `AK`, `66+`, `A5+`, `66-TT`, `A5-A9` and `JTs-87s`.
- **Equity counting** (`equity.dfy`). This covers `calc_wins` and
  `calc_equities`. Wins are exact `real`s.
- **Pot settlement** (`settlement.dfy`). This covers `calc_payouts`,
  `_get_payout_for_board` and `_split_up_pot`, in integer cents.
- **Action-walking logic** (`actions.dfy`, `hands.dfy`,
  `hand_streets.dfy`, `positions.dfy`):
  - the street helpers of `poker/actions.py`;
  - `Player.names_eq`, `known_cards` and `net`;
  - the `Hand` queries: `did_player_vpip`, `did_player_3bet_pre`,
    `get_action_seq_string`, `players_involved_at_street`,
    `hand_got_to_street`, `is_multiway`, `is_everyone_all_in`,
    `get_position_to_player_mapping` and `did_player_win`.
- **Scraper helpers** (`scraping.dfy`). These are `_invert_alias_map`,
  `_convert_card`, `_handle_player_shows_a_card` with `_get_player`, and
  `_assign_player_positions`.
- **Shared support.** `results.dfy` holds the `Option`/`Result` wrappers.
  `strings.dfy` holds `str.find`, `str.split` and `str.replace`.

Every Python exception the modelled code can raise is an `Err` value
naming its class, with three exceptions: the ranker's `IndexError` on no
cards, which a precondition excludes; one case that depends on set
iteration order; and the `KeyError` and `AttributeError` that
`calc_payouts` raises as written, because the model supplies the two
values it reads (see `Ranking.CalcHand`, `HandStreets.IsEveryoneAllIn`
and `Settlement.CalcPayouts` under "Left out"). For example, a `list.index` miss is `ValueError`, and
`set.remove` of a missing element is `KeyError`. A path through code
outside the model yields `Err(Unavailable)`.

Four behaviours of the code are modelled as written, not corrected:

- `HJ` (from six seats) and `LJ` (from seven) both take `seen_players[3]`,
  the `CO` seat.
- A blind post counts as a player's first pre-flop action when
  `did_player_3bet_pre` looks for an opportunity.
- `number_of_combos('??')` is 6, because the pair test comes first.
- The `A5+` branch compares the code with `r1 + 'X'`, so it never matches.

Dafny lemmas state each of these.

## Model

| member | source | states |
|---|---|---|
| Actions.StreetIndex | poker/actions.py:33-48 | `ORDERED_STREETS.index(s)` finds the street's own position, and it fails exactly for a name that is not a street |
| Actions.UnpackStreetCases | poker/actions.py:20-30 | `ANY` unpacks to all five streets in order, `POST_FLOP` to flop through showdown, `BEFORE_SHOWDOWN` to pre-flop through river; a list passes through unchanged and any other name becomes a one-element tuple |
| Actions.StreetRangeBetween | poker/actions.py:33-48 | for two streets, the range holds exactly the streets between them inclusive, in street order, and it is empty exactly when the last comes before the first |
| Actions.StreetRangeNoLast | poker/actions.py:39-48 | with no last street, the range is empty |
| Actions.StreetRangeNoFirst | poker/actions.py:34-48 | with no first street, the range is the prefix of `ORDERED_STREETS` that ends at the last street |
| Actions.StreetRangeErrors | poker/actions.py:33-48 | an empty tuple is an `IndexError`, and a name that is not a street is a `ValueError` at either end |
| Actions.ActionClasses | poker/actions.py:98-108 | aggression implies VPIP; VPIP means call or aggression; only a call is both VPIP and passive; aggression is never passive; folds and posts are neither VPIP nor passive |
| Cards.RankIndex | poker/cardutils.py:13 | `RANKS.index(ch)` returns the rank whose character is `ch`, and fails only when no rank has that character |
| Cards.ParseCardString | poker/cardutils.py:13-14 | the two-character string of a card parses back to that card |
| Cards.CardStringOfParse | poker/cardutils.py:13-14 | a string that parses is exactly the string of the card it parses to |
| Cards.SortByRank | poker/cardutils.py:255-259 | the result is a permutation of the input, ordered by rank and then by suit |
| Cards.SortedUnique | poker/cardutils.py:255-259 | two sorted arrangements of the same multiset of cards are equal |
| Cards.SortByRankOfPermutation | poker/cardutils.py:255-259 | the sort does not depend on the order of its input |
| Cards.DistinctSortByRank | poker/cardutils.py:255-259 | sorting distinct cards gives distinct cards |
| Cards.AllCardsContents | poker/cardutils.py:247-252 | `all_cards(ignore)` yields every card not ignored, once each, in rank-then-suit order |
| HandOrder.CompareByRanksAntisymmetric | poker/cardutils.py:266-272 | swapping the arguments negates the result |
| HandOrder.CompareByRanksOnlyRanks | poker/cardutils.py:266-272 | only ranks matter: replacing cards by others of the same ranks changes nothing |
| HandOrder.CompareByRanksZero | poker/cardutils.py:266-272 | on sequences of equal length, the result is 0 exactly when the rank sequences are identical |
| HandOrder.CompareByRanksTransitive | poker/cardutils.py:266-272 | on sequences of equal length, "not stronger" is transitive, and strictly so when either step is strict |
| HandOrder.LtIrreflexive | poker/cardutils.py:322-336 | no hand is below itself, so every hand equals itself |
| HandOrder.LtAsymmetric | poker/cardutils.py:322-333 | two hands are never each below the other |
| HandOrder.Trichotomy | poker/cardutils.py:322-336 | one of `x < y`, `y < x` and `x == y` always holds, `==` rules out both `<`, and `==` is symmetric |
| HandOrder.EqualRanksAreEquiv | poker/cardutils.py:322-336 | hands with the same category and the same made-card and kicker ranks are equal whatever their suits |
| HandOrder.EquivIffSameRanks | poker/cardutils.py:322-336 | on complete hands, `==` holds exactly when category, made-card ranks and kicker ranks agree |
| HandOrder.LtTransitive | poker/cardutils.py:322-333 | on complete hands, `<` is transitive |
| HandOrder.EquivTransitive | poker/cardutils.py:335-336 | on complete hands, `==` is transitive, so `<` is a strict weak order |
| HandOrder.LtRespectsEquiv | poker/cardutils.py:322-336 | on complete hands, equal hands beat, and lose to, the same hands |
| HandOrder.WheelIsLowest | poker/cardutils.py:376-377 | a wheel laid out 5-4-3-2-A is below every other straight of the same category |
| Grouping.SplitByGrouped | poker/cardutils.py:275-290 | splitting by suit or by rank gives, for each key present, the cards of that key in input order, with no key twice; rank groups of sorted cards come strongest first |
| Grouping.GroupOfCard | poker/cardutils.py:275-290 | every card's key group is among the groups |
| Grouping.GroupsOfSizeIncreasing | poker/cardutils.py:357-358 | keeping only the groups of one size keeps them strongest first |
| HandShapes.SplitMember | poker/cardutils.py:275-290 | each group is non-empty, sorted, of one key and drawn from the input |
| HandShapes.RankGroupsOrdered | poker/cardutils.py:357-358 | the `trips` and `pairs` lists come strongest rank first |
| HandShapes.StraightFlushFacts | poker/cardutils.py:360-377 | a straight flush found in the suit groups is five consecutive ranks, or a wheel, all within one suit |
| HandShapes.KickersFromTake | poker/cardutils.py:293-300 | `find_kickers` adds, in order, the cards outside the made hand until made cards and kickers number five |
| HandShapes.FindKickersTake | poker/cardutils.py:293-300 | the kickers are the first `5 - |made|` cards outside the made hand |
| HandShapes.ClassifyWellFormed | poker/cardutils.py:360-432 | over sorted cards, the category chain yields made cards of the category's shape, drawn from the input |
| HandShapes.CalcHandShape | poker/cardutils.py:351-432 | the made cards have the category's shape and size and come from the input; where a category has kickers, they are the strongest input cards outside the made hand, up to five cards in all |
| HandComposition.KickersAreBestRest | poker/cardutils.py:293-300 | for distinct cards in every category, the kickers are the strongest cards outside the made hand, filling it up to five |
| HandComposition.KickersDisjoint | poker/cardutils.py:293-300 | kickers come from the input, never repeat a made card, and made cards plus kickers are at most five |
| HandComposition.CompleteHand | poker/cardutils.py:351-432 | five or more distinct cards always give a five-card hand |
| HandComposition.PairDetected | poker/cardutils.py:357-358 | two distinct cards of one rank always rank above high card |
| HandComposition.QuadsDetected | poker/cardutils.py:379-383 | four cards of one rank always rank as quads or better |
| HandComposition.FlushDetected | poker/cardutils.py:394-397 | five cards of one suit always rank as a flush or better |
| HandComposition.TripsDetected | poker/cardutils.py:379-420 | three or more distinct cards of one rank always rank as trips or better |
| HandComposition.TwoPairDetected | poker/cardutils.py:379-425 | two different ranks with two or more distinct cards each always rank as two pair or better |
| HandComposition.FullHouseDetected | poker/cardutils.py:379-392 | three cards of one rank and two of another always rank as a full house or better |
| StraightDetection.ScanSpans | poker/cardutils.py:400-412 | the run loop never loses a run: when each wanted rank is in the current run or still ahead, it ends with five cards or with a run spanning all of them |
| StraightDetection.StraightDetected | poker/cardutils.py:399-414 | five consecutive ranks anywhere among the cards always rank as a straight or better, repeated ranks or not |
| StraightDetection.WheelDetected | poker/cardutils.py:399-416 | an ace together with a 5, 4, 3 and 2 always ranks as a straight or better |
| StraightDetection.StraightFlushDetected | poker/cardutils.py:360-375 | five consecutive ranks of one suit among distinct cards always rank as a straight flush |
| StraightDetection.WheelFlushDetected | poker/cardutils.py:360-377 | the ace, 5, 4, 3 and 2 of one suit among distinct cards always rank as a straight flush |
| HandComposition.FlushIsTopFive | poker/cardutils.py:394-397 | a flush is the top five cards of its suit |
| HandComposition.FullHouseIsBest | poker/cardutils.py:385-392 | a full house is the strongest trips plus either the top two cards of a second trips or the strongest pair |
| HandComposition.HighCardIsTop | poker/cardutils.py:431-432 | the high card is the strongest input card, and distinct cards that make only a high card share no rank |
| HandComposition.CalcHandOrderFree | poker/cardutils.py:354 | the ranker sorts first, so permuting the input cards never changes the hand |
| Patterns.StripBounds | poker/cardutils.py:172 | `strip()` cuts exactly the leading and trailing whitespace |
| Patterns.SplitRuns | poker/cardutils.py:172 | `re.split(r'[ ,]+', ...)` gives at least one piece, and no piece holds a separator |
| Patterns.SplitRunsJoin | poker/cardutils.py:172 | joining the pieces with single commas gives the input with each separator run squashed to one comma, so only separators are lost |
| Patterns.SplitRunsSingle | poker/cardutils.py:172 | text without separators is a single pattern |
| Patterns.PairPatterns | poker/cardutils.py:221-222 | the generated pair patterns are the pairs of every rank from `lo` to `hi`, in order |
| Patterns.MatchEachMeaning | poker/cardutils.py:173-244 | the pattern list matches exactly when some pattern matches after earlier patterns fail without error, and fails to match exactly when every pattern fails to match |
| Patterns.SinglePattern | poker/cardutils.py:171-174 | a pattern without whitespace or separators is checked alone against the code of the cards, as the recursive calls rely on |
| Patterns.GeneratedPatternIsExact | poker/cardutils.py:187-189 | the patterns the range loops generate hold no `%`, `+` or `-`, so each recursive call is an exact comparison |
| Patterns.ExactCodeMeaning | poker/cardutils.py:187-189 | an exact code matches exactly the hands with that code |
| Patterns.UnsuitedCodeMeaning | poker/cardutils.py:190-193 | two ranks without a suffix match the suited and the offsuit hands of those ranks, and nothing else |
| Patterns.PlusPairMeaning | poker/cardutils.py:194-199 | `xx+` matches exactly the pairs of rank `x` or stronger |
| Patterns.PlusKickerNeverMatches | poker/cardutils.py:200-209 | the `A5+` form never matches any hand |
| Patterns.RangeDispatch | poker/cardutils.py:210-211 | a pattern `p1-p2` whose ends hold no `%`, `+` or `-` goes to the range branch with those two ends |
| Patterns.PairRangeMeaning | poker/cardutils.py:215-223 | `xx-yy` matches exactly the pairs whose rank lies between `x` and `y`, in either order |
| Patterns.AnyKicker | poker/cardutils.py:228-230 | the generated kicker patterns match exactly the hands with the given top card, a kicker in range and an admitted suitedness |
| Patterns.AnyGapper | poker/cardutils.py:241-243 | the generated gapper patterns match exactly the hands with the given gap, a top card in range and an admitted suitedness |
| Patterns.RangeOfEnds | poker/cardutils.py:210-214 | a range pattern is the range branch on its two ends, or the card-code error |
| Patterns.KickerRangeMeaning | poker/cardutils.py:224-230 | `tk1-tk2` matches exactly the hands whose top card is `t`, whose kicker lies between `k1` and `k2`, and whose suitedness the common suffix admits |
| Patterns.GapperRangeMeaning | poker/cardutils.py:231-243 | `x1y1-x2y2` with one gap on both ends matches exactly the hands with that gap whose top card lies between `x1` and `x2` |
| Patterns.MixedSuitsRejected | poker/cardutils.py:212-213 | a range whose ends disagree on suitedness raises `ValueError` |
| Patterns.PairToNonPairRejected | poker/cardutils.py:215-217 | a range from a pair to a non-pair raises `ValueError` |
| Patterns.GapMismatchRejected | poker/cardutils.py:237-238 | a gapper range whose ends have different gaps raises `ValueError` |
| CardCodes.ToCardCode | poker/cardutils.py:86-109 | `(None, None)` gives `??`, a missing second card gives `r?`, a missing first card alone is a `TypeError`, and two cards give a valid code describing them, stronger rank first |
| CardCodes.ToCardCodeSymmetric | poker/cardutils.py:99-102 | the code of two cards does not depend on their order |
| CardCodes.SameCodeIff | poker/cardutils.py:86-109 | two hands share a code exactly when they have the same ranks and, for different ranks, the same suitedness |
| CardCodes.AllCombosOfCardCode | poker/cardutils.py:112-125 | each combo is built from the code's ranks and one kept suit pair, and a code shorter than two characters is an `IndexError` |
| CardCodes.KeptSuitsMembers | poker/cardutils.py:117-125 | the suit loop keeps exactly the suit pairs the suffix admits, once each, in loop order |
| CardCodes.SuitChoicesFit | poker/cardutils.py:112-125 | suit pairs are increasing for a pair, equal for a suited code and different for an offsuit code |
| CardCodes.CombosHaveTheirCode | poker/cardutils.py:86-125 | every combo of a valid code is two different cards whose code is that code |
| CardCodes.CodeHasItsCombos | poker/cardutils.py:86-125 | every hand of two different cards is, in one order or the other, a combo of its own code |
| CardCodes.NumberOfCombos | poker/cardutils.py:137-147 | a code shorter than two characters is an `IndexError`; otherwise the count is positive |
| CardCodes.CombosCounted | poker/cardutils.py:112-147 | `number_of_combos` equals the number of combos yielded, for every string, and both fail on the same strings |
| CardCodes.UnknownCodeCountsAsPair | poker/cardutils.py:137-145 | `number_of_combos('??')` is 6, and the `-1` branch is never taken |
| CardCodes.AllCardCodes | poker/cardutils.py:128-134 | `all_card_codes` yields 169 codes |
| CardCodes.AllCardCodesExactly | poker/cardutils.py:128-134 | `all_card_codes` yields every valid code exactly once, and nothing else |
| Equity.Best | poker/cardutils.py:460-461 | the first hand after the descending sort is one of the hands |
| Equity.SplitUnitShares | poker/cardutils.py:462-469 | on a complete board, the wins split one unit among exactly the hands equal to the best |
| Equity.WinsCompleteUnit | poker/cardutils.py:459-469 | on a complete board, the wins are non-negative and total one |
| Equity.BestIsMaximal | poker/cardutils.py:460-461 | over complete hands, no hand beats the first hand of the sort |
| Equity.BestClassUnbeaten | poker/cardutils.py:460-467 | over complete hands, the hands equal to the best are exactly the hands nothing beats |
| Equity.WinnersAreMaximal | poker/cardutils.py:459-469 | with distinct cards on a board of five or more, a holding gets a share exactly when no other holding beats it |
| Equity.CombinationsCount | poker/cardutils.py:486-489 | `itertools.combinations` yields C(n, k) selections |
| Equity.CombinationsUnique | poker/cardutils.py:486-489 | no two selections hold the same cards |
| Equity.CombinationsComplete | poker/cardutils.py:486-489 | every set of k cards drawn from the deck is enumerated as one of the combinations |
| Equity.FallingChoose | poker/cardutils.py:481-484 | the falling factorial over `k!` is C(n, k) |
| Equity.PossibleOutcomesCount | poker/cardutils.py:481-484 | `n_possible_outcomes` is exactly the number of selections enumerated |
| Equity.Used | poker/cardutils.py:471-476 | `used_cards` is exactly the hole cards and the board cards |
| Equity.AccumulateUnits | poker/cardutils.py:494-497 | adding up win vectors that each split one unit gives their number, with no negative entry |
| Equity.RunOutWinsTotal | poker/cardutils.py:494-497 | summed over any list of run-outs, the wins total the number of run-outs, with none negative |
| Equity.RunOutsEnumerate | poker/cardutils.py:478-489 | each run-out completes the board to five cards with unused cards; none is played twice; every selection of unused cards is played |
| Equity.CalcWinsExhaustive | poker/cardutils.py:470-499 | with an incomplete board and no limit below C(unused, to draw), every run-out is played, and the wins total that binomial coefficient |
| Equity.CalcWinsNonNegative | poker/cardutils.py:457-499 | wins are never negative |
| Equity.NormalizeFails | poker/cardutils.py:452-454 | normalising fails with `ZeroDivisionError` exactly when there are wins and every one is zero; no wins normalise to no equities |
| Equity.NormalizeShares | poker/cardutils.py:452-454 | normalised non-negative wins are each between 0 and 1 and total exactly 1, or 0 when there are none |
| Equity.NormalizeUnit | poker/cardutils.py:452-454 | wins that already total one are their own equities |
| Equity.EquitiesSumToOne | poker/cardutils.py:435-454 | equities are each between 0 and 1 and total exactly 1 for one or more hands, and 0 for none |
| Equity.NoHandsNoEquities | poker/cardutils.py:447-458 | with no hands, `calc_wins` gives no wins and the equities are the empty list, not an error |
| Equity.EquitiesOnCompleteBoard | poker/cardutils.py:447-469 | on a complete board, the equities are the complete-board wins |
| Settlement.Sweep | poker/cardutils.py:519-525 | the fold and all-in sweep keeps the active and all-in sets disjoint, and never adds a player |
| Settlement.Remaining | poker/cardutils.py:532 | `remaining_players` lists exactly the ledger seats still in the hand |
| Settlement.SortByPut | poker/cardutils.py:533 | sorting by contribution keeps the same players |
| Settlement.Layer | poker/cardutils.py:540-549 | a pot layer takes `limit` from each seat that still has that much, and everything from the others; its players are exactly the former |
| Settlement.LayerConserves | poker/cardutils.py:540-549 | a layer moves money from in front of the seats into the pot, losing nothing |
| Settlement.BuildPotsConserves | poker/cardutils.py:535-550 | the pots plus what is left in front of the seats add up to everything put in |
| Settlement.NoPots | poker/cardutils.py:536-539 | when nothing positive is left in front of any seat, no pot is opened |
| Settlement.Drains | poker/cardutils.py:535-550 | if a remaining seat has the most in front of it, the pots take everything |
| Settlement.SidePotsValue | poker/cardutils.py:532-552 | the pots hold the antes plus everything put in, less what is still in front of the seats |
| Settlement.SidePotsTakeAll | poker/cardutils.py:532-552 | when a remaining seat put in the most, the pots hold everything put in plus the antes |
| Settlement.BoardSharesSum | poker/cardutils.py:558-563 | the per-board parts of a pot add up to the pot |
| Settlement.BoardTotalPrefix | poker/cardutils.py:558-563 | the first `m` boards receive `m * (v // n)` plus one cent for each board below `v % n` |
| Settlement.SubPotsConserve | poker/cardutils.py:556-563 | splitting every pot across `n` boards keeps the money |
| Settlement.Contenders | poker/cardutils.py:515-516 | the hands that are evaluated belong to exactly the remaining players with two known cards |
| Settlement.Eligible | poker/cardutils.py:595-598 | the entrants that may win a pot are exactly those listed in the pot |
| Settlement.Winners | poker/cardutils.py:584-601 | the winners are exactly the eligible entrants whose hand equals the best eligible hand |
| Settlement.WinnersNonEmpty | poker/cardutils.py:593-603 | a pot with an eligible entrant has a winner |
| Settlement.WinnersUnbeaten | poker/cardutils.py:584-601 | with complete hands, the winners are exactly the eligible entrants no eligible hand beats |
| Settlement.SortWinners | poker/cardutils.py:609-610 | the winners are permuted into position order |
| Settlement.Deal | poker/cardutils.py:612-617 | each winner in order gets `each`, and the first `extra` winners one cent more |
| Settlement.DealTotal | poker/cardutils.py:612-617 | the dealt shares total `k * each + extra` |
| Settlement.SplitPot | poker/cardutils.py:593-618 | a pot's shares total the pot |
| Settlement.SplitPotShares | poker/cardutils.py:593-618 | `_split_up_pot` raises `ValueError` exactly when no entrant may win; otherwise winners in position order get `value // k`, and the first `value % k` of them one cent more |
| Settlement.Credit | poker/cardutils.py:623-626 | crediting an id adds exactly the credited cents to the total |
| Settlement.PayoutForBoard | poker/cardutils.py:620-628 | a board's payout adds the value of its pots to the total |
| Settlement.PerBoardTotal | poker/cardutils.py:554-564 | the per-board payouts together share out the sub-pots of all boards |
| Settlement.RecombineTotal | poker/cardutils.py:569-576 | recombining payouts keeps their total |
| Settlement.PayoutsArePots | poker/cardutils.py:527-576 | with at least one board, a contested hand pays out exactly its pots, antes included |
| Settlement.PayoutConservation | poker/cardutils.py:502-576 | with at least one board and a player still in the hand who put in the most, the payouts total everything put in plus the antes |
| Settlement.Uncontested | poker/cardutils.py:527-530 | when exactly one player is left, that player takes everything put in plus the antes, whatever the boards |
| Settlement.NoBoards | poker/cardutils.py:554-576 | a contested hand with no boards pays nobody |
| Hands.NamesEqSymmetric | poker/hands.py:420-430 | `names_eq` does not depend on the order of its arguments |
| Hands.NamesEqCases | poker/hands.py:420-430 | two ids with `' @ '` compare their id halves; two without compare as plain strings; otherwise the plain name must equal either half of the other id, which must split in exactly two |
| Hands.NamesEqDefined | poker/hands.py:420-430 | on well-formed ids `names_eq` never raises, and every id names itself |
| Hands.KnownCards | poker/hands.py:435-439 | the count is at most two, is two exactly when both cards are known, and is zero exactly when neither is |
| Hands.FindPlayer | poker/hands.py:384-390 | a player found matches the name |
| Hands.FindPlayerFirst | poker/hands.py:384-390 | `get_player` returns the first matching player, and `None` only when no player matches |
| Hands.DidPlayerWin | poker/hands.py:170-172 | a win needs a player with a positive net |
| Hands.DidPlayerWinIff | poker/hands.py:170-172 | a player wins exactly when the player `get_player` finds has a positive net |
| Hands.StreetActionsOrder | poker/hands.py:74-91 | for every street argument, the actions are those of each unpacked street taken in `ORDERED_STREETS` order; two arguments naming the same streets, in any order, give the same actions; `ANY` gives all four streets' actions and showdown none |
| Hands.ByPlayer | poker/hands.py:74-91 | filtering by player never adds actions |
| Hands.ByPlayerSpec | poker/hands.py:74-91 | filtering keeps exactly the player's actions, and fails exactly when `names_eq` fails on some action |
| Hands.VpipScanSpec | poker/hands.py:96-102 | the scan agrees with the reference "a call, open or raise before any fold" |
| Hands.DidPlayerVpipSpec | poker/hands.py:96-102 | `did_player_vpip` holds exactly when the player called, opened or raised before folding on the chosen streets |
| Hands.ThreeBetScanSpec | poker/hands.py:108-125 | the scan agrees with the reference: an opportunity exactly when one aggressive action by others precedes the player's first action |
| Hands.DidPlayer3BetPreSpec | poker/hands.py:108-125 | `did_player_3bet_pre` follows the reference on the pre-flop actions |
| Hands.BlindPostEndsThreeBetScan | poker/hands.py:110-124 | whenever an action of the player's comes before any aggressive pre-flop action (as a blind post does) and the ids before it compare cleanly, the answer is no opportunity, whatever the player does later |
| Hands.ActionCodeAlphabet | poker/hands.py:137-144 | a single action's code uses only `C c R r X x !` |
| Hands.EncodeStep | poker/hands.py:129-145 | an action other than the hero's fold appends its code and the walk goes on |
| Hands.EncodeShape | poker/hands.py:127-145 | the action string uses only `F C c R r X x !`, and an `F` can only be its last character |
| Hands.EncodeFold | poker/hands.py:131-134 | the string ends in `F` exactly when the hero folds |
| Hands.EncodeIgnoresPosts | poker/hands.py:135-136 | dropping blind and ante posts gives the same string |
| HandStreets.RemoveFolds | poker/hands.py:244-258 | a street's fold loop only removes players |
| HandStreets.RemoveFoldsSpec | poker/hands.py:237-258 | the fold loop succeeds exactly when every folder is still in the hand and nobody folds twice, and it then removes exactly the folders |
| HandStreets.Contested | poker/hands.py:242 | a later street's set is drawn from the remaining players and never holds exactly one |
| HandStreets.InvolvedPreFlop | poker/hands.py:232-240 | pre-flop, the involved players are exactly those with a blind, ante, call, open, raise, check or fold |
| HandStreets.InvolvedShrinks | poker/hands.py:228-262 | each street's set is contained in the previous street's |
| HandStreets.GotToStreetFacts | poker/hands.py:183-187 | a multiway street was reached; after the flop, a street was reached exactly when anyone is involved in it |
| HandStreets.TrackStopsAtFold | poker/hands.py:200-204 | a fold by the named player ends the walk with `False`, whatever follows |
| HandStreets.FoldedNeverAllIn | poker/hands.py:189-204 | a player who folds on the streets considered is never in a run-out |
| HandStreets.TrackInvariant | poker/hands.py:196-212 | the walk never lists a folded player as active, never forgets a player, and records everyone who acts |
| HandStreets.EveryoneAllInMeaning | poker/hands.py:189-226 | a `True` answer means the final sets meet the run-out condition (no one active and two or more all in, or one active and one or more all in) and, with a named player, that the player is among the final active or all-in ids |
| HandStreets.EveryoneAllInNamed | poker/hands.py:214-223 | in a run-out with a named player, the answer is whether some final active or all-in id names the player when every comparison is defined, and `ValueError` when none matches and some id splits badly |
| HandStreets.MatchEitherMeaning | poker/hands.py:217-223 | the two membership loops return `True` exactly for a matching id, `False` when every comparison says no, and raise `ValueError` when no id matches and one cannot be compared |
| HandStreets.EveryoneAllInNoPlayer | poker/hands.py:214-226 | without a named player, the answer is exactly the run-out condition on the final sets |
| Positions.GetPositionToPlayerMapping | poker/hands.py:366-373 | no key of the result maps to an empty list |
| Positions.KeyInjective | poker/actions.py:70-85 | distinct positions have distinct string keys (`sb` and `bb` are the action-type strings reused), so keying the map by position loses no entry |
| Positions.MappingAt | poker/hands.py:366-373 | a key is present exactly when its raw list holds a player, and it then maps to that list without its `None`s |
| Positions.SeenIsOrbit | poker/hands.py:268-277 | the loop lists exactly the first orbit of pre-flop actors in order, and the first of them only once |
| Positions.SlotsPlayers | poker/hands.py:279-285 | the dead-blind placeholders add only `None`s |
| Positions.AnyIsOrbit | poker/hands.py:293 | `ANY` is the first orbit in acting order, absent only when there are no pre-flop actions |
| Positions.SlotsAtLeastTwo | poker/hands.py:279-285 | the seat list always has at least two entries |
| Positions.BlindsDiffer | poker/hands.py:270-277 | a one-player orbit cannot hold both blinds |
| Positions.ButtonIsLast | poker/hands.py:290-291 | with two or more players seen, `BTN` is the last of them |
| Positions.BlindsArePosters | poker/hands.py:273-288 | `SB` and `BB` are the blind posters found, are absent when none was found, and `BLINDS` lists them small blind first |
| Positions.OnlySeenPlayers | poker/hands.py:264-373 | every name in the mapping is a player of the first orbit |
| Positions.SeatThreeQuirk | poker/hands.py:299-363 | `HJ` names the `CO` player from six seats on and `LJ` from seven; at eight or more seats the middle positions hold that player twice |
| Scraping.AddCodesMeaning | poker/scraping.py:55-58 | the inner loop succeeds exactly when its codes are new and pairwise different, then maps each to the alias and keeps every earlier entry |
| Scraping.InvertFromMeaning | poker/scraping.py:47-58 | the outer loop succeeds exactly when no code appears twice, then maps every code of every list to its alias and keeps earlier entries |
| Scraping.InvertAliasMapMeaning | poker/scraping.py:45-59 | the map is defined exactly when no code is claimed twice (otherwise `ValueError`); it then maps every code, and only codes, to `pname @ hero_id` when the hero is among that list's codes and to `pname @ codes[0]` otherwise |
| Scraping.ConvertCard | poker/scraping.py:352-354 | `None` converts to `None`, and text to text |
| Scraping.ConvertSiteCard | poker/scraping.py:352-361 | converting the site's text of a card (`10` and a suit glyph) gives the card's two-character string, which parses back to the card |
| Scraping.ShownCards | poker/scraping.py:304-305 | a shows line yields one card, or two when it holds `", "` |
| Scraping.ShowsOneCard | poker/scraping.py:304 | a line showing one card yields that card's string |
| Scraping.ShowsTwoCards | poker/scraping.py:304-305 | a line showing two cards yields both card strings in order |
| Scraping.Reveal | poker/scraping.py:307-327 | only cards and show counts change; shown cards become known; one shown card never forgets a known card; a change sets the show count to the known count, and the voluntary count too when voluntary; the error case is exactly one unknown card when both are known |
| Scraping.PlayerIndex | poker/scraping.py:364-368 | `_get_player` finds the first player with exactly that name, and `None` only when there is none |
| Scraping.HandleShows | poker/scraping.py:303-327 | with no such player, setting the cards raises `AttributeError`; otherwise exactly the first matching player is updated by the reveal |
| Scraping.NameIndex | poker/scraping.py:372-374 | `list.index` finds the first seat with the name, and it is a `ValueError` exactly when there is none |
| Scraping.BehindOfStep | poker/scraping.py:377-378 | the seat that step `i` writes is the `i`-th seat after the big blind |
| Scraping.AssignAfterMeaning | poker/scraping.py:377-378 | the loop sets each seat up to `n - 2` seats after the big blind to `2 +` its distance, and leaves every other field alone |
| Scraping.AssignPlayerPositionsMeaning | poker/scraping.py:371-378 | unknown blind names are a `ValueError`; otherwise BB gets 1, seats after it get `2 +` their distance, SB keeps 0 unless overwritten, and only positions change |
| Scraping.PositionsArePermutation | poker/scraping.py:371-378 | with the small blind directly before a different big blind, the positions are `0 .. n - 1`, each used once |
| Strings.SplitJoin | poker/hands.py:422-428 | splitting and re-joining with the same separator gives the string back |
| Strings.SplitPiecesFree | poker/hands.py:422-428 | no piece of a split holds the separator |
| Strings.SplitCount | poker/hands.py:421-428 | the separator occurs exactly when the split has two or more pieces |
| Strings.ReplaceAbsent | poker/scraping.py:356-361 | replacing text that does not occur changes nothing |

## Left out

- Log ingestion is not modelled: the regular expressions, CSV parsing and
  file I/O of `poker/scraping.py`, `parse_utc_timestamp` (dates and time
  zones), and `_get_pid_switches`, which iterates a dict as if it yielded
  pairs.
- The random-sampling branch of `calc_wins` (`random.sample`) is not
  modelled. When the limit is below the number of run-outs, `Equity.CalcWins`
  returns `Err(Unavailable)`.
- The preflop cache and its dependants are not modelled, and
  `Equity.CalcEquities` returns `Err(Unavailable)` for an empty board.
  - A head-to-head pre-flop lookup calls `db.get_equity`, which
    `poker/preflop_db.py` does not define.
  - A multi-way pre-flop call reads `const.EQUITY_CALC_N_ITERS`, which
    `const.py` lacks.
  - `get_best_preflop_card_codes` and the `%` patterns of
    `cards_match_pattern` depend on that cache and on floats. A `%`
    pattern yields `Err(Unavailable)`.
- Float conversions in settlement are not modelled. The model takes each
  player's contribution and ante directly as integer cents (`Seat.put`,
  `Seat.ante`) instead of `round(street_nets * 100)`, and payouts stay in
  cents instead of `/ 100.`.
- Settlement.CalcPayouts: models `calc_payouts` as its tests expect it to
  behave, with each seat's ante (`Seat.ante`) and the boards (`boards`)
  supplied as inputs. As written it cannot succeed on a hand with a
  player. `Player.__init__` (poker/hands.py:408-413) creates no `'ante'`
  key in `street_nets`, so poker/cardutils.py:514 raises `KeyError` on
  the first player. A contested hand would also raise `AttributeError` at
  poker/cardutils.py:555, because no `get_boards` method is defined on
  `Hand` in poker/hands.py. The model returns neither error.
- The settlement ledger is a sequence of seats with distinct ids, standing
  in for the dictionaries keyed by id.
- Settlement.SplitPot: always sorts the winners by position. The source
  sorts only when there are odd cents. This changes only the order in
  which ids enter the payout dictionary, not any amount.
- Settlement.Winners: picks the eligible entrants equal to the best
  eligible hand, instead of scanning the groups of the descending sort.
  The two agree whenever the hand order is a strict weak order, which
  `HandComposition.CompleteHand` guarantees for complete boards.
- Equity.WinnersAreMaximal: stated for distinct cards on a board of five
  or more. Only there is the ranker's order a strict weak order.
- Patterns.KickerRangeMeaning: stated for ends that share their top rank
  and suffix, with kickers below the top card. Other inputs are covered
  only by `Patterns.RangeOfEnds` and the rejection lemmas.
- Patterns.GapperRangeMeaning: stated for ends with the same positive gap
  and a common suffix, as the source's generated gappers are. Ill-formed
  ends are covered only by `Patterns.RangeOfEnds` and
  `Patterns.GapMismatchRejected`.
- Settlement.SortByPut: states that the order keeps the same players,
  not that it ascends by contribution. The conservation lemmas about the
  pots hold for any order of the remaining players.
- Settlement.PayoutConservation: stated only when a player still in the
  hand put in the most. Otherwise the excess of a folded player stays in
  front of the seats, as in the source.
- Ranking.CalcHand: requires at least one card. With no cards the source
  raises `IndexError` at `[cards[0]]` in the high-card branch; the model
  excludes that input instead of returning an `Err`. `Ranking.Evaluate`
  inherits the precondition. Every caller in the model passes two hole
  cards, so no modelled path reaches the excluded case.
- HandStreets.IsEveryoneAllIn: when one of the final sets holds both an
  id matching the named player and an id that `names_eq` cannot split,
  the source's answer depends on the set's iteration order. The model
  takes the match to come first and answers `True`.
- Hands.DidPlayerWin: nets are exact. The source sums float street nets,
  so a break-even player can come out slightly above zero (for example
  -0.3, -0.6 and +0.9 sum to about 1.1e-16) and count as a winner.
- Settlement.SortWinners: the position comes from the ledger seat of each
  winner id. The source looks it up with `hand.get_player(w_pid)`, which
  matches by `names_eq` and could find a different player.
- Positions.GetPositionToPlayerMapping: returns a map, so the insertion
  order of the source's `clean_res` dictionary is not kept.
- Scraping.HandleShows: the `voluntary` flag is a parameter, as in the
  source. Which log lines set it is part of the ingestion left out.
- Hands.DidPlayerVpipSpec: stated when `names_eq` is defined on every
  action's id. Otherwise the unpacking error propagates, as
  `Hands.ByPlayerSpec` states.
- Malformed card strings are not modelled. Cards are a typed `Card`
  (rank and suit indices), so the ranker cannot be given text that is not
  a card. Card codes and patterns remain plain strings.
- `EvalHand.__hash__` (which hashes lists) and the stub
  `calc_all_in_equities` are not modelled.
- `did_player_4bet_pre` and `did_player_raise` are incomplete in the
  source (they can fall off the end and return `None`) and are not
  modelled.
- The `HandGroup` statistics (float ratios, dates, locale), `Hand.__str__`,
  `duration`, `format_pcnt` and `safe_eq` are not modelled.
- The legacy copies at the repository root, and the UI, pygame and
  profiling code, are not part of this model.

=== FILE: actions.dfy ===
/** Streets and actions: the street constants and helpers of poker/actions.py
    and the `Action` record with its classifying predicates. */
module Actions {
  import opened Results

  const PreFlop: string := "pre-flop"
  const Flop: string := "flop"
  const Turn: string := "turn"
  const River: string := "river"
  const Showdown: string := "showdown"

  /** `ORDERED_STREETS` */
  const OrderedStreets: seq<string> := [PreFlop, Flop, Turn, River, Showdown]

  /** The street keywords that stand for several streets. */
  const AnyStreet: string := "any"
  const PostFlop: string := "post-flop"
  const BeforeShowdown: string := "pre-showdown"

  /** A `street` argument: one name (a street or a keyword), or a tuple or
      list of names, which the source passes through unchanged. */
  datatype StreetArg = Name(name: string) | Listed(names: seq<string>)

  /** `unpack_street(street)` */
  function UnpackStreet(arg: StreetArg): seq<string> {
    match arg
    case Listed(names) => names
    case Name(s) =>
      if s == AnyStreet then [PreFlop, Flop, Turn, River, Showdown]
      else if s == PostFlop then [Flop, Turn, River, Showdown]
      else if s == BeforeShowdown then [PreFlop, Flop, Turn, River]
      else [s]
  }

  /** `ORDERED_STREETS.index(s)`, or `None` where the source raises. */
  function StreetIndex(s: string): (r: Option<nat>)
    ensures r.Some? ==> r.value < |OrderedStreets| && OrderedStreets[r.value] == s
    ensures r.None? ==> s !in OrderedStreets
  {
    if s == PreFlop then Some(0)
    else if s == Flop then Some(1)
    else if s == Turn then Some(2)
    else if s == River then Some(3)
    else if s == Showdown then Some(4)
    else None
  }

  /** `street_range(first, last)`: `ORDERED_STREETS[start:end]` where `start`
      is the index of the first street `first` unpacks to (0 for `None`) and
      `end` is one past the index of the last street `last` unpacks to (0 for
      `None`), or `[]` when `end < start`. Unpacking to nothing is an
      `IndexError`; a name that is no street is a `ValueError`. */
  function StreetRange(first: Option<StreetArg>, last: Option<StreetArg>): (r: Result<seq<string>>)
    ensures r.Ok? ==> forall k :: 0 <= k < |r.value| ==> r.value[k] in OrderedStreets
  {
    var start :-
      if first.None? then Ok(0)
      else
        var fs := UnpackStreet(first.value);
        if |fs| == 0 then Err(IndexError)
        else if StreetIndex(fs[0]).None? then Err(ValueError)
        else Ok(StreetIndex(fs[0]).value);
    var end :-
      if last.None? then Ok(0)
      else
        var ls := UnpackStreet(last.value);
        if |ls| == 0 then Err(IndexError)
        else if StreetIndex(ls[|ls| - 1]).None? then Err(ValueError)
        else Ok(StreetIndex(ls[|ls| - 1]).value + 1);
    if end < start then Ok([]) else Ok(OrderedStreets[start..end])
  }

  /** The keywords unpack to contiguous runs of `ORDERED_STREETS`; any other
      name is wrapped as a one-element tuple, and a list passes through. */
  lemma UnpackStreetCases(s: string, names: seq<string>)
    ensures UnpackStreet(Name(AnyStreet)) == OrderedStreets
    ensures UnpackStreet(Name(PostFlop)) == OrderedStreets[1..]
    ensures UnpackStreet(Name(BeforeShowdown)) == OrderedStreets[..4]
    ensures s != AnyStreet && s != PostFlop && s != BeforeShowdown ==> UnpackStreet(Name(s)) == [s]
    ensures UnpackStreet(Listed(names)) == names
  {
  }

  /** For single streets, the range holds exactly the streets from `first`
      to `last` inclusive, in street order, and is empty when `last` comes
      before `first`. */
  lemma StreetRangeBetween(first: string, last: string)
    requires first in OrderedStreets && last in OrderedStreets
    ensures StreetRange(Some(Name(first)), Some(Name(last))).Ok?
    ensures forall s :: s in StreetRange(Some(Name(first)), Some(Name(last))).value <==>
      s in OrderedStreets && StreetIndex(first).value <= StreetIndex(s).value <= StreetIndex(last).value
    ensures forall i, j :: 0 <= i < j < |StreetRange(Some(Name(first)), Some(Name(last))).value| ==>
      StreetIndex(StreetRange(Some(Name(first)), Some(Name(last))).value[i]).value <
      StreetIndex(StreetRange(Some(Name(first)), Some(Name(last))).value[j]).value
    ensures |StreetRange(Some(Name(first)), Some(Name(last))).value| == 0 <==>
      StreetIndex(last).value < StreetIndex(first).value
  {
    var a, b := StreetIndex(first).value, StreetIndex(last).value;
    assert UnpackStreet(Name(first)) == [first];
    assert UnpackStreet(Name(last)) == [last];
    assert StreetRange(Some(Name(first)), Some(Name(last))) == Ok(Slice(a, b));
    SliceContents(a, b);
  }

  function Slice(a: nat, b: nat): seq<string>
    requires a < 5 && b < 5
  {
    if b + 1 < a then [] else OrderedStreets[a..b + 1]
  }

  lemma SliceContents(a: nat, b: nat)
    requires a < 5 && b < 5
    ensures forall s :: s in Slice(a, b) <==> s in OrderedStreets && a <= StreetIndex(s).value <= b
    ensures forall i, j :: 0 <= i < j < |Slice(a, b)| ==> StreetIndex(Slice(a, b)[i]).value < StreetIndex(Slice(a, b)[j]).value
    ensures |Slice(a, b)| == 0 <==> b < a
  {
    OrderedStreetsIndexed();
    if b + 1 >= a {
      forall i | 0 <= i < |Slice(a, b)| ensures StreetIndex(Slice(a, b)[i]) == Some(a + i) {
        assert Slice(a, b)[i] == OrderedStreets[a + i];
      }
    }
  }

  /** Every street sits at its own index in `ORDERED_STREETS`. */
  lemma OrderedStreetsIndexed()
    ensures forall k :: 0 <= k < |OrderedStreets| ==> StreetIndex(OrderedStreets[k]) == Some(k)
  {
  }

  /** Without a last street the range is empty, whatever the first. */
  lemma StreetRangeNoLast(first: Option<StreetArg>)
    ensures StreetRange(first, None).Ok? ==> StreetRange(first, None).value == []
  {
  }

  /** Without a first street the range is the prefix of `ORDERED_STREETS`
      that ends at `last`. */
  lemma StreetRangeNoFirst(last: string)
    requires last in OrderedStreets
    ensures StreetRange(None, Some(Name(last))) == Ok(OrderedStreets[..StreetIndex(last).value + 1])
  {
    assert UnpackStreet(Name(last)) == [last];
  }

  /** The errors: an empty tuple and a name that is not a street. */
  lemma StreetRangeErrors(bad: string, names: seq<string>)
    requires bad !in OrderedStreets && bad != AnyStreet && bad != PostFlop && bad != BeforeShowdown
    ensures StreetRange(Some(Listed([])), Some(Listed(names))) == Err(IndexError)
    ensures StreetRange(Some(Name(bad)), None) == Err(ValueError)
    ensures StreetRange(None, Some(Name(bad))) == Err(ValueError)
  {
  }

  // ---------------------------------------------------------------------
  // Actions
  // ---------------------------------------------------------------------

  /** The pure action types: blind, ante and straddle posts, and the
      player's decisions. */
  datatype Kind = PostBb | PostSb | PostAnte | PostStraddle | Call | Open | Raise | Check | Fold

  /** `Action(player_id, amount, action_type, street, all_in)`. The amount and
      street fields are not read by any modelled operation and are omitted. */
  datatype Action = Action(player: string, kind: Kind, allIn: bool)

  predicate IsVpip(a: Action) {
    a.kind == Call || a.kind == Open || a.kind == Raise
  }

  predicate IsAggro(a: Action) {
    a.kind == Open || a.kind == Raise
  }

  predicate IsPassive(a: Action) {
    a.kind == Check || a.kind == Call
  }

  predicate IsFold(a: Action) {
    a.kind == Fold
  }

  predicate IsAllIn(a: Action) {
    a.allIn
  }

  /** A blind, ante or straddle post. */
  predicate IsPost(a: Action) {
    a.kind == PostBb || a.kind == PostSb || a.kind == PostAnte || a.kind == PostStraddle
  }

  /** How the predicates relate: aggression is voluntary, a voluntary action
      is a call or an aggression, calling is the one action both voluntary
      and passive, and folds and posts are neither voluntary nor passive. */
  lemma ActionClasses(a: Action)
    ensures IsAggro(a) ==> IsVpip(a)
    ensures IsVpip(a) <==> IsAggro(a) || a.kind == Call
    ensures IsVpip(a) && IsPassive(a) <==> a.kind == Call
    ensures !(IsAggro(a) && IsPassive(a))
    ensures IsFold(a) || IsPost(a) ==> !IsVpip(a) && !IsPassive(a)
  {
  }
}

=== FILE: cardcodes.dfy ===
/** Card codes, the 169 starting-hand classes of poker/cardutils.py: a pair
    is written with its rank twice ("66"), any other hand with the stronger
    rank first and 's' (suited) or 'o' (offsuit) after ("AKs", "JTo").
    Models `to_card_code`, `all_combos_of_card_code`, `all_card_codes` and
    `number_of_combos`. */
module CardCodes {
  import opened Results
  import opened Cards

  /** A player's two hole cards as the source passes them; either may be
      unknown (`None`). */
  datatype Hole = Hole(first: Option<Card>, second: Option<Card>)

  /** The stronger and the weaker rank of two cards (lower index is stronger). */
  function Stronger(a: Card, b: Card): Rank {
    if a.rank <= b.rank then a.rank else b.rank
  }

  function Weaker(a: Card, b: Card): Rank {
    if a.rank <= b.rank then b.rank else a.rank
  }

  /** A well-formed code: a pair of one rank, or two different ranks, the
      stronger first, followed by 's' or 'o'. */
  predicate ValidCode(cc: string) {
    (|cc| == 2 && RankIndex(cc[0]).Some? && cc[1] == cc[0]) ||
    (|cc| == 3 && RankIndex(cc[0]).Some? && RankIndex(cc[1]).Some? &&
     RankIndex(cc[0]).value < RankIndex(cc[1]).value && (cc[2] == 's' || cc[2] == 'o'))
  }

  /** `code` names the hand `a`, `b`: stronger rank, weaker rank, and for
      two different ranks whether the suits agree. */
  predicate Describes(code: string, a: Card, b: Card) {
    |code| >= 2 && code[0] == RankChar(Stronger(a, b)) && code[1] == RankChar(Weaker(a, b)) &&
    (a.rank == b.rank ==> |code| == 2) &&
    (a.rank != b.rank ==> |code| == 3 && code[2] == if a.suit == b.suit then 's' else 'o')
  }

  lemma RankIndexOfChar(r: Rank)
    ensures RankIndex(RankChar(r)) == Some(r)
  {
  }

  lemma SuitIndexOfChar(s: Suit)
    ensures SuitIndex(SuitChar(s)) == Some(s)
  {
  }

  /** `to_card_code(cards)`. Reading the missing first card of
      `(None, card)` is a `TypeError`. */
  function ToCardCode(h: Hole): (r: Result<string>)
    ensures r.Err? <==> h.first.None? && h.second.Some?
    ensures r.Err? ==> r.error == TypeError
    ensures h.first.None? && h.second.None? ==> r == Ok("??")
    ensures h.first.Some? && h.second.None? ==> r == Ok([RankChar(h.first.value.rank), '?'])
    ensures h.first.Some? && h.second.Some? ==>
      r.Ok? && ValidCode(r.value) && Describes(r.value, h.first.value, h.second.value)
  {
    match h
    case Hole(None, None) => Ok("??")
    case Hole(Some(c), None) => Ok([RankChar(c.rank), '?'])
    case Hole(None, Some(_)) => Err(TypeError)
    case Hole(Some(c0), Some(c1)) =>
      RankIndexOfChar(c0.rank);
      RankIndexOfChar(c1.rank);
      var res := if c0.rank <= c1.rank then [RankChar(c0.rank), RankChar(c1.rank)]
                 else [RankChar(c1.rank), RankChar(c0.rank)];
      if res[0] == res[1] then Ok(res)
      else if c0.suit == c1.suit then Ok(res + "s")
      else Ok(res + "o")
  }

  /** The code of two known cards does not depend on their order. */
  lemma ToCardCodeSymmetric(a: Card, b: Card)
    ensures ToCardCode(Hole(Some(a), Some(b))) == ToCardCode(Hole(Some(b), Some(a)))
  {
    RankIndexOfChar(a.rank);
    RankIndexOfChar(b.rank);
  }

  /** Two hands share a code exactly when they have the same two ranks and,
      for different ranks, the same suitedness. */
  lemma SameCodeIff(a: Card, b: Card, c: Card, d: Card)
    ensures ToCardCode(Hole(Some(a), Some(b))) == ToCardCode(Hole(Some(c), Some(d))) <==>
      Stronger(a, b) == Stronger(c, d) && Weaker(a, b) == Weaker(c, d) &&
      (a.rank != b.rank ==> (a.suit == b.suit <==> c.suit == d.suit))
  {
    RankIndexOfChar(Stronger(a, b));
    RankIndexOfChar(Weaker(a, b));
    RankIndexOfChar(Stronger(c, d));
    RankIndexOfChar(Weaker(c, d));
  }

  // ---------------------------------------------------------------------
  // all_combos_of_card_code
  // ---------------------------------------------------------------------

  /** The suit-index pairs `(i1, i2)` with `i1 < i2`, in loop order. */
  const PairSuits: seq<(Suit, Suit)> := [(0, 1), (0, 2), (0, 3), (1, 2), (1, 3), (2, 3)]

  /** Whether the nested loop over `SUITS` skips `(s1, s2)` for a code
      whose last character is `last`. */
  predicate Skipped(last: char, s1: Suit, s2: Suit) {
    (s1 == s2 && last == 'o') || (s1 != s2 && last == 's')
  }

  /** The loop step at which the nested loop visits `(s1, s2)`. */
  function StepIndex(s: (Suit, Suit)): nat {
    4 * (s.0 as int) + s.1 as int
  }

  /** One turn of the inner loop: `(s1, s2)` is yielded unless skipped. */
  function KeptPair(last: char, s: (Suit, Suit)): seq<(Suit, Suit)> {
    if Skipped(last, s.0, s.1) then [] else [s]
  }

  /** One pass of the inner loop, for outer suit `s1`. */
  function KeptRow(last: char, s1: Suit): seq<(Suit, Suit)> {
    KeptPair(last, (s1, 0)) + KeptPair(last, (s1, 1)) + KeptPair(last, (s1, 2)) + KeptPair(last, (s1, 3))
  }

  /** The passes of the outer loop from outer suit `r` on. */
  function KeptRows(last: char, r: nat): seq<(Suit, Suit)>
    requires r <= 4
    decreases 4 - r
  {
    if r == 4 then [] else KeptRow(last, r) + KeptRows(last, r + 1)
  }

  /** The suit pairs the nested loop keeps, in loop order. */
  function KeptSuits(last: char): seq<(Suit, Suit)> {
    KeptRows(last, 0)
  }

  const SuitedSuits: seq<(Suit, Suit)> := [(0, 0), (1, 1), (2, 2), (3, 3)]
  const OffsuitSuits: seq<(Suit, Suit)> :=
    [(0, 1), (0, 2), (0, 3), (1, 0), (1, 2), (1, 3), (2, 0), (2, 1), (2, 3), (3, 0), (3, 1), (3, 2)]
  const AllSuits: seq<(Suit, Suit)> :=
    [(0, 0), (0, 1), (0, 2), (0, 3), (1, 0), (1, 1), (1, 2), (1, 3),
     (2, 0), (2, 1), (2, 2), (2, 3), (3, 0), (3, 1), (3, 2), (3, 3)]

  /** What the loop yields for each kind of last character. */
  lemma KeptSuitsValue(last: char)
    ensures last == 's' ==> KeptSuits(last) == SuitedSuits
    ensures last == 'o' ==> KeptSuits(last) == OffsuitSuits
    ensures last != 's' && last != 'o' ==> KeptSuits(last) == AllSuits
  {
    KeptRowsUnfold(last);
    if last == 's' {
      SuitedRows();
    } else if last == 'o' {
      OffsuitRows();
    } else {
      assert KeptRow(last, 0) == AllSuits[..4];
      assert KeptRow(last, 1) == AllSuits[4..8];
      assert KeptRow(last, 2) == AllSuits[8..12];
      assert KeptRow(last, 3) == AllSuits[12..];
      assert AllSuits == AllSuits[..4] + AllSuits[4..8] + AllSuits[8..12] + AllSuits[12..];
    }
  }

  lemma KeptRowsUnfold(last: char)
    ensures KeptSuits(last) == KeptRow(last, 0) + KeptRow(last, 1) + KeptRow(last, 2) + KeptRow(last, 3)
  {
    var r0, r1, r2, r3 := KeptRow(last, 0), KeptRow(last, 1), KeptRow(last, 2), KeptRow(last, 3);
    assert KeptRows(last, 3) == r3;
    assert KeptRows(last, 2) == r2 + r3;
    assert KeptRows(last, 1) == r1 + (r2 + r3);
  }

  lemma SuitedRows()
    ensures KeptRow('s', 0) + KeptRow('s', 1) + KeptRow('s', 2) + KeptRow('s', 3) == SuitedSuits
  {
    assert KeptRow('s', 0) == [(0, 0)];
    assert KeptRow('s', 1) == [(1, 1)];
    assert KeptRow('s', 2) == [(2, 2)];
    assert KeptRow('s', 3) == [(3, 3)];
  }

  lemma OffsuitRows()
    ensures KeptRow('o', 0) + KeptRow('o', 1) + KeptRow('o', 2) + KeptRow('o', 3) == OffsuitSuits
  {
    assert KeptRow('o', 0) == OffsuitSuits[..3];
    assert KeptRow('o', 1) == OffsuitSuits[3..6];
    assert KeptRow('o', 2) == OffsuitSuits[6..9];
    assert KeptRow('o', 3) == OffsuitSuits[9..];
    assert OffsuitSuits == OffsuitSuits[..3] + OffsuitSuits[3..6] + OffsuitSuits[6..9] + OffsuitSuits[9..];
  }

  /** The three lists the loop can yield are in step order. */
  lemma SuitListsInOrder()
    ensures forall i :: 0 < i < |SuitedSuits| ==> StepIndex(SuitedSuits[i - 1]) < StepIndex(SuitedSuits[i])
    ensures forall i :: 0 < i < |OffsuitSuits| ==> StepIndex(OffsuitSuits[i - 1]) < StepIndex(OffsuitSuits[i])
    ensures forall i :: 0 < i < |AllSuits| ==> StepIndex(AllSuits[i - 1]) < StepIndex(AllSuits[i])
  {
  }

  /** Consecutive steps increasing make every pair of steps increasing. */
  lemma {:induction false} StepsIncreasing(ss: seq<(Suit, Suit)>)
    requires forall i :: 0 < i < |ss| ==> StepIndex(ss[i - 1]) < StepIndex(ss[i])
    ensures forall i, j :: 0 <= i < j < |ss| ==> StepIndex(ss[i]) < StepIndex(ss[j])
  {
    if |ss| > 1 {
      var init := ss[..|ss| - 1];
      StepsIncreasing(init);
      forall i, j | 0 <= i < j < |ss| ensures StepIndex(ss[i]) < StepIndex(ss[j]) {
        if j < |ss| - 1 {
          assert init[i] == ss[i] && init[j] == ss[j];
        } else if i < j - 1 {
          assert init[i] == ss[i] && init[j - 1] == ss[j - 1];
        }
      }
    }
  }

  /** One pass of the inner loop yields the unskipped pairs with that
      outer suit. */
  lemma RowMember(last: char, r: Suit, s: (Suit, Suit))
    ensures s in KeptRow(last, r) <==> s.0 == r && !Skipped(last, s.0, s.1)
  {
    assert s in KeptPair(last, s) <==> !Skipped(last, s.0, s.1);
  }

  /** The passes from outer suit `r` on yield the unskipped pairs whose
      outer suit is at least `r`. */
  lemma {:induction false} RowsMember(last: char, r: nat, s: (Suit, Suit))
    requires r <= 4
    ensures s in KeptRows(last, r) <==> r <= s.0 && !Skipped(last, s.0, s.1)
    decreases 4 - r
  {
    if r < 4 {
      RowMember(last, r, s);
      RowsMember(last, r + 1, s);
    }
  }

  /** The loop yields a suit pair exactly when it does not skip it. */
  lemma KeptSuitMember(last: char, s: (Suit, Suit))
    ensures s in KeptSuits(last) <==> !Skipped(last, s.0, s.1)
  {
    RowsMember(last, 0, s);
  }

  /** The loop keeps a suit pair exactly when it is not skipped, visits
      each once, in step order. */
  lemma KeptSuitsMembers(last: char)
    ensures forall s :: s in KeptSuits(last) <==> !Skipped(last, s.0, s.1)
    ensures forall i, j :: 0 <= i < j < |KeptSuits(last)| ==>
      StepIndex(KeptSuits(last)[i]) < StepIndex(KeptSuits(last)[j])
  {
    forall s ensures s in KeptSuits(last) <==> !Skipped(last, s.0, s.1) {
      KeptSuitMember(last, s);
    }
    KeptSuitsOrdered(last);
  }

  lemma KeptSuitsOrdered(last: char)
    ensures forall i, j :: 0 <= i < j < |KeptSuits(last)| ==>
      StepIndex(KeptSuits(last)[i]) < StepIndex(KeptSuits(last)[j])
  {
    KeptSuitsValue(last);
    SuitListsInOrder();
    if last == 's' {
      StepsIncreasing(SuitedSuits);
    } else if last == 'o' {
      StepsIncreasing(OffsuitSuits);
    } else {
      StepsIncreasing(AllSuits);
    }
  }

  /** The suit pairs the generator goes through for a code of length at
      least two. */
  function SuitChoices(cc: string): seq<(Suit, Suit)>
    requires |cc| >= 2
  {
    if cc[0] == cc[1] then PairSuits else KeptSuits(cc[|cc| - 1])
  }

  /** `(f"{cc[0]}{s1}", f"{cc[1]}{s2}")` */
  function ComboOf(cc: string, s: (Suit, Suit)): (string, string)
    requires |cc| >= 2
  {
    ([cc[0], SuitChar(s.0)], [cc[1], SuitChar(s.1)])
  }

  /** `list(all_combos_of_card_code(cc))`; a code shorter than two
      characters is an `IndexError`. */
  function AllCombosOfCardCode(cc: string): (r: Result<seq<(string, string)>>)
    ensures r.Err? <==> |cc| < 2
    ensures r.Ok? ==> |r.value| == |SuitChoices(cc)|
    ensures r.Ok? ==> forall i :: 0 <= i < |r.value| ==> r.value[i] == ComboOf(cc, SuitChoices(cc)[i])
  {
    if |cc| < 2 then Err(IndexError)
    else
      var suits := SuitChoices(cc);
      Ok(seq(|suits|, i requires 0 <= i < |suits| => ComboOf(cc, suits[i])))
  }

  /** `number_of_combos(cc)`. The test for `'??'` comes after the test for
      a pair, which `'??'` passes, so that branch is never taken. */
  function NumberOfCombos(cc: string): (r: Result<int>)
    ensures r.Err? <==> |cc| < 2
    ensures r.Ok? ==> r.value > 0
  {
    if |cc| < 2 then Err(IndexError)
    else if cc[0] == cc[1] then Ok(6)
    else if cc[|cc| - 1] == 's' then Ok(4)
    else if cc[|cc| - 1] == 'o' then Ok(12)
    else if cc == "??" then Ok(-1)
    else Ok(16)
  }

  /** `number_of_combos` counts what `all_combos_of_card_code` yields, for
      every string at all. */
  lemma CombosCounted(cc: string)
    ensures NumberOfCombos(cc).Err? <==> AllCombosOfCardCode(cc).Err?
    ensures NumberOfCombos(cc).Ok? ==> NumberOfCombos(cc).value == |AllCombosOfCardCode(cc).value|
  {
    if |cc| >= 2 && cc[0] != cc[1] {
      KeptSuitsValue(cc[|cc| - 1]);
    }
  }

  /** The unknown hand `'??'` is counted as a pair, and the `-1` the source
      writes for it is never returned. */
  lemma UnknownCodeCountsAsPair(cc: string)
    ensures NumberOfCombos("??") == Ok(6)
    ensures NumberOfCombos(cc) != Ok(-1)
  {
  }

  lemma ParseComboCard(ch: char, t: Suit)
    requires RankIndex(ch).Some?
    ensures ParseCard([ch, SuitChar(t)]) == Some(Card(RankIndex(ch).value, t))
  {
    SuitIndexOfChar(t);
  }

  /** The code of a hand with stronger rank `hi`, weaker rank `lo` and
      the given suitedness. */
  function CodeString(hi: Rank, lo: Rank, suited: bool): string {
    if hi == lo then [RankChar(hi), RankChar(hi)]
    else [RankChar(hi), RankChar(lo), if suited then 's' else 'o']
  }

  lemma CodeOfCards(a: Card, b: Card)
    ensures ToCardCode(Hole(Some(a), Some(b))) == Ok(CodeString(Stronger(a, b), Weaker(a, b), a.suit == b.suit))
  {
    RankIndexOfChar(a.rank);
    RankIndexOfChar(b.rank);
    var hi, lo := RankChar(Stronger(a, b)), RankChar(Weaker(a, b));
    if a.rank != b.rank {
      assert [hi, lo] + "s" == [hi, lo, 's'];
      assert [hi, lo] + "o" == [hi, lo, 'o'];
    }
  }

  lemma ValidCodeString(cc: string)
    requires ValidCode(cc)
    ensures cc == CodeString(RankIndex(cc[0]).value, RankIndex(cc[1]).value, |cc| == 3 && cc[2] == 's')
  {
  }

  /** The suit pairs chosen for a valid code: increasing for a pair, equal
      for a suited code, different for an offsuit one. */
  lemma SuitChoicesFit(cc: string, s: (Suit, Suit))
    requires ValidCode(cc)
    requires s in SuitChoices(cc)
    ensures |cc| == 2 ==> s.0 < s.1
    ensures |cc| == 3 ==> (s.0 == s.1 <==> cc[2] == 's')
  {
    if |cc| == 3 {
      UnpairedChoices(cc);
      KeptSuitFit(cc[2], s);
    } else {
      PairChoices(cc, s);
    }
  }

  lemma UnpairedChoices(cc: string)
    requires |cc| == 3 && RankIndex(cc[0]).Some? && RankIndex(cc[1]).Some?
    requires RankIndex(cc[0]).value < RankIndex(cc[1]).value
    ensures SuitChoices(cc) == KeptSuits(cc[2])
  {
    assert cc[0] != cc[1];
  }

  lemma PairChoices(cc: string, s: (Suit, Suit))
    requires |cc| == 2 && cc[0] == cc[1]
    requires s in SuitChoices(cc)
    ensures s.0 < s.1
  {
    assert SuitChoices(cc) == PairSuits;
  }

  lemma KeptSuitFit(last: char, s: (Suit, Suit))
    requires last == 's' || last == 'o'
    requires s in KeptSuits(last)
    ensures s.0 == s.1 <==> last == 's'
  {
    KeptSuitMember(last, s);
  }

  /** Every combo of a valid code is two different cards whose code is
      that code. */
  lemma CombosHaveTheirCode(cc: string, i: nat)
    requires ValidCode(cc)
    requires i < |AllCombosOfCardCode(cc).value|
    ensures ParseCard(AllCombosOfCardCode(cc).value[i].0).Some?
    ensures ParseCard(AllCombosOfCardCode(cc).value[i].1).Some?
    ensures ParseCard(AllCombosOfCardCode(cc).value[i].0) != ParseCard(AllCombosOfCardCode(cc).value[i].1)
    ensures ToCardCode(Hole(ParseCard(AllCombosOfCardCode(cc).value[i].0),
                            ParseCard(AllCombosOfCardCode(cc).value[i].1))) == Ok(cc)
  {
    var s := SuitChoices(cc)[i];
    assert AllCombosOfCardCode(cc).value[i] == ComboOf(cc, s);
    ComboCards(cc, s);
  }

  /** The combo of a valid code and one of its suit choices. */
  lemma ComboCards(cc: string, s: (Suit, Suit))
    requires ValidCode(cc)
    requires s in SuitChoices(cc)
    ensures ParseCard(ComboOf(cc, s).0) == Some(Card(RankIndex(cc[0]).value, s.0))
    ensures ParseCard(ComboOf(cc, s).1) == Some(Card(RankIndex(cc[1]).value, s.1))
    ensures Card(RankIndex(cc[0]).value, s.0) != Card(RankIndex(cc[1]).value, s.1)
    ensures ToCardCode(Hole(Some(Card(RankIndex(cc[0]).value, s.0)), Some(Card(RankIndex(cc[1]).value, s.1)))) == Ok(cc)
  {
    var r0, r1 := RankIndex(cc[0]).value, RankIndex(cc[1]).value;
    ParseComboCard(cc[0], s.0);
    ParseComboCard(cc[1], s.1);
    SuitChoicesFit(cc, s);
    ValidCodeString(cc);
    CodeOfCards(Card(r0, s.0), Card(r1, s.1));
  }

  lemma KeptSuitListed(last: char, s: (Suit, Suit))
    requires !Skipped(last, s.0, s.1)
    ensures s in KeptSuits(last)
  {
    KeptSuitMember(last, s);
  }

  lemma PairSuitsListed(s: (Suit, Suit))
    requires s.0 < s.1
    ensures s in PairSuits
  {
    if s.0 == 0 {
      assert s == PairSuits[s.1 - 1];
    } else if s.0 == 1 {
      assert s == PairSuits[s.1 + 1];
    } else {
      assert s == PairSuits[5];
    }
  }

  /** A hand listed stronger (or lower-suited) card first is a combo of
      its code in that order. */
  lemma OrderedComboListed(x: Card, y: Card)
    requires x.rank < y.rank || (x.rank == y.rank && x.suit < y.suit)
    ensures (CardString(x), CardString(y)) in AllCombosOfCardCode(CodeString(x.rank, y.rank, x.suit == y.suit)).value
  {
    var cc := CodeString(x.rank, y.rank, x.suit == y.suit);
    RankIndexOfChar(x.rank);
    RankIndexOfChar(y.rank);
    var s: (Suit, Suit) := (x.suit, y.suit);
    if x.rank != y.rank {
      assert cc[0] != cc[1] && cc[|cc| - 1] == cc[2];
      KeptSuitListed(cc[2], s);
    } else {
      PairSuitsListed(s);
    }
    assert s in SuitChoices(cc);
    assert cc[0] == RankChar(x.rank) && cc[1] == RankChar(y.rank);
    assert ComboOf(cc, s) == (CardString(x), CardString(y));
    var i :| 0 <= i < |SuitChoices(cc)| && SuitChoices(cc)[i] == s;
    assert AllCombosOfCardCode(cc).value[i] == ComboOf(cc, s);
  }

  /** Every hand of two different cards is among the combos of its code,
      in one order or the other. */
  lemma CodeHasItsCombos(a: Card, b: Card)
    requires a != b
    ensures (CardString(a), CardString(b)) in AllCombosOfCardCode(ToCardCode(Hole(Some(a), Some(b))).value).value ||
            (CardString(b), CardString(a)) in AllCombosOfCardCode(ToCardCode(Hole(Some(a), Some(b))).value).value
  {
    CodeOfCards(a, b);
    if a.rank < b.rank || (a.rank == b.rank && a.suit < b.suit) {
      OrderedComboListed(a, b);
    } else {
      OrderedComboListed(b, a);
    }
  }

  // ---------------------------------------------------------------------
  // all_card_codes
  // ---------------------------------------------------------------------

  /** The code the loop body yields for row rank `y` and column rank `x`:
      `(y s, x h)` on and below the diagonal, `(y s, x s)` above it. */
  function CodeAt(y: Rank, x: Rank): (r: string)
    ensures ValidCode(r)
  {
    if x <= y then ToCardCode(Hole(Some(Card(y, 0)), Some(Card(x, 1)))).value
    else ToCardCode(Hole(Some(Card(y, 0)), Some(Card(x, 0)))).value
  }

  /** `list(all_card_codes())` */
  function AllCardCodes(): (r: seq<string>)
    ensures |r| == 169
  {
    seq(169, k requires 0 <= k < 169 => CodeAt(k / 13, k % 13))
  }

  /** The loop step that yields a valid code. */
  function StepOf(cc: string): (k: nat)
    requires ValidCode(cc)
    ensures k < 169
  {
    var r0, r1 := RankIndex(cc[0]).value, RankIndex(cc[1]).value;
    if |cc| == 2 || cc[2] == 'o' then 13 * r1 + r0 else 13 * r0 + r1
  }

  lemma StepOfCode(y: Rank, x: Rank)
    ensures StepOf(CodeAt(y, x)) == 13 * y + x
  {
    RankIndexOfChar(y);
    RankIndexOfChar(x);
  }

  lemma CodeOfStep(cc: string)
    requires ValidCode(cc)
    ensures CodeAt(StepOf(cc) / 13, StepOf(cc) % 13) == cc
  {
    var r0, r1 := RankIndex(cc[0]).value, RankIndex(cc[1]).value;
    var k := StepOf(cc);
    if |cc| == 2 || cc[2] == 'o' {
      assert k / 13 == r1 && k % 13 == r0;
    } else {
      assert k / 13 == r0 && k % 13 == r1;
    }
  }

  /** `all_card_codes` yields every valid code exactly once and nothing
      else: the 13 pairs, 78 suited and 78 offsuit hands. */
  lemma AllCardCodesExactly(cc: string)
    ensures cc in AllCardCodes() <==> ValidCode(cc)
    ensures forall i, j :: 0 <= i < j < 169 ==> AllCardCodes()[i] != AllCardCodes()[j]
  {
    var codes := AllCardCodes();
    if ValidCode(cc) {
      CodeOfStep(cc);
      assert codes[StepOf(cc)] == cc;
    }
    forall i, j | 0 <= i < j < 169 ensures codes[i] != codes[j] {
      StepOfCode(i / 13, i % 13);
      StepOfCode(j / 13, j % 13);
    }
  }
}

=== FILE: cards.dfy ===
/** Cards, the 52-card deck and the rank ordering used by every other module.

    A card is a rank and a suit. Both are stored as their index into the
    source's constant strings: rank index 0 is 'A' and 12 is '2', so a LOWER
    rank index is a STRONGER rank; suit index 0..3 is 's', 'h', 'd', 'c'.
    The source keeps cards as two-character strings; `CardString` and
    `ParseCard` translate between the two forms. */
module Cards {
  import opened Results

  const Ranks: string := "AKQJT98765432"
  const Suits: string := "shdc"

  type Rank = r: int | 0 <= r < 13
  type Suit = s: int | 0 <= s < 4

  const Ace: Rank := 0
  const Five: Rank := 9
  const Deuce: Rank := 12

  datatype Card = Card(rank: Rank, suit: Suit)

  function RankChar(r: Rank): char {
    Ranks[r]
  }

  function SuitChar(s: Suit): char {
    Suits[s]
  }

  /** The source's two-character form of a card, e.g. "Ah". */
  function CardString(c: Card): string {
    [RankChar(c.rank), SuitChar(c.suit)]
  }

  /** `RANKS.index(ch)`: the position of a rank character, if it is one. */
  function RankIndex(ch: char): (r: Option<Rank>)
    ensures r.Some? ==> RankChar(r.value) == ch
    ensures r.None? ==> forall k: Rank :: RankChar(k) != ch
  {
    if ch == 'A' then Some(0) else if ch == 'K' then Some(1)
    else if ch == 'Q' then Some(2) else if ch == 'J' then Some(3)
    else if ch == 'T' then Some(4) else if ch == '9' then Some(5)
    else if ch == '8' then Some(6) else if ch == '7' then Some(7)
    else if ch == '6' then Some(8) else if ch == '5' then Some(9)
    else if ch == '4' then Some(10) else if ch == '3' then Some(11)
    else if ch == '2' then Some(12) else None
  }

  function SuitIndex(ch: char): (s: Option<Suit>)
    ensures s.Some? ==> SuitChar(s.value) == ch
    ensures s.None? ==> forall k: Suit :: SuitChar(k) != ch
  {
    if ch == 's' then Some(0) else if ch == 'h' then Some(1)
    else if ch == 'd' then Some(2) else if ch == 'c' then Some(3)
    else None
  }

  function ParseCard(s: string): Option<Card> {
    if |s| != 2 then None
    else match (RankIndex(s[0]), SuitIndex(s[1]))
      case (Some(r), Some(t)) => Some(Card(r, t))
      case _ => None
  }

  /** Every card has exactly one string form and it parses back. */
  lemma ParseCardString(c: Card)
    ensures ParseCard(CardString(c)) == Some(c)
  {
    assert RankIndex(RankChar(c.rank)).Some?;
    assert SuitIndex(SuitChar(c.suit)).Some?;
  }

  /** Whatever parses is the string form of the card it parses to. */
  lemma CardStringOfParse(s: string)
    requires ParseCard(s).Some?
    ensures CardString(ParseCard(s).value) == s
  {
  }

  ghost predicate Distinct<T>(s: seq<T>) {
    forall i, j :: 0 <= i < j < |s| ==> s[i] != s[j]
  }

  // ---------------------------------------------------------------------
  // sort_by_rank: sort by suit, then (stably) by rank, i.e. by (rank, suit)
  // ---------------------------------------------------------------------

  /** The order `sort_by_rank` produces: rank index first, then suit index. */
  predicate Le(a: Card, b: Card) {
    a.rank < b.rank || (a.rank == b.rank && a.suit <= b.suit)
  }

  predicate SortedByRank(s: seq<Card>) {
    forall i, j :: 0 <= i < j < |s| ==> Le(s[i], s[j])
  }

  function Insert(c: Card, s: seq<Card>): (r: seq<Card>)
    requires SortedByRank(s)
    ensures SortedByRank(r)
    ensures |r| == |s| + 1
    ensures forall x :: x in r ==> x == c || x in s
    ensures multiset(r) == multiset(s) + multiset{c}
  {
    if |s| == 0 then [c]
    else if Le(c, s[0]) then [c] + s
    else
      var rest := Insert(c, s[1..]);
      assert s == [s[0]] + s[1..];
      assert forall x :: x in rest ==> Le(s[0], x);
      [s[0]] + rest
  }

  function SortByRank(cards: seq<Card>): (r: seq<Card>)
    ensures SortedByRank(r)
    ensures |r| == |cards|
    ensures multiset(r) == multiset(cards)
  {
    if |cards| == 0 then []
    else
      assert cards == [cards[0]] + cards[1..];
      Insert(cards[0], SortByRank(cards[1..]))
  }

  /** The (rank, suit) order is total and antisymmetric, so a sorted
      arrangement of a multiset of cards is unique: `sort_by_rank` does not
      depend on the order of its input. */
  lemma {:induction false} SortedUnique(a: seq<Card>, b: seq<Card>)
    requires SortedByRank(a) && SortedByRank(b)
    requires multiset(a) == multiset(b)
    ensures a == b
    decreases |a|
  {
    if |a| == 0 {
      assert |multiset(b)| == 0;
    } else {
      assert |b| == |multiset(b)| == |multiset(a)| == |a|;
      SortedHeads(a, b);
      TailMultisets(a, b);
      SortedTail(a);
      SortedTail(b);
      SortedUnique(a[1..], b[1..]);
      assert a == [a[0]] + a[1..];
      assert b == [b[0]] + b[1..];
    }
  }

  /** Two sorted arrangements of one multiset start with the same card. */
  lemma SortedHeads(a: seq<Card>, b: seq<Card>)
    requires |a| > 0 && |b| > 0
    requires SortedByRank(a) && SortedByRank(b)
    requires multiset(a) == multiset(b)
    ensures a[0] == b[0]
  {
    assert a[0] in multiset(b);
    assert b[0] in multiset(a);
    var i :| 0 <= i < |b| && b[i] == a[0];
    var j :| 0 <= j < |a| && a[j] == b[0];
    assert Le(b[0], a[0]) by { if i > 0 { assert Le(b[0], b[i]); } }
    assert Le(a[0], b[0]) by { if j > 0 { assert Le(a[0], a[j]); } }
  }

  lemma TailMultisets(a: seq<Card>, b: seq<Card>)
    requires |a| > 0 && |b| > 0 && a[0] == b[0]
    requires multiset(a) == multiset(b)
    ensures multiset(a[1..]) == multiset(b[1..])
  {
    assert a == [a[0]] + a[1..];
    assert b == [b[0]] + b[1..];
    assert multiset(a) == multiset{a[0]} + multiset(a[1..]);
    assert multiset(b) == multiset{b[0]} + multiset(b[1..]);
    assert multiset(a[1..]) == multiset(a) - multiset{a[0]};
    assert multiset(b[1..]) == multiset(b) - multiset{b[0]};
  }

  lemma SortedTail(a: seq<Card>)
    requires |a| > 0 && SortedByRank(a)
    ensures SortedByRank(a[1..])
  {
    forall i, j | 0 <= i < j < |a| - 1
      ensures Le(a[1..][i], a[1..][j])
    {
      assert a[1..][i] == a[i + 1] && a[1..][j] == a[j + 1];
    }
  }

  lemma SortByRankOfPermutation(a: seq<Card>, b: seq<Card>)
    requires multiset(a) == multiset(b)
    ensures SortByRank(a) == SortByRank(b)
  {
    SortedUnique(SortByRank(a), SortByRank(b));
  }

  lemma DistinctSortByRank(cards: seq<Card>)
    requires Distinct(cards)
    ensures Distinct(SortByRank(cards))
  {
    var r := SortByRank(cards);
    forall i, j | 0 <= i < j < |r|
      ensures r[i] != r[j]
    {
      if r[i] == r[j] {
        TwoOccurrences(r, i, j);
        MultiplicityOfDistinct(cards, r[i]);
      }
    }
  }

  lemma TwoOccurrences<T>(s: seq<T>, i: nat, j: nat)
    requires i < j < |s| && s[i] == s[j]
    ensures multiset(s)[s[i]] >= 2
  {
    assert s == s[..j] + s[j..];
    assert s[i] in s[..j];
    assert s[j..][0] == s[j];
    assert multiset(s) == multiset(s[..j]) + multiset(s[j..]);
  }

  lemma MultiplicityOfDistinct<T>(s: seq<T>, x: T)
    requires Distinct(s)
    ensures multiset(s)[x] <= 1
  {
    if |s| > 0 {
      assert s == [s[0]] + s[1..];
      MultiplicityOfDistinct(s[1..], x);
      if s[0] == x {
        assert x !in s[1..];
      }
    }
  }

  // ---------------------------------------------------------------------
  // all_cards: the deck in RANKS-major, SUITS-minor order, minus `ignore`
  // ---------------------------------------------------------------------

  function SuitsFrom(r: Rank, s: nat, ignore: set<Card>): (cs: seq<Card>)
    requires s <= 4
    decreases 4 - s
  {
    if s == 4 then []
    else
      var c := Card(r, s);
      (if c in ignore then [] else [c]) + SuitsFrom(r, s + 1, ignore)
  }

  function RanksFrom(r: nat, ignore: set<Card>): seq<Card>
    requires r <= 13
    decreases 13 - r
  {
    if r == 13 then [] else SuitsFrom(r, 0, ignore) + RanksFrom(r + 1, ignore)
  }

  function AllCards(ignore: set<Card>): (deck: seq<Card>)
  {
    RanksFrom(0, ignore)
  }

  lemma {:induction false} SuitsFromContents(r: Rank, s: nat, ignore: set<Card>)
    requires s <= 4
    ensures forall c :: c in SuitsFrom(r, s, ignore) <==> c.rank == r && c.suit >= s && c !in ignore
    ensures forall i, j :: 0 <= i < j < |SuitsFrom(r, s, ignore)| ==>
      SuitsFrom(r, s, ignore)[i].suit < SuitsFrom(r, s, ignore)[j].suit
    decreases 4 - s
  {
    if s < 4 {
      SuitsFromContents(r, s + 1, ignore);
    }
  }

  lemma {:induction false} RanksFromContents(r: nat, ignore: set<Card>)
    requires r <= 13
    ensures forall c :: c in RanksFrom(r, ignore) <==> c.rank >= r && c !in ignore
    ensures Distinct(RanksFrom(r, ignore)) && SortedByRank(RanksFrom(r, ignore))
    decreases 13 - r
  {
    if r < 13 {
      var a, b := SuitsFrom(r, 0, ignore), RanksFrom(r + 1, ignore);
      SuitsFromContents(r, 0, ignore);
      SuitRowSorted(r, ignore);
      RanksFromContents(r + 1, ignore);
      SortedJoin(a, b, r + 1);
      assert RanksFrom(r, ignore) == a + b;
    }
  }

  /** The cards of one rank come out distinct and in suit order. */
  lemma SuitRowSorted(r: Rank, ignore: set<Card>)
    ensures Distinct(SuitsFrom(r, 0, ignore)) && SortedByRank(SuitsFrom(r, 0, ignore))
  {
    SuitsFromContents(r, 0, ignore);
    var a := SuitsFrom(r, 0, ignore);
    assert forall i :: 0 <= i < |a| ==> a[i] in a;
  }

  /** Sorted distinct cards all below rank `k`, followed by sorted distinct
      cards all at rank `k` or above, stay sorted and distinct. */
  lemma SortedJoin(a: seq<Card>, b: seq<Card>, k: int)
    requires Distinct(a) && SortedByRank(a) && Distinct(b) && SortedByRank(b)
    requires forall x :: x in a ==> x.rank < k
    requires forall y :: y in b ==> y.rank >= k
    ensures Distinct(a + b) && SortedByRank(a + b)
  {
    forall i, j | 0 <= i < j < |a + b|
      ensures (a + b)[i] != (a + b)[j] && Le((a + b)[i], (a + b)[j])
    {
      if j < |a| {
        assert (a + b)[i] == a[i] && (a + b)[j] == a[j];
      } else if i < |a| {
        assert (a + b)[i] == a[i] && (a + b)[j] == b[j - |a|];
        assert a[i] in a && b[j - |a|] in b;
      } else {
        assert (a + b)[i] == b[i - |a|] && (a + b)[j] == b[j - |a|];
      }
    }
  }

  /** `all_cards(ignore)` yields every card not ignored, once each, strongest first. */
  lemma AllCardsContents(ignore: set<Card>)
    ensures forall c :: c in AllCards(ignore) <==> c !in ignore
    ensures Distinct(AllCards(ignore)) && SortedByRank(AllCards(ignore))
  {
    RanksFromContents(0, ignore);
  }
}

=== FILE: equity.dfy ===
/** Equity counting: `calc_wins` and `calc_equities` from poker/cardutils.py.
    On a complete board the best hands split one unit of "win"; on an
    incomplete board every run-out is enumerated once and the wins summed;
    equities are the wins normalised by their total. Wins are exact reals. */
module Equity {
  import opened Results
  import opened Cards
  import opened Ranking
  import opened HandOrder
  import opened HandComposition

  /** A player's two hole cards, `(c1, c2)`. */
  datatype Holding = Holding(c1: Card, c2: Card)

  function HoleCards(h: Holding): seq<Card> {
    [h.c1, h.c2]
  }

  /** `EvalHand(h, board)` */
  function HandOf(h: Holding, board: seq<Card>): EvalHand {
    Evaluate(HoleCards(h), board)
  }

  function HandsOf(hs: seq<Holding>, board: seq<Card>): (r: seq<EvalHand>)
    ensures |r| == |hs|
    ensures forall i :: 0 <= i < |hs| ==> r[i] == HandOf(hs[i], board)
  {
    seq(|hs|, i requires 0 <= i < |hs| => HandOf(hs[i], board))
  }

  function Sum(xs: seq<real>): real {
    if |xs| == 0 then 0.0 else xs[0] + Sum(xs[1..])
  }

  // ---------------------------------------------------------------------
  // A complete board: the best hands split one unit
  // ---------------------------------------------------------------------

  /** The hand `evals.sort(reverse=True)` puts first. */
  function Best(hands: seq<EvalHand>): (b: EvalHand)
    requires |hands| > 0
    ensures b in hands
  {
    if |hands| == 1 then hands[0]
    else
      var b := Best(hands[1..]);
      if Lt(b, hands[0]) then hands[0] else b
  }

  /** How many hands equal `b` — the length of `winners`. */
  function CountEquiv(hands: seq<EvalHand>, b: EvalHand): (n: nat)
    ensures n <= |hands|
    ensures b in hands && Equiv(b, b) ==> n > 0
  {
    if |hands| == 0 then 0
    else (if Equiv(hands[0], b) then 1 else 0) + CountEquiv(hands[1..], b)
  }

  /** `share` for every hand equal to `b`, nothing for the others. */
  function Shares(hands: seq<EvalHand>, b: EvalHand, share: real): (w: seq<real>)
    ensures |w| == |hands|
    ensures forall i :: 0 <= i < |hands| ==> w[i] == (if Equiv(hands[i], b) then share else 0.0)
  {
    if |hands| == 0 then [] else [if Equiv(hands[0], b) then share else 0.0] + Shares(hands[1..], b, share)
  }

  /** The winner rule of the `len(board) >= 5` branch of `calc_wins` over
      the evaluated hands: each hand equal to the best gets `1 / len(winners)`. */
  function SplitUnit(hands: seq<EvalHand>): (w: seq<real>)
    ensures |w| == |hands|
  {
    if |hands| == 0 then []
    else
      var best := Best(hands);
      LtIrreflexive(best);
      Shares(hands, best, 1.0 / (CountEquiv(hands, best) as real))
  }

  /** The `len(board) >= 5` branch of `calc_wins`. */
  function WinsComplete(hs: seq<Holding>, board: seq<Card>): (w: seq<real>)
    ensures |w| == |hs|
  {
    SplitUnit(HandsOf(hs, board))
  }

  /** `n` copies of `x` added up. */
  function Times(n: nat, x: real): real {
    if n == 0 then 0.0 else x + Times(n - 1, x)
  }

  lemma {:induction false} TimesProduct(n: nat, x: real)
    ensures Times(n, x) == n as real * x
  {
    if n > 0 {
      TimesProduct(n - 1, x);
    }
  }

  lemma {:induction false} SharesSum(hands: seq<EvalHand>, b: EvalHand, share: real)
    ensures Sum(Shares(hands, b, share)) == Times(CountEquiv(hands, b), share)
  {
    if |hands| > 0 {
      var w := Shares(hands, b, share);
      SharesSum(hands[1..], b, share);
      assert w[1..] == Shares(hands[1..], b, share);
    }
  }

  /** `w` splits one unit: every share between 0 and 1, all non-zero
      shares equal, and the shares total one. */
  ghost predicate SplitsOneUnit(w: seq<real>) {
    && Sum(w) == 1.0
    && (forall i :: 0 <= i < |w| ==> 0.0 <= w[i] <= 1.0)
    && (forall i, j :: 0 <= i < |w| && 0 <= j < |w| && w[i] > 0.0 && w[j] > 0.0 ==> w[i] == w[j])
  }

  lemma UnitFraction(k: real)
    requires k >= 1.0
    ensures 0.0 < 1.0 / k <= 1.0 && k * (1.0 / k) == 1.0
  {
  }

  /** Giving `1 / k` to each of the `k` hands equal to `b` splits one unit. */
  lemma SharesOneUnit(hands: seq<EvalHand>, b: EvalHand)
    requires CountEquiv(hands, b) > 0
    ensures SplitsOneUnit(Shares(hands, b, 1.0 / CountEquiv(hands, b) as real))
    ensures forall i :: 0 <= i < |hands| ==>
      (Shares(hands, b, 1.0 / CountEquiv(hands, b) as real)[i] > 0.0 <==> Equiv(hands[i], b))
  {
    var k := CountEquiv(hands, b) as real;
    var w := Shares(hands, b, 1.0 / k);
    assert 0.0 < 1.0 / k <= 1.0 by {
      UnitFraction(k);
    }
    assert Sum(w) == 1.0 by {
      UnitFraction(k);
      SharesSum(hands, b, 1.0 / k);
      TimesProduct(CountEquiv(hands, b), 1.0 / k);
    }
  }

  /** One unit is split among exactly the hands equal to the best one. */
  lemma SplitUnitShares(hands: seq<EvalHand>)
    requires |hands| > 0
    ensures SplitsOneUnit(SplitUnit(hands))
    ensures forall i :: 0 <= i < |hands| ==> (SplitUnit(hands)[i] > 0.0 <==> Equiv(hands[i], Best(hands)))
  {
    var best := Best(hands);
    LtIrreflexive(best);
    SharesOneUnit(hands, best);
  }

  /** The wins of one complete board: non-negative, equal for all winners,
      zero for the others, and one unit in total. */
  lemma WinsCompleteUnit(hs: seq<Holding>, board: seq<Card>)
    requires |hs| > 0
    ensures SplitsOneUnit(WinsComplete(hs, board))
  {
    SplitUnitShares(HandsOf(hs, board));
  }

  /** Over hands the order ranks consistently, nothing beats the first hand. */
  lemma {:induction false} BestIsMaximal(hands: seq<EvalHand>)
    requires |hands| > 0
    requires forall h :: h in hands ==> Complete(h)
    ensures forall h :: h in hands ==> !Lt(Best(hands), h)
  {
    if |hands| > 1 {
      var rest := hands[1..];
      assert forall h :: h in hands ==> h == hands[0] || h in rest;
      BestIsMaximal(rest);
      var b := Best(rest);
      if Lt(b, hands[0]) {
        forall h | h in hands ensures !Lt(hands[0], h) {
          if h in rest && Lt(hands[0], h) {
            LtTransitive(b, hands[0], h);
          }
          LtIrreflexive(hands[0]);
        }
      }
    } else {
      LtIrreflexive(hands[0]);
    }
  }

  /** Over complete hands, a hand gets a share exactly when no hand beats it. */
  lemma SplitUnitMaximal(hands: seq<EvalHand>)
    requires forall i :: 0 <= i < |hands| ==> Complete(hands[i])
    ensures forall i :: 0 <= i < |hands| ==>
      (SplitUnit(hands)[i] > 0.0 <==> forall j :: 0 <= j < |hands| ==> !Lt(hands[i], hands[j]))
  {
    if |hands| > 0 {
      SplitUnitShares(hands);
      BestClassUnbeaten(hands);
    }
  }

  /** Over complete hands, the hands equal to the best are exactly the
      hands nothing beats. */
  lemma BestClassUnbeaten(hands: seq<EvalHand>)
    requires |hands| > 0
    requires forall i :: 0 <= i < |hands| ==> Complete(hands[i])
    ensures forall i :: 0 <= i < |hands| ==>
      (Equiv(hands[i], Best(hands)) <==> forall j :: 0 <= j < |hands| ==> !Lt(hands[i], hands[j]))
  {
    assert forall h :: h in hands ==> Complete(h);
    BestIsMaximal(hands);
    var best := Best(hands);
    forall i | 0 <= i < |hands|
      ensures Equiv(hands[i], best) <==> forall j :: 0 <= j < |hands| ==> !Lt(hands[i], hands[j])
    {
      if Equiv(hands[i], best) {
        forall j | 0 <= j < |hands| ensures !Lt(hands[i], hands[j]) {
          assert hands[j] in hands;
          LtRespectsEquiv(hands[i], best, hands[j]);
        }
      } else {
        Trichotomy(hands[i], best);
        assert !Lt(best, hands[i]) by { assert hands[i] in hands; }
      }
    }
  }

  /** With distinct cards on a board of five or more, a holding wins a
      share exactly when no other holding's hand beats it. */
  lemma WinnersAreMaximal(hs: seq<Holding>, board: seq<Card>)
    requires |board| >= 5
    requires forall i :: 0 <= i < |hs| ==> Distinct(HoleCards(hs[i]) + board)
    ensures forall i :: 0 <= i < |hs| ==>
      (WinsComplete(hs, board)[i] > 0.0 <==> forall j :: 0 <= j < |hs| ==> !Lt(HandOf(hs[i], board), HandOf(hs[j], board)))
  {
    var hands := HandsOf(hs, board);
    HandsComplete(hs, board);
    SplitUnitMaximal(hands);
    forall i | 0 <= i < |hs|
      ensures WinsComplete(hs, board)[i] > 0.0 <==>
        forall j :: 0 <= j < |hs| ==> !Lt(HandOf(hs[i], board), HandOf(hs[j], board))
    {
      assert WinsComplete(hs, board)[i] == SplitUnit(hands)[i];
      UnbeatenIn(hs, board, hands, i);
    }
  }

  lemma HandsComplete(hs: seq<Holding>, board: seq<Card>)
    requires |board| >= 5
    requires forall i :: 0 <= i < |hs| ==> Distinct(HoleCards(hs[i]) + board)
    ensures forall i :: 0 <= i < |hs| ==> Complete(HandsOf(hs, board)[i])
  {
    forall i | 0 <= i < |hs| ensures Complete(HandsOf(hs, board)[i]) {
      CompleteHand(HoleCards(hs[i]) + board);
    }
  }

  lemma UnbeatenIn(hs: seq<Holding>, board: seq<Card>, hands: seq<EvalHand>, i: nat)
    requires hands == HandsOf(hs, board) && i < |hs|
    ensures (forall j :: 0 <= j < |hands| ==> !Lt(hands[i], hands[j])) <==>
      forall j :: 0 <= j < |hs| ==> !Lt(HandOf(hs[i], board), HandOf(hs[j], board))
  {
  }

  // ---------------------------------------------------------------------
  // Enumerating run-outs
  // ---------------------------------------------------------------------

  function Choose(n: nat, k: nat): nat {
    if k == 0 then 1
    else if n == 0 then 0
    else Choose(n - 1, k - 1) + Choose(n - 1, k)
  }

  /** `c` in front of every selection. */
  function Prefixed(c: Card, css: seq<seq<Card>>): (r: seq<seq<Card>>)
    ensures |r| == |css| && forall i :: 0 <= i < |css| ==> r[i] == [c] + css[i]
  {
    if |css| == 0 then [] else [[c] + css[0]] + Prefixed(c, css[1..])
  }

  /** `itertools.combinations(s, k)`: the k-card selections of `s` in
      lexicographic order of position. */
  function Combinations(s: seq<Card>, k: nat): seq<seq<Card>>
    decreases |s|
  {
    if k == 0 then [[]]
    else if |s| == 0 then []
    else Prefixed(s[0], Combinations(s[1..], k - 1)) + Combinations(s[1..], k)
  }

  /** `combinations` yields C(n, k) selections. */
  lemma {:induction false} CombinationsCount(s: seq<Card>, k: nat)
    ensures |Combinations(s, k)| == Choose(|s|, k)
    decreases |s|
  {
    if k > 0 && |s| > 0 {
      CombinationsCount(s[1..], k - 1);
      CombinationsCount(s[1..], k);
    }
  }

  /** The split `Combinations` makes on its first card. */
  lemma CombinationsSplit(s: seq<Card>, k: nat)
    requires k > 0 && |s| > 0
    ensures Combinations(s, k) == Prefixed(s[0], Combinations(s[1..], k - 1)) + Combinations(s[1..], k)
  {
  }

  /** Each run-out has `k` cards, all from `s`. */
  lemma {:induction false} CombinationMembers(s: seq<Card>, k: nat)
    ensures forall i :: 0 <= i < |Combinations(s, k)| ==>
      |Combinations(s, k)[i]| == k && SetOf(Combinations(s, k)[i]) <= SetOf(s)
    decreases |s|
  {
    if k > 0 && |s| > 0 {
      var tail := s[1..];
      CombinationMembers(tail, k - 1);
      CombinationMembers(tail, k);
      CombinationsSplit(s, k);
      SetOfCons(s);
      var w := Combinations(tail, k - 1);
      PrefixedMembers(s[0], w, k, SetOf(tail));
      MembersAppend(Prefixed(s[0], w), Combinations(tail, k), k, {s[0]} + SetOf(tail), SetOf(tail), SetOf(s));
    }
  }

  lemma PrefixedShape(x: Card, w: seq<seq<Card>>)
    ensures forall i :: 0 <= i < |w| ==>
      |Prefixed(x, w)[i]| == |w[i]| + 1 && SetOf(Prefixed(x, w)[i]) == {x} + SetOf(w[i])
  {
    forall i | 0 <= i < |w|
      ensures SetOf(Prefixed(x, w)[i]) == {x} + SetOf(w[i])
    {
      assert Prefixed(x, w)[i] == [x] + w[i];
    }
  }

  lemma PrefixedMembers(x: Card, w: seq<seq<Card>>, k: nat, u: set<Card>)
    requires k > 0
    requires forall i :: 0 <= i < |w| ==> |w[i]| == k - 1 && SetOf(w[i]) <= u
    ensures forall i :: 0 <= i < |Prefixed(x, w)| ==> |Prefixed(x, w)[i]| == k && SetOf(Prefixed(x, w)[i]) <= {x} + u
  {
    PrefixedShape(x, w);
  }

  lemma MembersAppend(p: seq<seq<Card>>, r: seq<seq<Card>>, k: nat, up: set<Card>, ur: set<Card>, u: set<Card>)
    requires up <= u && ur <= u
    requires forall i :: 0 <= i < |p| ==> |p[i]| == k && SetOf(p[i]) <= up
    requires forall i :: 0 <= i < |r| ==> |r[i]| == k && SetOf(r[i]) <= ur
    ensures forall i :: 0 <= i < |p + r| ==> |(p + r)[i]| == k && SetOf((p + r)[i]) <= u
  {
  }

  /** Run-outs of distinct cards repeat no card. */
  lemma {:induction false} CombinationsDistinct(s: seq<Card>, k: nat)
    requires Distinct(s)
    ensures forall i :: 0 <= i < |Combinations(s, k)| ==> Distinct(Combinations(s, k)[i])
    decreases |s|
  {
    if k > 0 && |s| > 0 {
      var tail := s[1..];
      CombinationsDistinct(tail, k - 1);
      CombinationsDistinct(tail, k);
      CombinationMembers(tail, k - 1);
      assert s[0] !in SetOf(tail);
      var w := Combinations(tail, k - 1);
      NotInAny(s[0], w, tail);
      DistinctPrefixed(s[0], w);
      DistinctAppend(Prefixed(s[0], w), Combinations(tail, k));
    }
  }

  lemma DistinctPrefixed(x: Card, w: seq<seq<Card>>)
    requires forall i :: 0 <= i < |w| ==> Distinct(w[i]) && x !in SetOf(w[i])
    ensures forall i :: 0 <= i < |w| ==> Distinct(Prefixed(x, w)[i])
  {
    forall i | 0 <= i < |w| ensures Distinct(Prefixed(x, w)[i]) {
      assert Prefixed(x, w)[i] == [x] + w[i];
      assert x !in w[i] by { assert forall y :: y in w[i] ==> y in SetOf(w[i]); }
    }
  }

  lemma DistinctAppend(p: seq<seq<Card>>, r: seq<seq<Card>>)
    requires forall i :: 0 <= i < |p| ==> Distinct(p[i])
    requires forall i :: 0 <= i < |r| ==> Distinct(r[i])
    ensures forall i :: 0 <= i < |p + r| ==> Distinct((p + r)[i])
  {
  }

  /** No two selections hold the same cards. */
  ghost predicate UniqueSets(cs: seq<seq<Card>>) {
    forall i, j :: 0 <= i < j < |cs| ==> SetOf(cs[i]) != SetOf(cs[j])
  }

  /** Some selection holds exactly the cards `t`. */
  ghost predicate Covers(cs: seq<seq<Card>>, t: set<Card>) {
    exists i :: 0 <= i < |cs| && SetOf(cs[i]) == t
  }

  lemma PrefixedSets(x: Card, w: seq<seq<Card>>)
    requires forall i :: 0 <= i < |w| ==> x !in SetOf(w[i])
    ensures forall i :: 0 <= i < |w| ==>
      SetOf(Prefixed(x, w)[i]) == {x} + SetOf(w[i]) && SetOf(Prefixed(x, w)[i]) - {x} == SetOf(w[i])
  {
    forall i | 0 <= i < |w|
      ensures SetOf(Prefixed(x, w)[i]) == {x} + SetOf(w[i])
    {
      assert Prefixed(x, w)[i] == [x] + w[i];
    }
  }

  lemma UniquePrefixed(x: Card, w: seq<seq<Card>>)
    requires UniqueSets(w)
    requires forall i :: 0 <= i < |w| ==> x !in SetOf(w[i])
    ensures UniqueSets(Prefixed(x, w))
    ensures forall i :: 0 <= i < |w| ==> x in SetOf(Prefixed(x, w)[i])
  {
    PrefixedSets(x, w);
  }

  lemma UniqueAppend(p: seq<seq<Card>>, r: seq<seq<Card>>, x: Card)
    requires UniqueSets(p) && UniqueSets(r)
    requires forall i :: 0 <= i < |p| ==> x in SetOf(p[i])
    requires forall j :: 0 <= j < |r| ==> x !in SetOf(r[j])
    ensures UniqueSets(p + r)
  {
    var cs := p + r;
    forall i, j | 0 <= i < j < |cs| ensures SetOf(cs[i]) != SetOf(cs[j]) {
      if j < |p| {
        assert cs[i] == p[i] && cs[j] == p[j];
      } else if i < |p| {
        assert cs[i] == p[i] && cs[j] == r[j - |p|];
      } else {
        assert cs[i] == r[i - |p|] && cs[j] == r[j - |p|];
      }
    }
  }

  lemma NotInAny(x: Card, cs: seq<seq<Card>>, s: seq<Card>)
    requires x !in SetOf(s)
    requires forall i :: 0 <= i < |cs| ==> SetOf(cs[i]) <= SetOf(s)
    ensures forall i :: 0 <= i < |cs| ==> x !in SetOf(cs[i])
  {
  }

  /** No two run-outs hold the same cards: each selection is enumerated once. */
  lemma {:induction false} CombinationsUnique(s: seq<Card>, k: nat)
    requires Distinct(s)
    ensures UniqueSets(Combinations(s, k))
    decreases |s|
  {
    if k > 0 && |s| > 0 {
      var tail := s[1..];
      CombinationsUnique(tail, k - 1);
      CombinationsUnique(tail, k);
      CombinationMembers(tail, k - 1);
      CombinationMembers(tail, k);
      assert s[0] !in SetOf(tail);
      var w := Combinations(tail, k - 1);
      NotInAny(s[0], w, tail);
      NotInAny(s[0], Combinations(tail, k), tail);
      UniquePrefixed(s[0], w);
      UniqueAppend(Prefixed(s[0], w), Combinations(tail, k), s[0]);
    }
  }

  lemma CoversPrefixed(x: Card, w: seq<seq<Card>>, r: seq<seq<Card>>, t: set<Card>)
    requires x in t && Covers(w, t - {x})
    ensures Covers(Prefixed(x, w) + r, t)
  {
    var i :| 0 <= i < |w| && SetOf(w[i]) == t - {x};
    var c := Prefixed(x, w)[i];
    assert c == [x] + w[i];
    assert SetOf(c) == {x} + SetOf(w[i]);
    PutBack(x, t);
    assert (Prefixed(x, w) + r)[i] == c;
  }

  lemma PutBack(x: Card, t: set<Card>)
    requires x in t
    ensures {x} + (t - {x}) == t
  {
  }

  lemma CoversRest(p: seq<seq<Card>>, r: seq<seq<Card>>, t: set<Card>)
    requires Covers(r, t)
    ensures Covers(p + r, t)
  {
    var j :| 0 <= j < |r| && SetOf(r[j]) == t;
    assert (p + r)[|p| + j] == r[j];
  }

  /** Every set of k cards drawn from `s` is enumerated. */
  lemma {:induction false} CombinationsComplete(s: seq<Card>, k: nat, t: set<Card>)
    requires t <= SetOf(s) && |t| == k
    ensures Covers(Combinations(s, k), t)
    decreases |s|
  {
    if k == 0 {
      assert t == {};
      assert SetOf(Combinations(s, k)[0]) == {};
    } else if |s| == 0 {
      assert false;
    } else {
      var tail := s[1..];
      DrawFromTail(s, t, k);
      var w := Combinations(tail, k - 1);
      CombinationsSplit(s, k);
      if s[0] in t {
        CombinationsComplete(tail, k - 1, t - {s[0]});
        CoversPrefixed(s[0], w, Combinations(tail, k), t);
      } else {
        CombinationsComplete(tail, k, t);
        CoversRest(Prefixed(s[0], w), Combinations(tail, k), t);
      }
    }
  }

  lemma SetOfCons(s: seq<Card>)
    requires |s| > 0
    ensures SetOf(s) == {s[0]} + SetOf(s[1..])
  {
  }

  /** A draw from `s` is, without the first card, a draw from the rest. */
  lemma DrawFromTail(s: seq<Card>, t: set<Card>, k: nat)
    requires |s| > 0 && t <= SetOf(s) && |t| == k
    ensures s[0] in t ==> k > 0 && |t - {s[0]}| == k - 1 && t - {s[0]} <= SetOf(s[1..])
    ensures s[0] !in t ==> t <= SetOf(s[1..])
  {
    SetOfCons(s);
  }

  function Fact(n: nat): (r: nat)
    ensures r >= 1
  {
    if n == 0 then 1 else n * Fact(n - 1)
  }

  /** `len(domain) * (len(domain) - 1) * ... ` over `to_draw` factors. */
  function Falling(n: int, k: nat): int {
    if k == 0 then 1 else Falling(n, k - 1) * (n - (k - 1))
  }

  /** `n_possible_outcomes` as the source computes it. */
  function PossibleOutcomes(n: nat, k: nat): real {
    Falling(n, k) as real / Fact(k) as real
  }

  lemma {:induction false} FallingShift(n: nat, k: nat)
    ensures Falling(n + 1, k + 1) == (n + 1) * Falling(n, k)
  {
    if k > 0 {
      FallingShift(n, k - 1);
      var f := Falling(n, k - 1);
      assert Falling(n + 1, k) == (n + 1) * f;
      assert Falling(n, k) == f * (n - (k - 1));
      calc {
        Falling(n + 1, k + 1);
        Falling(n + 1, k) * (n + 1 - k);
        (n + 1) * f * (n + 1 - k);
        (n + 1) * (f * (n - (k - 1)));
      }
    }
  }

  lemma {:induction false} FallingZero(k: nat)
    requires k > 0
    ensures Falling(0, k) == 0
  {
    if k > 1 {
      FallingZero(k - 1);
    }
  }

  /** The falling factorial over `k!` is the number of k-card selections. */
  lemma {:induction false} FallingChoose(n: nat, k: nat)
    ensures Falling(n, k) == Choose(n, k) * Fact(k)
    decreases n
  {
    if k > 0 {
      if n == 0 {
        FallingZero(k);
      } else {
        var m, j := n - 1, k - 1;
        FallingShift(m, j);
        FallingChoose(m, j);
        FallingChoose(m, k);
        assert Fact(k) == (j + 1) * Fact(j);
        assert Falling(m, k) == Falling(m, j) * (m - j);
        PascalStep(Choose(m, j), Choose(m, k), Fact(j), Fact(k), m, j, Falling(n, k));
      }
    }
  }

  /** The arithmetic of one step of `FallingChoose`, over plain integers:
      `(cj + ck) * k!` is `(m + 1) * cj * j!` when `k = j + 1`. */
  lemma PascalStep(cj: int, ck: int, fj: int, fk: int, m: int, j: int, total: int)
    requires fk == (j + 1) * fj
    requires ck * fk == cj * fj * (m - j)
    requires total == (m + 1) * (cj * fj)
    ensures (cj + ck) * fk == total
  {
    var x := cj * fj;
    assert cj * fk == x * (j + 1);
    assert (cj + ck) * fk == x * (j + 1) + x * (m - j);
  }

  /** `n_possible_outcomes` is exactly the number of combinations enumerated. */
  lemma PossibleOutcomesCount(n: nat, k: nat)
    ensures PossibleOutcomes(n, k) == Choose(n, k) as real
  {
    FallingChoose(n, k);
    DivExact(Falling(n, k), Choose(n, k), Fact(k));
  }

  lemma DivExact(x: int, c: int, f: int)
    requires f >= 1 && x == c * f
    ensures x as real / f as real == c as real
  {
    var cr, fr := c as real, f as real;
    assert x as real == cr * fr;
    assert cr * fr / fr == cr;
  }

  function Zeros(n: nat): (z: seq<real>)
    ensures |z| == n && forall i :: 0 <= i < n ==> z[i] == 0.0
  {
    if n == 0 then [] else [0.0] + Zeros(n - 1)
  }

  function AddWins(a: seq<real>, b: seq<real>): (r: seq<real>)
    requires |a| == |b|
    ensures |r| == |a| && forall i :: 0 <= i < |a| ==> r[i] == a[i] + b[i]
  {
    if |a| == 0 then [] else [a[0] + b[0]] + AddWins(a[1..], b[1..])
  }

  /** Element-wise total of the win vectors `ws`, each of length `n`. */
  function Accumulate(n: nat, ws: seq<seq<real>>): (w: seq<real>)
    requires forall j :: 0 <= j < |ws| ==> |ws[j]| == n
    ensures |w| == n
    decreases |ws|
  {
    if |ws| == 0 then Zeros(n)
    else AddWins(Accumulate(n, ws[..|ws| - 1]), ws[|ws| - 1])
  }

  /** The loop `for draws in gen(): wins[i] += w[i]`, where `w` is the
      complete-board wins of `board + draws`. */
  function RunOutWins(hs: seq<Holding>, board: seq<Card>, draws: seq<seq<Card>>): (w: seq<real>)
    ensures |w| == |hs|
  {
    Accumulate(|hs|, seq(|draws|, j requires 0 <= j < |draws| => WinsComplete(hs, board + draws[j])))
  }

  lemma {:induction false} SumZeros(n: nat)
    ensures Sum(Zeros(n)) == 0.0
  {
    if n > 0 {
      SumZeros(n - 1);
      assert Zeros(n)[1..] == Zeros(n - 1);
    }
  }

  lemma {:induction false} SumAdd(a: seq<real>, b: seq<real>)
    requires |a| == |b|
    ensures Sum(AddWins(a, b)) == Sum(a) + Sum(b)
  {
    if |a| > 0 {
      SumAdd(a[1..], b[1..]);
      assert AddWins(a, b)[1..] == AddWins(a[1..], b[1..]);
    }
  }

  /** Adding up vectors that each split one unit totals their number, and
      no entry of the total is negative. */
  lemma {:induction false} AccumulateUnits(n: nat, ws: seq<seq<real>>)
    requires forall j :: 0 <= j < |ws| ==> |ws[j]| == n && SplitsOneUnit(ws[j])
    ensures Sum(Accumulate(n, ws)) == |ws| as real
    ensures forall i :: 0 <= i < n ==> Accumulate(n, ws)[i] >= 0.0
    decreases |ws|
  {
    if |ws| == 0 {
      SumZeros(n);
    } else {
      var pre := ws[..|ws| - 1];
      AccumulateUnits(n, pre);
      SumAdd(Accumulate(n, pre), ws[|ws| - 1]);
    }
  }

  /** Every run-out hands out one unit, so the wins total the number of
      run-outs, and no holding's wins are negative. */
  lemma RunOutWinsTotal(hs: seq<Holding>, board: seq<Card>, draws: seq<seq<Card>>)
    requires |hs| > 0
    ensures Sum(RunOutWins(hs, board, draws)) == |draws| as real
    ensures forall i :: 0 <= i < |hs| ==> RunOutWins(hs, board, draws)[i] >= 0.0
  {
    var ws := seq(|draws|, j requires 0 <= j < |draws| => WinsComplete(hs, board + draws[j]));
    forall j | 0 <= j < |ws| ensures SplitsOneUnit(ws[j]) {
      WinsCompleteUnit(hs, board + draws[j]);
    }
    AccumulateUnits(|hs|, ws);
  }

  // ---------------------------------------------------------------------
  // calc_wins and calc_equities
  // ---------------------------------------------------------------------

  /** The `limit` argument: `float('inf')` or a number of run-outs. */
  datatype Limit = Unlimited | AtMost(n: nat)

  /** `used_cards`: every hole card and every board card. */
  function Used(hs: seq<Holding>, board: seq<Card>): (u: set<Card>)
    ensures forall c :: c in u <==> c in board || exists i :: 0 <= i < |hs| && c in HoleCards(hs[i])
  {
    if |hs| == 0 then set c | c in board
    else {hs[0].c1, hs[0].c2} + Used(hs[1..], board)
  }

  /** `limit >= n_possible_outcomes`: the exhaustive branch is taken. */
  predicate Exhaustive(limit: Limit, outcomes: real) {
    limit.Unlimited? || limit.n as real >= outcomes
  }

  /** `to_draw`: the cards still to come on a board of fewer than five. */
  function ToDraw(board: seq<Card>): nat
    requires |board| < 5
  {
    5 - |board|
  }

  /** The run-outs `itertools.combinations(domain, to_draw)` yields: every
      `to_draw`-card selection of the cards nobody holds. */
  function RunOuts(hs: seq<Holding>, board: seq<Card>): seq<seq<Card>>
    requires |board| < 5
  {
    Combinations(AllCards(Used(hs, board)), ToDraw(board))
  }

  /** `calc_wins(h_list, board, limit)`. The branch that samples run-outs at
      random is not modelled and yields `Unavailable`. */
  function CalcWins(hs: seq<Holding>, board: seq<Card>, limit: Limit): (r: Result<seq<real>>)
    ensures r.Ok? ==> |r.value| == |hs|
  {
    if |board| >= 5 then Ok(WinsComplete(hs, board))
    else if Exhaustive(limit, PossibleOutcomes(|AllCards(Used(hs, board))|, ToDraw(board))) then
      Ok(RunOutWins(hs, board, RunOuts(hs, board)))
    else Err(Unavailable)
  }

  /** With fewer than five board cards and no limit, or a limit of at least
      C(unused cards, cards to draw), every run-out is played and the wins
      total the number of run-outs, which is that binomial coefficient. */
  lemma CalcWinsExhaustive(hs: seq<Holding>, board: seq<Card>, limit: Limit)
    requires |hs| > 0 && |board| < 5
    requires limit.Unlimited? || limit.n >= Choose(|AllCards(Used(hs, board))|, ToDraw(board))
    ensures CalcWins(hs, board, limit) == Ok(RunOutWins(hs, board, RunOuts(hs, board)))
    ensures |RunOuts(hs, board)| == Choose(|AllCards(Used(hs, board))|, ToDraw(board))
    ensures Sum(CalcWins(hs, board, limit).value) == |RunOuts(hs, board)| as real
  {
    PossibleOutcomesCount(|AllCards(Used(hs, board))|, ToDraw(board));
    CombinationsCount(AllCards(Used(hs, board)), ToDraw(board));
    RunOutWinsTotal(hs, board, RunOuts(hs, board));
  }

  /** Each run-out completes the board to five cards with cards nobody
      holds, no selection is played twice, and every selection is played. */
  lemma RunOutsEnumerate(hs: seq<Holding>, board: seq<Card>)
    requires |board| < 5
    ensures forall i :: 0 <= i < |RunOuts(hs, board)| ==>
      |board + RunOuts(hs, board)[i]| == 5 && SetOf(RunOuts(hs, board)[i]) !! Used(hs, board)
    ensures UniqueSets(RunOuts(hs, board))
    ensures forall t: set<Card> :: t !! Used(hs, board) && |t| == ToDraw(board) ==> Covers(RunOuts(hs, board), t)
  {
    AllCardsContents(Used(hs, board));
    SelectionsOfUnused(AllCards(Used(hs, board)), ToDraw(board), Used(hs, board));
  }

  /** The k-card selections of a deck holding exactly the cards outside
      `used`: each avoids `used`, none repeats, and all are present. */
  lemma SelectionsOfUnused(deck: seq<Card>, k: nat, used: set<Card>)
    requires Distinct(deck)
    requires forall c :: c in deck <==> c !in used
    ensures forall i :: 0 <= i < |Combinations(deck, k)| ==>
      |Combinations(deck, k)[i]| == k && SetOf(Combinations(deck, k)[i]) !! used
    ensures UniqueSets(Combinations(deck, k))
    ensures forall t: set<Card> :: t !! used && |t| == k ==> Covers(Combinations(deck, k), t)
  {
    CombinationMembers(deck, k);
    CombinationsUnique(deck, k);
    forall t: set<Card> | t !! used && |t| == k
      ensures Covers(Combinations(deck, k), t)
    {
      assert t <= SetOf(deck);
      CombinationsComplete(deck, k, t);
    }
  }

  /** Wins are never negative. */
  lemma CalcWinsNonNegative(hs: seq<Holding>, board: seq<Card>, limit: Limit)
    ensures CalcWins(hs, board, limit).Ok? ==>
      forall i :: 0 <= i < |hs| ==> CalcWins(hs, board, limit).value[i] >= 0.0
  {
    if |hs| > 0 && CalcWins(hs, board, limit).Ok? {
      if |board| >= 5 {
        WinsCompleteUnit(hs, board);
      } else {
        RunOutWinsTotal(hs, board, RunOuts(hs, board));
      }
    }
  }

  /** `[w / denom for w in wins]`, with `denom = sum(wins)`. The
      comprehension divides once per win, so only a non-empty list can
      raise `ZeroDivisionError`; an empty one normalises to `[]`. */
  function Normalize(wins: seq<real>): (r: Result<seq<real>>)
    ensures r.Ok? ==> |r.value| == |wins|
  {
    var denom := Sum(wins);
    if |wins| > 0 && denom == 0.0 then Err(ZeroDivision)
    else Ok(seq(|wins|, i requires 0 <= i < |wins| => wins[i] / denom))
  }

  /** `calc_equities(h_list, board, limit)`. A pre-flop call (an empty
      board) reads a preflop cache and a constant that the repository does
      not define, so it yields `Unavailable`. */
  function CalcEquities(hs: seq<Holding>, board: seq<Card>, limit: Limit): (r: Result<seq<real>>)
    ensures r.Ok? ==> |r.value| == |hs|
  {
    if |board| == 0 then Err(Unavailable)
    else
      var wins :- CalcWins(hs, board, limit);
      Normalize(wins)
  }

  lemma {:induction false} SumScale(xs: seq<real>, d: real)
    requires d != 0.0
    ensures Sum(seq(|xs|, i requires 0 <= i < |xs| => xs[i] / d)) == Sum(xs) / d
  {
    if |xs| > 0 {
      SumScale(xs[1..], d);
      var ys := seq(|xs|, i requires 0 <= i < |xs| => xs[i] / d);
      assert ys[1..] == seq(|xs[1..]|, i requires 0 <= i < |xs[1..]| => xs[1..][i] / d);
    }
  }

  lemma {:induction false} SumBound(xs: seq<real>, i: nat)
    requires i < |xs| && forall j :: 0 <= j < |xs| ==> xs[j] >= 0.0
    ensures 0.0 <= xs[i] <= Sum(xs)
    ensures Sum(xs) >= 0.0
  {
    if i > 0 {
      SumBound(xs[1..], i - 1);
    } else if |xs| > 1 {
      SumBound(xs[1..], 0);
    }
  }

  /** Normalising fails exactly when there are wins and every
      (non-negative) one is zero; no wins normalise to no equities. */
  lemma NormalizeFails(wins: seq<real>)
    requires forall i :: 0 <= i < |wins| ==> wins[i] >= 0.0
    ensures Normalize(wins).Err? <==> |wins| > 0 && forall i :: 0 <= i < |wins| ==> wins[i] == 0.0
    ensures |wins| == 0 ==> Normalize(wins) == Ok([])
  {
    if Sum(wins) != 0.0 {
      var i :| 0 <= i < |wins| && wins[i] != 0.0 by {
        if forall i :: 0 <= i < |wins| ==> wins[i] == 0.0 { SumOfZeros(wins); }
      }
    } else {
      forall i | 0 <= i < |wins| ensures wins[i] == 0.0 {
        SumBound(wins, i);
      }
    }
  }

  /** Normalising non-negative wins gives shares of one: each between 0 and
      1, together exactly 1 when there are any (and 0 for none). */
  lemma NormalizeShares(wins: seq<real>)
    requires forall i :: 0 <= i < |wins| ==> wins[i] >= 0.0
    requires Normalize(wins).Ok?
    ensures Sum(Normalize(wins).value) == if |wins| == 0 then 0.0 else 1.0
    ensures forall i :: 0 <= i < |wins| ==> 0.0 <= Normalize(wins).value[i] <= 1.0
  {
    var denom := Sum(wins);
    if |wins| == 0 {
      assert Normalize(wins).value == [];
    } else {
      assert denom != 0.0;
      SumScale(wins, denom);
      SelfDivision(denom);
      forall i | 0 <= i < |wins| ensures 0.0 <= wins[i] / denom <= 1.0 {
        SumBound(wins, i);
        FractionOfTotal(wins[i], denom);
      }
    }
  }

  lemma SelfDivision(d: real)
    requires d != 0.0
    ensures d / d == 1.0
  {
  }

  lemma FractionOfTotal(x: real, d: real)
    requires 0.0 <= x <= d && d != 0.0
    ensures 0.0 <= x / d <= 1.0
  {
    assert x / d * d == x;
  }

  lemma {:induction false} SumOfZeros(xs: seq<real>)
    requires forall i :: 0 <= i < |xs| ==> xs[i] == 0.0
    ensures Sum(xs) == 0.0
  {
    if |xs| > 0 {
      SumOfZeros(xs[1..]);
    }
  }

  /** Equities are shares of one: each between 0 and 1, together exactly 1
      for one or more hands (an empty hand list has no equities). */
  lemma EquitiesSumToOne(hs: seq<Holding>, board: seq<Card>, limit: Limit)
    ensures CalcEquities(hs, board, limit).Ok? ==>
      Sum(CalcEquities(hs, board, limit).value) == if |hs| == 0 then 0.0 else 1.0
    ensures CalcEquities(hs, board, limit).Ok? ==>
      forall i :: 0 <= i < |hs| ==> 0.0 <= CalcEquities(hs, board, limit).value[i] <= 1.0
  {
    if CalcEquities(hs, board, limit).Ok? {
      CalcWinsNonNegative(hs, board, limit);
      NormalizeShares(CalcWins(hs, board, limit).value);
    }
  }

  /** On a complete board with at least one holding the equities are
      defined and are the complete-board wins themselves. */
  lemma EquitiesOnCompleteBoard(hs: seq<Holding>, board: seq<Card>, limit: Limit)
    requires |board| >= 5
    ensures CalcEquities(hs, board, limit) == Ok(WinsComplete(hs, board))
  {
    var w := WinsComplete(hs, board);
    assert CalcWins(hs, board, limit) == Ok(w);
    if |hs| == 0 {
      assert Normalize(w) == Ok([]);
    } else {
      WinsCompleteUnit(hs, board);
      NormalizeUnit(w);
    }
  }

  /** With no hands and a board, the equities are the empty list whenever
      every run-out is played. */
  lemma NoHandsNoEquities(board: seq<Card>, limit: Limit)
    requires |board| > 0
    requires |board| >= 5 || limit.Unlimited?
    ensures CalcEquities([], board, limit) == Ok([])
  {
    if |board| < 5 {
      var rs := RunOuts([], board);
      assert |RunOutWins([], board, rs)| == 0;
    }
  }

  /** Wins that already total one are their own equities. */
  lemma NormalizeUnit(w: seq<real>)
    requires Sum(w) == 1.0
    ensures Normalize(w) == Ok(w)
  {
    assert seq(|w|, i requires 0 <= i < |w| => w[i] / 1.0) == w;
  }
}

=== FILE: grouping.dfy ===
/** What `split_by_suits` / `split_by_ranks` compute: one group per key that
    occurs, holding exactly the cards with that key in their input order;
    over rank-sorted cards the rank groups come strongest first. */
module Grouping {
  import opened Cards
  import opened Ranking

  lemma {:induction false} FilterMembers(cards: seq<Card>, k: int, sp: Split)
    ensures forall x :: x in Filter(cards, k, sp) <==> x in cards && KeyOf(x, sp) == k
    decreases |cards|
  {
    if |cards| > 0 {
      var pre := cards[..|cards| - 1];
      FilterMembers(pre, k, sp);
      assert cards == pre + [cards[|cards| - 1]];
    }
  }

  lemma {:induction false} FilterSorted(cards: seq<Card>, k: int, sp: Split)
    requires SortedByRank(cards)
    ensures SortedByRank(Filter(cards, k, sp))
    decreases |cards|
  {
    if |cards| > 0 {
      var pre, last := cards[..|cards| - 1], cards[|cards| - 1];
      FilterSorted(pre, k, sp);
      FilterMembers(pre, k, sp);
      var f := Filter(pre, k, sp);
      assert forall x :: x in f ==> Le(x, last) by {
        forall x | x in f ensures Le(x, last) {
          var i :| 0 <= i < |pre| && pre[i] == x;
          assert cards[i] == x;
        }
      }
      assert forall i :: 0 <= i < |f| ==> f[i] in f;
    }
  }

  lemma {:induction false} FilterDistinct(cards: seq<Card>, k: int, sp: Split)
    requires Distinct(cards)
    ensures Distinct(Filter(cards, k, sp))
    decreases |cards|
  {
    if |cards| > 0 {
      var pre, last := cards[..|cards| - 1], cards[|cards| - 1];
      FilterDistinct(pre, k, sp);
      FilterMembers(pre, k, sp);
      var f := Filter(pre, k, sp);
      assert last !in pre;
      assert forall i :: 0 <= i < |f| ==> f[i] in f;
    }
  }

  /** A sequence with no element of key `k` filters to nothing. */
  lemma FilterNone(cards: seq<Card>, k: int, sp: Split)
    requires forall x :: x in cards ==> KeyOf(x, sp) != k
    ensures Filter(cards, k, sp) == []
  {
    FilterMembers(cards, k, sp);
  }

  lemma {:induction false} GroupIndexSpec(groups: seq<seq<Card>>, k: int, sp: Split)
    ensures GroupIndex(groups, k, sp) < |groups| <==>
      exists j :: 0 <= j < |groups| && |groups[j]| > 0 && GroupKey(groups[j], sp) == k
    ensures GroupIndex(groups, k, sp) < |groups| ==>
      |groups[GroupIndex(groups, k, sp)]| > 0 && GroupKey(groups[GroupIndex(groups, k, sp)], sp) == k
  {
    if |groups| > 0 && !(|groups[0]| > 0 && GroupKey(groups[0], sp) == k) {
      GroupIndexSpec(groups[1..], k, sp);
      if exists j :: 0 <= j < |groups| && |groups[j]| > 0 && GroupKey(groups[j], sp) == k {
        var j :| 0 <= j < |groups| && |groups[j]| > 0 && GroupKey(groups[j], sp) == k;
        assert groups[1..][j - 1] == groups[j];
      }
    }
  }

  /** `groups` is the dict `split_by_*` builds from `cards`: every group is
      non-empty and holds exactly the cards of its key, in order; no key has
      two groups; every card's key has a group. */
  ghost predicate GroupedAs(groups: seq<seq<Card>>, cards: seq<Card>, sp: Split) {
    && (forall i :: 0 <= i < |groups| ==>
          |groups[i]| > 0 && groups[i] == Filter(cards, GroupKey(groups[i], sp), sp))
    && (forall i, j :: 0 <= i < j < |groups| ==> GroupKey(groups[i], sp) != GroupKey(groups[j], sp))
    && (forall c :: c in cards ==> GroupIndex(groups, KeyOf(c, sp), sp) < |groups|)
  }

  /** Group keys strictly increase: over rank-sorted cards, strongest rank first. */
  ghost predicate KeysIncreasing(groups: seq<seq<Card>>, sp: Split) {
    forall i, j :: 0 <= i < j < |groups| ==> GroupKey(groups[i], sp) < GroupKey(groups[j], sp)
  }

  /** The step of the split loop when the card's key already has a group. */
  lemma AddToExisting(groups: seq<seq<Card>>, pre: seq<Card>, c: Card, sp: Split)
    requires GroupedAs(groups, pre, sp)
    requires GroupIndex(groups, KeyOf(c, sp), sp) < |groups|
    ensures GroupedAs(AddToGroups(groups, c, sp), pre + [c], sp)
    ensures KeysIncreasing(groups, sp) ==> KeysIncreasing(AddToGroups(groups, c, sp), sp)
  {
    var cards := pre + [c];
    assert cards[..|cards| - 1] == pre;
    var k := KeyOf(c, sp);
    var i := GroupIndex(groups, k, sp);
    GroupIndexSpec(groups, k, sp);
    var ng := groups[i := groups[i] + [c]];
    assert forall j :: 0 <= j < |ng| ==> GroupKey(ng[j], sp) == GroupKey(groups[j], sp);
    forall j | 0 <= j < |ng|
      ensures |ng[j]| > 0 && ng[j] == Filter(cards, GroupKey(ng[j], sp), sp)
    {
      if j != i {
        assert GroupKey(groups[j], sp) != k by {
          if j < i { assert GroupKey(groups[j], sp) != GroupKey(groups[i], sp); }
          else { assert GroupKey(groups[i], sp) != GroupKey(groups[j], sp); }
        }
      }
    }
    forall x | x in cards
      ensures GroupIndex(ng, KeyOf(x, sp), sp) < |ng|
    {
      GroupIndexSpec(groups, KeyOf(x, sp), sp);
      GroupIndexSpec(ng, KeyOf(x, sp), sp);
      if x in pre {
        var j :| 0 <= j < |groups| && |groups[j]| > 0 && GroupKey(groups[j], sp) == KeyOf(x, sp);
        assert |ng[j]| > 0 && GroupKey(ng[j], sp) == KeyOf(x, sp);
      } else {
        assert |ng[i]| > 0 && GroupKey(ng[i], sp) == KeyOf(x, sp);
      }
    }
  }

  /** A key with no group has no card. */
  lemma NoGroupNoCard(groups: seq<seq<Card>>, pre: seq<Card>, k: int, sp: Split)
    requires GroupedAs(groups, pre, sp)
    requires GroupIndex(groups, k, sp) == |groups|
    ensures forall x :: x in pre ==> KeyOf(x, sp) != k
  {
    forall x | x in pre ensures KeyOf(x, sp) != k {
      GroupIndexSpec(groups, KeyOf(x, sp), sp);
    }
  }

  /** The step of the split loop when the card opens a new group. */
  lemma AddToNew(groups: seq<seq<Card>>, pre: seq<Card>, c: Card, sp: Split)
    requires GroupedAs(groups, pre, sp)
    requires GroupIndex(groups, KeyOf(c, sp), sp) == |groups|
    ensures GroupedAs(AddToGroups(groups, c, sp), pre + [c], sp)
  {
    var k := KeyOf(c, sp);
    assert AddToGroups(groups, c, sp) == groups + [[c]];
    NoGroupNoCard(groups, pre, k, sp);
    NewGroupFilters(groups, pre, c, sp);
    NewGroupCovers(groups, pre, c, sp);
  }

  lemma NewGroupFilters(groups: seq<seq<Card>>, pre: seq<Card>, c: Card, sp: Split)
    requires GroupedAs(groups, pre, sp)
    requires forall x :: x in pre ==> KeyOf(x, sp) != KeyOf(c, sp)
    ensures var ng, cards := groups + [[c]], pre + [c];
      && (forall j :: 0 <= j < |ng| ==> |ng[j]| > 0 && ng[j] == Filter(cards, GroupKey(ng[j], sp), sp))
      && (forall i, j :: 0 <= i < j < |ng| ==> GroupKey(ng[i], sp) != GroupKey(ng[j], sp))
  {
    var cards := pre + [c];
    assert cards[..|cards| - 1] == pre;
    var k := KeyOf(c, sp);
    var ng := groups + [[c]];
    FilterNone(pre, k, sp);
    forall j | 0 <= j < |groups|
      ensures GroupKey(groups[j], sp) != k
    {
      assert groups[j][0] in groups[j];
      FilterMembers(pre, GroupKey(groups[j], sp), sp);
    }
    assert ng[|groups|] == [c];
  }

  lemma NewGroupCovers(groups: seq<seq<Card>>, pre: seq<Card>, c: Card, sp: Split)
    requires forall x :: x in pre ==> GroupIndex(groups, KeyOf(x, sp), sp) < |groups|
    ensures var ng := groups + [[c]];
      forall x :: x in pre + [c] ==> GroupIndex(ng, KeyOf(x, sp), sp) < |ng|
  {
    var ng := groups + [[c]];
    forall x | x in pre + [c]
      ensures GroupIndex(ng, KeyOf(x, sp), sp) < |ng|
    {
      GroupIndexSpec(ng, KeyOf(x, sp), sp);
      if x in pre {
        GroupIndexSpec(groups, KeyOf(x, sp), sp);
        var j :| 0 <= j < |groups| && |groups[j]| > 0 && GroupKey(groups[j], sp) == KeyOf(x, sp);
        assert ng[j] == groups[j];
      } else {
        assert ng[|groups|] == [c];
      }
    }
  }

  /** A new rank group opened by a card no stronger than any before it comes last. */
  lemma AddToNewIncreasing(groups: seq<seq<Card>>, pre: seq<Card>, c: Card)
    requires GroupedAs(groups, pre, ByRank) && KeysIncreasing(groups, ByRank)
    requires GroupIndex(groups, c.rank, ByRank) == |groups|
    requires forall x :: x in pre ==> Le(x, c)
    ensures KeysIncreasing(AddToGroups(groups, c, ByRank), ByRank)
  {
    GroupIndexSpec(groups, c.rank, ByRank);
    assert AddToGroups(groups, c, ByRank) == groups + [[c]];
    forall j | 0 <= j < |groups|
      ensures GroupKey(groups[j], ByRank) < c.rank
    {
      FilterMembers(pre, GroupKey(groups[j], ByRank), ByRank);
      assert groups[j][0] in Filter(pre, GroupKey(groups[j], ByRank), ByRank);
    }
  }

  lemma {:induction false} SplitByGrouped(cards: seq<Card>, sp: Split)
    ensures GroupedAs(SplitBy(cards, sp), cards, sp)
    ensures sp == ByRank && SortedByRank(cards) ==> KeysIncreasing(SplitBy(cards, sp), sp)
    decreases |cards|
  {
    if |cards| > 0 {
      var pre, c := cards[..|cards| - 1], cards[|cards| - 1];
      assert cards == pre + [c];
      SplitByGrouped(pre, sp);
      var groups := SplitBy(pre, sp);
      if SortedByRank(cards) {
        SortedInit(pre, c);
      }
      if GroupIndex(groups, KeyOf(c, sp), sp) < |groups| {
        AddToExisting(groups, pre, c, sp);
      } else {
        AddToNew(groups, pre, c, sp);
        if sp == ByRank && SortedByRank(cards) {
          AddToNewIncreasing(groups, pre, c);
        }
      }
    }
  }

  /** Without its last card a sorted list stays sorted, and the last card
      is at least every other. */
  lemma SortedInit(pre: seq<Card>, c: Card)
    requires SortedByRank(pre + [c])
    ensures SortedByRank(pre)
    ensures forall x :: x in pre ==> Le(x, c)
  {
    var cards := pre + [c];
    forall i, j | 0 <= i < j < |pre| ensures Le(pre[i], pre[j]) {
      assert pre[i] == cards[i] && pre[j] == cards[j];
    }
    forall x | x in pre ensures Le(x, c) {
      var m :| 0 <= m < |pre| && pre[m] == x;
      assert Le(cards[m], cards[|pre|]);
    }
  }

  /** Every card's key group is the filter of that key, and it is in the split. */
  lemma GroupOfCard(cards: seq<Card>, sp: Split, c: Card)
    requires c in cards
    ensures Filter(cards, KeyOf(c, sp), sp) in SplitBy(cards, sp)
  {
    SplitByGrouped(cards, sp);
    var groups := SplitBy(cards, sp);
    GroupIndexSpec(groups, KeyOf(c, sp), sp);
    var i := GroupIndex(groups, KeyOf(c, sp), sp);
    assert groups[i] == Filter(cards, KeyOf(c, sp), sp);
  }

  /** Filtering a split keeps keys increasing. */
  lemma {:induction false} GroupsOfSizeIncreasing(groups: seq<seq<Card>>, n: nat, sp: Split)
    requires KeysIncreasing(groups, sp)
    ensures KeysIncreasing(GroupsOfSize(groups, n), sp)
  {
    if |groups| > 0 {
      TailIncreasing(groups, sp);
      GroupsOfSizeIncreasing(groups[1..], n, sp);
      var rest := GroupsOfSize(groups[1..], n);
      assert GroupsOfSize(groups, n) == (if |groups[0]| == n then [groups[0]] else []) + rest;
      if |groups[0]| == n {
        PrependIncreasing(groups[0], rest, sp);
      }
    }
  }

  /** The groups after the first keep increasing keys, all above the
      first's. */
  lemma TailIncreasing(groups: seq<seq<Card>>, sp: Split)
    requires |groups| > 0 && KeysIncreasing(groups, sp)
    ensures KeysIncreasing(groups[1..], sp)
    ensures forall g :: g in groups[1..] ==> GroupKey(groups[0], sp) < GroupKey(g, sp)
  {
    forall g | g in groups[1..] ensures GroupKey(groups[0], sp) < GroupKey(g, sp) {
      var j :| 0 <= j < |groups[1..]| && groups[1..][j] == g;
      assert groups[j + 1] == g;
    }
  }

  /** A group whose key is below every key of an increasing list keeps it
      increasing when put in front. */
  lemma PrependIncreasing(x: seq<Card>, rest: seq<seq<Card>>, sp: Split)
    requires KeysIncreasing(rest, sp)
    requires forall g :: g in rest ==> GroupKey(x, sp) < GroupKey(g, sp)
    ensures KeysIncreasing([x] + rest, sp)
  {
    var all := [x] + rest;
    forall i, j | 0 <= i < j < |all| ensures GroupKey(all[i], sp) < GroupKey(all[j], sp) {
      assert all[j] == rest[j - 1];
      if i == 0 {
        assert rest[j - 1] in rest;
      } else {
        assert all[i] == rest[i - 1];
      }
    }
  }
}

=== FILE: hand_composition.dfy ===
/** The cards `_calc_hand` picks, compared with independent definitions:
    the cards of a rank or a suit as sets, the strongest remaining cards as
    kickers, and the five-card size of every hand ranked from five or more
    distinct cards. */
module HandComposition {
  import opened Results
  import opened Cards
  import opened Ranking
  import opened Grouping
  import opened HandOrder
  import opened HandShapes

  ghost function SetOf(s: seq<Card>): set<Card> {
    set x | x in s
  }

  /** The input cards of rank `r`. */
  ghost function OfRank(cards: seq<Card>, r: Rank): set<Card> {
    set x | x in cards && x.rank == r
  }

  /** The input cards of suit `s`. */
  ghost function OfSuit(cards: seq<Card>, s: Suit): set<Card> {
    set x | x in cards && x.suit == s
  }

  // ---------------------------------------------------------------------
  // Counting
  // ---------------------------------------------------------------------

  lemma {:induction false} SetOfSize(s: seq<Card>)
    ensures |SetOf(s)| <= |s|
    ensures Distinct(s) ==> |SetOf(s)| == |s|
  {
    if |s| > 0 {
      SetOfSize(s[1..]);
      assert SetOf(s) == {s[0]} + SetOf(s[1..]);
      if Distinct(s) {
        assert s[0] !in SetOf(s[1..]);
      }
    }
  }

  /** Removing the made cards from distinct cards removes at most `|made|` of them. */
  lemma NotInSize(s: seq<Card>, m: seq<Card>)
    requires Distinct(s)
    ensures |NotIn(s, m)| >= |s| - |m|
  {
    var n := NotIn(s, m);
    SetOfSize(s);
    SetOfSize(m);
    SetOfSize(n);
    assert SetOf(s) <= SetOf(n) + SetOf(m);
    SubsetSize(SetOf(s), SetOf(n) + SetOf(m));
  }

  lemma NotInNone(s: seq<Card>, m: seq<Card>)
    requires forall x :: x in s ==> x !in m
    ensures NotIn(s, m) == s
  {
  }

  /** Distinct cards of one rank are at most four: one per suit. */
  lemma AtMostFourOfRank(g: seq<Card>, r: Rank)
    requires Distinct(g) && forall x :: x in g ==> x.rank == r
    ensures |g| <= 4
  {
    var all := {Card(r, 0), Card(r, 1), Card(r, 2), Card(r, 3)};
    assert SetOf(g) <= all by {
      forall x | x in SetOf(g) ensures x in all {
        assert x == Card(r, x.suit);
      }
    }
    SubsetSize(SetOf(g), all);
    SetOfSize(g);
  }

  // ---------------------------------------------------------------------
  // Groups against the reference sets
  // ---------------------------------------------------------------------

  /** Sorting keeps the cards of every rank and every suit. */
  lemma SortedSets(cards: seq<Card>)
    ensures forall r: Rank :: OfRank(SortByRank(cards), r) == OfRank(cards, r)
    ensures forall s: Suit :: OfSuit(SortByRank(cards), s) == OfSuit(cards, s)
    ensures Distinct(cards) ==> Distinct(SortByRank(cards))
  {
    SortedMembers(cards);
    if Distinct(cards) {
      DistinctSortByRank(cards);
    }
  }

  /** A key's filter holds exactly the cards of that key. */
  lemma FilterIsKeySet(sorted: seq<Card>, k: int, sp: Split)
    ensures SetOf(Filter(sorted, k, sp)) == set x | x in sorted && KeyOf(x, sp) == k
    ensures Distinct(sorted) ==> |Filter(sorted, k, sp)| == |set x | x in sorted && KeyOf(x, sp) == k|
  {
    FilterMembers(sorted, k, sp);
    if Distinct(sorted) {
      FilterDistinct(sorted, k, sp);
      SetOfSize(Filter(sorted, k, sp));
    }
  }

  lemma OfRankIsKeySet(cards: seq<Card>, r: Rank)
    ensures OfRank(cards, r) == set x | x in cards && KeyOf(x, ByRank) == r
  {
  }

  lemma OfSuitIsKeySet(cards: seq<Card>, s: Suit)
    ensures OfSuit(cards, s) == set x | x in cards && KeyOf(x, BySuit) == s
  {
  }

  /** A rank group of `n` cards is the set of cards of its rank. */
  lemma RankGroupIsOfRank(sorted: seq<Card>, n: nat, g: seq<Card>)
    requires SortedByRank(sorted) && Distinct(sorted)
    requires g in GroupsOfSize(SplitBy(sorted, ByRank), n)
    ensures |g| == n > 0 && SetOf(g) == OfRank(sorted, g[0].rank) && |OfRank(sorted, g[0].rank)| == n
  {
    SplitMemberFilter(sorted, ByRank, g);
    FilterIsKeySet(sorted, g[0].rank, ByRank);
    OfRankIsKeySet(sorted, g[0].rank);
  }

  /** Every rank with `n > 0` cards has its group among the rank groups of size `n`. */
  lemma OfRankHasGroup(sorted: seq<Card>, r: Rank, n: nat)
    requires Distinct(sorted)
    requires |OfRank(sorted, r)| == n > 0
    ensures exists j ::
      && 0 <= j < |GroupsOfSize(SplitBy(sorted, ByRank), n)|
      && GroupKey(GroupsOfSize(SplitBy(sorted, ByRank), n)[j], ByRank) == r
  {
    var x :| x in OfRank(sorted, r);
    GroupOfCard(sorted, ByRank, x);
    var g := Filter(sorted, r, ByRank);
    FilterIsKeySet(sorted, r, ByRank);
    OfRankIsKeySet(sorted, r);
    FilterMembers(sorted, r, ByRank);
    var groups := GroupsOfSize(SplitBy(sorted, ByRank), n);
    assert |g| == n;
    assert g[0] in g;
    assert GroupKey(g, ByRank) == r;
    assert g in groups;
    var j :| 0 <= j < |groups| && groups[j] == g;
    assert GroupKey(groups[j], ByRank) == r;
  }

  // ---------------------------------------------------------------------
  // Kickers and completeness
  // ---------------------------------------------------------------------

  lemma NotInLeading(s: seq<Card>)
    requires |s| > 0 && s[0] !in s[1..]
    ensures NotIn(s, [s[0]]) == s[1..]
  {
    NotInNone(s[1..], [s[0]]);
  }

  lemma HighCardKickers(sorted: seq<Card>)
    requires |sorted| > 0 && Distinct(sorted)
    ensures sorted[1..Min(5, |sorted|)] == Take(NotIn(sorted, [sorted[0]]), 4)
  {
    HeadNotInTail(sorted);
    KickersAfterHead(sorted);
  }

  lemma HeadNotInTail(s: seq<Card>)
    requires |s| > 0 && Distinct(s)
    ensures s[0] !in s[1..]
  {
    forall j | 0 <= j < |s| - 1 ensures s[1..][j] != s[0] {
      assert s[1..][j] == s[j + 1];
    }
  }

  lemma KickersAfterHead(sorted: seq<Card>)
    requires |sorted| > 0 && sorted[0] !in sorted[1..]
    ensures sorted[1..Min(5, |sorted|)] == Take(NotIn(sorted, [sorted[0]]), 4)
  {
    var rest := sorted[1..];
    NotInLeading(sorted);
    var k := Min(4, |rest|);
    var t := Take(rest, 4);
    assert |t| == k && t == rest[..k];
    assert Min(5, |sorted|) == k + 1;
    assert sorted[1..k + 1] == rest[..k];
  }

  lemma KickersBestSorted(sorted: seq<Card>)
    requires |sorted| > 0 && SortedByRank(sorted) && Distinct(sorted)
    ensures var h := Classify(Analyze(sorted));
      h.kickers == Take(NotIn(sorted, h.made), 5 - MadeSize(h.category))
  {
    ClassifyWellFormed(sorted);
    HighCardKickers(sorted);
  }

  /** For distinct cards, every category's kickers are the strongest cards
      outside the made hand, filling it up to five. */
  lemma KickersAreBestRest(cards: seq<Card>)
    requires |cards| > 0 && Distinct(cards)
    ensures var h := CalcHand(cards);
      h.kickers == Take(NotIn(SortByRank(cards), h.made), 5 - MadeSize(h.category))
  {
    var sorted := SortByRank(cards);
    SortedMembers(cards);
    DistinctSortByRank(cards);
    KickersBestSorted(sorted);
  }

  /** Kickers come from the input, never repeat a made card, and made cards
      plus kickers are at most five. */
  lemma KickersDisjoint(cards: seq<Card>)
    requires |cards| > 0 && Distinct(cards)
    ensures var h := CalcHand(cards);
      && (forall x :: x in h.kickers ==> x in cards && x !in h.made)
      && |h.made| + |h.kickers| <= 5
  {
    KickersAreBestRest(cards);
    CalcHandShape(cards);
    SortedMembers(cards);
    var h := CalcHand(cards);
    var rest := NotIn(SortByRank(cards), h.made);
    assert forall x :: x in h.kickers ==> x in rest;
  }

  /** From five or more distinct cards the ranker always builds a five-card
      hand, so the hand order is a strict weak order on such hands
      (`HandOrder.LtTransitive`, `HandOrder.EquivTransitive`). */
  lemma CompleteHand(cards: seq<Card>)
    requires |cards| >= 5 && Distinct(cards)
    ensures Complete(CalcHand(cards))
  {
    KickersAreBestRest(cards);
    CalcHandShape(cards);
    SortedMembers(cards);
    DistinctSortByRank(cards);
    NotInSize(SortByRank(cards), CalcHand(cards).made);
  }

  // ---------------------------------------------------------------------
  // Detection: what the input guarantees about the category
  // ---------------------------------------------------------------------

  /** What the category chain guarantees from the groups alone. */
  lemma ClassifyAtLeast(a: Analysis)
    requires a.Valid()
    ensures a.straightFlush.Some? ==> Classify(a).category == StraightFlush
    ensures |a.quads| > 0 ==> Strength(Classify(a).category) >= Strength(Quads)
    ensures |a.flushes| > 0 ==> Strength(Classify(a).category) >= Strength(Flush)
    ensures a.straight.Some? ==> Strength(Classify(a).category) >= Strength(Straight)
    ensures |a.pairs| > 0 || |a.trips| > 0 || |a.quads| > 0 ==> Classify(a).category != HighCard
  {
  }

  /** Two or more distinct cards of one rank make a rank group of 2, 3 or 4. */
  lemma SharedRankHasGroup(sorted: seq<Card>, r: Rank)
    requires |sorted| > 0 && Distinct(sorted) && |OfRank(sorted, r)| >= 2
    ensures var a := Analyze(sorted);
      |a.pairs| > 0 || |a.trips| > 0 || |a.quads| > 0
  {
    var n := |OfRank(sorted, r)|;
    var g := Filter(sorted, r, ByRank);
    FilterIsKeySet(sorted, r, ByRank);
    OfRankIsKeySet(sorted, r);
    FilterMembers(sorted, r, ByRank);
    FilterDistinct(sorted, r, ByRank);
    AtMostFourOfRank(g, r);
    OfRankHasGroup(sorted, r, n);
  }

  /** Two or more distinct cards of one rank always rank above high card. */
  lemma PairDetected(cards: seq<Card>, r: Rank)
    requires |cards| > 0 && Distinct(cards)
    requires |OfRank(cards, r)| >= 2
    ensures CalcHand(cards).category != HighCard
  {
    var sorted := SortByRank(cards);
    SortedSets(cards);
    SortedMembers(cards);
    SharedRankHasGroup(sorted, r);
    ClassifyAtLeast(Analyze(sorted));
  }

  /** Four cards of one rank always rank as quads or a straight flush. */
  lemma QuadsDetected(cards: seq<Card>, r: Rank)
    requires |cards| > 0 && Distinct(cards)
    requires |OfRank(cards, r)| == 4
    ensures Strength(CalcHand(cards).category) >= Strength(Quads)
  {
    var sorted := SortByRank(cards);
    SortedSets(cards);
    SortedMembers(cards);
    QuadsGroup(sorted, r);
  }

  lemma QuadsGroup(sorted: seq<Card>, r: Rank)
    requires |sorted| > 0 && Distinct(sorted) && |OfRank(sorted, r)| == 4
    ensures Strength(Classify(Analyze(sorted)).category) >= Strength(Quads)
  {
    OfRankHasGroup(sorted, r, 4);
    var a := Analyze(sorted);
    assert |a.quads| > 0;
    ClassifyAtLeast(a);
  }

  /** At most four cards share a rank: one per suit. */
  lemma OfRankAtMostFour(cards: seq<Card>, r: Rank)
    ensures |OfRank(cards, r)| <= 4
  {
    var all := {Card(r, 0), Card(r, 1), Card(r, 2), Card(r, 3)};
    assert OfRank(cards, r) <= all by {
      forall x | x in OfRank(cards, r) ensures x in all {
        assert x == Card(r, x.suit);
      }
    }
    SubsetSize(OfRank(cards, r), all);
  }

  /** The index of the rank group of `r` among the groups of its size. */
  lemma GroupIndexOf(sorted: seq<Card>, r: Rank, n: nat) returns (j: nat)
    requires Distinct(sorted)
    requires |OfRank(sorted, r)| == n > 0
    ensures j < |GroupsOfSize(SplitBy(sorted, ByRank), n)|
    ensures GroupKey(GroupsOfSize(SplitBy(sorted, ByRank), n)[j], ByRank) == r
  {
    OfRankHasGroup(sorted, r, n);
    j :| 0 <= j < |GroupsOfSize(SplitBy(sorted, ByRank), n)|
      && GroupKey(GroupsOfSize(SplitBy(sorted, ByRank), n)[j], ByRank) == r;
  }

  /** Two ranks with the same number of cards make two groups of that size. */
  lemma TwoGroupsOfSize(sorted: seq<Card>, r1: Rank, r2: Rank, n: nat)
    requires Distinct(sorted) && r1 != r2
    requires |OfRank(sorted, r1)| == n > 0 && |OfRank(sorted, r2)| == n
    ensures |GroupsOfSize(SplitBy(sorted, ByRank), n)| >= 2
  {
    var j1 := GroupIndexOf(sorted, r1, n);
    var j2 := GroupIndexOf(sorted, r2, n);
    assert j1 != j2;
  }

  /** Three or four cards of one rank: a trips or quads group. */
  lemma ThreeOfRankGroups(sorted: seq<Card>, r: Rank)
    requires |sorted| > 0 && Distinct(sorted) && |OfRank(sorted, r)| >= 3
    ensures var a := Analyze(sorted); |a.trips| > 0 || |a.quads| > 0
  {
    OfRankAtMostFour(sorted, r);
    if |OfRank(sorted, r)| == 3 {
      GroupOfSizeExists(sorted, r, 3);
    } else {
      GroupOfSizeExists(sorted, r, 4);
    }
  }

  lemma AtLeastTrips(a: Analysis)
    requires a.Valid() && (|a.trips| > 0 || |a.quads| > 0)
    ensures Strength(Classify(a).category) >= Strength(Trips)
  {
  }

  lemma TripsSorted(sorted: seq<Card>, r: Rank)
    requires |sorted| > 0 && Distinct(sorted) && |OfRank(sorted, r)| >= 3
    ensures Strength(Classify(Analyze(sorted)).category) >= Strength(Trips)
  {
    ThreeOfRankGroups(sorted, r);
    AtLeastTrips(Analyze(sorted));
  }

  /** Three or more distinct cards of one rank always rank at least trips. */
  lemma TripsDetected(cards: seq<Card>, r: Rank)
    requires |cards| > 0 && Distinct(cards)
    requires |OfRank(cards, r)| >= 3
    ensures Strength(CalcHand(cards).category) >= Strength(Trips)
  {
    var sorted := SortByRank(cards);
    SortedSets(cards);
    SortedMembers(cards);
    TripsSorted(sorted, r);
  }

  /** Two ranks with the same number of cards: two groups of that size. */
  lemma SameCountGroups(sorted: seq<Card>, r1: Rank, r2: Rank)
    requires Distinct(sorted) && r1 != r2
    requires 2 <= |OfRank(sorted, r1)| == |OfRank(sorted, r2)|
    ensures var g, n := SplitBy(sorted, ByRank), |OfRank(sorted, r1)|;
      && (n == 4 ==> |GroupsOfSize(g, 4)| > 0)
      && (n == 3 ==> |GroupsOfSize(g, 3)| >= 2)
      && (n == 2 ==> |GroupsOfSize(g, 2)| >= 2)
  {
    TwoGroupsOfSize(sorted, r1, r2, |OfRank(sorted, r1)|);
  }

  /** A rank with `n` cards has a group among the groups of size `n`. */
  lemma GroupOfSizeExists(sorted: seq<Card>, r: Rank, n: nat)
    requires Distinct(sorted) && |OfRank(sorted, r)| == n > 0
    ensures |GroupsOfSize(SplitBy(sorted, ByRank), n)| > 0
  {
    var j := GroupIndexOf(sorted, r, n);
  }

  /** The rank groups two shared ranks make: two pairs at least, and a full
      house when the first rank has three or more cards. */
  lemma TwoRanksGroups(sorted: seq<Card>, r1: Rank, r2: Rank)
    requires |sorted| > 0 && Distinct(sorted) && r1 != r2
    requires |OfRank(sorted, r1)| >= 2 && |OfRank(sorted, r2)| >= 2
    ensures var a := Analyze(sorted);
      |a.quads| > 0 || (|a.trips| > 0 && |a.trips| + |a.pairs| >= 2) || |a.pairs| >= 2
    ensures var a := Analyze(sorted);
      |OfRank(sorted, r1)| >= 3 ==> |a.quads| > 0 || (|a.trips| > 0 && |a.trips| + |a.pairs| >= 2)
  {
    var n1, n2 := |OfRank(sorted, r1)|, |OfRank(sorted, r2)|;
    OfRankAtMostFour(sorted, r1);
    OfRankAtMostFour(sorted, r2);
    var a := Analyze(sorted);
    var g := SplitBy(sorted, ByRank);
    assert a.quads == GroupsOfSize(g, 4) && a.trips == GroupsOfSize(g, 3) && a.pairs == GroupsOfSize(g, 2);
    if n1 == n2 {
      SameCountGroups(sorted, r1, r2);
    } else {
      if n1 == 4 {
        GroupOfSizeExists(sorted, r1, 4);
      } else if n2 == 4 {
        GroupOfSizeExists(sorted, r2, 4);
      } else if n1 == 3 {
        GroupOfSizeExists(sorted, r1, 3);
        GroupOfSizeExists(sorted, r2, 2);
      } else {
        GroupOfSizeExists(sorted, r1, 2);
        GroupOfSizeExists(sorted, r2, 3);
      }
    }
  }

  /** What the category chain guarantees from two shared ranks. */
  lemma AtLeastTwoPair(a: Analysis)
    requires a.Valid()
    requires |a.quads| > 0 || (|a.trips| > 0 && |a.trips| + |a.pairs| >= 2) || |a.pairs| >= 2
    ensures Strength(Classify(a).category) >= Strength(TwoPair)
  {
  }

  lemma AtLeastFullHouse(a: Analysis)
    requires a.Valid()
    requires |a.quads| > 0 || (|a.trips| > 0 && |a.trips| + |a.pairs| >= 2)
    ensures Strength(Classify(a).category) >= Strength(FullHouse)
  {
  }

  lemma TwoPairSorted(sorted: seq<Card>, r1: Rank, r2: Rank)
    requires |sorted| > 0 && Distinct(sorted) && r1 != r2
    requires |OfRank(sorted, r1)| >= 2 && |OfRank(sorted, r2)| >= 2
    ensures Strength(Classify(Analyze(sorted)).category) >= Strength(TwoPair)
  {
    TwoRanksGroups(sorted, r1, r2);
    AtLeastTwoPair(Analyze(sorted));
  }

  lemma FullHouseFromRanks(sorted: seq<Card>, r1: Rank, r2: Rank)
    requires |sorted| > 0 && Distinct(sorted) && r1 != r2
    requires |OfRank(sorted, r1)| >= 3 && |OfRank(sorted, r2)| >= 2
    ensures Strength(Classify(Analyze(sorted)).category) >= Strength(FullHouse)
  {
    TwoRanksGroups(sorted, r1, r2);
    AtLeastFullHouse(Analyze(sorted));
  }

  /** Two different ranks with two or more distinct cards each always rank
      at least two pair. */
  lemma TwoPairDetected(cards: seq<Card>, r1: Rank, r2: Rank)
    requires |cards| > 0 && Distinct(cards) && r1 != r2
    requires |OfRank(cards, r1)| >= 2 && |OfRank(cards, r2)| >= 2
    ensures Strength(CalcHand(cards).category) >= Strength(TwoPair)
  {
    var sorted := SortByRank(cards);
    SortedSets(cards);
    SortedMembers(cards);
    TwoPairSorted(sorted, r1, r2);
  }

  /** Three cards of one rank and two of another always rank at least a
      full house. */
  lemma FullHouseDetected(cards: seq<Card>, r1: Rank, r2: Rank)
    requires |cards| > 0 && Distinct(cards) && r1 != r2
    requires |OfRank(cards, r1)| >= 3 && |OfRank(cards, r2)| >= 2
    ensures Strength(CalcHand(cards).category) >= Strength(FullHouse)
  {
    var sorted := SortByRank(cards);
    SortedSets(cards);
    SortedMembers(cards);
    FullHouseFromRanks(sorted, r1, r2);
  }

  lemma SuitHasGroup(sorted: seq<Card>, s: Suit)
    requires |sorted| > 0 && |OfSuit(sorted, s)| >= 5
    ensures Strength(Classify(Analyze(sorted)).category) >= Strength(Flush)
  {
    var x :| x in OfSuit(sorted, s);
    GroupOfCard(sorted, BySuit, x);
    var g := Filter(sorted, s, BySuit);
    FilterIsKeySet(sorted, s, BySuit);
    OfSuitIsKeySet(sorted, s);
    SetOfSize(g);
    assert g in GroupsAtLeast(SplitBy(sorted, BySuit), 5);
    var a := Analyze(sorted);
    assert |a.flushes| > 0;
    ClassifyAtLeast(a);
  }

  /** Five cards of one suit always rank at least a flush. */
  lemma FlushDetected(cards: seq<Card>, s: Suit)
    requires |cards| > 0
    requires |OfSuit(cards, s)| >= 5
    ensures Strength(CalcHand(cards).category) >= Strength(Flush)
  {
    var sorted := SortByRank(cards);
    SortedSets(cards);
    SortedMembers(cards);
    SuitHasGroup(sorted, s);
  }

  // ---------------------------------------------------------------------
  // Composition of particular categories
  // ---------------------------------------------------------------------

  /** `m` is five cards of one suit, and every other card of that suit in
      `cards` is weaker than each of them. */
  ghost predicate TopOfSuit(m: seq<Card>, cards: seq<Card>) {
    && |m| == 5
    && SetOf(m) <= OfSuit(cards, m[0].suit)
    && forall x, y :: x in OfSuit(cards, m[0].suit) && x !in m && y in m ==> y.rank < x.rank
  }

  lemma TopFiveOfSuitGroup(sorted: seq<Card>, f: seq<Card>)
    requires SortedByRank(sorted) && Distinct(sorted)
    requires f in GroupsAtLeast(SplitBy(sorted, BySuit), 5)
    ensures TopOfSuit(f[..5], sorted)
  {
    SplitMember(sorted, BySuit, f);
    SplitMemberFilter(sorted, BySuit, f);
    var m := f[..5];
    FilterIsKeySet(sorted, f[0].suit, BySuit);
    OfSuitIsKeySet(sorted, f[0].suit);
    assert m[0] == f[0];
    forall x, y | x in OfSuit(sorted, m[0].suit) && x !in m && y in m
      ensures y.rank < x.rank
    {
      assert x in SetOf(f);
      var j :| 0 <= j < |f| && f[j] == x;
      var i :| 0 <= i < 5 && m[i] == y;
      assert j >= 5 by {
        assert forall k :: 0 <= k < 5 ==> m[k] == f[k];
      }
      assert y == f[i] && y in f;
      assert y.suit == f[0].suit == x.suit;
      assert Le(f[i], f[j]) && f[i] != f[j];
    }
  }

  lemma FlushTopSorted(sorted: seq<Card>)
    requires |sorted| > 0 && SortedByRank(sorted) && Distinct(sorted)
    requires Classify(Analyze(sorted)).category == Flush
    ensures TopOfSuit(Classify(Analyze(sorted)).made, sorted)
  {
    var a := Analyze(sorted);
    assert a.flushes[0] in a.flushes;
    TopFiveOfSuitGroup(sorted, a.flushes[0]);
  }

  /** A flush is the top five cards of its suit: every other card of that
      suit is weaker than each of them. */
  lemma FlushIsTopFive(cards: seq<Card>)
    requires |cards| > 0 && Distinct(cards)
    requires CalcHand(cards).category == Flush
    ensures TopOfSuit(CalcHand(cards).made, cards)
  {
    var sorted := SortByRank(cards);
    SortedSets(cards);
    FlushTopSorted(sorted);
  }

  lemma NoSharedRank(sorted: seq<Card>)
    requires |sorted| > 0 && Distinct(sorted)
    requires var a := Analyze(sorted); |a.pairs| == 0 && |a.trips| == 0 && |a.quads| == 0
    ensures forall x, y :: x in sorted && y in sorted && x.rank == y.rank ==> x == y
  {
    forall x, y | x in sorted && y in sorted && x.rank == y.rank
      ensures x == y
    {
      if x != y {
        TwoOfRank(sorted, x, y);
        SharedRankHasGroup(sorted, x.rank);
      }
    }
  }

  lemma TwoOfRank(sorted: seq<Card>, x: Card, y: Card)
    requires x in sorted && y in sorted && x.rank == y.rank && x != y
    ensures |OfRank(sorted, x.rank)| >= 2
  {
    assert {x, y} <= OfRank(sorted, x.rank);
    SubsetSize({x, y}, OfRank(sorted, x.rank));
  }

  lemma HighCardSorted(sorted: seq<Card>)
    requires |sorted| > 0 && SortedByRank(sorted)
    requires Classify(Analyze(sorted)).category == HighCard
    ensures Classify(Analyze(sorted)).made == [sorted[0]]
    ensures Distinct(sorted) ==> forall x, y :: x in sorted && y in sorted && x.rank == y.rank ==> x == y
  {
    ClassifyWellFormed(sorted);
    if Distinct(sorted) {
      ClassifyAtLeast(Analyze(sorted));
      NoSharedRank(sorted);
    }
  }

  /** The high card is the strongest input card, and distinct cards that
      rank only a high card share no rank. */
  lemma HighCardIsTop(cards: seq<Card>)
    requires |cards| > 0
    ensures CalcHand(cards).category == HighCard ==>
      |CalcHand(cards).made| > 0 && forall x :: x in cards ==> Le(CalcHand(cards).made[0], x)
    ensures CalcHand(cards).category == HighCard && Distinct(cards) ==>
      forall x, y :: x in cards && y in cards && x.rank == y.rank ==> x == y
  {
    if CalcHand(cards).category == HighCard {
      var sorted := SortByRank(cards);
      SortedSets(cards);
      SortedMembers(cards);
      HighCardSorted(sorted);
      HeadIsLeast(sorted);
    }
  }

  /** The head of a sorted list is at most every member. */
  lemma HeadIsLeast(sorted: seq<Card>)
    requires |sorted| > 0 && SortedByRank(sorted)
    ensures forall x :: x in sorted ==> Le(sorted[0], x)
  {
    forall x | x in sorted ensures Le(sorted[0], x) {
      var i :| 0 <= i < |sorted| && sorted[i] == x;
      if i > 0 { assert Le(sorted[0], sorted[i]); }
    }
  }

  /** `m` is a full house of the strongest trips in `cards` (rank `t`) and
      the strongest other set (rank `p`): the top two cards of a second
      trips when there is one, else the strongest pair. */
  ghost predicate BestFullHouse(m: seq<Card>, cards: seq<Card>) {
    |m| == 5 &&
    var t, p := m[0].rank, m[3].rank;
    && OfRank(cards, t) == SetOf(m[..3])
    && (forall r: Rank :: |OfRank(cards, r)| == 3 ==> t <= r)
    && SetOf(m[3..]) <= OfRank(cards, p) && p != t
    && ((|OfRank(cards, p)| == 3 && forall r: Rank :: r != t && |OfRank(cards, r)| == 3 ==> p <= r)
     || ((forall r: Rank :: |OfRank(cards, r)| == 3 ==> r == t)
         && |OfRank(cards, p)| == 2 && forall r: Rank :: |OfRank(cards, r)| == 2 ==> p <= r))
  }

  /** The lowest key among the rank groups of size `n` is the strongest rank
      with `n` cards, and the next one the strongest after it. */
  lemma FirstKeysSmallest(sorted: seq<Card>, n: nat, r: Rank)
    requires SortedByRank(sorted) && Distinct(sorted)
    requires |OfRank(sorted, r)| == n > 0
    ensures var groups := GroupsOfSize(SplitBy(sorted, ByRank), n);
      && |groups| > 0 && GroupKey(groups[0], ByRank) <= r
      && (r != GroupKey(groups[0], ByRank) ==> |groups| > 1 && GroupKey(groups[1], ByRank) <= r)
  {
    var groups := GroupsOfSize(SplitBy(sorted, ByRank), n);
    RankGroupsOrdered(sorted, n);
    OfRankHasGroup(sorted, r, n);
    var j :| 0 <= j < |groups| && GroupKey(groups[j], ByRank) == r;
  }

  lemma FullHouseTwoTrips(sorted: seq<Card>, trips: seq<seq<Card>>)
    requires SortedByRank(sorted) && Distinct(sorted)
    requires trips == GroupsOfSize(SplitBy(sorted, ByRank), 3) && |trips| > 1
    ensures BestFullHouse(trips[0] + trips[1][..2], sorted)
  {
    var m := trips[0] + trips[1][..2];
    assert trips[0] in trips && trips[1] in trips;
    RankGroupIsOfRank(sorted, 3, trips[0]);
    RankGroupIsOfRank(sorted, 3, trips[1]);
    RankGroupsOrdered(sorted, 3);
    assert m[..3] == trips[0] && m[3..] == trips[1][..2];
    assert m[0] == trips[0][0] && m[3] == trips[1][0];
    var t, p := m[0].rank, m[3].rank;
    assert SetOf(m[3..]) <= SetOf(trips[1]);
    forall r: Rank | |OfRank(sorted, r)| == 3 ensures t <= r && (r != t ==> p <= r) {
      FirstKeysSmallest(sorted, 3, r);
    }
  }

  lemma FullHouseTripsPair(sorted: seq<Card>, trips: seq<seq<Card>>, pairs: seq<seq<Card>>)
    requires SortedByRank(sorted) && Distinct(sorted)
    requires trips == GroupsOfSize(SplitBy(sorted, ByRank), 3) && |trips| == 1
    requires pairs == GroupsOfSize(SplitBy(sorted, ByRank), 2) && |pairs| > 0
    ensures BestFullHouse(trips[0] + pairs[0], sorted)
  {
    var m := trips[0] + pairs[0];
    assert trips[0] in trips && pairs[0] in pairs;
    RankGroupIsOfRank(sorted, 3, trips[0]);
    RankGroupIsOfRank(sorted, 2, pairs[0]);
    assert m[..3] == trips[0] && m[3..] == pairs[0];
    assert m[0] == trips[0][0] && m[3] == pairs[0][0];
    var t, p := m[0].rank, m[3].rank;
    forall r: Rank | |OfRank(sorted, r)| == 3 ensures r == t {
      FirstKeysSmallest(sorted, 3, r);
    }
    forall r: Rank | |OfRank(sorted, r)| == 2 ensures p <= r {
      FirstKeysSmallest(sorted, 2, r);
    }
  }

  lemma FullHouseSorted(sorted: seq<Card>)
    requires |sorted| > 0 && SortedByRank(sorted) && Distinct(sorted)
    requires Classify(Analyze(sorted)).category == FullHouse
    ensures BestFullHouse(Classify(Analyze(sorted)).made, sorted)
  {
    var a := Analyze(sorted);
    if |a.trips| > 1 {
      FullHouseTwoTrips(sorted, a.trips);
    } else {
      FullHouseTripsPair(sorted, a.trips, a.pairs);
    }
  }

  lemma BestFullHouseSameSets(m: seq<Card>, s1: seq<Card>, s2: seq<Card>)
    requires forall r: Rank :: OfRank(s1, r) == OfRank(s2, r)
    requires BestFullHouse(m, s1)
    ensures BestFullHouse(m, s2)
  {
  }

  /** A full house is the strongest trips plus the strongest second set: the
      top two cards of a second trips when there is one, else the strongest pair. */
  lemma FullHouseIsBest(cards: seq<Card>)
    requires |cards| > 0 && Distinct(cards)
    requires CalcHand(cards).category == FullHouse
    ensures BestFullHouse(CalcHand(cards).made, cards)
  {
    var sorted := SortByRank(cards);
    SortedSets(cards);
    FullHouseSorted(sorted);
    BestFullHouseSameSets(CalcHand(cards).made, sorted, cards);
  }

  /** The ranker sorts first, so the order of the input cards never matters:
      hole cards and board may be given in any order. */
  lemma CalcHandOrderFree(c1: seq<Card>, c2: seq<Card>)
    requires |c1| > 0 && multiset(c1) == multiset(c2)
    ensures |c2| > 0 && CalcHand(c1) == CalcHand(c2)
  {
    assert |c2| == |multiset(c2)| == |multiset(c1)| == |c1|;
    SortByRankOfPermutation(c1, c2);
  }
}

=== FILE: hand_order.dfy ===
/** Laws of the order `EvalHand.__lt__` / `__eq__` places on ranked hands.

    `compare_by_ranks` zips its arguments, so it only looks at the common
    prefix; the hand order is therefore a strict weak order only on hands
    whose made cards and kickers have the lengths their category implies —
    which is what the ranker produces from five or more distinct cards
    (`HandComposition.CompleteHand`). */
module HandOrder {
  import opened Cards
  import opened Ranking

  function RanksOf(s: seq<Card>): (r: seq<Rank>)
    ensures |r| == |s|
    ensures forall i :: 0 <= i < |s| ==> r[i] == s[i].rank
  {
    if |s| == 0 then [] else [s[0].rank] + RanksOf(s[1..])
  }

  /** Number of made cards the ranker lays out for each category. */
  function MadeSize(c: Category): (n: nat)
    ensures 1 <= n <= 5
  {
    match c
    case StraightFlush => 5
    case Quads => 4
    case FullHouse => 5
    case Flush => 5
    case Straight => 5
    case Trips => 3
    case TwoPair => 4
    case Pair => 2
    case HighCard => 1
  }

  /** A five-card hand: made cards of the category's size, kickers filling up to five. */
  ghost predicate Complete(h: EvalHand) {
    |h.made| == MadeSize(h.category) && |h.kickers| == 5 - MadeSize(h.category)
  }

  // ---------------------------------------------------------------------
  // compare_by_ranks
  // ---------------------------------------------------------------------

  /** Swapping the arguments negates the comparison. */
  lemma {:induction false} CompareByRanksAntisymmetric(a: seq<Card>, b: seq<Card>)
    ensures CompareByRanks(a, b) == -CompareByRanks(b, a)
  {
    if |a| > 0 && |b| > 0 && a[0].rank == b[0].rank {
      CompareByRanksAntisymmetric(a[1..], b[1..]);
    }
  }

  /** Only ranks matter: suits never break a tie. */
  lemma {:induction false} CompareByRanksOnlyRanks(a: seq<Card>, a': seq<Card>, b: seq<Card>)
    requires RanksOf(a) == RanksOf(a')
    ensures CompareByRanks(a, b) == CompareByRanks(a', b)
  {
    if |a| > 0 && |b| > 0 {
      assert a[0].rank == RanksOf(a)[0] == a'[0].rank;
      assert RanksOf(a[1..]) == RanksOf(a')[1..] == RanksOf(a'[1..]) by {
        assert forall i :: 0 <= i < |a| - 1 ==> RanksOf(a[1..])[i] == a[i + 1].rank == a'[i + 1].rank;
      }
      CompareByRanksOnlyRanks(a[1..], a'[1..], b[1..]);
    }
  }

  /** On sequences of equal length, 0 means the rank sequences are identical. */
  lemma {:induction false} CompareByRanksZero(a: seq<Card>, b: seq<Card>)
    requires |a| == |b|
    ensures CompareByRanks(a, b) == 0 <==> RanksOf(a) == RanksOf(b)
  {
    if |a| > 0 {
      CompareByRanksZero(a[1..], b[1..]);
      if a[0].rank == b[0].rank {
        if RanksOf(a[1..]) == RanksOf(b[1..]) {
          assert RanksOf(a) == [a[0].rank] + RanksOf(a[1..]);
        } else {
          assert RanksOf(a)[1..] == RanksOf(a[1..]);
          assert RanksOf(b)[1..] == RanksOf(b[1..]);
        }
      } else {
        assert RanksOf(a)[0] != RanksOf(b)[0];
      }
    }
  }

  /** On sequences of equal length, "not stronger" chains, and the chain is
      strict as soon as one link is. */
  lemma {:induction false} CompareByRanksTransitive(a: seq<Card>, b: seq<Card>, c: seq<Card>)
    requires |a| == |b| == |c|
    requires CompareByRanks(a, b) <= 0 && CompareByRanks(b, c) <= 0
    ensures CompareByRanks(a, c) <= 0
    ensures CompareByRanks(a, b) < 0 || CompareByRanks(b, c) < 0 ==> CompareByRanks(a, c) < 0
  {
    if |a| > 0 && a[0].rank == b[0].rank && b[0].rank == c[0].rank {
      CompareByRanksTransitive(a[1..], b[1..], c[1..]);
    }
  }

  // ---------------------------------------------------------------------
  // The hand order
  // ---------------------------------------------------------------------

  lemma StrengthInjective(c: Category, d: Category)
    ensures Strength(c) == Strength(d) <==> c == d
  {
  }

  /** `h < h` never holds, so `h == h`. */
  lemma {:induction false} LtIrreflexive(h: EvalHand)
    ensures !Lt(h, h) && Equiv(h, h)
  {
    CompareByRanksAntisymmetric(h.made, h.made);
    CompareByRanksAntisymmetric(h.kickers, h.kickers);
  }

  /** `x < y` and `y < x` never both hold. */
  lemma LtAsymmetric(x: EvalHand, y: EvalHand)
    ensures !(Lt(x, y) && Lt(y, x))
  {
    CompareByRanksAntisymmetric(x.made, y.made);
    CompareByRanksAntisymmetric(x.kickers, y.kickers);
  }

  /** Exactly one of `x < y`, `y < x`, `x == y` holds. */
  lemma Trichotomy(x: EvalHand, y: EvalHand)
    ensures Lt(x, y) || Lt(y, x) || Equiv(x, y)
    ensures Equiv(x, y) ==> !Lt(x, y) && !Lt(y, x)
    ensures Equiv(x, y) <==> Equiv(y, x)
  {
  }

  /** Two hands with the same category and the same made-card and kicker
      ranks are equal whatever their suits. */
  lemma EqualRanksAreEquiv(x: EvalHand, y: EvalHand)
    requires x.category == y.category
    requires RanksOf(x.made) == RanksOf(y.made) && RanksOf(x.kickers) == RanksOf(y.kickers)
    ensures Equiv(x, y)
  {
    CompareByRanksOnlyRanks(x.made, y.made, y.made);
    CompareByRanksOnlyRanks(x.kickers, y.kickers, y.kickers);
    CompareByRanksOnlyRanks(y.made, x.made, x.made);
    CompareByRanksOnlyRanks(y.kickers, x.kickers, x.kickers);
    CompareByRanksAntisymmetric(y.made, y.made);
    CompareByRanksAntisymmetric(y.kickers, y.kickers);
    CompareByRanksAntisymmetric(x.made, x.made);
    CompareByRanksAntisymmetric(x.kickers, x.kickers);
  }

  /** On complete hands `==` holds exactly when category, made-card ranks and
      kicker ranks all agree. */
  lemma EquivIffSameRanks(x: EvalHand, y: EvalHand)
    requires Complete(x) && Complete(y)
    ensures Equiv(x, y) <==>
      x.category == y.category && RanksOf(x.made) == RanksOf(y.made) && RanksOf(x.kickers) == RanksOf(y.kickers)
  {
    if Equiv(x, y) {
      CompareByRanksAntisymmetric(x.made, y.made);
      CompareByRanksAntisymmetric(x.kickers, y.kickers);
      StrengthInjective(x.category, y.category);
      CompareByRanksZero(x.made, y.made);
      CompareByRanksZero(x.kickers, y.kickers);
    } else if x.category == y.category && RanksOf(x.made) == RanksOf(y.made) && RanksOf(x.kickers) == RanksOf(y.kickers) {
      EqualRanksAreEquiv(x, y);
    }
  }

  /** On complete hands `<` is transitive. */
  lemma LtTransitive(x: EvalHand, y: EvalHand, z: EvalHand)
    requires Complete(x) && Complete(y) && Complete(z)
    requires Lt(x, y) && Lt(y, z)
    ensures Lt(x, z)
  {
    if Strength(x.category) == Strength(y.category) == Strength(z.category) {
      StrengthInjective(x.category, y.category);
      StrengthInjective(y.category, z.category);
      if CompareByRanks(x.made, y.made) == 0 && CompareByRanks(y.made, z.made) == 0 {
        CompareByRanksTransitive(x.made, y.made, z.made);
        CompareByRanksTransitive(x.kickers, y.kickers, z.kickers);
      } else {
        CompareByRanksTransitive(x.made, y.made, z.made);
      }
    }
  }

  /** On complete hands `==` is transitive, so `<` is a strict weak order. */
  lemma EquivTransitive(x: EvalHand, y: EvalHand, z: EvalHand)
    requires Complete(x) && Complete(y) && Complete(z)
    requires Equiv(x, y) && Equiv(y, z)
    ensures Equiv(x, z)
  {
    EquivIffSameRanks(x, y);
    EquivIffSameRanks(y, z);
    EquivIffSameRanks(x, z);
  }

  /** On complete hands a hand equal to `a` beats whatever `a` beats, and
      loses to whatever beats `a`. */
  lemma LtRespectsEquiv(a: EvalHand, b: EvalHand, c: EvalHand)
    requires Complete(a) && Complete(b) && Complete(c)
    requires Equiv(a, b)
    ensures Lt(a, c) <==> Lt(b, c)
    ensures Lt(c, a) <==> Lt(c, b)
  {
    Trichotomy(b, c);
    Trichotomy(a, c);
    if Lt(a, c) && Lt(c, b) { LtTransitive(a, c, b); }
    if Lt(b, c) && Lt(c, a) { LtTransitive(b, c, a); }
    if Lt(c, a) && Lt(b, c) { LtTransitive(b, c, a); }
    if Lt(c, b) && Lt(a, c) { LtTransitive(a, c, b); }
    if Equiv(b, c) { EquivTransitive(a, b, c); }
    if Equiv(a, c) { Trichotomy(a, b); EquivTransitive(c, a, b); Trichotomy(c, b); }
  }

  /** A wheel (5-4-3-2-A) is below every other straight of its category:
      its top card is a five, and any other run of five tops out higher. */
  lemma WheelIsLowest(w: EvalHand, s: EvalHand)
    requires w.category == s.category
    requires IsWheel(w.made)
    requires |s.made| == 5 && IsRun(s.made)
    ensures Lt(w, s)
  {
    assert s.made[4].rank == s.made[0].rank + 4;
    assert s.made[0].rank < Five;
  }
}

=== FILE: hand_shapes.dfy ===
/** What `EvalHand._calc_hand` promises about the hand it returns: the made
    cards have the shape their category names, made cards and kickers come
    from the input, never overlap and are at most five together, and the
    kickers are the strongest remaining cards. */
module HandShapes {
  import opened Cards
  import opened Ranking
  import opened Grouping
  import opened HandOrder

  ghost predicate SameRank(s: seq<Card>) {
    forall i :: 0 <= i < |s| ==> s[i].rank == s[0].rank
  }

  ghost predicate SameSuit(s: seq<Card>) {
    forall i :: 0 <= i < |s| ==> s[i].suit == s[0].suit
  }

  /** Five cards in a row, or the wheel. */
  ghost predicate IsStraight(s: seq<Card>) {
    (|s| == 5 && IsRun(s)) || IsWheel(s)
  }

  /** The made cards look like their category. */
  ghost predicate Shaped(h: EvalHand) {
    var m := h.made;
    match h.category
    case StraightFlush => IsStraight(m) && SameSuit(m)
    case Quads => |m| == 4 && SameRank(m)
    case FullHouse => |m| == 5 && SameRank(m[..3]) && SameRank(m[3..]) && m[0].rank != m[3].rank
    case Flush => |m| == 5 && SameSuit(m)
    case Straight => IsStraight(m)
    case Trips => |m| == 3 && SameRank(m)
    case TwoPair => |m| == 4 && SameRank(m[..2]) && SameRank(m[2..]) && m[0].rank < m[2].rank
    case Pair => |m| == 2 && SameRank(m)
    case HighCard => |m| == 1
  }

  /** The first `n` elements of `s`, or all of them when there are fewer. */
  function Take(s: seq<Card>, n: nat): (r: seq<Card>)
    ensures |r| == Min(n, |s|)
    ensures r == s[..|r|]
  {
    if n <= |s| then s[..n] else s
  }

  // ---------------------------------------------------------------------
  // Groups
  // ---------------------------------------------------------------------

  /** A group of the split of rank-sorted cards is the filter of its key. */
  lemma SplitMemberFilter(sorted: seq<Card>, sp: Split, g: seq<Card>)
    requires g in SplitBy(sorted, sp)
    ensures |g| > 0 && g == Filter(sorted, KeyOf(g[0], sp), sp)
  {
    SplitByGrouped(sorted, sp);
    var groups := SplitBy(sorted, sp);
    var i :| 0 <= i < |groups| && groups[i] == g;
  }

  /** A group of the split of rank-sorted cards: non-empty, sorted, all of
      one key, drawn from the input. */
  lemma SplitMember(sorted: seq<Card>, sp: Split, g: seq<Card>)
    requires SortedByRank(sorted)
    requires g in SplitBy(sorted, sp)
    ensures |g| > 0
    ensures SortedByRank(g)
    ensures forall x :: x in g ==> x in sorted && KeyOf(x, sp) == KeyOf(g[0], sp)
    ensures Distinct(sorted) ==> Distinct(g)
  {
    SplitMemberFilter(sorted, sp, g);
    FilterMembers(sorted, KeyOf(g[0], sp), sp);
    FilterSorted(sorted, KeyOf(g[0], sp), sp);
    if Distinct(sorted) {
      FilterDistinct(sorted, KeyOf(g[0], sp), sp);
    }
  }

  lemma SameRankOfKey(g: seq<Card>)
    requires |g| > 0 && forall x :: x in g ==> x.rank == g[0].rank
    ensures SameRank(g)
  {
    assert forall i :: 0 <= i < |g| ==> g[i] in g;
  }

  lemma SameSuitOfKey(g: seq<Card>)
    requires |g| > 0 && forall x :: x in g ==> x.suit == g[0].suit
    ensures SameSuit(g)
  {
    assert forall i :: 0 <= i < |g| ==> g[i] in g;
  }

  /** A rank group of `n` cards: `n` cards of one rank, all from the input. */
  lemma RankGroupBasics(sorted: seq<Card>, n: nat, g: seq<Card>)
    requires SortedByRank(sorted)
    requires g in GroupsOfSize(SplitBy(sorted, ByRank), n)
    ensures |g| == n > 0 && SameRank(g)
    ensures forall x :: x in g ==> x in sorted
  {
    SplitMember(sorted, ByRank, g);
    SameRankOfKey(g);
  }

  /** Rank groups of one size come strongest rank first, and two different
      rank groups have different ranks. */
  lemma RankGroupsOrdered(sorted: seq<Card>, n: nat)
    requires SortedByRank(sorted)
    ensures KeysIncreasing(GroupsOfSize(SplitBy(sorted, ByRank), n), ByRank)
  {
    SplitByGrouped(sorted, ByRank);
    GroupsOfSizeIncreasing(SplitBy(sorted, ByRank), n, ByRank);
  }

  lemma DifferentGroupsDifferentKeys(sorted: seq<Card>, sp: Split, g1: seq<Card>, g2: seq<Card>)
    requires SortedByRank(sorted)
    requires g1 in SplitBy(sorted, sp) && g2 in SplitBy(sorted, sp) && g1 != g2
    ensures GroupKey(g1, sp) != GroupKey(g2, sp)
  {
    SplitMemberFilter(sorted, sp, g1);
    SplitMemberFilter(sorted, sp, g2);
  }

  // ---------------------------------------------------------------------
  // Scans
  // ---------------------------------------------------------------------

  lemma {:induction false} ScanFacts(cs: seq<Card>, best: seq<Card>, skipDupes: bool)
    requires |best| <= 5 && IsRun(best)
    ensures |Scan(cs, best, skipDupes)| <= 5 && IsRun(Scan(cs, best, skipDupes))
    ensures forall x :: x in Scan(cs, best, skipDupes) ==> x in best || x in cs
    ensures |best| > 0 ==> |Scan(cs, best, skipDupes)| > 0
    decreases |cs|
  {
    if |cs| > 0 {
      var c := cs[0];
      assert forall x :: x in cs[1..] ==> x in cs;
      if |best| == 0 {
        ScanFacts(cs[1..], [c], skipDupes);
      } else if |best| == 5 {
      } else if best[|best| - 1].rank == c.rank - 1 {
        ScanFacts(cs[1..], best + [c], skipDupes);
      } else if skipDupes && best[|best| - 1].rank == c.rank {
        ScanFacts(cs[1..], best, skipDupes);
      } else {
        ScanFacts(cs[1..], [c], skipDupes);
      }
    }
  }

  lemma RunOrWheelFacts(best: seq<Card>, top: Card)
    requires IsRun(best)
    requires RunOrWheel(best, top).Some?
    ensures IsStraight(RunOrWheel(best, top).value)
    ensures forall x :: x in RunOrWheel(best, top).value ==> x in best || x == top
  {
    if |best| != 5 {
      assert (best + [top])[..4] == best;
    }
  }

  /** A straight flush found among the suit groups is a straight inside one group. */
  lemma {:induction false} StraightFlushFacts(groups: seq<seq<Card>>)
    requires StraightFlushIn(groups).Some?
    ensures IsStraight(StraightFlushIn(groups).value)
    ensures exists g :: g in groups && forall x :: x in StraightFlushIn(groups).value ==> x in g
  {
    var g := groups[0];
    if |g| >= 5 && RunOrWheel(Scan(g, [], false), g[0]).Some? {
      ScanFacts(g, [], false);
      RunOrWheelFacts(Scan(g, [], false), g[0]);
      assert g in groups;
    } else {
      StraightFlushFacts(groups[1..]);
      var g' :| g' in groups[1..] && forall x :: x in StraightFlushIn(groups[1..]).value ==> x in g';
      assert g' in groups;
    }
  }

  // ---------------------------------------------------------------------
  // Kickers
  // ---------------------------------------------------------------------

  /** `find_kickers` adds, in order, the cards that are not made cards until
      made cards and kickers number five. */
  lemma {:induction false} KickersFromTake(made: seq<Card>, cs: seq<Card>, res: seq<Card>)
    requires |made| + |res| <= 5
    ensures KickersFrom(made, cs, res) == res + Take(NotIn(cs, made), 5 - |made| - |res|)
    decreases |cs|
  {
    if |cs| > 0 && |made| + |res| < 5 {
      var rest := NotIn(cs[1..], made);
      if cs[0] in made {
        KickersFromTake(made, cs[1..], res);
        assert NotIn(cs, made) == rest;
      } else {
        KickersFromTake(made, cs[1..], res + [cs[0]]);
        assert NotIn(cs, made) == [cs[0]] + rest;
        TakeCons(res, cs[0], rest, 5 - |made| - |res|);
      }
    }
  }

  lemma TakeCons(res: seq<Card>, c: Card, rest: seq<Card>, n: nat)
    requires n > 0
    ensures res + [c] + Take(rest, n - 1) == res + Take([c] + rest, n)
  {
    assert Take([c] + rest, n) == [c] + Take(rest, n - 1);
  }

  lemma FindKickersTake(made: seq<Card>, cs: seq<Card>)
    requires |made| <= 5
    ensures FindKickers(made, cs) == Take(NotIn(cs, made), 5 - |made|)
  {
    KickersFromTake(made, cs, []);
  }

  // ---------------------------------------------------------------------
  // The ranked hand
  // ---------------------------------------------------------------------

  lemma SortedMembers(cards: seq<Card>)
    ensures forall x :: x in SortByRank(cards) <==> x in cards
    ensures |SortByRank(cards)| == |cards|
  {
    var s := SortByRank(cards);
    assert |s| == |multiset(s)| == |cards|;
    forall x ensures x in s <==> x in cards {
      assert x in s <==> x in multiset(s);
    }
  }

  /** What the ranker promises of a hand built from rank-sorted `sorted`. */
  ghost predicate WellFormed(h: EvalHand, sorted: seq<Card>) {
    && |sorted| > 0
    && Shaped(h)
    && (forall x :: x in h.made ==> x in sorted)
    && |h.made| == MadeSize(h.category)
    && (h.category != HighCard ==> h.kickers == Take(NotIn(sorted, h.made), 5 - MadeSize(h.category)))
    && (h.category == HighCard ==> h.made == [sorted[0]] && h.kickers == sorted[1..Min(5, |sorted|)])
  }

  lemma StraightFlushHand(sorted: seq<Card>)
    requires SortedByRank(sorted)
    requires StraightFlushIn(SplitBy(sorted, BySuit)).Some?
    ensures WellFormed(EvalHand(StraightFlush, StraightFlushIn(SplitBy(sorted, BySuit)).value, []), sorted)
  {
    var m := StraightFlushIn(SplitBy(sorted, BySuit)).value;
    StraightFlushFacts(SplitBy(sorted, BySuit));
    var g :| g in SplitBy(sorted, BySuit) && forall x :: x in m ==> x in g;
    SplitMember(sorted, BySuit, g);
    assert forall i :: 0 <= i < |m| ==> m[i] in m;
  }

  /** Quads, trips and a pair: one rank group plus kickers. */
  lemma RankGroupHand(sorted: seq<Card>, cat: Category, g: seq<Card>)
    requires SortedByRank(sorted)
    requires cat == Quads || cat == Trips || cat == Pair
    requires g in GroupsOfSize(SplitBy(sorted, ByRank), MadeSize(cat))
    ensures WellFormed(EvalHand(cat, g, FindKickers(g, sorted)), sorted)
  {
    RankGroupBasics(sorted, MadeSize(cat), g);
    FindKickersTake(g, sorted);
  }

  lemma FullHouseHand(sorted: seq<Card>, t: seq<Card>, u: seq<Card>, n: nat)
    requires SortedByRank(sorted)
    requires n == 2 || n == 3
    requires t in GroupsOfSize(SplitBy(sorted, ByRank), 3)
    requires u in GroupsOfSize(SplitBy(sorted, ByRank), n) && u != t
    ensures WellFormed(EvalHand(FullHouse, t + u[..2], []), sorted)
  {
    RankGroupBasics(sorted, 3, t);
    RankGroupBasics(sorted, n, u);
    DifferentGroupsDifferentKeys(sorted, ByRank, t, u);
    var m := t + u[..2];
    assert m[..3] == t && m[3..] == u[..2];
    assert forall x :: x in m ==> x in t || x in u;
  }

  lemma FlushHand(sorted: seq<Card>, g: seq<Card>)
    requires SortedByRank(sorted)
    requires g in GroupsAtLeast(SplitBy(sorted, BySuit), 5)
    ensures WellFormed(EvalHand(Flush, g[..5], []), sorted)
  {
    SplitMember(sorted, BySuit, g);
    SameSuitOfKey(g);
    assert forall x :: x in g[..5] ==> x in g;
  }

  lemma StraightHand(sorted: seq<Card>)
    requires |sorted| > 0
    requires StraightIn(sorted).Some?
    ensures WellFormed(EvalHand(Straight, StraightIn(sorted).value, []), sorted)
  {
    ScanFacts(sorted, [], true);
    RunOrWheelFacts(Scan(sorted, [], true), sorted[0]);
  }

  lemma TwoPairShaped(p0: seq<Card>, p1: seq<Card>, kickers: seq<Card>)
    requires |p0| == 2 && |p1| == 2 && SameRank(p0) && SameRank(p1)
    requires p0[0].rank < p1[0].rank
    ensures Shaped(EvalHand(TwoPair, p0 + p1, kickers))
  {
    var m := p0 + p1;
    assert m[..2] == p0 && m[2..] == p1;
  }

  lemma TwoPairHand(sorted: seq<Card>, p0: seq<Card>, p1: seq<Card>)
    requires SortedByRank(sorted)
    requires p0 in GroupsOfSize(SplitBy(sorted, ByRank), 2)
    requires p1 in GroupsOfSize(SplitBy(sorted, ByRank), 2)
    requires GroupKey(p0, ByRank) < GroupKey(p1, ByRank)
    ensures WellFormed(EvalHand(TwoPair, p0 + p1, FindKickers(p0 + p1, sorted)), sorted)
  {
    RankGroupBasics(sorted, 2, p0);
    RankGroupBasics(sorted, 2, p1);
    TwoPairFrom(sorted, p0, p1);
  }

  lemma TwoPairFrom(sorted: seq<Card>, p0: seq<Card>, p1: seq<Card>)
    requires |p0| == 2 && |p1| == 2 && SameRank(p0) && SameRank(p1)
    requires p0[0].rank < p1[0].rank
    requires forall x :: x in p0 ==> x in sorted
    requires forall x :: x in p1 ==> x in sorted
    ensures WellFormed(EvalHand(TwoPair, p0 + p1, FindKickers(p0 + p1, sorted)), sorted)
  {
    var m := p0 + p1;
    assert p0[0] in sorted;
    TwoPairShaped(p0, p1, FindKickers(m, sorted));
    assert forall x :: x in m ==> x in p0 || x in p1;
    FindKickersTake(m, sorted);
  }

  /** The category chain over a correct analysis of sorted cards yields a
      well-formed hand. */
  lemma ClassifyWellFormed(sorted: seq<Card>)
    requires |sorted| > 0 && SortedByRank(sorted)
    ensures WellFormed(Classify(Analyze(sorted)), sorted)
  {
    var a := Analyze(sorted);
    if a.straightFlush.Some? {
      assert Classify(a) == EvalHand(StraightFlush, a.straightFlush.value, []);
      StraightFlushHand(sorted);
    } else if |a.quads| > 0 {
      assert Classify(a) == EvalHand(Quads, a.quads[0], FindKickers(a.quads[0], sorted));
      assert a.quads[0] in a.quads;
      RankGroupHand(sorted, Quads, a.quads[0]);
    } else if |a.trips| >= 1 && |a.trips| + |a.pairs| >= 2 {
      FullHouseWellFormed(sorted);
    } else if |a.flushes| > 0 {
      assert Classify(a) == EvalHand(Flush, a.flushes[0][..5], []);
      assert a.flushes[0] in a.flushes;
      FlushHand(sorted, a.flushes[0]);
    } else if a.straight.Some? {
      assert Classify(a) == EvalHand(Straight, a.straight.value, []);
      StraightHand(sorted);
    } else {
      SetsWellFormed(sorted);
    }
  }

  lemma FullHouseWellFormed(sorted: seq<Card>)
    requires |sorted| > 0 && SortedByRank(sorted)
    requires var a := Analyze(sorted);
      a.straightFlush.None? && |a.quads| == 0 && |a.trips| >= 1 && |a.trips| + |a.pairs| >= 2
    ensures WellFormed(Classify(Analyze(sorted)), sorted)
  {
    var a := Analyze(sorted);
    assert a.trips[0] in a.trips;
    if |a.trips| > 1 {
      assert Classify(a) == EvalHand(FullHouse, a.trips[0] + a.trips[1][..2], []);
      assert a.trips[1] in a.trips;
      RankGroupsOrdered(sorted, 3);
      FullHouseHand(sorted, a.trips[0], a.trips[1], 3);
    } else {
      assert Classify(a) == EvalHand(FullHouse, a.trips[0] + a.pairs[0], []);
      assert a.pairs[0] in a.pairs;
      assert a.pairs[0][..2] == a.pairs[0];
      FullHouseHand(sorted, a.trips[0], a.pairs[0], 2);
    }
  }

  /** Trips, two pair, pair and high card. */
  lemma SetsWellFormed(sorted: seq<Card>)
    requires |sorted| > 0 && SortedByRank(sorted)
    requires var a := Analyze(sorted);
      && a.straightFlush.None? && |a.quads| == 0 && !(|a.trips| >= 1 && |a.trips| + |a.pairs| >= 2)
      && |a.flushes| == 0 && a.straight.None?
    ensures WellFormed(Classify(Analyze(sorted)), sorted)
  {
    var a := Analyze(sorted);
    if |a.trips| == 1 {
      TripsWellFormed(sorted);
    } else {
      PairsWellFormed(sorted);
    }
  }

  lemma TripsWellFormed(sorted: seq<Card>)
    requires |sorted| > 0 && SortedByRank(sorted)
    requires var a := Analyze(sorted);
      && a.straightFlush.None? && |a.quads| == 0 && |a.trips| == 1
      && |a.pairs| == 0 && |a.flushes| == 0 && a.straight.None?
    ensures WellFormed(Classify(Analyze(sorted)), sorted)
  {
    var a := Analyze(sorted);
    var g := a.trips[0];
    assert g in a.trips;
    ClassifyTrips(a);
    RankGroupHand(sorted, Trips, g);
  }

  lemma ClassifyTrips(a: Analysis)
    requires a.Valid()
    requires && a.straightFlush.None? && |a.quads| == 0 && |a.trips| == 1
      && |a.pairs| == 0 && |a.flushes| == 0 && a.straight.None?
    ensures Classify(a) == EvalHand(Trips, a.trips[0], FindKickers(a.trips[0], a.sorted))
  {
  }

  lemma PairsWellFormed(sorted: seq<Card>)
    requires |sorted| > 0 && SortedByRank(sorted)
    requires var a := Analyze(sorted);
      && a.straightFlush.None? && |a.quads| == 0 && |a.trips| == 0
      && |a.flushes| == 0 && a.straight.None?
    ensures WellFormed(Classify(Analyze(sorted)), sorted)
  {
    var a := Analyze(sorted);
    if |a.pairs| >= 2 {
      var m := a.pairs[0] + a.pairs[1];
      assert Classify(a) == EvalHand(TwoPair, m, FindKickers(m, sorted));
      assert a.pairs[0] in a.pairs && a.pairs[1] in a.pairs;
      RankGroupsOrdered(sorted, 2);
      TwoPairHand(sorted, a.pairs[0], a.pairs[1]);
    } else if |a.pairs| == 1 {
      assert Classify(a) == EvalHand(Pair, a.pairs[0], FindKickers(a.pairs[0], sorted));
      assert a.pairs[0] in a.pairs;
      RankGroupHand(sorted, Pair, a.pairs[0]);
    } else {
      assert Classify(a) == EvalHand(HighCard, [sorted[0]], sorted[1..Min(5, |sorted|)]);
      HighCardHand(sorted);
    }
  }

  lemma HighCardHand(sorted: seq<Card>)
    requires |sorted| > 0
    ensures WellFormed(EvalHand(HighCard, [sorted[0]], sorted[1..Min(5, |sorted|)]), sorted)
  {
    assert sorted[0] in sorted;
  }

  /** Made cards have their category's shape and size and come from the
      input; the kickers of the categories that have any are the strongest
      input cards outside the made hand, up to five cards in all. */
  lemma CalcHandShape(cards: seq<Card>)
    requires |cards| > 0
    ensures Shaped(CalcHand(cards))
    ensures forall x :: x in CalcHand(cards).made ==> x in cards
    ensures |CalcHand(cards).made| == MadeSize(CalcHand(cards).category)
    ensures CalcHand(cards).category != HighCard ==>
      CalcHand(cards).kickers == Take(NotIn(SortByRank(cards), CalcHand(cards).made), 5 - MadeSize(CalcHand(cards).category))
  {
    ClassifyWellFormed(SortByRank(cards));
    SortedMembers(cards);
  }
}

=== FILE: hand_streets.dfy ===
/** Who is still in a hand: `Hand.players_involved_at_street`,
    `hand_got_to_street`, `is_multiway` and `is_everyone_all_in` from
    poker/hands.py. These work on raw player ids (plain string equality),
    except where `is_everyone_all_in` looks for a named player. */
module HandStreets {
  import opened Results
  import opened Actions
  import opened Hands

  // ---------------------------------------------------------------------
  // players_involved_at_street
  // ---------------------------------------------------------------------

  /** The pre-flop action types that count a player as in the hand: all
      but the straddle. */
  predicate Enters(a: Action) {
    a.kind != PostStraddle
  }

  /** `in_hand_pre`: every player with an entering pre-flop action. */
  function Entered(acts: seq<Action>): set<string>
    decreases |acts|
  {
    if |acts| == 0 then {}
    else
      var a := acts[|acts| - 1];
      Entered(acts[..|acts| - 1]) + (if Enters(a) then {a.player} else {})
  }

  /** `in_hand` after the pre-flop loop: added on each entering action,
      removed again on a fold. */
  function Live(acts: seq<Action>): set<string>
    decreases |acts|
  {
    if |acts| == 0 then {}
    else
      var a := acts[|acts| - 1];
      var s := Live(acts[..|acts| - 1]);
      if a.kind == Fold then s - {a.player}
      else if Enters(a) then s + {a.player}
      else s
  }

  /** The fold loop of a later street: `in_hand.remove(a.player_id)` raises
      `KeyError` for a player who is no longer in the hand. */
  function RemoveFolds(s: set<string>, acts: seq<Action>): (r: Result<set<string>>)
    ensures r.Ok? ==> r.value <= s
  {
    if |acts| == 0 then Ok(s)
    else if acts[0].kind != Fold then RemoveFolds(s, acts[1..])
    else if acts[0].player in s then RemoveFolds(s - {acts[0].player}, acts[1..])
    else Err(KeyError)
  }

  /** The players who fold somewhere in `acts`. */
  function Folders(acts: seq<Action>): set<string> {
    set i | 0 <= i < |acts| && acts[i].kind == Fold :: acts[i].player
  }

  /** No player folds twice. */
  predicate FoldsOnce(acts: seq<Action>) {
    forall i, j :: 0 <= i < j < |acts| && acts[i].kind == Fold && acts[j].kind == Fold ==> acts[i].player != acts[j].player
  }

  lemma FoldersCons(acts: seq<Action>)
    requires |acts| > 0
    ensures Folders(acts) == (if acts[0].kind == Fold then {acts[0].player} else {}) + Folders(acts[1..])
    ensures FoldsOnce(acts) <==> FoldsOnce(acts[1..]) && (acts[0].kind == Fold ==> acts[0].player !in Folders(acts[1..]))
  {
    assert forall i :: 1 <= i < |acts| ==> acts[i] == acts[1..][i - 1];
    forall x | x in Folders(acts[1..])
      ensures x in Folders(acts)
    {
      var i :| 0 <= i < |acts[1..]| && acts[1..][i].kind == Fold && acts[1..][i].player == x;
      assert acts[i + 1] == acts[1..][i];
    }
    if FoldsOnce(acts[1..]) && (acts[0].kind == Fold ==> acts[0].player !in Folders(acts[1..])) {
      forall i, j | 0 <= i < j < |acts| && acts[i].kind == Fold && acts[j].kind == Fold
        ensures acts[i].player != acts[j].player
      {
        if i == 0 {
          assert acts[1..][j - 1] == acts[j];
        } else {
          assert acts[1..][i - 1] == acts[i] && acts[1..][j - 1] == acts[j];
        }
      }
    }
  }

  /** The fold loop succeeds exactly when every folding player is still in
      the hand and nobody folds twice, and then leaves the players who did
      not fold. */
  lemma {:induction false} RemoveFoldsSpec(s: set<string>, acts: seq<Action>)
    ensures RemoveFolds(s, acts).Ok? <==> Folders(acts) <= s && FoldsOnce(acts)
    ensures RemoveFolds(s, acts).Ok? ==> RemoveFolds(s, acts).value == s - Folders(acts)
    decreases |acts|
  {
    if |acts| > 0 {
      FoldersCons(acts);
      if acts[0].kind != Fold {
        RemoveFoldsSpec(s, acts[1..]);
      } else if acts[0].player in s {
        RemoveFoldsSpec(s - {acts[0].player}, acts[1..]);
      }
    }
  }

  /** The set returned for a street after the flop: the players left, or
      nobody when fewer than two are left. */
  function Contested(s: set<string>): (r: set<string>)
    ensures r <= s && |r| != 1
  {
    if |s| > 1 then s else {}
  }

  /** `Hand.players_involved_at_street(street)` */
  function PlayersInvolvedAtStreet(h: Hand, street: StreetArg): Result<set<string>> {
    var ss := UnpackStreet(street);
    if PreFlop in ss then Ok(Entered(h.preFlop))
    else if Flop in ss then Ok(Contested(Live(h.preFlop)))
    else
      var s1 :- RemoveFolds(Live(h.preFlop), h.flop);
      if Turn in ss then Ok(Contested(s1))
      else
        var s2 :- RemoveFolds(s1, h.turn);
        if River in ss then Ok(Contested(s2))
        else
          var s3 :- RemoveFolds(s2, h.river);
          if Showdown in ss then Ok(Contested(s3)) else Ok({})
  }

  lemma {:induction false} EnteredMembers(acts: seq<Action>)
    ensures forall x :: x in Entered(acts) <==> exists i :: 0 <= i < |acts| && acts[i].player == x && Enters(acts[i])
    decreases |acts|
  {
    if |acts| > 0 {
      var pre := acts[..|acts| - 1];
      EnteredMembers(pre);
      assert forall i :: 0 <= i < |pre| ==> pre[i] == acts[i];
    }
  }

  lemma {:induction false} LiveEntered(acts: seq<Action>)
    ensures Live(acts) <= Entered(acts)
    decreases |acts|
  {
    if |acts| > 0 {
      LiveEntered(acts[..|acts| - 1]);
    }
  }

  /** Pre-flop, the involved players are exactly those with a blind, ante,
      call, open, raise, check or fold. */
  lemma InvolvedPreFlop(h: Hand)
    ensures PlayersInvolvedAtStreet(h, Name(PreFlop)).Ok?
    ensures forall x :: x in PlayersInvolvedAtStreet(h, Name(PreFlop)).value <==>
      exists i :: 0 <= i < |h.preFlop| && h.preFlop[i].player == x && h.preFlop[i].kind != PostStraddle
  {
    EnteredMembers(h.preFlop);
  }

  /** Each street's players are among the previous street's: a street that
      can be computed has a computable predecessor whose set contains it. */
  lemma InvolvedShrinks(h: Hand, k: nat)
    requires k < 4
    requires PlayersInvolvedAtStreet(h, Name(OrderedStreets[k + 1])).Ok?
    ensures PlayersInvolvedAtStreet(h, Name(OrderedStreets[k])).Ok?
    ensures PlayersInvolvedAtStreet(h, Name(OrderedStreets[k + 1])).value <=
      PlayersInvolvedAtStreet(h, Name(OrderedStreets[k])).value
  {
    var live := Live(h.preFlop);
    if k == 0 {
      LiveEntered(h.preFlop);
    } else if k == 1 {
      ContestedShrinks(live, RemoveFolds(live, h.flop).value);
    } else if k == 2 {
      var s1 := RemoveFolds(live, h.flop).value;
      ContestedShrinks(s1, RemoveFolds(s1, h.turn).value);
    } else {
      var s1 := RemoveFolds(live, h.flop).value;
      var s2 := RemoveFolds(s1, h.turn).value;
      ContestedShrinks(s2, RemoveFolds(s2, h.river).value);
    }
  }

  lemma ContestedShrinks(s: set<string>, t: set<string>)
    requires t <= s
    ensures Contested(t) <= Contested(s)
  {
    if |t| > 1 {
      SubsetSize(t, s);
    }
  }

  /** `Hand.hand_got_to_street(street)`: at least two players involved. */
  function HandGotToStreet(h: Hand, street: StreetArg): Result<bool> {
    var s :- PlayersInvolvedAtStreet(h, street);
    Ok(|s| >= 2)
  }

  /** `Hand.is_multiway(street)`: more than two players involved. */
  function IsMultiway(h: Hand, street: StreetArg): Result<bool> {
    var s :- PlayersInvolvedAtStreet(h, street);
    Ok(|s| > 2)
  }

  /** A multiway street was reached; after the flop a street was reached
      exactly when anyone is involved in it. */
  lemma GotToStreetFacts(h: Hand, k: nat)
    requires 1 <= k < 5
    requires PlayersInvolvedAtStreet(h, Name(OrderedStreets[k])).Ok?
    ensures IsMultiway(h, Name(OrderedStreets[k])) == Ok(true) ==> HandGotToStreet(h, Name(OrderedStreets[k])) == Ok(true)
    ensures HandGotToStreet(h, Name(OrderedStreets[k])) ==
      Ok(PlayersInvolvedAtStreet(h, Name(OrderedStreets[k])).value != {})
  {
    var s := PlayersInvolvedAtStreet(h, Name(OrderedStreets[k])).value;
    assert UnpackStreet(Name(OrderedStreets[k])) == [OrderedStreets[k]];
    assert |s| != 1;
    if s != {} {
      var x :| x in s;
      assert |s| >= 1 by { SubsetSize({x}, s); }
    }
  }

  // ---------------------------------------------------------------------
  // is_everyone_all_in
  // ---------------------------------------------------------------------

  /** The three sets the all-in loop maintains. */
  datatype Tally = Tally(allIn: set<string>, active: set<string>, folded: set<string>)

  /** How one action other than the named player's fold moves a player
      between the sets. */
  function Step(t: Tally, a: Action): Tally {
    if IsFold(a) then Tally(t.allIn, t.active - {a.player}, t.folded + {a.player})
    else if IsAllIn(a) then Tally(t.allIn + {a.player}, t.active - {a.player}, t.folded)
    else if a.player !in t.folded then Tally(t.allIn, t.active + {a.player}, t.folded)
    else t
  }

  /** The all-in loop; `None` is the early `return False` when the named
      player folds. */
  function Track(acts: seq<Action>, pid: Option<string>, t: Tally): Result<Option<Tally>> {
    if |acts| == 0 then Ok(Some(t))
    else
      var named :- if IsFold(acts[0]) && pid.Some? then NamesEq(pid.value, acts[0].player) else Ok(false);
      if named then Ok(None) else Track(acts[1..], pid, Step(t, acts[0]))
  }

  /** Nobody can act any more: nobody active and two or more all in, or one
      active player facing at least one all-in. */
  predicate RunOut(t: Tally) {
    (|t.active| == 0 && |t.allIn| > 1) || (|t.active| == 1 && |t.allIn| > 0)
  }

  /** `Hand.is_everyone_all_in(player_id, street)`. The actions are those of
      `street_range(None, street)`. */
  function IsEveryoneAllIn(h: Hand, pid: Option<string>, street: Option<StreetArg>): Result<bool> {
    var range :- StreetRange(None, street);
    var t :- Track(StreetActions(h, Listed(range)), pid, Tally({}, {}, {}));
    if t.None? || !RunOut(t.value) then Ok(false)
    else if pid.None? then Ok(true)
    else MatchEither(pid.value, t.value.active, t.value.allIn)
  }

  /** The loop over the active players, then the loop over the all-in
      players. */
  function MatchEither(pid: string, active: set<string>, allIn: set<string>): Result<bool> {
    var inActive :- MatchIn(pid, active);
    if inActive then Ok(true) else MatchIn(pid, allIn)
  }

  /** When `names_eq` is defined on every id the two loops say whether one
      of them is the player; when none is the player and `names_eq` raises
      on one, they raise that `ValueError`. */
  lemma MatchEitherMeaning(pid: string, active: set<string>, allIn: set<string>)
    ensures (forall x :: x in active + allIn ==> NamesEq(pid, x).Ok?) ==>
      MatchEither(pid, active, allIn) == Ok(exists x :: x in active + allIn && SameName(pid, x))
    ensures (forall x :: x in active + allIn ==> !SameName(pid, x)) &&
            (exists x :: x in active + allIn && NamesEq(pid, x).Err?) ==>
      MatchEither(pid, active, allIn) == Err(ValueError)
    ensures MatchEither(pid, active, allIn) == Ok(true) ==> exists x :: x in active + allIn && SameName(pid, x)
  {
    var a, b := MatchIn(pid, active), MatchIn(pid, allIn);
    if exists x :: x in active + allIn && SameName(pid, x) {
      var x :| x in active + allIn && SameName(pid, x);
      if x in active { assert a == Ok(true); } else { assert b == Ok(true); }
    }
  }

  /** One `for pid in players: if names_eq(player_id, pid): return True`
      loop over a set. Python's set order is not modelled: when the set
      holds both a matching id and an id on which `names_eq` raises, the
      match is taken to come first. */
  function MatchIn(pid: string, s: set<string>): (r: Result<bool>)
    ensures r == Ok(true) <==> exists x :: x in s && SameName(pid, x)
    ensures r == Ok(false) <==> forall x :: x in s ==> NamesEq(pid, x) == Ok(false)
    ensures r.Err? ==> r == Err(ValueError)
  {
    if exists x :: x in s && SameName(pid, x) then Ok(true)
    else if exists x :: x in s && NamesEq(pid, x).Err? then Err(ValueError)
    else Ok(false)
  }

  /** The named player folds somewhere in the actions. */
  ghost predicate NamedFolds(acts: seq<Action>, pid: string) {
    exists i :: 0 <= i < |acts| && IsFold(acts[i]) && SameName(pid, acts[i].player)
  }

  /** A fold by the named player ends the loop with `False`, whatever
      follows it. */
  lemma {:induction false} TrackStopsAtFold(acts: seq<Action>, pid: string, t: Tally)
    requires forall i :: 0 <= i < |acts| ==> NamesEq(pid, acts[i].player).Ok?
    requires NamedFolds(acts, pid)
    ensures Track(acts, Some(pid), t) == Ok(None)
  {
    var a := acts[0];
    if !(IsFold(a) && SameName(pid, a.player)) {
      var i :| 0 <= i < |acts| && IsFold(acts[i]) && SameName(pid, acts[i].player);
      assert i > 0 && acts[1..][i - 1] == acts[i];
      assert forall j :: 0 <= j < |acts[1..]| ==> acts[1..][j] == acts[j + 1];
      var t' := Step(t, a);
      TrackStopsAtFold(acts[1..], pid, t');
    }
  }

  /** So a player who folds on the streets considered is never all in. */
  lemma FoldedNeverAllIn(h: Hand, pid: string, street: Option<StreetArg>)
    requires StreetRange(None, street).Ok?
    requires forall a :: a in StreetActions(h, Listed(StreetRange(None, street).value)) ==> NamesEq(pid, a.player).Ok?
    requires NamedFolds(StreetActions(h, Listed(StreetRange(None, street).value)), pid)
    ensures IsEveryoneAllIn(h, Some(pid), street) == Ok(false)
  {
    var acts := StreetActions(h, Listed(StreetRange(None, street).value));
    assert forall i :: 0 <= i < |acts| ==> acts[i] in acts;
    TrackStopsAtFold(acts, pid, Tally({}, {}, {}));
  }

  /** Every player the tally has recorded, whatever their state. */
  function Recorded(t: Tally): set<string> {
    t.allIn + t.active + t.folded
  }

  /** The loop never lists a folded player as active, never forgets a
      player, and records every player who acts. */
  lemma {:induction false} TrackInvariant(acts: seq<Action>, pid: Option<string>, t: Tally)
    requires t.active !! t.folded
    requires Track(acts, pid, t).Ok? && Track(acts, pid, t).value.Some?
    ensures Track(acts, pid, t).value.value.active !! Track(acts, pid, t).value.value.folded
    ensures Recorded(t) <= Recorded(Track(acts, pid, t).value.value)
    ensures forall i :: 0 <= i < |acts| ==> acts[i].player in Recorded(Track(acts, pid, t).value.value)
  {
    if |acts| > 0 {
      var a := acts[0];
      var t' := Step(t, a);
      assert Track(acts, pid, t) == Track(acts[1..], pid, t');
      TrackInvariant(acts[1..], pid, t');
      assert a.player in Recorded(t');
      assert forall j :: 0 <= j < |acts[1..]| ==> acts[1..][j] == acts[j + 1];
    }
  }

  /** Without a named player the answer is exactly the run-out condition on
      the final sets; with one, it also needs that player among the active
      or all-in players. */
  lemma EveryoneAllInMeaning(h: Hand, pid: Option<string>, street: Option<StreetArg>)
    requires IsEveryoneAllIn(h, pid, street) == Ok(true)
    ensures StreetRange(None, street).Ok?
    ensures Track(StreetActions(h, Listed(StreetRange(None, street).value)), pid, Tally({}, {}, {})).Ok?
    ensures Track(StreetActions(h, Listed(StreetRange(None, street).value)), pid, Tally({}, {}, {})).value.Some?
    ensures RunOut(Track(StreetActions(h, Listed(StreetRange(None, street).value)), pid, Tally({}, {}, {})).value.value)
    ensures var t := Track(StreetActions(h, Listed(StreetRange(None, street).value)), pid, Tally({}, {}, {})).value.value;
      pid.Some? ==> exists x :: x in t.active + t.allIn && SameName(pid.value, x)
  {
    if pid.Some? {
      var t := Track(StreetActions(h, Listed(StreetRange(None, street).value)), pid, Tally({}, {}, {})).value.value;
      MatchEitherMeaning(pid.value, t.active, t.allIn);
    }
  }

  /** With a named player, once the run-out condition holds: when
      `names_eq` is defined on every final active and all-in id the answer
      is whether one of them is the player; when none of them is the player
      and `names_eq` raises on one, the answer is that `ValueError`. */
  lemma EveryoneAllInNamed(h: Hand, pid: string, street: Option<StreetArg>, t: Tally)
    requires StreetRange(None, street).Ok?
    requires Track(StreetActions(h, Listed(StreetRange(None, street).value)), Some(pid), Tally({}, {}, {})) == Ok(Some(t))
    requires RunOut(t)
    ensures (forall x :: x in t.active + t.allIn ==> NamesEq(pid, x).Ok?) ==>
      IsEveryoneAllIn(h, Some(pid), street) == Ok(exists x :: x in t.active + t.allIn && SameName(pid, x))
    ensures (forall x :: x in t.active + t.allIn ==> !SameName(pid, x)) &&
            (exists x :: x in t.active + t.allIn && NamesEq(pid, x).Err?) ==>
      IsEveryoneAllIn(h, Some(pid), street) == Err(ValueError)
  {
    assert IsEveryoneAllIn(h, Some(pid), street) == MatchEither(pid, t.active, t.allIn);
    MatchEitherMeaning(pid, t.active, t.allIn);
  }

  /** Without a named player the loop runs to the end, so the answer is
      exactly the run-out condition on the final sets. */
  lemma EveryoneAllInNoPlayer(h: Hand, street: Option<StreetArg>)
    requires StreetRange(None, street).Ok?
    ensures Track(StreetActions(h, Listed(StreetRange(None, street).value)), None, Tally({}, {}, {})).Ok?
    ensures Track(StreetActions(h, Listed(StreetRange(None, street).value)), None, Tally({}, {}, {})).value.Some?
    ensures IsEveryoneAllIn(h, None, street) ==
      Ok(RunOut(Track(StreetActions(h, Listed(StreetRange(None, street).value)), None, Tally({}, {}, {})).value.value))
  {
    TrackRunsToEnd(StreetActions(h, Listed(StreetRange(None, street).value)), Tally({}, {}, {}));
  }

  lemma {:induction false} TrackRunsToEnd(acts: seq<Action>, t: Tally)
    ensures Track(acts, None, t).Ok? && Track(acts, None, t).value.Some?
  {
    if |acts| > 0 {
      TrackRunsToEnd(acts[1..], Step(t, acts[0]));
    }
  }
}

=== FILE: hands.dfy ===
/** Players and the per-player queries over a hand's action lists, from
    poker/hands.py: `Player.names_eq`, `known_cards`, `net`,
    `Hand.get_player`, `did_player_win`, `all_actions`, `did_player_vpip`,
    `did_player_3bet_pre` and `get_action_seq_string`.

    Player ids are strings "name @ id"; `names_eq` is the equality used
    between them, and it raises `ValueError` when an id with the separator
    does not split into exactly two parts. The Python generators are lazy,
    so a query that stops early never evaluates `names_eq` on later
    actions; the scans below evaluate it action by action in the same way. */
module Hands {
  import opened Results
  import opened Strings
  import opened Actions

  const IdSep: string := " @ "

  /** `Player.names_eq(id1, id2)` */
  function NamesEq(id1: string, id2: string): Result<bool> {
    SplitCount(id1, IdSep);
    SplitCount(id2, IdSep);
    var c1, c2 := Contains(id1, IdSep), Contains(id2, IdSep);
    if c1 && c2 then Ok(Split(id1, IdSep)[1] == Split(id2, IdSep)[1])
    else if c1 then
      var parts := Split(id1, IdSep);
      if |parts| != 2 then Err(ValueError) else Ok(id2 == parts[0] || id2 == parts[1])
    else if c2 then
      var parts := Split(id2, IdSep);
      if |parts| != 2 then Err(ValueError) else Ok(id1 == parts[0] || id1 == parts[1])
    else Ok(id1 == id2)
  }

  /** `names_eq` succeeds and says the two ids are the same player. */
  predicate SameName(id1: string, id2: string) {
    NamesEq(id1, id2) == Ok(true)
  }

  /** An id with at most one `' @ '`. */
  predicate WellFormedId(s: string) {
    |Split(s, IdSep)| <= 2
  }

  /** `names_eq` does not depend on the order of its arguments. */
  lemma NamesEqSymmetric(id1: string, id2: string)
    ensures NamesEq(id1, id2) == NamesEq(id2, id1)
  {
  }

  /** The three ways `names_eq` compares: id halves when both ids carry an
      id, plain equality when neither does, and otherwise a match against
      either half of the one that does, which must split in two. */
  lemma NamesEqCases(id1: string, id2: string)
    ensures Contains(id1, IdSep) && Contains(id2, IdSep) ==>
      |Split(id1, IdSep)| >= 2 && |Split(id2, IdSep)| >= 2 &&
      NamesEq(id1, id2) == Ok(Split(id1, IdSep)[1] == Split(id2, IdSep)[1])
    ensures !Contains(id1, IdSep) && !Contains(id2, IdSep) ==> NamesEq(id1, id2) == Ok(id1 == id2)
    ensures Contains(id1, IdSep) && !Contains(id2, IdSep) ==>
      (NamesEq(id1, id2).Err? <==> |Split(id1, IdSep)| != 2)
    ensures Contains(id1, IdSep) && !Contains(id2, IdSep) && |Split(id1, IdSep)| == 2 ==>
      NamesEq(id1, id2) == Ok(id2 == Split(id1, IdSep)[0] || id2 == Split(id1, IdSep)[1])
  {
    SplitCount(id1, IdSep);
    SplitCount(id2, IdSep);
  }

  /** `names_eq` is defined on well-formed ids and every id names itself. */
  lemma NamesEqDefined(id1: string, id2: string)
    requires WellFormedId(id1) && WellFormedId(id2)
    ensures NamesEq(id1, id2).Ok?
    ensures SameName(id1, id1)
  {
    SplitCount(id1, IdSep);
    SplitCount(id2, IdSep);
  }

  // ---------------------------------------------------------------------
  // Players
  // ---------------------------------------------------------------------

  /** `Player.street_nets`, in cents. */
  datatype StreetNets = StreetNets(preFlop: int, flop: int, turn: int, river: int)

  /** A `Player`. Money is in integer cents; cards are the source's card
      strings, `None` while unknown. */
  datatype Player = Player(
    nameAndId: string,
    position: int,
    cards: (Option<string>, Option<string>),
    nets: StreetNets,
    gain: int,
    showedCards: nat,
    voluntarilyShowedCards: nat)

  /** `Player.known_cards()` */
  function KnownCards(p: Player): (n: nat)
    ensures n <= 2
    ensures n == 2 <==> p.cards.0.Some? && p.cards.1.Some?
    ensures n == 0 <==> p.cards.0.None? && p.cards.1.None?
  {
    (if p.cards.0.Some? then 1 else 0) + (if p.cards.1.Some? then 1 else 0)
  }

  /** `Player.net()`: the street nets plus the gain. */
  function Net(p: Player): int {
    p.nets.preFlop + p.nets.flop + p.nets.turn + p.nets.river + p.gain
  }

  /** The hand state the queries read. The action lists are per street. */
  datatype Hand = Hand(
    heroId: string,
    players: seq<Player>,
    preFlop: seq<Action>,
    flop: seq<Action>,
    turn: seq<Action>,
    river: seq<Action>)

  /** The first player whose id `names_eq` the given name. */
  function FindPlayer(ps: seq<Player>, name: string): (r: Result<Option<Player>>)
    ensures r.Ok? && r.value.Some? ==> r.value.value in ps && SameName(r.value.value.nameAndId, name)
  {
    if |ps| == 0 then Ok(None)
    else
      var m :- NamesEq(ps[0].nameAndId, name);
      if m then Ok(Some(ps[0])) else FindPlayer(ps[1..], name)
  }

  /** `Hand.get_player(name)`; `None` stands for the hero. */
  function GetPlayer(h: Hand, name: Option<string>): Result<Option<Player>> {
    FindPlayer(h.players, if name.None? then h.heroId else name.value)
  }

  /** `get_player` returns the first matching player, and `None` only when
      no player matches. */
  lemma {:induction false} FindPlayerFirst(ps: seq<Player>, name: string)
    requires forall i :: 0 <= i < |ps| ==> NamesEq(ps[i].nameAndId, name).Ok?
    ensures FindPlayer(ps, name).Ok?
    ensures FindPlayer(ps, name).value.None? <==> forall i :: 0 <= i < |ps| ==> !SameName(ps[i].nameAndId, name)
    ensures FindPlayer(ps, name).value.Some? ==>
      (exists i :: 0 <= i < |ps| && ps[i] == FindPlayer(ps, name).value.value &&
        SameName(ps[i].nameAndId, name) && forall j :: 0 <= j < i ==> !SameName(ps[j].nameAndId, name))
  {
    if |ps| > 0 {
      var rest := ps[1..];
      FindPlayerFirst(rest, name);
      var m := NamesEq(ps[0].nameAndId, name);
      assert m.Ok?;
      if !m.value {
        assert FindPlayer(ps, name) == FindPlayer(rest, name);
        NoneShift(ps, name);
        var r := FindPlayer(rest, name).value;
        if r.Some? {
          var i :| 0 <= i < |rest| && rest[i] == r.value &&
            SameName(rest[i].nameAndId, name) && forall j :: 0 <= j < i ==> !SameName(rest[j].nameAndId, name);
          FirstShift(ps, name, r.value, i);
        }
      } else {
        assert FindPlayer(ps, name) == Ok(Some(ps[0]));
      }
    }
  }

  lemma NoneShift(ps: seq<Player>, name: string)
    requires |ps| > 0 && !SameName(ps[0].nameAndId, name)
    ensures (forall i :: 0 <= i < |ps| ==> !SameName(ps[i].nameAndId, name)) <==>
      (forall i :: 0 <= i < |ps[1..]| ==> !SameName(ps[1..][i].nameAndId, name))
  {
    assert forall i :: 1 <= i < |ps| ==> ps[i] == ps[1..][i - 1];
  }

  lemma FirstShift(ps: seq<Player>, name: string, p: Player, i: nat)
    requires |ps| > 0 && !SameName(ps[0].nameAndId, name)
    requires i < |ps[1..]| && ps[1..][i] == p && SameName(p.nameAndId, name)
    requires forall j :: 0 <= j < i ==> !SameName(ps[1..][j].nameAndId, name)
    ensures exists k :: 0 <= k < |ps| && ps[k] == p && SameName(ps[k].nameAndId, name) &&
                        forall j :: 0 <= j < k ==> !SameName(ps[j].nameAndId, name)
  {
    assert ps[i + 1] == p;
    assert forall j :: 1 <= j < i + 1 ==> ps[j] == ps[1..][j - 1];
  }

  /** `Hand.did_player_win(player_id)` */
  function DidPlayerWin(h: Hand, name: Option<string>): (r: Result<bool>)
    ensures r == Ok(true) ==> exists p :: p in h.players && Net(p) > 0
  {
    var p :- GetPlayer(h, name);
    Ok(p.Some? && Net(p.value) > 0)
  }

  /** A player wins exactly when the player `get_player` finds has a
      positive net. */
  lemma DidPlayerWinIff(h: Hand, name: Option<string>)
    requires GetPlayer(h, name).Ok?
    ensures DidPlayerWin(h, name).Ok?
    ensures DidPlayerWin(h, name).value <==> GetPlayer(h, name).value.Some? && Net(GetPlayer(h, name).value.value) > 0
  {
  }

  // ---------------------------------------------------------------------
  // all_actions
  // ---------------------------------------------------------------------

  /** The action lists of the streets `street` unpacks to, always in the
      order pre-flop, flop, turn, river (the showdown has no list). */
  function StreetActions(h: Hand, street: StreetArg): seq<Action> {
    var ss := UnpackStreet(street);
    (if PreFlop in ss then h.preFlop else [])
    + (if Flop in ss then h.flop else [])
    + (if Turn in ss then h.turn else [])
    + (if River in ss then h.river else [])
  }

  /** The actions whose player `names_eq` the given id, in order. */
  function ByPlayer(acts: seq<Action>, pid: string): (r: Result<seq<Action>>)
    ensures r.Ok? ==> |r.value| <= |acts|
  {
    if |acts| == 0 then Ok([])
    else
      var m :- NamesEq(acts[0].player, pid);
      var rest :- ByPlayer(acts[1..], pid);
      Ok(if m then [acts[0]] + rest else rest)
  }

  /** `Hand.all_actions(player_id, street)`, run to exhaustion. */
  function AllActions(h: Hand, pid: Option<string>, street: StreetArg): Result<seq<Action>> {
    if pid.None? then Ok(StreetActions(h, street)) else ByPlayer(StreetActions(h, street), pid.value)
  }

  /** The action list of one street; the showdown, and any name that is
      no street, have none. */
  function ActionsOf(h: Hand, s: string): seq<Action> {
    if s == PreFlop then h.preFlop
    else if s == Flop then h.flop
    else if s == Turn then h.turn
    else if s == River then h.river
    else []
  }

  /** The action lists of the streets of `order` that `ss` names,
      concatenated in the order of `order`. */
  function Played(h: Hand, ss: seq<string>, order: seq<string>): seq<Action> {
    if |order| == 0 then []
    else (if order[0] in ss then ActionsOf(h, order[0]) else []) + Played(h, ss, order[1..])
  }

  /** For every street argument the actions are those of the streets it
      names, taken in the order of `ORDERED_STREETS`; so two lists naming
      the same streets, in whatever order, give the same actions. `ANY`
      yields every action of the hand and the showdown none. */
  lemma StreetActionsOrder(h: Hand, street: StreetArg, other: seq<string>)
    ensures StreetActions(h, street) == Played(h, UnpackStreet(street), OrderedStreets)
    ensures (forall s :: s in other <==> s in UnpackStreet(street)) ==>
      StreetActions(h, Listed(other)) == StreetActions(h, street)
    ensures StreetActions(h, Name(AnyStreet)) == h.preFlop + h.flop + h.turn + h.river
    ensures StreetActions(h, Name(Showdown)) == []
  {
    PlayedInOrder(h, UnpackStreet(street));
    PlayedInOrder(h, other);
  }

  lemma PlayedInOrder(h: Hand, ss: seq<string>)
    ensures Played(h, ss, OrderedStreets) == StreetActions(h, Listed(ss))
  {
    PlayedUnfolds(h, ss);
    ConcatAssoc4(if PreFlop in ss then h.preFlop else [], if Flop in ss then h.flop else [],
                 if Turn in ss then h.turn else [], if River in ss then h.river else []);
  }

  lemma PlayedUnfolds(h: Hand, ss: seq<string>)
    ensures Played(h, ss, OrderedStreets) ==
      (if PreFlop in ss then h.preFlop else []) + ((if Flop in ss then h.flop else []) +
      ((if Turn in ss then h.turn else []) + (if River in ss then h.river else [])))
  {
    var f := if Flop in ss then h.flop else [];
    var t := if Turn in ss then h.turn else [];
    var r := if River in ss then h.river else [];
    assert [Showdown][1..] == [];
    assert Played(h, ss, [Showdown]) == [];
    assert [River, Showdown][1..] == [Showdown];
    assert Played(h, ss, [River, Showdown]) == r;
    assert [Turn, River, Showdown][1..] == [River, Showdown];
    assert Played(h, ss, [Turn, River, Showdown]) == t + r;
    assert [Flop, Turn, River, Showdown][1..] == [Turn, River, Showdown];
    assert Played(h, ss, [Flop, Turn, River, Showdown]) == f + (t + r);
    assert OrderedStreets[1..] == [Flop, Turn, River, Showdown];
  }

  lemma ConcatAssoc4(a: seq<Action>, b: seq<Action>, c: seq<Action>, d: seq<Action>)
    ensures a + (b + (c + d)) == a + b + c + d
  {
  }

  /** Filtering keeps exactly the player's actions, in their order, and
      fails exactly when `names_eq` fails on some action. */
  lemma {:induction false} ByPlayerSpec(acts: seq<Action>, pid: string)
    ensures ByPlayer(acts, pid).Ok? <==> forall i :: 0 <= i < |acts| ==> NamesEq(acts[i].player, pid).Ok?
    ensures ByPlayer(acts, pid).Ok? ==>
      forall a :: a in ByPlayer(acts, pid).value <==> a in acts && SameName(a.player, pid)
  {
    if |acts| > 0 {
      ByPlayerSpec(acts[1..], pid);
      assert forall i :: 1 <= i < |acts| ==> acts[i] == acts[1..][i - 1];
      if ByPlayer(acts, pid).Ok? {
        assert forall a :: a in acts <==> a == acts[0] || a in acts[1..];
      }
    }
  }

  // ---------------------------------------------------------------------
  // did_player_vpip
  // ---------------------------------------------------------------------

  /** The loop of `did_player_vpip` over the street actions: the player's
      first call, open or raise makes it true, the player's first fold false. */
  function VpipScan(acts: seq<Action>, pid: string): Result<bool> {
    if |acts| == 0 then Ok(false)
    else
      var m :- NamesEq(acts[0].player, pid);
      if m && IsVpip(acts[0]) then Ok(true)
      else if m && acts[0].kind == Fold then Ok(false)
      else VpipScan(acts[1..], pid)
  }

  /** `Hand.did_player_vpip(player_id, street)`; a missing or empty id means
      the hero, as `player_id or self.hero_id` does. */
  function DidPlayerVpip(h: Hand, pid: Option<string>, street: StreetArg): Result<bool> {
    var who := if pid.None? || pid.value == "" then h.heroId else pid.value;
    VpipScan(StreetActions(h, street), who)
  }

  /** The player put money in voluntarily: some call, open or raise of the
      player comes before every fold of the player. */
  ghost predicate VpipBeforeFold(acts: seq<Action>, pid: string) {
    exists i :: 0 <= i < |acts| && SameName(acts[i].player, pid) && IsVpip(acts[i]) &&
      forall j :: 0 <= j < i ==> !(SameName(acts[j].player, pid) && IsFold(acts[j]))
  }

  lemma {:induction false} VpipScanSpec(acts: seq<Action>, pid: string)
    requires forall i :: 0 <= i < |acts| ==> NamesEq(acts[i].player, pid).Ok?
    ensures VpipScan(acts, pid) == Ok(VpipBeforeFold(acts, pid))
  {
    if |acts| > 0 {
      VpipScanSpec(acts[1..], pid);
      var a := acts[0];
      if SameName(a.player, pid) && IsVpip(a) {
        assert VpipBeforeFold(acts, pid);
      } else if SameName(a.player, pid) && a.kind == Fold {
      } else {
        ShiftVpip(acts, pid);
      }
    }
  }

  lemma ShiftVpip(acts: seq<Action>, pid: string)
    requires |acts| > 0 && !(SameName(acts[0].player, pid) && (IsVpip(acts[0]) || IsFold(acts[0])))
    ensures VpipBeforeFold(acts, pid) <==> VpipBeforeFold(acts[1..], pid)
  {
    var rest := acts[1..];
    if VpipBeforeFold(acts, pid) {
      var i :| 0 <= i < |acts| && SameName(acts[i].player, pid) && IsVpip(acts[i]) &&
        forall j :: 0 <= j < i ==> !(SameName(acts[j].player, pid) && IsFold(acts[j]));
      assert i > 0 && rest[i - 1] == acts[i];
      assert forall j :: 0 <= j < i - 1 ==> rest[j] == acts[j + 1];
    }
    if VpipBeforeFold(rest, pid) {
      var i :| 0 <= i < |rest| && SameName(rest[i].player, pid) && IsVpip(rest[i]) &&
        forall j :: 0 <= j < i ==> !(SameName(rest[j].player, pid) && IsFold(rest[j]));
      assert acts[i + 1] == rest[i];
      assert forall j :: 1 <= j < i + 1 ==> acts[j] == rest[j - 1];
    }
  }

  /** With well-formed ids, `did_player_vpip` holds exactly when the player
      called, opened or raised before folding on the chosen streets. */
  lemma DidPlayerVpipSpec(h: Hand, pid: Option<string>, street: StreetArg)
    requires forall a :: a in StreetActions(h, street) ==>
      NamesEq(a.player, if pid.None? || pid.value == "" then h.heroId else pid.value).Ok?
    ensures DidPlayerVpip(h, pid, street) ==
      Ok(VpipBeforeFold(StreetActions(h, street), if pid.None? || pid.value == "" then h.heroId else pid.value))
  {
    var acts := StreetActions(h, street);
    assert forall i :: 0 <= i < |acts| ==> acts[i] in acts;
    VpipScanSpec(acts, if pid.None? || pid.value == "" then h.heroId else pid.value);
  }

  // ---------------------------------------------------------------------
  // did_player_3bet_pre
  // ---------------------------------------------------------------------

  /** `(had_opportunity, action)` */
  datatype Opportunity = Opportunity(had: bool, taken: Option<Kind>)

  const NoOpportunity := Opportunity(false, None)

  /** The loop of `did_player_3bet_pre`: `raises` counts the aggressive
      actions of others so far; the player's first action of any kind ends
      the scan. */
  function ThreeBetScan(acts: seq<Action>, pid: string, raises: nat): Result<Opportunity> {
    if |acts| == 0 then Ok(NoOpportunity)
    else
      var a := acts[0];
      var m :- NamesEq(pid, a.player);
      if m then
        if raises == 1 then Ok(Opportunity(true, Some(if IsAggro(a) then Raise else a.kind)))
        else Ok(NoOpportunity)
      else ThreeBetScan(acts[1..], pid, if IsAggro(a) then raises + 1 else raises)
  }

  /** `Hand.did_player_3bet_pre(player_id)` */
  function DidPlayer3BetPre(h: Hand, pid: string): Result<Opportunity> {
    ThreeBetScan(h.preFlop, pid, 0)
  }

  /** Index of the player's first action. */
  function FirstOwn(acts: seq<Action>, pid: string): (i: nat)
    ensures i <= |acts|
    ensures i < |acts| ==> SameName(pid, acts[i].player)
    ensures forall j :: 0 <= j < i ==> !SameName(pid, acts[j].player)
  {
    if |acts| == 0 then 0
    else if SameName(pid, acts[0].player) then 0
    else
      var k := FirstOwn(acts[1..], pid);
      assert forall j :: 1 <= j <= k ==> acts[j] == acts[1..][j - 1];
      1 + k
  }

  /** Number of aggressive actions. */
  function CountAggro(acts: seq<Action>): nat {
    if |acts| == 0 then 0 else (if IsAggro(acts[0]) then 1 else 0) + CountAggro(acts[1..])
  }

  /** The player had a 3-bet opportunity exactly when exactly one
      aggressive action precedes the player's first action; the action
      taken is then reported as `Raise` when aggressive and as its own type
      otherwise. A player who never acts had no opportunity. */
  ghost function ThreeBetReference(acts: seq<Action>, pid: string, raises: nat): Opportunity {
    var i := FirstOwn(acts, pid);
    if i == |acts| then NoOpportunity
    else if raises + CountAggro(acts[..i]) == 1 then
      Opportunity(true, Some(if IsAggro(acts[i]) then Raise else acts[i].kind))
    else NoOpportunity
  }

  lemma {:induction false} ThreeBetScanSpec(acts: seq<Action>, pid: string, raises: nat)
    requires forall i :: 0 <= i < |acts| ==> NamesEq(pid, acts[i].player).Ok?
    ensures ThreeBetScan(acts, pid, raises) == Ok(ThreeBetReference(acts, pid, raises))
  {
    if |acts| > 0 && !SameName(pid, acts[0].player) {
      var a := acts[0];
      var r' := if IsAggro(a) then raises + 1 else raises;
      ThreeBetScanSpec(acts[1..], pid, r');
      var i := FirstOwn(acts[1..], pid);
      assert FirstOwn(acts, pid) == i + 1;
      assert acts[..i + 1] == [a] + acts[1..][..i];
      assert acts[i + 1..] == acts[1..][i..];
    } else if |acts| > 0 {
      assert acts[..0] == [];
    }
  }

  /** With well-formed ids, `did_player_3bet_pre` follows the reference. */
  lemma DidPlayer3BetPreSpec(h: Hand, pid: string)
    requires forall i :: 0 <= i < |h.preFlop| ==> NamesEq(pid, h.preFlop[i].player).Ok?
    ensures DidPlayer3BetPre(h, pid) == Ok(ThreeBetReference(h.preFlop, pid, 0))
  {
    ThreeBetScanSpec(h.preFlop, pid, 0);
  }

  /** The scan ends at the player's first action of any kind, so a player
      who acts (typically by posting a blind) before any raise is never
      offered a 3-bet, whatever follows: even a re-raise of the one raise
      that comes next reports no opportunity. `names_eq` need only be
      defined on the actions before that one. */
  lemma BlindPostEndsThreeBetScan(h: Hand, pid: string, k: nat)
    requires k < |h.preFlop| && SameName(pid, h.preFlop[k].player)
    requires forall j :: 0 <= j < k ==> !IsAggro(h.preFlop[j]) && NamesEq(pid, h.preFlop[j].player).Ok?
    ensures DidPlayer3BetPre(h, pid) == Ok(NoOpportunity)
  {
    UnraisedScan(h.preFlop, pid, k);
  }

  lemma {:induction false} UnraisedScan(acts: seq<Action>, pid: string, k: nat)
    requires k < |acts| && SameName(pid, acts[k].player)
    requires forall j :: 0 <= j < k ==> !IsAggro(acts[j]) && NamesEq(pid, acts[j].player).Ok?
    ensures ThreeBetScan(acts, pid, 0) == Ok(NoOpportunity)
    decreases k
  {
    if k > 0 && !SameName(pid, acts[0].player) {
      assert !IsAggro(acts[0]) && NamesEq(pid, acts[0].player) == Ok(false);
      assert ThreeBetScan(acts, pid, 0) == ThreeBetScan(acts[1..], pid, 0);
      forall j | 0 <= j < k - 1
        ensures !IsAggro(acts[1..][j]) && NamesEq(pid, acts[1..][j].player).Ok?
      {
        assert acts[1..][j] == acts[j + 1];
      }
      UnraisedScan(acts[1..], pid, k - 1);
    }
  }

  // ---------------------------------------------------------------------
  // get_action_seq_string
  // ---------------------------------------------------------------------

  predicate IsBlindOrAntePost(a: Action) {
    a.kind == PostBb || a.kind == PostSb || a.kind == PostAnte
  }

  /** What one action writes, other than the hero's fold: a letter (upper
      case for the hero, none for a straddle or another player's fold) and
      `'!'` when all in; blind and ante posts write nothing at all. */
  function ActionCode(a: Action, hero: bool): string {
    if IsBlindOrAntePost(a) then ""
    else
      (if a.kind == Call then (if hero then "C" else "c")
       else if a.kind == Open || a.kind == Raise then (if hero then "R" else "r")
       else if a.kind == Check then (if hero then "X" else "x")
       else "")
      + (if a.allIn then "!" else "")
  }

  /** The loop of `get_action_seq_string`: the hero's fold writes `'F'` and
      ends the string. */
  function Encode(acts: seq<Action>, hero: string): Result<string> {
    if |acts| == 0 then Ok("")
    else
      var a := acts[0];
      var isHero :- NamesEq(hero, a.player);
      if a.kind == Fold && isHero then Ok("F")
      else
        var rest :- Encode(acts[1..], hero);
        Ok(ActionCode(a, isHero) + rest)
  }

  /** `Hand.get_action_seq_string(street)` */
  function GetActionSeqString(h: Hand, street: StreetArg): Result<string> {
    Encode(StreetActions(h, street), h.heroId)
  }

  const SeqAlphabet: set<char> := {'F', 'C', 'c', 'R', 'r', 'X', 'x', '!'}

  lemma ActionCodeAlphabet(a: Action, hero: bool)
    ensures forall k :: 0 <= k < |ActionCode(a, hero)| ==> ActionCode(a, hero)[k] in SeqAlphabet - {'F'}
  {
  }

  /** One action that is not the hero's fold: its code, then the rest. */
  lemma EncodeStep(acts: seq<Action>, hero: string)
    requires |acts| > 0 && NamesEq(hero, acts[0].player).Ok?
    requires !(acts[0].kind == Fold && SameName(hero, acts[0].player))
    ensures Encode(acts, hero).Ok? <==> Encode(acts[1..], hero).Ok?
    ensures Encode(acts, hero).Ok? ==>
      Encode(acts, hero).value == ActionCode(acts[0], SameName(hero, acts[0].player)) + Encode(acts[1..], hero).value
  {
  }

  /** The string uses only the letters F C c R r X x and `'!'`, and an `'F'`
      can only be its last character. */
  lemma {:induction false} EncodeShape(acts: seq<Action>, hero: string)
    requires Encode(acts, hero).Ok?
    ensures forall k :: 0 <= k < |Encode(acts, hero).value| ==> Encode(acts, hero).value[k] in SeqAlphabet
    ensures forall k :: 0 <= k < |Encode(acts, hero).value| - 1 ==> Encode(acts, hero).value[k] != 'F'
  {
    if |acts| > 0 && !(acts[0].kind == Fold && SameName(hero, acts[0].player)) {
      EncodeStep(acts, hero);
      EncodeShape(acts[1..], hero);
      ActionCodeAlphabet(acts[0], SameName(hero, acts[0].player));
    }
  }

  /** The hero folds somewhere in the actions. */
  ghost predicate HeroFolds(acts: seq<Action>, hero: string) {
    exists i :: 0 <= i < |acts| && IsFold(acts[i]) && SameName(hero, acts[i].player)
  }

  predicate EndsInFold(s: string) {
    |s| > 0 && s[|s| - 1] == 'F'
  }

  lemma HeroFoldsShift(acts: seq<Action>, hero: string)
    requires |acts| > 0 && !(IsFold(acts[0]) && SameName(hero, acts[0].player))
    ensures HeroFolds(acts, hero) <==> HeroFolds(acts[1..], hero)
  {
    if HeroFolds(acts, hero) {
      var i :| 0 <= i < |acts| && IsFold(acts[i]) && SameName(hero, acts[i].player);
      assert acts[1..][i - 1] == acts[i];
    }
    if HeroFolds(acts[1..], hero) {
      var i :| 0 <= i < |acts[1..]| && IsFold(acts[1..][i]) && SameName(hero, acts[1..][i].player);
      assert acts[i + 1] == acts[1..][i];
    }
  }

  lemma EndsInFoldAppend(head: string, rest: string)
    requires forall k :: 0 <= k < |head| ==> head[k] != 'F'
    ensures EndsInFold(head + rest) <==> EndsInFold(rest)
  {
    if |rest| == 0 {
      assert head + rest == head;
    } else {
      assert (head + rest)[|head + rest| - 1] == rest[|rest| - 1];
    }
  }

  /** The string ends in `'F'` exactly when the hero folds in the actions. */
  lemma {:induction false} EncodeFold(acts: seq<Action>, hero: string)
    requires forall i :: 0 <= i < |acts| ==> NamesEq(hero, acts[i].player).Ok?
    ensures Encode(acts, hero).Ok?
    ensures EndsInFold(Encode(acts, hero).value) <==> HeroFolds(acts, hero)
  {
    if |acts| > 0 && !(acts[0].kind == Fold && SameName(hero, acts[0].player)) {
      assert forall i :: 0 <= i < |acts[1..]| ==> acts[1..][i] == acts[i + 1];
      EncodeFold(acts[1..], hero);
      EncodeStep(acts, hero);
      ActionCodeAlphabet(acts[0], SameName(hero, acts[0].player));
      EndsInFoldAppend(ActionCode(acts[0], SameName(hero, acts[0].player)), Encode(acts[1..], hero).value);
      HeroFoldsShift(acts, hero);
    } else if |acts| > 0 {
      assert IsFold(acts[0]) && SameName(hero, acts[0].player);
    }
  }

  /** The actions other than blind and ante posts. */
  function WithoutPosts(acts: seq<Action>): (r: seq<Action>)
    ensures forall a :: a in r ==> a in acts && !IsBlindOrAntePost(a)
  {
    if |acts| == 0 then []
    else if IsBlindOrAntePost(acts[0]) then WithoutPosts(acts[1..])
    else [acts[0]] + WithoutPosts(acts[1..])
  }

  /** Blind and ante posts leave no trace: dropping them from the actions
      gives the same string. */
  lemma {:induction false} EncodeIgnoresPosts(acts: seq<Action>, hero: string)
    requires forall i :: 0 <= i < |acts| ==> NamesEq(hero, acts[i].player).Ok?
    ensures Encode(acts, hero) == Encode(WithoutPosts(acts), hero)
  {
    if |acts| > 0 {
      var a := acts[0];
      assert forall i :: 0 <= i < |acts[1..]| ==> acts[1..][i] == acts[i + 1];
      EncodeIgnoresPosts(acts[1..], hero);
      if IsBlindOrAntePost(a) {
        EncodeFold(acts[1..], hero);
        EncodeStep(acts, hero);
        assert ActionCode(a, SameName(hero, a.player)) + Encode(acts[1..], hero).value == Encode(acts[1..], hero).value;
      } else {
        var w := WithoutPosts(acts);
        assert w[0] == a && w[1..] == WithoutPosts(acts[1..]);
      }
    }
  }
}

=== FILE: patterns.dfy ===
/** Hand patterns: `cards_match_pattern` of poker/cardutils.py. A pattern
    string is a list of patterns separated by spaces and commas; each is an
    exact code ("AKs", "AK", "66"), a pair threshold ("66+"), a range of
    pairs ("66-TT"), of kickers ("A5s-A9s") or of connected hands
    ("JTs-87s"), or a percentage of the pre-flop ranking ("33%"), which
    needs the pre-flop equity table and is outside the model. */
module Patterns {
  import opened Results
  import opened Cards
  import opened Strings
  import opened CardCodes

  // ---------------------------------------------------------------------
  // pattern_code.strip() and re.split(r'[ ,]+', ...)
  // ---------------------------------------------------------------------

  /** The characters `str.strip()` removes: Python's `str.isspace`. */
  predicate IsSpace(c: char) {
    c == ' ' || ('\t' <= c <= '\r') || ('\U{1c}' <= c <= '\U{1f}') || c == '\U{85}' || c == '\U{a0}' ||
    c == '\U{1680}' || ('\U{2000}' <= c <= '\U{200a}') || c == '\U{2028}' || c == '\U{2029}' ||
    c == '\U{202f}' || c == '\U{205f}' || c == '\U{3000}'
  }

  /** The bounds of `s.strip()`: leading and trailing whitespace is cut,
      and the kept part starts and ends with a non-space character. */
  function StripBounds(s: string): (b: (nat, nat))
    ensures b.0 <= b.1 <= |s|
    ensures forall k :: 0 <= k < b.0 ==> IsSpace(s[k])
    ensures forall k :: b.1 <= k < |s| ==> IsSpace(s[k])
    ensures b.0 < b.1 ==> !IsSpace(s[b.0]) && !IsSpace(s[b.1 - 1])
    ensures b.0 == b.1 ==> forall k :: 0 <= k < |s| ==> IsSpace(s[k])
  {
    var i := LeadingSpaces(s, 0);
    if i == |s| then (i, i) else (i, TrailingStart(s, |s|, i))
  }

  function LeadingSpaces(s: string, i: nat): (r: nat)
    requires i <= |s|
    requires forall k :: 0 <= k < i ==> IsSpace(s[k])
    ensures i <= r <= |s| && (r < |s| ==> !IsSpace(s[r]))
    ensures forall k :: 0 <= k < r ==> IsSpace(s[k])
    decreases |s| - i
  {
    if i < |s| && IsSpace(s[i]) then LeadingSpaces(s, i + 1) else i
  }

  function TrailingStart(s: string, j: nat, lo: nat): (r: nat)
    requires lo < j <= |s| && !IsSpace(s[lo])
    requires forall k :: j <= k < |s| ==> IsSpace(s[k])
    ensures lo < r <= j && !IsSpace(s[r - 1])
    ensures forall k :: r <= k < |s| ==> IsSpace(s[k])
    decreases j
  {
    if IsSpace(s[j - 1]) then TrailingStart(s, j - 1, lo) else j
  }

  /** `s.strip()` */
  function Strip(s: string): string {
    s[StripBounds(s).0..StripBounds(s).1]
  }

  /** The separators of `re.split(r'[ ,]+', s)`. */
  predicate IsSep(c: char) {
    c == ' ' || c == ','
  }

  predicate SepFree(s: string) {
    forall k :: 0 <= k < |s| ==> !IsSep(s[k])
  }

  /** The index of the first separator of `s`, or `|s|`. */
  function FirstSep(s: string): (i: nat)
    ensures i <= |s| && (i < |s| ==> IsSep(s[i]))
    ensures SepFree(s[..i])
  {
    if |s| == 0 || IsSep(s[0]) then 0
    else
      var i := FirstSep(s[1..]) + 1;
      assert s[..i] == [s[0]] + s[1..][..i - 1];
      i
  }

  /** The end of the run of separators that starts at `i`. */
  function RunEnd(s: string, i: nat): (j: nat)
    requires i < |s| && IsSep(s[i])
    ensures i < j <= |s| && (j < |s| ==> !IsSep(s[j]))
    ensures forall k :: i <= k < j ==> IsSep(s[k])
    decreases |s| - i
  {
    if i + 1 < |s| && IsSep(s[i + 1]) then RunEnd(s, i + 1) else i + 1
  }

  /** `re.split(r'[ ,]+', s)`: the pieces between maximal runs of spaces
      and commas, empty at an end that is a separator. */
  function SplitRuns(s: string): (r: seq<string>)
    ensures |r| >= 1
    ensures forall k :: 0 <= k < |r| ==> SepFree(r[k])
    decreases |s|
  {
    var i := FirstSep(s);
    if i == |s| then
      assert s[..i] == s;
      [s]
    else [s[..i]] + SplitRuns(s[RunEnd(s, i)..])
  }

  /** `s` with every run of separators written as one comma. */
  function Squash(s: string): string
    decreases |s|
  {
    if |s| == 0 then ""
    else if IsSep(s[0]) then "," + Squash(s[RunEnd(s, 0)..])
    else [s[0]] + Squash(s[1..])
  }

  lemma {:induction false} SquashPlain(s: string, i: nat)
    requires i <= |s| && SepFree(s[..i])
    ensures Squash(s) == s[..i] + Squash(s[i..])
    decreases i
  {
    if i > 0 {
      assert !IsSep(s[0]) by { assert s[..i][0] == s[0]; }
      assert s[1..][..i - 1] == s[1..i];
      SquashPlain(s[1..], i - 1);
      assert s[1..][i - 1..] == s[i..];
      assert s[..i] == [s[0]] + s[1..i];
    }
  }

  /** The pieces, joined with single commas, are `s` with each run of
      separators squashed to one comma: nothing but the separators is
      lost. */
  lemma {:induction false} SplitRunsJoin(s: string)
    ensures Join(SplitRuns(s), ",") == Squash(s)
    decreases |s|
  {
    var i := FirstSep(s);
    SquashPlain(s, i);
    if i < |s| {
      var j := RunEnd(s, i);
      SplitRunsJoin(s[j..]);
      SplitRunsAtSep(s, i, j);
      SquashAtSep(s, i, j);
      JoinCons(s[..i], SplitRuns(s[j..]), ",");
      ConcatAssoc(s[..i], ",", Squash(s[j..]));
    } else {
      assert s[..i] == s;
    }
  }

  lemma ConcatAssoc(a: string, b: string, c: string)
    ensures a + (b + c) == a + b + c
  {
  }

  /** Unfolding `SplitRuns` at its first separator. */
  lemma SplitRunsAtSep(s: string, i: nat, j: nat)
    requires i == FirstSep(s) && i < |s| && j == RunEnd(s, i)
    ensures SplitRuns(s) == [s[..i]] + SplitRuns(s[j..])
  {
  }

  /** Squashing from a separator writes one comma and skips the run. */
  lemma SquashAtSep(s: string, i: nat, j: nat)
    requires i < |s| && IsSep(s[i]) && j == RunEnd(s, i)
    ensures Squash(s[i..]) == "," + Squash(s[j..])
  {
    RunEndShift(s, i, 0);
    assert s[i..][RunEnd(s[i..], 0)..] == s[j..];
  }

  lemma {:induction false} RunEndShift(s: string, i: nat, k: nat)
    requires i + k < |s| && IsSep(s[i + k])
    ensures RunEnd(s[i..], k) == RunEnd(s, i + k) - i
    decreases |s| - (i + k)
  {
    if i + k + 1 < |s| && IsSep(s[i + k + 1]) {
      RunEndShift(s, i, k + 1);
    }
  }

  /** Without separators the pattern list is the string itself. */
  lemma SplitRunsSingle(s: string)
    requires SepFree(s)
    ensures SplitRuns(s) == [s]
  {
    assert FirstSep(s) == |s|;
  }

  // ---------------------------------------------------------------------
  // One pattern
  // ---------------------------------------------------------------------

  /** `p.endswith(c)` for one character. */
  predicate EndsWith(p: string, c: char) {
    |p| > 0 && p[|p| - 1] == c
  }

  function Min(a: int, b: int): int { if a <= b then a else b }
  function Max(a: int, b: int): int { if a <= b then b else a }

  /** The exact-pattern branch: the code is the pattern, or the pattern
      names no suitedness and is the first two characters of a suited or
      offsuit code ("AK" matches "AKs" and "AKo"). */
  predicate ExactMatch(code: string, p: string) {
    code == p ||
    (!EndsWith(p, 's') && !EndsWith(p, 'o') && (EndsWith(code, 's') || EndsWith(code, 'o')) &&
     code[..Min(2, |code|)] == p)
  }

  /** Some pattern in `ps` matches `code` exactly: the loops that return
      `True` as soon as a generated pattern matches. */
  predicate AnyExact(code: string, ps: seq<string>) {
    exists k :: 0 <= k < |ps| && ExactMatch(code, ps[k])
  }

  /** The pairs of the ranks `lo` to `hi`: `f"{RANKS[i]}{RANKS[i]}"`. */
  function PairPatterns(lo: Rank, hi: Rank): (r: seq<string>)
    ensures |r| == if lo <= hi then hi - lo + 1 else 0
    ensures forall k :: 0 <= k < |r| ==> r[k] == [RankChar(lo + k), RankChar(lo + k)]
  {
    if lo <= hi then seq(hi - lo + 1, k requires 0 <= k < hi - lo + 1 => [RankChar(lo + k), RankChar(lo + k)]) else []
  }

  /** `f"{p1[0]}{RANKS[i]}{suit}"` for `i` from `lo` to `hi`. */
  function KickerPatterns(top: char, lo: Rank, hi: Rank, suit: string): (r: seq<string>)
    ensures |r| == if lo <= hi then hi - lo + 1 else 0
    ensures forall k :: 0 <= k < |r| ==> r[k] == [top, RankChar(lo + k)] + suit
  {
    if lo <= hi then seq(hi - lo + 1, k requires 0 <= k < hi - lo + 1 => [top, RankChar(lo + k)] + suit) else []
  }

  /** `f"{RANKS[i]}{RANKS[i-gap]}{suit}"` for `i` from `lo` to `hi`, where
      `d` is `-gap`. */
  function GapperPatterns(lo: Rank, hi: Rank, d: int, suit: string): (r: seq<string>)
    requires 0 <= lo + d && hi + d < 13
    ensures |r| == if lo <= hi then hi - lo + 1 else 0
    ensures forall k :: 0 <= k < |r| ==> r[k] == RangeEnd(lo + k, lo + k + d, suit)
  {
    if lo <= hi then seq(hi - lo + 1, k requires 0 <= k < hi - lo + 1 => RangeEnd(lo + k, lo + k + d, suit)) else []
  }

  /** The `+` branch. A pair ("66+") matches that pair and every stronger
      one. Anything else ("A5+") builds the pattern `r1 + 'X'` (plus the
      suitedness), which no code matches. */
  function PlusMatch(code: string, p: string): Result<bool> {
    if |p| < 2 then Err(IndexError)
    else if p[0] == p[1] then
      match RankIndex(p[0])
      case None => Err(ValueError)
      case Some(idx) => Ok(AnyExact(code, PairPatterns(Ace, idx)))
    else if |p| < 3 then Err(IndexError)
    else
      var q := [p[0], 'X'] + (if p[2] == 's' || p[2] == 'o' then [p[2]] else []);
      match (RankIndex(p[1]), RankIndex(p[0]))
      case (Some(i2), Some(i1)) => Ok(i2 < i1 && ExactMatch(code, q))
      case _ => Err(ValueError)
  }

  /** The suitedness a range carries: 'o' if either end says offsuit, else
      's' if either says suited, else none. */
  function RangeSuit(p1: string, p2: string): string {
    if EndsWith(p1, 'o') || EndsWith(p2, 'o') then "o"
    else if EndsWith(p1, 's') || EndsWith(p2, 's') then "s"
    else ""
  }

  /** The `-` branch once the pattern is split into its two ends. */
  function RangeParts(code: string, p1: string, p2: string): Result<bool> {
    if (EndsWith(p1, 's') && EndsWith(p2, 'o')) || (EndsWith(p1, 'o') && EndsWith(p2, 's')) then Err(ValueError)
    else
      var suit := RangeSuit(p1, p2);
      if |p1| < 2 then Err(IndexError)
      else if p1[0] == p1[1] then PairRange(code, p1, p2)
      else if |p2| == 0 then Err(IndexError)
      else if p1[0] == p2[0] then KickerRange(code, p1, p2, suit)
      else GapperRange(code, p1, p2, suit)
  }

  /** 66-TT: a range of pairs. */
  function PairRange(code: string, p1: string, p2: string): Result<bool>
    requires |p1| >= 2
  {
    if |p2| < 2 then Err(IndexError)
    else if p2[0] != p2[1] then Err(ValueError)
    else match (RankIndex(p1[0]), RankIndex(p2[0]))
      case (Some(a), Some(b)) => Ok(AnyExact(code, PairPatterns(Min(a, b), Max(a, b))))
      case _ => Err(ValueError)
  }

  /** A5-A9: a range of kickers under one top card. */
  function KickerRange(code: string, p1: string, p2: string, suit: string): Result<bool>
    requires |p1| >= 2 && |p2| >= 1
  {
    match RankIndex(p1[1])
    case None => Err(ValueError)
    case Some(a) =>
      if |p2| < 2 then Err(IndexError)
      else match RankIndex(p2[1])
        case None => Err(ValueError)
        case Some(b) => Ok(AnyExact(code, KickerPatterns(p1[0], Min(a, b), Max(a, b), suit)))
  }

  /** JTs-87s: a range of hands with a fixed gap. */
  function GapperRange(code: string, p1: string, p2: string, suit: string): Result<bool>
    requires |p1| >= 2 && |p2| >= 1
  {
    GapperReads(code, RankIndex(p1[0]), RankIndex(p1[1]), RankIndex(p2[0]),
      if |p2| < 2 then Err(IndexError) else Ok(RankIndex(p2[1])), suit)
  }

  /** The gapper branch on the ranks read from the two ends; `last` is the
      read of the second end's second character, `IndexError` when there
      is none. */
  function GapperReads(code: string, i1: Option<Rank>, i2: Option<Rank>, j1: Option<Rank>,
                       last: Result<Option<Rank>>, suit: string): Result<bool>
  {
    if i1.None? || i2.None? || j1.None? then Err(ValueError)
    else if last.Err? then Err(IndexError)
    else match last.value
      case None => Err(ValueError)
      case Some(j2) => GapperSpan(code, i1.value, i2.value, j1.value, j2, suit)
  }

  /** Two gappers a1a2-b1b2 span a range only when their gaps agree. */
  function GapperSpan(code: string, a1: Rank, a2: Rank, b1: Rank, b2: Rank, suit: string): Result<bool> {
    if a1 - a2 != b1 - b2 then Err(ValueError)
    else Ok(AnyExact(code, GapperPatterns(Min(a1, b1), Max(a1, b1), a2 - a1, suit)))
  }

  /** The `-` branch: `p1, p2 = pattern.split("-")` unpacks exactly two
      parts or raises `ValueError`. */
  function RangeMatch(code: string, p: string): Result<bool> {
    var parts := Split(p, "-");
    if |parts| != 2 then Err(ValueError) else RangeParts(code, parts[0], parts[1])
  }

  /** One pattern of the list, for the code of the cards. */
  function MatchOne(code: string, p: string): Result<bool> {
    if '%' in p then Err(Unavailable)
    else if '+' !in p && '-' !in p then Ok(ExactMatch(code, p))
    else if '+' in p then PlusMatch(code, p)
    else RangeMatch(code, p)
  }

  /** The loop over the patterns: the first match returns `True`, an error
      ends the loop, and the end of the list returns `False`. */
  function MatchEach(code: string, ps: seq<string>): Result<bool> {
    if |ps| == 0 then Ok(false)
    else
      var m :- MatchOne(code, ps[0]);
      if m then Ok(true) else MatchEach(code, ps[1..])
  }

  /** A list of patterns matches when some pattern matches and every
      pattern before it was checked without an error; it fails to match
      when every pattern fails to match. */
  lemma {:induction false} MatchEachMeaning(code: string, ps: seq<string>)
    ensures MatchEach(code, ps) == Ok(false) <==> forall k :: 0 <= k < |ps| ==> MatchOne(code, ps[k]) == Ok(false)
    ensures MatchEach(code, ps) == Ok(true) <==>
      (exists k :: 0 <= k < |ps| && MatchOne(code, ps[k]) == Ok(true) &&
        forall j :: 0 <= j < k ==> MatchOne(code, ps[j]) == Ok(false))
  {
    if |ps| > 0 {
      MatchEachMeaning(code, ps[1..]);
      assert forall k :: 1 <= k < |ps| ==> ps[k] == ps[1..][k - 1];
      if MatchOne(code, ps[0]) == Ok(false) {
        if MatchEach(code, ps[1..]) == Ok(true) {
          var k :| 0 <= k < |ps| - 1 && MatchOne(code, ps[1..][k]) == Ok(true) &&
            forall j :: 0 <= j < k ==> MatchOne(code, ps[1..][j]) == Ok(false);
          assert MatchOne(code, ps[k + 1]) == Ok(true);
          assert forall j :: 0 <= j < k + 1 ==> MatchOne(code, ps[j]) == Ok(false);
        }
        if exists k :: 0 <= k < |ps| && MatchOne(code, ps[k]) == Ok(true) &&
            forall j :: 0 <= j < k ==> MatchOne(code, ps[j]) == Ok(false) {
          var k :| 0 <= k < |ps| && MatchOne(code, ps[k]) == Ok(true) &&
            forall j :: 0 <= j < k ==> MatchOne(code, ps[j]) == Ok(false);
          assert k > 0;
          assert forall j :: 0 <= j < k - 1 ==> MatchOne(code, ps[1..][j]) == Ok(false);
        }
      }
    }
  }

  /** `cards_match_pattern(cards, pattern_code)` */
  function CardsMatchPattern(h: Hole, patternCode: string): Result<bool> {
    var code :- ToCardCode(h);
    MatchEach(code, SplitRuns(Strip(patternCode)))
  }

  // ---------------------------------------------------------------------
  // What the pattern forms mean
  // ---------------------------------------------------------------------

  /** Rank characters are none of the characters with a role in patterns. */
  lemma RankCharPlain(r: Rank)
    ensures RankChar(r) !in "soX?+-%,"
    ensures !IsSpace(RankChar(r))
  {
    RankIndexOfChar(r);
    assert RankIndex('s').None? && RankIndex('o').None? && RankIndex('X').None? && RankIndex('?').None?;
    assert RankIndex('+').None? && RankIndex('-').None? && RankIndex('%').None? && RankIndex(',').None?;
  }

  lemma RankCharInjective(x: Rank, y: Rank)
    ensures RankChar(x) == RankChar(y) <==> x == y
  {
    RankIndexOfChar(x);
    RankIndexOfChar(y);
  }

  /** Text with no whitespace is its own `strip()`. */
  lemma StripPlain(s: string)
    requires forall k :: 0 <= k < |s| ==> !IsSpace(s[k])
    ensures Strip(s) == s
  {
    if |s| > 0 {
      assert LeadingSpaces(s, 0) == 0;
      assert TrailingStart(s, |s|, 0) == |s|;
    }
  }

  /** A pattern string without whitespace and separators is one pattern,
      checked against the code of the cards; this is also what each
      recursive `cards_match_pattern(cards, f"...")` of the source does. */
  lemma SinglePattern(h: Hole, p: string)
    requires forall k :: 0 <= k < |p| ==> !IsSpace(p[k]) && !IsSep(p[k])
    ensures ToCardCode(h).Err? ==> CardsMatchPattern(h, p) == Err(ToCardCode(h).error)
    ensures ToCardCode(h).Ok? ==> CardsMatchPattern(h, p) == MatchOne(ToCardCode(h).value, p)
  {
    StripPlain(p);
    SplitRunsSingle(p);
    if ToCardCode(h).Ok? {
      var code := ToCardCode(h).value;
      assert Strip(p) == p;
      assert SplitRuns(p) == [p];
      assert [p][1..] == [];
      assert MatchEach(code, [p]) == MatchOne(code, p);
    }
  }

  /** The generated single patterns the range loops check hold no `%`, `+`
      or `-`, so each recursive call is an exact comparison. */
  lemma GeneratedPatternIsExact(h: Hole, g: string)
    requires forall k :: 0 <= k < |g| ==> !IsSpace(g[k]) && !IsSep(g[k]) && g[k] !in "%+-"
    requires ToCardCode(h).Ok?
    ensures CardsMatchPattern(h, g) == Ok(ExactMatch(ToCardCode(h).value, g))
  {
    SinglePattern(h, g);
  }

  /** A suitedness suffix of a generated pattern: none, `s` or `o`. */
  predicate SuitMark(suit: string) {
    suit == "" || suit == "s" || suit == "o"
  }

  /** Whether a range's suitedness admits a hand. */
  predicate SuitOk(suit: string, suited: bool) {
    suit == "" || (suit == "s" && suited) || (suit == "o" && !suited)
  }

  /** The code of two known cards. */
  function CodeOf(a: Card, b: Card): string {
    ToCardCode(Hole(Some(a), Some(b))).value
  }

  /** The generated pair pattern of rank `i` matches exactly the pairs of
      that rank. */
  lemma PairExact(a: Card, b: Card, i: Rank)
    ensures ExactMatch(CodeOf(a, b), [RankChar(i), RankChar(i)]) <==> a.rank == b.rank == i
  {
    CodeOfCards(a, b);
    RankCharPlain(i);
    RankCharInjective(Stronger(a, b), i);
    RankCharInjective(Stronger(a, b), Weaker(a, b));
  }

  /** The generated pattern `t i suit` with `t` stronger than `i` matches
      exactly the hands of those two ranks whose suitedness the suffix
      admits. */
  lemma TwoRankExact(a: Card, b: Card, t: Rank, i: Rank, suit: string)
    requires t < i
    requires SuitMark(suit)
    ensures ExactMatch(CodeOf(a, b), [RankChar(t), RankChar(i)] + suit) <==>
      Stronger(a, b) == t && Weaker(a, b) == i && SuitOk(suit, a.suit == b.suit)
  {
    CodeOfCards(a, b);
    RankCharPlain(t);
    RankCharPlain(i);
    RankCharInjective(t, i);
    RankCharInjective(Stronger(a, b), t);
    RankCharInjective(Weaker(a, b), i);
    RankCharInjective(Stronger(a, b), Weaker(a, b));
    var p := [RankChar(t), RankChar(i)] + suit;
    if suit == "" {
      assert p == [RankChar(t), RankChar(i)];
    } else {
      assert p == [RankChar(t), RankChar(i), suit[0]];
    }
  }

  /** An exact code matches the hands with that code, and only them. */
  lemma ExactCodeMeaning(a: Card, b: Card, c: Card, d: Card)
    ensures CardsMatchPattern(Hole(Some(a), Some(b)), CodeOf(c, d)) == Ok(CodeOf(a, b) == CodeOf(c, d))
  {
    var p := CodeOf(c, d);
    CodeOfCards(c, d);
    RankCharPlain(Stronger(c, d));
    RankCharPlain(Weaker(c, d));
    SinglePattern(Hole(Some(a), Some(b)), p);
    CodeOfCards(a, b);
  }

  /** Two ranks without a suffix ("AK") match both the suited and the
      offsuit hands of those ranks. */
  lemma UnsuitedCodeMeaning(a: Card, b: Card, t: Rank, i: Rank)
    requires t < i
    ensures CardsMatchPattern(Hole(Some(a), Some(b)), [RankChar(t), RankChar(i)]) ==
      Ok(Stronger(a, b) == t && Weaker(a, b) == i)
  {
    RankCharPlain(t);
    RankCharPlain(i);
    SinglePattern(Hole(Some(a), Some(b)), [RankChar(t), RankChar(i)]);
    TwoRankExact(a, b, t, i, "");
    assert [RankChar(t), RankChar(i)] + "" == [RankChar(t), RankChar(i)];
  }

  /** The generated pairs from rank `lo` to rank `hi` match exactly the
      pairs of a rank in between. */
  lemma AnyPair(a: Card, b: Card, lo: Rank, hi: Rank)
    ensures AnyExact(CodeOf(a, b), PairPatterns(lo, hi)) <==> a.rank == b.rank && lo <= a.rank <= hi
  {
    var code, ps := CodeOf(a, b), PairPatterns(lo, hi);
    if a.rank == b.rank && lo <= a.rank <= hi {
      PairExact(a, b, a.rank);
      assert ExactMatch(code, ps[a.rank - lo]);
    }
    if AnyExact(code, ps) {
      var k :| 0 <= k < |ps| && ExactMatch(code, ps[k]);
      PairExact(a, b, lo + k);
    }
  }

  /** "xx+" matches the pairs of rank `x` and every stronger rank. */
  lemma PlusPairMeaning(a: Card, b: Card, x: Rank)
    ensures CardsMatchPattern(Hole(Some(a), Some(b)), [RankChar(x), RankChar(x), '+']) ==
      Ok(a.rank == b.rank && a.rank <= x)
  {
    var p := [RankChar(x), RankChar(x), '+'];
    RankCharPlain(x);
    RankIndexOfChar(x);
    SinglePattern(Hole(Some(a), Some(b)), p);
    assert MatchOne(CodeOf(a, b), p) == Ok(AnyExact(CodeOf(a, b), PairPatterns(Ace, x)));
    AnyPair(a, b, Ace, x);
  }

  /** The source's "A5+" form (two different ranks before the '+') never
      matches any hand: it compares the code with `r1 + 'X'`. */
  lemma PlusKickerNeverMatches(h: Hole, p: string)
    requires forall k :: 0 <= k < |p| ==> !IsSpace(p[k]) && !IsSep(p[k])
    requires '+' in p && '%' !in p && |p| >= 2 && p[0] != p[1]
    ensures CardsMatchPattern(h, p) != Ok(true)
  {
    SinglePattern(h, p);
    if ToCardCode(h).Ok? && |p| >= 3 {
      var code := ToCardCode(h).value;
      if h.first.Some? && h.second.Some? {
        CodeOfCards(h.first.value, h.second.value);
        RankCharPlain(Stronger(h.first.value, h.second.value));
        RankCharPlain(Weaker(h.first.value, h.second.value));
      } else if h.first.Some? {
        RankCharPlain(h.first.value.rank);
      }
      assert code[1] != 'X';
    }
  }

  /** A pattern `p1-p2` whose ends hold no `%`, `+` or `-` goes to the
      range branch with those two ends. */
  lemma RangeDispatch(code: string, p1: string, p2: string)
    requires forall c :: c in p1 || c in p2 ==> c !in "%+-"
    ensures MatchOne(code, p1 + "-" + p2) == RangeParts(code, p1, p2)
  {
    var p := p1 + "-" + p2;
    assert '-' in p by { assert p[|p1|] == '-'; }
    assert '%' !in p && '+' !in p;
    SplitPair(p1, "-", p2);
  }

  /** "xx-yy" matches the pairs from rank `x` to rank `y`, in either order. */
  lemma PairRangeMeaning(a: Card, b: Card, x: Rank, y: Rank)
    ensures CardsMatchPattern(Hole(Some(a), Some(b)), [RankChar(x), RankChar(x)] + "-" + [RankChar(y), RankChar(y)]) ==
      Ok(a.rank == b.rank && Min(x, y) <= a.rank <= Max(x, y))
  {
    var p1, p2 := [RankChar(x), RankChar(x)], [RankChar(y), RankChar(y)];
    var p := p1 + "-" + p2;
    RankCharPlain(x);
    RankCharPlain(y);
    RankIndexOfChar(x);
    RankIndexOfChar(y);
    assert p == [RankChar(x), RankChar(x), '-', RankChar(y), RankChar(y)];
    SinglePattern(Hole(Some(a), Some(b)), p);
    RangeDispatch(CodeOf(a, b), p1, p2);
    PairRangeParts(CodeOf(a, b), x, y);
    AnyPair(a, b, Min(x, y), Max(x, y));
  }

  /** The range branch on two pair ends generates the pairs between them. */
  lemma PairRangeParts(code: string, x: Rank, y: Rank)
    ensures RangeParts(code, [RankChar(x), RankChar(x)], [RankChar(y), RankChar(y)]) ==
      Ok(AnyExact(code, PairPatterns(Min(x, y), Max(x, y))))
  {
    var p1, p2 := [RankChar(x), RankChar(x)], [RankChar(y), RankChar(y)];
    RankCharPlain(x);
    RankCharPlain(y);
    RankIndexOfChar(x);
    RankIndexOfChar(y);
    assert !EndsWith(p1, 's') && !EndsWith(p1, 'o') && !EndsWith(p2, 's') && !EndsWith(p2, 'o');
    assert RangeParts(code, p1, p2) == PairRange(code, p1, p2);
  }

  /** The generated kicker patterns `t lo` to `t hi` match exactly the hands
      whose stronger card is `t` and whose weaker card lies in between. */
  lemma AnyKicker(a: Card, b: Card, t: Rank, lo: Rank, hi: Rank, suit: string)
    requires t < lo
    requires SuitMark(suit)
    ensures AnyExact(CodeOf(a, b), KickerPatterns(RankChar(t), lo, hi, suit)) <==>
      Stronger(a, b) == t && lo <= Weaker(a, b) <= hi && SuitOk(suit, a.suit == b.suit)
  {
    if Stronger(a, b) == t && lo <= Weaker(a, b) <= hi && SuitOk(suit, a.suit == b.suit) {
      var wk := Weaker(a, b);
      TwoRankExact(a, b, t, wk, suit);
      KickerAt(CodeOf(a, b), t, lo, hi, wk, suit);
    }
    if AnyExact(CodeOf(a, b), KickerPatterns(RankChar(t), lo, hi, suit)) {
      var i := KickerWitness(CodeOf(a, b), t, lo, hi, suit);
      TwoRankExact(a, b, t, i, suit);
    }
  }

  /** A hand matching the kicker pattern of weaker rank `i` matches the
      list. */
  lemma KickerAt(code: string, t: Rank, lo: Rank, hi: Rank, i: Rank, suit: string)
    requires lo <= i <= hi
    requires ExactMatch(code, [RankChar(t), RankChar(i)] + suit)
    ensures AnyExact(code, KickerPatterns(RankChar(t), lo, hi, suit))
  {
    var ps := KickerPatterns(RankChar(t), lo, hi, suit);
    assert ps[i - lo] == [RankChar(t), RankChar(i)] + suit;
  }

  /** The weaker rank of the generated kicker pattern that matched. */
  lemma KickerWitness(code: string, t: Rank, lo: Rank, hi: Rank, suit: string) returns (i: Rank)
    requires AnyExact(code, KickerPatterns(RankChar(t), lo, hi, suit))
    ensures lo <= i <= hi && ExactMatch(code, [RankChar(t), RankChar(i)] + suit)
  {
    var ps := KickerPatterns(RankChar(t), lo, hi, suit);
    var k :| 0 <= k < |ps| && ExactMatch(code, ps[k]);
    i := lo + k;
  }

  /** The generated gapper patterns from `lo` to `hi` with the weaker rank
      `d` below the stronger match exactly the hands with that gap whose
      stronger card lies in between. */
  lemma AnyGapper(a: Card, b: Card, lo: Rank, hi: Rank, d: int, suit: string)
    requires d > 0 && hi + d < 13
    requires SuitMark(suit)
    ensures AnyExact(CodeOf(a, b), GapperPatterns(lo, hi, d, suit)) <==>
      Weaker(a, b) - Stronger(a, b) == d && lo <= Stronger(a, b) <= hi && SuitOk(suit, a.suit == b.suit)
  {
    if Weaker(a, b) - Stronger(a, b) == d && lo <= Stronger(a, b) <= hi && SuitOk(suit, a.suit == b.suit) {
      GapperHit(a, b, lo, hi, d, suit);
    }
    if AnyExact(CodeOf(a, b), GapperPatterns(lo, hi, d, suit)) {
      var k := GapperWitness(CodeOf(a, b), lo, hi, d, suit);
      GapperFoundAt(a, b, lo, hi, d, k, suit);
    }
  }

  lemma GapperHit(a: Card, b: Card, lo: Rank, hi: Rank, d: int, suit: string)
    requires d > 0 && hi + d < 13
    requires SuitMark(suit)
    requires Weaker(a, b) - Stronger(a, b) == d && lo <= Stronger(a, b) <= hi && SuitOk(suit, a.suit == b.suit)
    ensures AnyExact(CodeOf(a, b), GapperPatterns(lo, hi, d, suit))
  {
    var st, wk := Stronger(a, b), Weaker(a, b);
    TwoRankExact(a, b, st, wk, suit);
    assert ExactMatch(CodeOf(a, b), RangeEnd(st, wk, suit));
    assert wk == st + d;
    GapperAt(CodeOf(a, b), lo, hi, d, st, suit);
  }

  /** A hand matching the gapper pattern whose stronger rank is `st`
      matches the list. */
  lemma GapperAt(code: string, lo: Rank, hi: Rank, d: int, st: Rank, suit: string)
    requires d > 0 && lo <= st <= hi && hi + d < 13
    requires ExactMatch(code, RangeEnd(st, st + d, suit))
    ensures AnyExact(code, GapperPatterns(lo, hi, d, suit))
  {
    var ps := GapperPatterns(lo, hi, d, suit);
    assert ps[st - lo] == RangeEnd(st, st + d, suit);
  }

  lemma GapperFoundAt(a: Card, b: Card, lo: Rank, hi: Rank, d: int, k: nat, suit: string)
    requires d > 0 && lo + k <= hi && hi + d < 13
    requires SuitMark(suit)
    requires ExactMatch(CodeOf(a, b), RangeEnd(lo + k, lo + k + d, suit))
    ensures Weaker(a, b) - Stronger(a, b) == d && lo <= Stronger(a, b) <= hi && SuitOk(suit, a.suit == b.suit)
  {
    var t, i := lo + k, lo + k + d;
    assert t < i < 13;
    TwoRankFound(a, b, t, i, suit);
  }

  /** The offset from `lo` of the generated gapper pattern that matched. */
  lemma GapperWitness(code: string, lo: Rank, hi: Rank, d: int, suit: string) returns (k: nat)
    requires d > 0 && hi + d < 13
    requires AnyExact(code, GapperPatterns(lo, hi, d, suit))
    ensures lo + k <= hi && ExactMatch(code, RangeEnd(lo + k, lo + k + d, suit))
  {
    var ps := GapperPatterns(lo, hi, d, suit);
    k :| 0 <= k < |ps| && ExactMatch(code, ps[k]);
  }

  lemma TwoRankFound(a: Card, b: Card, t: Rank, i: Rank, suit: string)
    requires t < i
    requires SuitMark(suit)
    requires ExactMatch(CodeOf(a, b), RangeEnd(t, i, suit))
    ensures Stronger(a, b) == t && Weaker(a, b) == i && SuitOk(suit, a.suit == b.suit)
  {
    TwoRankExact(a, b, t, i, suit);
  }

  /** The two ends of a range built from two ranks and a suitedness. */
  function RangeEnd(x: Rank, y: Rank, suit: string): string {
    [RankChar(x), RankChar(y)] + suit
  }

  /** A range end of two ranks and at most a suitedness letter holds no
      `%`, `+` or `-`. */
  lemma RangeEndPlain(x: Rank, y: Rank, suit: string)
    requires SuitMark(suit)
    ensures forall c :: c in RangeEnd(x, y, suit) ==> c !in "%+-" && !IsSpace(c) && !IsSep(c)
    ensures |RangeEnd(x, y, suit)| >= 2
    ensures RangeEnd(x, y, suit)[0] == RankChar(x) && RangeEnd(x, y, suit)[1] == RankChar(y)
    ensures EndsWith(RangeEnd(x, y, suit), 's') <==> suit == "s"
    ensures EndsWith(RangeEnd(x, y, suit), 'o') <==> suit == "o"
  {
    RankCharPlain(x);
    RankCharPlain(y);
    var e := RangeEnd(x, y, suit);
    if suit == "" {
      assert e == [RankChar(x), RankChar(y)];
    } else {
      assert e == [RankChar(x), RankChar(y), suit[0]];
    }
  }

  /** A range whose ends hold no whitespace and no separators is one
      pattern. */
  lemma SeparatorFreeRange(p1: string, p2: string)
    requires forall c :: c in p1 || c in p2 ==> !IsSpace(c) && !IsSep(c)
    ensures forall k :: 0 <= k < |p1 + "-" + p2| ==> !IsSpace((p1 + "-" + p2)[k]) && !IsSep((p1 + "-" + p2)[k])
  {
    var p := p1 + "-" + p2;
    forall k | 0 <= k < |p|
      ensures !IsSpace(p[k]) && !IsSep(p[k])
    {
      if k < |p1| {
        assert p[k] == p1[k];
      } else if k > |p1| {
        assert p[k] == p2[k - |p1| - 1];
      }
    }
  }

  /** A pattern of two plain ends joined by `-` is the range branch on
      those ends. */
  lemma RangeOfEnds(h: Hole, p1: string, p2: string)
    requires forall c :: c in p1 || c in p2 ==> c !in "%+-" && !IsSpace(c) && !IsSep(c)
    ensures ToCardCode(h).Err? ==> CardsMatchPattern(h, p1 + "-" + p2) == Err(ToCardCode(h).error)
    ensures ToCardCode(h).Ok? ==> CardsMatchPattern(h, p1 + "-" + p2) == RangeParts(ToCardCode(h).value, p1, p2)
  {
    SeparatorFreeRange(p1, p2);
    SinglePattern(h, p1 + "-" + p2);
    if ToCardCode(h).Ok? {
      RangeDispatch(ToCardCode(h).value, p1, p2);
    }
  }

  /** For two known cards, a range pattern with plain ends is the range
      branch on the code of the cards. */
  lemma RangeOfCards(a: Card, b: Card, p1: string, p2: string)
    requires forall c :: c in p1 || c in p2 ==> c !in "%+-" && !IsSpace(c) && !IsSep(c)
    ensures CardsMatchPattern(Hole(Some(a), Some(b)), p1 + "-" + p2) == RangeParts(CodeOf(a, b), p1, p2)
  {
    RangeOfEnds(Hole(Some(a), Some(b)), p1, p2);
    assert ToCardCode(Hole(Some(a), Some(b))).Ok?;
  }

  /** The range branch on two kicker ends with the same top rank
      generates the kickers between them. */
  lemma KickerRangeParts(code: string, t: Rank, k1: Rank, k2: Rank, suit: string)
    requires t < k1 && t < k2
    requires SuitMark(suit)
    ensures RangeParts(code, RangeEnd(t, k1, suit), RangeEnd(t, k2, suit)) ==
      Ok(AnyExact(code, KickerPatterns(RankChar(t), Min(k1, k2), Max(k1, k2), suit)))
  {
    var p1, p2 := RangeEnd(t, k1, suit), RangeEnd(t, k2, suit);
    RangeEndPlain(t, k1, suit);
    RangeEndPlain(t, k2, suit);
    RankCharInjective(t, k1);
    RankIndexOfChar(k1);
    RankIndexOfChar(k2);
    assert RangeSuit(p1, p2) == suit;
  }

  /** "t k1 - t k2" (with a common suitedness) matches the hands whose
      stronger card is `t` and whose kicker lies between `k1` and `k2`. */
  lemma KickerRangeMeaning(a: Card, b: Card, t: Rank, k1: Rank, k2: Rank, suit: string)
    requires t < k1 && t < k2
    requires SuitMark(suit)
    ensures CardsMatchPattern(Hole(Some(a), Some(b)), RangeEnd(t, k1, suit) + "-" + RangeEnd(t, k2, suit)) ==
      Ok(Stronger(a, b) == t && Min(k1, k2) <= Weaker(a, b) <= Max(k1, k2) && SuitOk(suit, a.suit == b.suit))
  {
    RangeEndPlain(t, k1, suit);
    RangeEndPlain(t, k2, suit);
    RangeOfCards(a, b, RangeEnd(t, k1, suit), RangeEnd(t, k2, suit));
    KickerRangeParts(CodeOf(a, b), t, k1, k2, suit);
    AnyKicker(a, b, t, Min(k1, k2), Max(k1, k2), suit);
  }

  /** The range branch on two gapper ends with the same gap generates the
      gappers between them. */
  lemma GapperRangeParts(code: string, x1: Rank, x2: Rank, d: int, suit: string)
    requires d > 0 && x1 + d < 13 && x2 + d < 13 && x1 != x2
    requires SuitMark(suit)
    ensures RangeParts(code, RangeEnd(x1, x1 + d, suit), RangeEnd(x2, x2 + d, suit)) ==
      Ok(AnyExact(code, GapperPatterns(Min(x1, x2), Max(x1, x2), d, suit)))
  {
    GapperEnds(x1, x2, d, suit);
    GapperBranch(code, RangeEnd(x1, x1 + d, suit), RangeEnd(x2, x2 + d, suit), x1, x2, d, suit);
  }

  /** The gapper branch of `RangeParts`, for any two ends it reads alike. */
  lemma GapperBranch(code: string, p1: string, p2: string, a: Rank, b: Rank, d: nat, suit: string)
    requires !((EndsWith(p1, 's') && EndsWith(p2, 'o')) || (EndsWith(p1, 'o') && EndsWith(p2, 's')))
    requires RangeSuit(p1, p2) == suit
    requires |p1| >= 2 && |p2| >= 2 && p1[0] != p1[1] && p1[0] != p2[0]
    requires a + d < 13 && b + d < 13
    requires RankIndex(p1[0]) == Some(a) && RankIndex(p1[1]) == Some(a + d)
    requires RankIndex(p2[0]) == Some(b) && RankIndex(p2[1]) == Some(b + d)
    ensures RangeParts(code, p1, p2) == Ok(AnyExact(code, GapperPatterns(Min(a, b), Max(a, b), d, suit)))
  {
    assert RangeParts(code, p1, p2) == GapperRange(code, p1, p2, suit);
    GapperRangeValue(code, p1, p2, a, b, d, suit);
  }

  lemma GapperRangeValue(code: string, p1: string, p2: string, a: Rank, b: Rank, d: nat, suit: string)
    requires |p1| >= 2 && |p2| >= 2
    requires a + d < 13 && b + d < 13
    requires RankIndex(p1[0]) == Some(a) && RankIndex(p1[1]) == Some(a + d)
    requires RankIndex(p2[0]) == Some(b) && RankIndex(p2[1]) == Some(b + d)
    ensures GapperRange(code, p1, p2, suit) == Ok(AnyExact(code, GapperPatterns(Min(a, b), Max(a, b), d, suit)))
  {
    GapperRangeSpan(code, p1, p2, a, a + d, b, b + d, suit);
    GapperSpanValue(code, a, b, d, suit);
  }

  /** The range branch on two ends whose ranks read as given. */
  lemma GapperRangeSpan(code: string, p1: string, p2: string, a1: Rank, a2: Rank, b1: Rank, b2: Rank, suit: string)
    requires |p1| >= 2 && |p2| >= 2
    requires RankIndex(p1[0]) == Some(a1) && RankIndex(p1[1]) == Some(a2)
    requires RankIndex(p2[0]) == Some(b1) && RankIndex(p2[1]) == Some(b2)
    ensures GapperRange(code, p1, p2, suit) == GapperSpan(code, a1, a2, b1, b2, suit)
  {
    GapperRangeReads(code, p1, p2, suit);
    GapperReadsKnown(code, a1, a2, b1, b2, suit);
  }

  lemma GapperReadsKnown(code: string, a1: Rank, a2: Rank, b1: Rank, b2: Rank, suit: string)
    ensures GapperReads(code, Some(a1), Some(a2), Some(b1), Ok(Some(b2)), suit)
      == GapperSpan(code, a1, a2, b1, b2, suit)
  {
  }

  lemma GapperRangeReads(code: string, p1: string, p2: string, suit: string)
    requires |p1| >= 2 && |p2| >= 2
    ensures GapperRange(code, p1, p2, suit)
      == GapperReads(code, RankIndex(p1[0]), RankIndex(p1[1]), RankIndex(p2[0]), Ok(RankIndex(p2[1])), suit)
  {
  }

  lemma GapperSpanValue(code: string, a: Rank, b: Rank, d: nat, suit: string)
    requires a + d < 13 && b + d < 13
    ensures GapperSpan(code, a, a + d, b, b + d, suit) == Ok(AnyExact(code, GapperPatterns(Min(a, b), Max(a, b), d, suit)))
  {
  }

  /** What the range branch reads off two gapper ends. */
  lemma GapperEnds(x1: Rank, x2: Rank, d: int, suit: string)
    requires d > 0 && x1 + d < 13 && x2 + d < 13 && x1 != x2
    requires SuitMark(suit)
    ensures var p1, p2 := RangeEnd(x1, x1 + d, suit), RangeEnd(x2, x2 + d, suit);
      RangeSuit(p1, p2) == suit &&
      !((EndsWith(p1, 's') && EndsWith(p2, 'o')) || (EndsWith(p1, 'o') && EndsWith(p2, 's'))) &&
      |p1| >= 2 && |p2| >= 2 && p1[0] != p1[1] && p1[0] != p2[0] &&
      RankIndex(p1[0]) == Some(x1) && RankIndex(p1[1]) == Some(x1 + d) &&
      RankIndex(p2[0]) == Some(x2) && RankIndex(p2[1]) == Some(x2 + d)
  {
    EndReads(x1, x1 + d, suit);
    EndReads(x2, x2 + d, suit);
    SameMarkEnds(RangeEnd(x1, x1 + d, suit), RangeEnd(x2, x2 + d, suit), suit);
    RankCharInjective(x1, x1 + d);
    RankCharInjective(x1, x2);
  }

  /** Two ends carrying the same suitedness mark agree, and the range
      reads that mark. */
  lemma SameMarkEnds(p1: string, p2: string, suit: string)
    requires SuitMark(suit)
    requires EndsWith(p1, 's') <==> suit == "s"
    requires EndsWith(p1, 'o') <==> suit == "o"
    requires EndsWith(p2, 's') <==> suit == "s"
    requires EndsWith(p2, 'o') <==> suit == "o"
    ensures RangeSuit(p1, p2) == suit
    ensures !((EndsWith(p1, 's') && EndsWith(p2, 'o')) || (EndsWith(p1, 'o') && EndsWith(p2, 's')))
  {
  }

  /** What the range branch reads off one end built from two ranks. */
  lemma EndReads(x: Rank, y: Rank, suit: string)
    requires SuitMark(suit)
    ensures var e := RangeEnd(x, y, suit);
      && |e| >= 2 && e[0] == RankChar(x) && e[1] == RankChar(y)
      && RankIndex(e[0]) == Some(x) && RankIndex(e[1]) == Some(y)
      && (EndsWith(e, 's') <==> suit == "s") && (EndsWith(e, 'o') <==> suit == "o")
  {
    RangeEndPlain(x, y, suit);
    RankIndexOfChar(x);
    RankIndexOfChar(y);
  }

  /** "x1 y1 - x2 y2" with the same gap `d` on both ends matches the hands
      with that gap whose stronger card lies between `x1` and `x2`. */
  lemma GapperRangeMeaning(a: Card, b: Card, x1: Rank, x2: Rank, d: int, suit: string)
    requires d > 0 && x1 + d < 13 && x2 + d < 13 && x1 != x2
    requires SuitMark(suit)
    ensures CardsMatchPattern(Hole(Some(a), Some(b)), RangeEnd(x1, x1 + d, suit) + "-" + RangeEnd(x2, x2 + d, suit)) ==
      Ok(Weaker(a, b) - Stronger(a, b) == d && Min(x1, x2) <= Stronger(a, b) <= Max(x1, x2) && SuitOk(suit, a.suit == b.suit))
  {
    RangeEndPlain(x1, x1 + d, suit);
    RangeEndPlain(x2, x2 + d, suit);
    RangeOfCards(a, b, RangeEnd(x1, x1 + d, suit), RangeEnd(x2, x2 + d, suit));
    GapperRangeParts(CodeOf(a, b), x1, x2, d, suit);
    AnyGapper(a, b, Min(x1, x2), Max(x1, x2), d, suit);
  }

  /** A range whose ends disagree on suitedness ("AKs-AQo") raises
      `ValueError`. */
  lemma MixedSuitsRejected(h: Hole, p1: string, p2: string)
    requires forall c :: c in p1 || c in p2 ==> c !in "%+-" && !IsSpace(c) && !IsSep(c)
    requires (EndsWith(p1, 's') && EndsWith(p2, 'o')) || (EndsWith(p1, 'o') && EndsWith(p2, 's'))
    ensures CardsMatchPattern(h, p1 + "-" + p2) == Err(if ToCardCode(h).Ok? then ValueError else ToCardCode(h).error)
  {
    RangeOfEnds(h, p1, p2);
  }

  /** A range from a pair to a non-pair ("66-AK") raises `ValueError`. */
  lemma PairToNonPairRejected(h: Hole, x: Rank, y1: Rank, y2: Rank, suit: string)
    requires y1 != y2
    requires SuitMark(suit)
    ensures CardsMatchPattern(h, [RankChar(x), RankChar(x)] + "-" + RangeEnd(y1, y2, suit)) ==
      Err(if ToCardCode(h).Ok? then ValueError else ToCardCode(h).error)
  {
    var p1, p2 := [RankChar(x), RankChar(x)], RangeEnd(y1, y2, suit);
    RankCharPlain(x);
    RangeEndPlain(y1, y2, suit);
    RankCharInjective(y1, y2);
    assert !EndsWith(p1, 's') && !EndsWith(p1, 'o');
    RangeOfEnds(h, p1, p2);
  }

  /** A gapper range whose ends have different gaps ("JT-86") raises
      `ValueError`. */
  lemma GapMismatchRejected(h: Hole, x1: Rank, y1: Rank, x2: Rank, y2: Rank, suit: string)
    requires x1 != y1 && x1 != x2 && x1 - y1 != x2 - y2
    requires SuitMark(suit)
    ensures CardsMatchPattern(h, RangeEnd(x1, y1, suit) + "-" + RangeEnd(x2, y2, suit)) ==
      Err(if ToCardCode(h).Ok? then ValueError else ToCardCode(h).error)
  {
    var p1, p2 := RangeEnd(x1, y1, suit), RangeEnd(x2, y2, suit);
    RangeEndPlain(x1, y1, suit);
    RangeEndPlain(x2, y2, suit);
    RankCharInjective(x1, y1);
    RankCharInjective(x1, x2);
    RankIndexOfChar(x1);
    RankIndexOfChar(y1);
    RankIndexOfChar(x2);
    RankIndexOfChar(y2);
    RangeOfEnds(h, p1, p2);
  }
}

=== FILE: positions.dfy ===
/** `Hand.get_position_to_player_mapping` from poker/hands.py: seat names
    for the players of a hand, read off the pre-flop acting order. */
module Positions {
  import opened Results
  import opened Actions
  import opened Hands

  /** The position keys of poker/actions.py; `Key` gives the string the
      source uses as the dictionary key. */
  datatype Position =
    | SmallBlind | BigBlind | BlindSeats | Button | AnySeat | Utg | UtgPlus
    | Cutoff | Hijack | Lojack | Early | Middle | Late

  const AllPositions: set<Position> :=
    {SmallBlind, BigBlind, BlindSeats, Button, AnySeat, Utg, UtgPlus, Cutoff, Hijack, Lojack, Early, Middle, Late}

  function Key(p: Position): string {
    match p
    case SmallBlind => "sb"
    case BigBlind => "bb"
    case BlindSeats => "BLINDS"
    case Button => "BTN"
    case AnySeat => "any"
    case Utg => "UTG"
    case UtgPlus => "UTG+"
    case Cutoff => "CO"
    case Hijack => "HJ"
    case Lojack => "LJ"
    case Early => "EP"
    case Middle => "MP"
    case Late => "LP"
  }

  /** Distinct positions have distinct string keys, so a map keyed by
      `Position` holds the same entries as the source's string-keyed one. */
  lemma KeyInjective(p: Position, q: Position)
    ensures Key(p) == Key(q) <==> p == q
  {
  }

  /** What the pre-flop loop collects: the players in first-seen order and
      the last small and big blind posters. */
  datatype Seating = Seating(seen: seq<string>, sb: Option<string>, bb: Option<string>)

  /** The pre-flop loop: it stops once the first player seen acts again. */
  function Scan(acts: seq<Action>, s: Seating): Seating
    decreases |acts|
  {
    if |acts| == 0 || (|s.seen| > 0 && acts[0].player == s.seen[0]) then s
    else
      var a := acts[0];
      Scan(acts[1..], Seating(s.seen + [a.player],
        if a.kind == PostSb then Some(a.player) else s.sb,
        if a.kind == PostBb then Some(a.player) else s.bb))
  }

  /** `list.insert(1, x)`: at index 1, or at the end of a shorter list. */
  function InsertSecond<T>(xs: seq<T>, x: T): (r: seq<T>)
    ensures |r| == |xs| + 1
  {
    if |xs| == 0 then [x] else [xs[0], x] + xs[1..]
  }

  function Wrap(xs: seq<string>): (r: seq<Option<string>>)
    ensures |r| == |xs| && forall i :: 0 <= i < |xs| ==> r[i] == Some(xs[i])
  {
    seq(|xs|, i requires 0 <= i < |xs| => Some(xs[i]))
  }

  /** `seen_players` after the dead-blind placeholders: a `None` in front
      for a missing small blind, and one at index 1 for a missing big
      blind. */
  function Slots(s: Seating): seq<Option<string>> {
    var withSb := if s.sb.None? then [None] + Wrap(s.seen) else Wrap(s.seen);
    if s.bb.None? then InsertSecond(withSb, None) else withSb
  }

  /** The early, middle and late position lists by table size. */
  datatype Zones = Zones(early: seq<Option<string>>, middle: seq<Option<string>>, late: seq<Option<string>>)

  function ZonesOf(p: seq<Option<string>>): Zones {
    var n := |p|;
    if n == 2 then Zones([p[0]], [], [p[1]])
    else if n == 3 then Zones([p[0]], [p[1]], [p[2]])
    else if n == 4 then Zones([p[0], p[1]], [p[2]], [p[3]])
    else if n == 5 then Zones([p[2]], [p[3]], [p[4]])
    else if n == 6 then Zones([p[2]], [p[3]], [p[4], p[5]])
    else if n == 7 then Zones([p[2]], [p[3], p[4]], [p[5], p[6]])
    else if n >= 8 then Zones([p[2]] + p[3..n - 4], [p[3], p[3]], [p[3], p[n - 1]])
    else Zones([], [], [])
  }

  /** `res[key]` before the `None`s are removed. A key the source never
      sets holds the empty list here, which the cleaning drops just the
      same. */
  function Entry(s: Seating, key: Position): seq<Option<string>> {
    var p := Slots(s);
    var n := |p|;
    match key
    case SmallBlind => [s.sb]
    case BigBlind => [s.bb]
    case BlindSeats => [s.sb, s.bb]
    case Button => if n > 0 then [p[n - 1]] else []
    case AnySeat => p
    case Utg => if n >= 4 then [p[2]] else []
    case Cutoff => if n >= 5 then [p[3]] else []
    case Hijack => if n >= 6 then [p[3]] else []
    case Lojack => if n >= 7 then [p[3]] else []
    case UtgPlus => if n >= 8 then p[3..n - 4] else []
    case Early => ZonesOf(p).early
    case Middle => ZonesOf(p).middle
    case Late => ZonesOf(p).late
  }

  /** The list without its `None`s. */
  function Somes(xs: seq<Option<string>>): (r: seq<string>)
    ensures forall x :: x in r <==> Some(x) in xs
  {
    if |xs| == 0 then []
    else (if xs[0].Some? then [xs[0].value] else []) + Somes(xs[1..])
  }

  /** `Hand.get_position_to_player_mapping()`: the final loop drops every
      `None`, then every key left empty. */
  function GetPositionToPlayerMapping(h: Hand): (r: map<Position, seq<string>>)
    ensures forall k :: k in r ==> |r[k]| > 0
  {
    var s := Scan(h.preFlop, Seating([], None, None));
    map k | k in AllPositions && |Somes(Entry(s, k))| > 0 :: Somes(Entry(s, k))
  }

  /** A key is present exactly when its raw list holds a player. */
  lemma MappingAt(h: Hand, k: Position)
    ensures k in GetPositionToPlayerMapping(h) <==> |Somes(Entry(Scan(h.preFlop, Seating([], None, None)), k))| > 0
    ensures k in GetPositionToPlayerMapping(h) ==>
      GetPositionToPlayerMapping(h)[k] == Somes(Entry(Scan(h.preFlop, Seating([], None, None)), k))
  {
  }

  // ---------------------------------------------------------------------
  // Properties
  // ---------------------------------------------------------------------

  /** The players in `acts`, in order. */
  function Players(acts: seq<Action>): (r: seq<string>)
    ensures |r| == |acts| && forall i :: 0 <= i < |acts| ==> r[i] == acts[i].player
  {
    seq(|acts|, i requires 0 <= i < |acts| => acts[i].player)
  }

  /** The number of leading actions not taken by `first`. */
  function Lap(acts: seq<Action>, first: string): (k: nat)
    ensures k <= |acts|
    ensures forall i :: 0 <= i < k ==> acts[i].player != first
    ensures k < |acts| ==> acts[k].player == first
  {
    if |acts| == 0 || acts[0].player == first then 0 else 1 + Lap(acts[1..], first)
  }

  /** Reference definition of the loop's player list: the first player and
      everyone who acts before that player acts again. */
  function Orbit(acts: seq<Action>): (r: seq<string>)
    ensures |r| <= |acts|
  {
    if |acts| == 0 then [] else Players(acts)[..1 + Lap(acts[1..], acts[0].player)]
  }

  /** One step of the loop, for a player other than the first. */
  function Next(s: Seating, a: Action): Seating {
    Seating(s.seen + [a.player],
      if a.kind == PostSb then Some(a.player) else s.sb,
      if a.kind == PostBb then Some(a.player) else s.bb)
  }

  lemma {:induction false} ScanSeen(acts: seq<Action>, s: Seating)
    requires |s.seen| > 0
    ensures Scan(acts, s).seen == s.seen + Players(acts)[..Lap(acts, s.seen[0])]
    decreases |acts|
  {
    var first := s.seen[0];
    if |acts| == 0 || acts[0].player == first {
      assert Lap(acts, first) == 0;
      assert Players(acts)[..0] == [];
    } else {
      var s' := Next(s, acts[0]);
      var k := Lap(acts[1..], first);
      assert s'.seen[0] == first;
      assert Lap(acts, first) == k + 1;
      assert Scan(acts, s) == Scan(acts[1..], s');
      ScanSeen(acts[1..], s');
      PlayersPrefix(acts, k);
      AppendAssoc(s.seen, acts[0].player, Players(acts[1..])[..k]);
    }
  }

  lemma AppendAssoc(seen: seq<string>, p: string, rest: seq<string>)
    ensures (seen + [p]) + rest == seen + ([p] + rest)
  {
  }

  lemma PlayersPrefix(acts: seq<Action>, k: nat)
    requires k < |acts|
    ensures Players(acts)[..k + 1] == [acts[0].player] + Players(acts[1..])[..k]
  {
  }

  /** The loop lists exactly the players of the first orbit, in acting
      order, and the first of them never again. */
  lemma SeenIsOrbit(acts: seq<Action>)
    ensures Scan(acts, Seating([], None, None)).seen == Orbit(acts)
    ensures forall i :: 0 < i < |Orbit(acts)| ==> Orbit(acts)[i] != Orbit(acts)[0]
  {
    if |acts| > 0 {
      var s' := Next(Seating([], None, None), acts[0]);
      var k := Lap(acts[1..], acts[0].player);
      ScanSeen(acts[1..], s');
      PlayersPrefix(acts, k);
    }
  }

  /** The recorded blind posters are among the players seen. */
  lemma {:induction false} BlindsSeen(acts: seq<Action>, s: Seating)
    requires s.sb.Some? ==> s.sb.value in s.seen
    requires s.bb.Some? ==> s.bb.value in s.seen
    ensures Scan(acts, s).sb.Some? ==> Scan(acts, s).sb.value in Scan(acts, s).seen
    ensures Scan(acts, s).bb.Some? ==> Scan(acts, s).bb.value in Scan(acts, s).seen
    decreases |acts|
  {
    if |acts| > 0 && !(|s.seen| > 0 && acts[0].player == s.seen[0]) {
      BlindsSeen(acts[1..], Next(s, acts[0]));
    }
  }

  lemma {:induction false} SomesAppend(xs: seq<Option<string>>, ys: seq<Option<string>>)
    ensures Somes(xs + ys) == Somes(xs) + Somes(ys)
  {
    if |xs| > 0 {
      var head := if xs[0].Some? then [xs[0].value] else [];
      assert (xs + ys)[0] == xs[0];
      assert (xs + ys)[1..] == xs[1..] + ys;
      SomesAppend(xs[1..], ys);
      assert Somes(xs + ys) == head + (Somes(xs[1..]) + Somes(ys));
      assert Somes(xs) == head + Somes(xs[1..]);
    } else {
      assert xs + ys == ys;
    }
  }

  lemma {:induction false} SomesWrap(xs: seq<string>)
    ensures Somes(Wrap(xs)) == xs
  {
    if |xs| > 0 {
      assert Wrap(xs)[1..] == Wrap(xs[1..]);
      SomesWrap(xs[1..]);
    }
  }

  /** The placeholders add only `None`s, so dropping them restores the
      players. */
  lemma SlotsPlayers(s: Seating)
    ensures Somes(Slots(s)) == s.seen
  {
    SomesWrap(s.seen);
    var withSb := if s.sb.None? then [None] + Wrap(s.seen) else Wrap(s.seen);
    if s.sb.None? {
      SomesAppend([None], Wrap(s.seen));
    }
    if s.bb.None? && |withSb| > 0 {
      SomesAppend([withSb[0], None], withSb[1..]);
      SomesAppend([withSb[0]], withSb[1..]);
      assert withSb == [withSb[0]] + withSb[1..];
    }
  }

  /** `ANY` is the first orbit in acting order, and is absent only for a
      hand without pre-flop actions. */
  lemma AnyIsOrbit(h: Hand)
    ensures |h.preFlop| > 0 ==> AnySeat in GetPositionToPlayerMapping(h) && GetPositionToPlayerMapping(h)[AnySeat] == Orbit(h.preFlop)
    ensures |h.preFlop| == 0 ==> AnySeat !in GetPositionToPlayerMapping(h)
  {
    var s := Scan(h.preFlop, Seating([], None, None));
    SeenIsOrbit(h.preFlop);
    SlotsPlayers(s);
    assert Somes(Entry(s, AnySeat)) == Orbit(h.preFlop);
    if |h.preFlop| > 0 {
      assert |Orbit(h.preFlop)| == 1 + Lap(h.preFlop[1..], h.preFlop[0].player);
    }
    MappingAt(h, AnySeat);
  }

  /** The placeholder list always has at least two seats, so the button
      and the early and late positions are always assigned. */
  lemma SlotsAtLeastTwo(acts: seq<Action>)
    ensures |Slots(Scan(acts, Seating([], None, None)))| >= 2
  {
    var s := Scan(acts, Seating([], None, None));
    SeenIsOrbit(acts);
    BlindsSeen(acts, Seating([], None, None));
    if s.sb.Some? && s.bb.Some? && |s.seen| < 2 {
      BlindsDiffer(acts);
    }
  }

  /** A one-player orbit cannot hold both blinds. */
  lemma BlindsDiffer(acts: seq<Action>)
    requires |Orbit(acts)| == 1
    ensures Scan(acts, Seating([], None, None)).sb.None? || Scan(acts, Seating([], None, None)).bb.None?
  {
    var s' := Next(Seating([], None, None), acts[0]);
    assert Lap(acts[1..], acts[0].player) == 0;
    assert Scan(acts, Seating([], None, None)) == s';
  }

  /** With two or more players seen, the button is the last of them. */
  lemma ButtonIsLast(h: Hand)
    requires |Orbit(h.preFlop)| >= 2
    ensures Button in GetPositionToPlayerMapping(h)
    ensures GetPositionToPlayerMapping(h)[Button] == [Orbit(h.preFlop)[|Orbit(h.preFlop)| - 1]]
  {
    var s := Scan(h.preFlop, Seating([], None, None));
    SeenIsOrbit(h.preFlop);
    var last := s.seen[|s.seen| - 1];
    SlotsEndWithLast(s);
    assert Entry(s, Button) == [Some(last)];
    assert Somes([Some(last)]) == [last];
    MappingAt(h, Button);
  }

  /** With two players seen, the placeholders never come last: the last
      slot is the last player seen. */
  lemma SlotsEndWithLast(s: Seating)
    requires |s.seen| >= 2
    ensures |Slots(s)| > 0 && Slots(s)[|Slots(s)| - 1] == Some(s.seen[|s.seen| - 1])
  {
    var w := Wrap(s.seen);
    var withSb := if s.sb.None? then [None] + w else w;
    assert withSb[|withSb| - 1] == Some(s.seen[|s.seen| - 1]);
    if s.bb.None? {
      var r := InsertSecond(withSb, None);
      assert r == [withSb[0], None] + withSb[1..];
      assert r[|r| - 1] == withSb[|withSb| - 1];
    }
  }

  /** `sb` and `bb` name the blind posters that were found, and `BLINDS`
      lists them small blind first. */
  lemma BlindsArePosters(h: Hand)
    ensures Scan(h.preFlop, Seating([], None, None)).sb.Some? ==>
      GetPositionToPlayerMapping(h)[SmallBlind] == [Scan(h.preFlop, Seating([], None, None)).sb.value]
    ensures Scan(h.preFlop, Seating([], None, None)).sb.None? ==> SmallBlind !in GetPositionToPlayerMapping(h)
    ensures Scan(h.preFlop, Seating([], None, None)).bb.Some? ==>
      GetPositionToPlayerMapping(h)[BigBlind] == [Scan(h.preFlop, Seating([], None, None)).bb.value]
    ensures Scan(h.preFlop, Seating([], None, None)).bb.None? ==> BigBlind !in GetPositionToPlayerMapping(h)
    ensures BlindSeats in GetPositionToPlayerMapping(h) ==>
      GetPositionToPlayerMapping(h)[BlindSeats] == Somes([Scan(h.preFlop, Seating([], None, None)).sb, Scan(h.preFlop, Seating([], None, None)).bb])
  {
    MappingAt(h, SmallBlind);
    MappingAt(h, BigBlind);
    MappingAt(h, BlindSeats);
  }

  /** Every name in the mapping is a player of the first orbit. */
  lemma OnlySeenPlayers(h: Hand)
    ensures forall k, x :: k in GetPositionToPlayerMapping(h) && x in GetPositionToPlayerMapping(h)[k] ==> x in Orbit(h.preFlop)
  {
    var s := Scan(h.preFlop, Seating([], None, None));
    SeenIsOrbit(h.preFlop);
    SlotsPlayers(s);
    BlindsSeen(h.preFlop, Seating([], None, None));
    forall k, x | k in GetPositionToPlayerMapping(h) && x in GetPositionToPlayerMapping(h)[k]
      ensures x in s.seen
    {
      MappingAt(h, k);
      EntryFromSlots(s, k);
    }
  }

  /** Every seat of every entry is a blind poster or a slot. */
  lemma EntryFromSlots(s: Seating, k: Position)
    ensures forall x :: Some(x) in Entry(s, k) ==> Some(x) in Slots(s) || Some(x) == s.sb || Some(x) == s.bb
  {
    var p := Slots(s);
    var n := |p|;
    if n >= 8 {
      assert forall i :: 3 <= i < n - 4 ==> p[3..n - 4][i - 3] == p[i];
    }
  }

  /** As written, `HJ` and `LJ` both name the seat `CO` names
      (`seen_players[3]`): `HJ` from six seats on, `LJ` from seven, so at
      eight or more seats the middle positions are that player twice. */
  lemma SeatThreeQuirk(h: Hand)
    ensures var m, n := GetPositionToPlayerMapping(h), |Slots(Scan(h.preFlop, Seating([], None, None)))|;
      n >= 6 && Cutoff in m ==> Hijack in m && m[Hijack] == m[Cutoff]
    ensures var m, n := GetPositionToPlayerMapping(h), |Slots(Scan(h.preFlop, Seating([], None, None)))|;
      n >= 7 && Cutoff in m ==> Lojack in m && m[Lojack] == m[Cutoff]
    ensures var m := GetPositionToPlayerMapping(h);
      |Slots(Scan(h.preFlop, Seating([], None, None)))| >= 8 && Cutoff in m ==>
        && Hijack in m && Lojack in m && Middle in m
        && m[Hijack] == m[Cutoff] && m[Lojack] == m[Cutoff]
        && m[Middle] == m[Cutoff] + m[Cutoff]
  {
    var s := Scan(h.preFlop, Seating([], None, None));
    if |Slots(s)| >= 6 && Cutoff in GetPositionToPlayerMapping(h) {
      SeatThreeEntries(s);
      MappingAt(h, Cutoff);
      MappingAt(h, Hijack);
      MappingAt(h, Lojack);
      MappingAt(h, Middle);
      if |Slots(s)| >= 8 {
        SomesAppend(Entry(s, Cutoff), Entry(s, Cutoff));
      }
    }
  }

  lemma SeatThreeEntries(s: Seating)
    requires |Slots(s)| >= 6
    ensures Entry(s, Hijack) == Entry(s, Cutoff)
    ensures |Slots(s)| >= 7 ==> Entry(s, Lojack) == Entry(s, Cutoff)
    ensures |Slots(s)| >= 8 ==> Entry(s, Middle) == Entry(s, Cutoff) + Entry(s, Cutoff)
  {
    var p := Slots(s);
    assert Entry(s, Cutoff) == [p[3]];
    if |p| >= 8 {
      assert Entry(s, Middle) == [p[3], p[3]];
    }
  }
}

=== FILE: ranking.dfy ===
/** The hand ranker: `EvalHand._calc_hand` and the order `EvalHand.__lt__` /
    `__eq__` put on its results, with the helpers they use from
    poker/cardutils.py (`sort_by_rank`, `split_by_suits`, `split_by_ranks`,
    `compare_by_ranks`, `find_kickers`). */
module Ranking {
  import opened Results
  import opened Cards

  /** `HandTypes.ORDERED_BY_STRENGTH`, weakest first. */
  datatype Category =
    | HighCard | Pair | TwoPair | Trips | Straight | Flush | FullHouse | Quads | StraightFlush

  /** Position of a category in `ORDERED_BY_STRENGTH`. */
  function Strength(c: Category): nat {
    match c
    case HighCard => 0
    case Pair => 1
    case TwoPair => 2
    case Trips => 3
    case Straight => 4
    case Flush => 5
    case FullHouse => 6
    case Quads => 7
    case StraightFlush => 8
  }

  /** The triple `_calc_hand` returns: category, made cards, kickers. */
  datatype EvalHand = EvalHand(category: Category, made: seq<Card>, kickers: seq<Card>)

  // ---------------------------------------------------------------------
  // compare_by_ranks and the hand order
  // ---------------------------------------------------------------------

  /** 1 when `a` is stronger at the first rank where the two differ (over the
      common prefix, as `zip` truncates), -1 when weaker, 0 when no rank differs. */
  function CompareByRanks(a: seq<Card>, b: seq<Card>): (r: int)
    ensures -1 <= r <= 1
  {
    if |a| == 0 || |b| == 0 then 0
    else if a[0].rank != b[0].rank then (if a[0].rank < b[0].rank then 1 else -1)
    else CompareByRanks(a[1..], b[1..])
  }

  /** `EvalHand.__lt__`: category first, then made-card ranks, then kicker ranks. */
  predicate Lt(x: EvalHand, y: EvalHand) {
    if Strength(x.category) != Strength(y.category) then Strength(x.category) < Strength(y.category)
    else if CompareByRanks(x.made, y.made) != 0 then CompareByRanks(x.made, y.made) < 0
    else CompareByRanks(x.kickers, y.kickers) < 0
  }

  /** `EvalHand.__eq__`: neither side is less than the other. */
  predicate Equiv(x: EvalHand, y: EvalHand) {
    !Lt(x, y) && !Lt(y, x)
  }

  // ---------------------------------------------------------------------
  // split_by_suits / split_by_ranks: a dict from key to the cards with that
  // key, in order; its keys iterate in order of first appearance.
  // ---------------------------------------------------------------------

  datatype Split = BySuit | ByRank

  function KeyOf(c: Card, sp: Split): int {
    if sp == BySuit then c.suit else c.rank
  }

  /** Key of a group: the key of its first card (-1, matching no card, for
      an empty group, which never arises). */
  function GroupKey(g: seq<Card>, sp: Split): int {
    if |g| > 0 then KeyOf(g[0], sp) else -1
  }

  /** The cards with key `k`, in their order in `cards`. */
  function Filter(cards: seq<Card>, k: int, sp: Split): (f: seq<Card>)
    ensures |f| <= |cards|
    decreases |cards|
  {
    if |cards| == 0 then []
    else
      var last := cards[|cards| - 1];
      Filter(cards[..|cards| - 1], k, sp) + (if KeyOf(last, sp) == k then [last] else [])
  }

  /** Index of the group holding key `k`, or `|groups|` when there is none. */
  function GroupIndex(groups: seq<seq<Card>>, k: int, sp: Split): (i: nat)
    ensures i <= |groups|
  {
    if |groups| == 0 then 0
    else if |groups[0]| > 0 && GroupKey(groups[0], sp) == k then 0
    else 1 + GroupIndex(groups[1..], k, sp)
  }

  /** One iteration of the loop in `split_by_suits`/`split_by_ranks`. */
  function AddToGroups(groups: seq<seq<Card>>, c: Card, sp: Split): seq<seq<Card>> {
    var i := GroupIndex(groups, KeyOf(c, sp), sp);
    if i < |groups| then groups[i := groups[i] + [c]] else groups + [[c]]
  }

  function SplitBy(cards: seq<Card>, sp: Split): seq<seq<Card>>
    decreases |cards|
  {
    if |cards| == 0 then []
    else AddToGroups(SplitBy(cards[..|cards| - 1], sp), cards[|cards| - 1], sp)
  }

  /** `[g for g in groups if len(g) == n]` */
  function GroupsOfSize(groups: seq<seq<Card>>, n: nat): (r: seq<seq<Card>>)
    ensures forall g :: g in r <==> g in groups && |g| == n
  {
    if |groups| == 0 then []
    else (if |groups[0]| == n then [groups[0]] else []) + GroupsOfSize(groups[1..], n)
  }

  /** The groups with at least `n` cards, in order. */
  function GroupsAtLeast(groups: seq<seq<Card>>, n: nat): (r: seq<seq<Card>>)
    ensures forall g :: g in r <==> g in groups && |g| >= n
  {
    if |groups| == 0 then []
    else (if |groups[0]| >= n then [groups[0]] else []) + GroupsAtLeast(groups[1..], n)
  }

  // ---------------------------------------------------------------------
  // The run scans of the straight-flush and straight branches
  // ---------------------------------------------------------------------

  /** Consecutive ranks, strongest first: each card one rank index below the previous. */
  predicate IsRun(s: seq<Card>) {
    forall i :: 0 <= i < |s| ==> s[i].rank == s[0].rank + i
  }

  /** The wheel as the ranker lays it out: 5, 4, 3, 2, then the ace. */
  predicate IsWheel(s: seq<Card>) {
    |s| == 5 && s[0].rank == Five && IsRun(s[..4]) && s[4].rank == Ace
  }

  /** The `best` loop over rank-sorted cards: extend the run when the next
      card is one rank lower, restart it otherwise, stop once it holds five.
      With `skipDupes` (the straight branch) a card of the run's last rank is
      passed over instead of restarting the run. */
  function Scan(cs: seq<Card>, best: seq<Card>, skipDupes: bool): seq<Card>
    decreases |cs|
  {
    if |cs| == 0 then best
    else
      var c := cs[0];
      if |best| == 0 then Scan(cs[1..], [c], skipDupes)
      else if |best| == 5 then best
      else if best[|best| - 1].rank == c.rank - 1 then Scan(cs[1..], best + [c], skipDupes)
      else if skipDupes && best[|best| - 1].rank == c.rank then Scan(cs[1..], best, skipDupes)
      else Scan(cs[1..], [c], skipDupes)
  }

  /** Outcome of one scan: five in a row, or four from the 5 down plus the
      leading ace `top` (the wheel), or nothing. */
  function RunOrWheel(best: seq<Card>, top: Card): Option<seq<Card>> {
    if |best| == 5 then Some(best)
    else if |best| == 4 && best[0].rank == Five && top.rank == Ace then Some(best + [top])
    else None
  }

  /** The straight-flush loop over the suit groups, in first-appearance order. */
  function StraightFlushIn(suitGroups: seq<seq<Card>>): Option<seq<Card>> {
    if |suitGroups| == 0 then None
    else
      var g := suitGroups[0];
      if |g| >= 5 then
        var found := RunOrWheel(Scan(g, [], false), g[0]);
        if found.Some? then found else StraightFlushIn(suitGroups[1..])
      else StraightFlushIn(suitGroups[1..])
  }

  function StraightIn(sorted: seq<Card>): Option<seq<Card>>
    requires |sorted| > 0
  {
    RunOrWheel(Scan(sorted, [], true), sorted[0])
  }

  // ---------------------------------------------------------------------
  // find_kickers
  // ---------------------------------------------------------------------

  function KickersFrom(made: seq<Card>, cs: seq<Card>, res: seq<Card>): seq<Card>
    decreases |cs|
  {
    if |cs| == 0 then res
    else if |made| + |res| >= 5 then res
    else KickersFrom(made, cs[1..], if cs[0] in made then res else res + [cs[0]])
  }

  /** `find_kickers(made_hand, cards)` */
  function FindKickers(made: seq<Card>, cards: seq<Card>): seq<Card> {
    KickersFrom(made, cards, [])
  }

  /** The cards of `cs` that are not made cards, in order. */
  function NotIn(cs: seq<Card>, made: seq<Card>): (r: seq<Card>)
    ensures forall x :: x in r <==> x in cs && x !in made
  {
    if |cs| == 0 then []
    else (if cs[0] in made then [] else [cs[0]]) + NotIn(cs[1..], made)
  }

  function Min(a: int, b: int): int {
    if a <= b then a else b
  }

  // ---------------------------------------------------------------------
  // _calc_hand
  // ---------------------------------------------------------------------

  /** What `_calc_hand` computes from the sorted cards before it tries the
      categories: the rank groups of four, three and two cards, the suit
      groups of five or more, and the straight-flush and straight scans. */
  datatype Analysis = Analysis(
    sorted: seq<Card>,
    quads: seq<seq<Card>>,
    trips: seq<seq<Card>>,
    pairs: seq<seq<Card>>,
    flushes: seq<seq<Card>>,
    straightFlush: Option<seq<Card>>,
    straight: Option<seq<Card>>)
  {
    /** The group sizes the category chain relies on. */
    predicate Valid() {
      && |sorted| > 0
      && (forall g :: g in trips ==> |g| == 3)
      && (forall g :: g in pairs ==> |g| == 2)
      && (forall g :: g in flushes ==> |g| >= 5)
    }
  }

  function Analyze(sorted: seq<Card>): (a: Analysis)
    requires |sorted| > 0
    ensures a.sorted == sorted && a.Valid()
  {
    var bySuit := SplitBy(sorted, BySuit);
    var byRank := SplitBy(sorted, ByRank);
    Analysis(sorted, GroupsOfSize(byRank, 4), GroupsOfSize(byRank, 3), GroupsOfSize(byRank, 2),
             GroupsAtLeast(bySuit, 5), StraightFlushIn(bySuit), StraightIn(sorted))
  }

  /** The category chain of `_calc_hand`: the categories are tried strongest
      first and the first that matches is returned. */
  function Classify(a: Analysis): EvalHand
    requires a.Valid()
  {
    if a.straightFlush.Some? then
      EvalHand(StraightFlush, a.straightFlush.value, [])
    else if |a.quads| > 0 then
      EvalHand(Quads, a.quads[0], FindKickers(a.quads[0], a.sorted))
    else if |a.trips| >= 1 && |a.trips| + |a.pairs| >= 2 then
      assert a.trips[0] in a.trips && (|a.trips| > 1 ==> a.trips[1] in a.trips);
      EvalHand(FullHouse, a.trips[0] + (if |a.trips| > 1 then a.trips[1][..2] else a.pairs[0]), [])
    else if |a.flushes| > 0 then
      assert a.flushes[0] in a.flushes;
      EvalHand(Flush, a.flushes[0][..5], [])
    else if a.straight.Some? then
      EvalHand(Straight, a.straight.value, [])
    else if |a.trips| == 1 then
      EvalHand(Trips, a.trips[0], FindKickers(a.trips[0], a.sorted))
    else if |a.pairs| >= 2 then
      EvalHand(TwoPair, a.pairs[0] + a.pairs[1], FindKickers(a.pairs[0] + a.pairs[1], a.sorted))
    else if |a.pairs| == 1 then
      EvalHand(Pair, a.pairs[0], FindKickers(a.pairs[0], a.sorted))
    else
      EvalHand(HighCard, [a.sorted[0]], a.sorted[1..Min(5, |a.sorted|)])
  }

  /** `EvalHand._calc_hand(cards)`. The source indexes `cards[0]` in the
      high-card branch, so at least one card is needed; it never checks for
      duplicate cards. */
  function CalcHand(cards: seq<Card>): EvalHand
    requires |cards| > 0
  {
    Classify(Analyze(SortByRank(cards)))
  }

  /** `EvalHand(hole_cards, board)`: the ranker applied to hole cards plus board. */
  function Evaluate(hole: seq<Card>, board: seq<Card>): EvalHand
    requires |hole + board| > 0
  {
    CalcHand(hole + board)
  }
}

=== FILE: results.dfy ===
/** Failure-compatible wrappers shared by every module of the model.
    The source signals failure by raising Python exceptions; each raise is
    modelled as an `Err` carrying the exception class it would raise. */
module Results {

  datatype Option<+T> = None | Some(value: T)

  /** The Python exception classes the modelled code can raise. */
  datatype Error =
    | ValueError     // explicit `raise ValueError`, `list.index` miss, bad unpacking
    | IndexError     // subscript past the end of a list or string
    | KeyError       // `set.remove` of a missing element
    | TypeError      // subscripting `None`
    | AttributeError // setting an attribute of `None`
    | ZeroDivision   // division by a zero denominator
    | Unavailable    // a path through code that is not part of this model

  datatype Result<+T> = Ok(value: T) | Err(error: Error) {

    predicate IsFailure() {
      Err?
    }

    function PropagateFailure<U>(): Result<U>
      requires Err?
    {
      Err(error)
    }

    function Extract(): T
      requires Ok?
    {
      value
    }
  }

  /** A subset is no larger than the set that holds it. */
  lemma SubsetSize<T>(a: set<T>, b: set<T>)
    requires a <= b
    ensures |a| <= |b|
  {
    assert b == a + (b - a);
  }
}

=== FILE: scraping.dfy ===
/** The pure helpers of the log scraper (`poker/scraping.py`): the alias
    map that folds several player codes into one name, the state machine
    that records the cards a player shows, the cyclic assignment of seat
    positions from the blinds, and the conversion of the site's card text.
    Log parsing itself is not modelled; the values these helpers receive
    from it become parameters. */
module Scraping {
  import opened Results
  import opened Strings
  import opened Cards
  import opened Hands

  // ---------------------------------------------------------------------
  // Aliases (`_invert_alias_map`)
  // ---------------------------------------------------------------------

  /** The aliases dict in its iteration order: a player name and the list
      of site codes that belong to it. */
  type Aliases = seq<(string, seq<string>)>

  /** `f"{pname} @ {code}"` */
  function AliasName(pname: string, code: string): string {
    pname + " @ " + code
  }

  /** The name a non-empty list of codes is folded into: the hero's code
      when the hero is among them, else the first code. */
  function AliasFor(hero: string, pname: string, codes: seq<string>): string
    requires |codes| > 0
  {
    if hero in codes then AliasName(pname, hero) else AliasName(pname, codes[0])
  }

  /** The inner loop: every code is added, and a code already present
      raises `ValueError`. */
  function AddCodes(res: map<string, string>, codes: seq<string>, alias: string): Result<map<string, string>>
    decreases |codes|
  {
    if |codes| == 0 then Ok(res)
    else if codes[0] in res then Err(ValueError)
    else AddCodes(res[codes[0] := alias], codes[1..], alias)
  }

  /** The outer loop over the aliases; empty lists are skipped. */
  function InvertFrom(hero: string, aliases: Aliases, res: map<string, string>): Result<map<string, string>> {
    if |aliases| == 0 then Ok(res)
    else if |aliases[0].1| == 0 then InvertFrom(hero, aliases[1..], res)
    else
      var next :- AddCodes(res, aliases[0].1, AliasFor(hero, aliases[0].0, aliases[0].1));
      InvertFrom(hero, aliases[1..], next)
  }

  /** `_invert_alias_map(hero_id, aliases)` */
  function InvertAliasMap(hero: string, aliases: Aliases): Result<map<string, string>> {
    InvertFrom(hero, aliases, map[])
  }

  /** Every code of every list, in order. */
  function AllCodes(aliases: Aliases): seq<string> {
    if |aliases| == 0 then [] else aliases[0].1 + AllCodes(aliases[1..])
  }

  predicate NoRepeats(s: seq<string>) {
    forall i, j :: 0 <= i < j < |s| ==> s[i] != s[j]
  }

  lemma NoRepeatsConcat(a: seq<string>, b: seq<string>)
    ensures NoRepeats(a + b) <==> NoRepeats(a) && NoRepeats(b) && forall c :: c in a ==> c !in b
  {
    if NoRepeats(a) && NoRepeats(b) && forall c :: c in a ==> c !in b {
      forall i, j | 0 <= i < j < |a + b|
        ensures (a + b)[i] != (a + b)[j]
      {
        if j < |a| {
          assert (a + b)[i] == a[i] && (a + b)[j] == a[j];
        } else if i >= |a| {
          assert (a + b)[i] == b[i - |a|] && (a + b)[j] == b[j - |a|];
        } else {
          assert (a + b)[i] == a[i] && (a + b)[j] == b[j - |a|];
          assert a[i] in a;
        }
      }
    }
    if NoRepeats(a + b) {
      forall i, j | 0 <= i < j < |b|
        ensures b[i] != b[j]
      {
        assert (a + b)[|a| + i] == b[i] && (a + b)[|a| + j] == b[j];
      }
      forall i, j | 0 <= i < |a| && 0 <= j < |b|
        ensures a[i] != b[j]
      {
        assert (a + b)[i] == a[i] && (a + b)[|a| + j] == b[j];
      }
      assert forall i, j :: 0 <= i < j < |a| ==> (a + b)[i] == a[i] && (a + b)[j] == a[j];
    }
  }

  /** The inner loop succeeds exactly when its codes are new and pairwise
      different; it then adds each of them, pointing at the alias, and keeps
      every earlier entry. */
  lemma {:induction false} AddCodesMeaning(res: map<string, string>, codes: seq<string>, alias: string)
    ensures AddCodes(res, codes, alias).Ok? <==> NoRepeats(codes) && forall c :: c in codes ==> c !in res
    ensures AddCodes(res, codes, alias).Ok? ==>
      var m := AddCodes(res, codes, alias).value;
      m.Keys == res.Keys + (set c | c in codes) &&
      (forall c :: c in codes ==> m[c] == alias) &&
      (forall k :: k in res ==> m[k] == res[k])
    decreases |codes|
  {
    if |codes| > 0 {
      var c0, rest := codes[0], codes[1..];
      assert codes == [c0] + rest;
      NoRepeatsConcat([c0], rest);
      AddCodesMeaning(res[c0 := alias], rest, alias);
    }
  }

  /** The alias map is defined exactly when no code appears twice in the
      lists (within one list or across two); it then maps every code of
      every non-empty list to the name that list is folded into, and
      nothing else. */
  lemma InvertFromMeaning(hero: string, aliases: Aliases, res: map<string, string>)
    ensures InvertFrom(hero, aliases, res).Ok? <==>
      NoRepeats(AllCodes(aliases)) && forall c :: c in AllCodes(aliases) ==> c !in res
    ensures InvertFrom(hero, aliases, res).Ok? ==>
      var m := InvertFrom(hero, aliases, res).value;
      m.Keys == res.Keys + (set c | c in AllCodes(aliases)) &&
      (forall k :: k in res ==> m[k] == res[k]) &&
      forall i, j :: 0 <= i < |aliases| && 0 <= j < |aliases[i].1| ==>
        aliases[i].1[j] in m && m[aliases[i].1[j]] == AliasFor(hero, aliases[i].0, aliases[i].1)
  {
    InvertFromOk(hero, aliases, res);
    if InvertFrom(hero, aliases, res).Ok? {
      InvertFromMap(hero, aliases, res);
    }
  }

  /** When the alias map is defined: exactly when no code repeats and no
      code is already a key. */
  lemma {:induction false} InvertFromOk(hero: string, aliases: Aliases, res: map<string, string>)
    ensures InvertFrom(hero, aliases, res).Ok? <==>
      NoRepeats(AllCodes(aliases)) && forall c :: c in AllCodes(aliases) ==> c !in res
    decreases |aliases|
  {
    if |aliases| > 0 {
      var (pname, codes) := aliases[0];
      var rest := aliases[1..];
      assert AllCodes(aliases) == codes + AllCodes(rest);
      NoRepeatsConcat(codes, AllCodes(rest));
      if |codes| == 0 {
        InvertFromOk(hero, rest, res);
      } else {
        var alias := AliasFor(hero, pname, codes);
        AddCodesMeaning(res, codes, alias);
        if AddCodes(res, codes, alias).Ok? {
          var next := AddCodes(res, codes, alias).value;
          InvertFromOk(hero, rest, next);
        }
      }
    }
  }

  /** What the alias map holds when it is defined. */
  lemma {:induction false} InvertFromMap(hero: string, aliases: Aliases, res: map<string, string>)
    requires InvertFrom(hero, aliases, res).Ok?
    ensures
      var m := InvertFrom(hero, aliases, res).value;
      m.Keys == res.Keys + (set c | c in AllCodes(aliases)) &&
      (forall k :: k in res ==> m[k] == res[k]) &&
      forall i, j :: 0 <= i < |aliases| && 0 <= j < |aliases[i].1| ==>
        aliases[i].1[j] in m && m[aliases[i].1[j]] == AliasFor(hero, aliases[i].0, aliases[i].1)
    decreases |aliases|
  {
    if |aliases| > 0 {
      var (pname, codes) := aliases[0];
      var rest := aliases[1..];
      assert AllCodes(aliases) == codes + AllCodes(rest);
      assert forall i :: 1 <= i < |aliases| ==> aliases[i] == rest[i - 1];
      if |codes| == 0 {
        InvertFromMap(hero, rest, res);
      } else {
        var alias := AliasFor(hero, pname, codes);
        AddCodesMeaning(res, codes, alias);
        var next := AddCodes(res, codes, alias).value;
        InvertFromMap(hero, rest, next);
      }
    }
  }

  /** `_invert_alias_map` on a fresh dict. */
  lemma InvertAliasMapMeaning(hero: string, aliases: Aliases)
    ensures InvertAliasMap(hero, aliases).Ok? <==> NoRepeats(AllCodes(aliases))
    ensures InvertAliasMap(hero, aliases).Err? ==> InvertAliasMap(hero, aliases).error == ValueError
    ensures InvertAliasMap(hero, aliases).Ok? ==>
      var m := InvertAliasMap(hero, aliases).value;
      m.Keys == (set c | c in AllCodes(aliases)) &&
      forall i, j :: 0 <= i < |aliases| && 0 <= j < |aliases[i].1| ==>
        aliases[i].1[j] in m && m[aliases[i].1[j]] == AliasFor(hero, aliases[i].0, aliases[i].1)
  {
    InvertFromMeaning(hero, aliases, map[]);
    InvertFromErrors(hero, aliases, map[]);
  }

  lemma {:induction false} InvertFromErrors(hero: string, aliases: Aliases, res: map<string, string>)
    ensures InvertFrom(hero, aliases, res).Err? ==> InvertFrom(hero, aliases, res).error == ValueError
    decreases |aliases|
  {
    if |aliases| > 0 && |aliases[0].1| > 0 {
      var alias := AliasFor(hero, aliases[0].0, aliases[0].1);
      AddCodesErrors(res, aliases[0].1, alias);
      if AddCodes(res, aliases[0].1, alias).Ok? {
        InvertFromErrors(hero, aliases[1..], AddCodes(res, aliases[0].1, alias).value);
      }
    } else if |aliases| > 0 {
      InvertFromErrors(hero, aliases[1..], res);
    }
  }

  lemma {:induction false} AddCodesErrors(res: map<string, string>, codes: seq<string>, alias: string)
    ensures AddCodes(res, codes, alias).Err? ==> AddCodes(res, codes, alias).error == ValueError
    decreases |codes|
  {
    if |codes| > 0 && codes[0] !in res {
      AddCodesErrors(res[codes[0] := alias], codes[1..], alias);
    }
  }

  // ---------------------------------------------------------------------
  // Card text (`_convert_card`)
  // ---------------------------------------------------------------------

  /** The four suit glyphs as the site's log text carries them: the UTF-8
      bytes of the suit symbols read back as single characters. */
  const DiamondGlyph: string := "\U{e2}\U{2122}\U{a6}"
  const SpadeGlyph: string := "\U{e2}\U{2122}\U{a0}"
  const HeartGlyph: string := "\U{e2}\U{2122}\U{a5}"
  const ClubGlyph: string := "\U{e2}\U{2122}\U{a3}"

  /** The chain of replacements on one card's text: "10" becomes "T" and
      each glyph its suit letter. */
  function ConvertText(c: string): string {
    Replace(Replace(Replace(Replace(Replace(c, "10", "T"), DiamondGlyph, "d"), SpadeGlyph, "s"), HeartGlyph, "h"), ClubGlyph, "c")
  }

  /** `_convert_card(c)`: `None` stays `None`. */
  function ConvertCard(c: Option<string>): (r: Option<string>)
    ensures r.None? <==> c.None?
  {
    match c
    case None => None
    case Some(t) => Some(ConvertText(t))
  }

  /** How the site writes a rank: "10" for the ten, else the rank letter. */
  function SiteRank(r: Rank): string {
    if RankChar(r) == 'T' then "10" else [RankChar(r)]
  }

  /** How the site writes a suit: its glyph. */
  function SiteSuit(s: Suit): string {
    match SuitChar(s)
    case 's' => SpadeGlyph
    case 'h' => HeartGlyph
    case 'd' => DiamondGlyph
    case _ => ClubGlyph
  }

  /** The site's text of a card. */
  function SiteCard(c: Card): string {
    SiteRank(c.rank) + SiteSuit(c.suit)
  }

  /** A glyph does not occur in a string made of one other character and a
      different glyph. */
  lemma GlyphAbsent(r: char, g: string, h: string)
    requires r != '\U{e2}'
    requires g in {DiamondGlyph, SpadeGlyph, HeartGlyph, ClubGlyph}
    requires h in {DiamondGlyph, SpadeGlyph, HeartGlyph, ClubGlyph}
    requires g != h
    ensures !Contains([r] + g, h)
  {
    var s := [r] + g;
    forall j | 0 <= j
      ensures !OccursAt(s, h, j)
    {
      if j == 0 {
        assert s[0] == r && h[0] == '\U{e2}';
      } else if j == 1 {
        assert |g| == 3;
        assert s[1..] == g;
      }
    }
    ContainsIff(s, h);
  }

  /** Replacing a glyph that is the card's own suit glyph. */
  lemma GlyphReplaced(r: char, g: string, x: string)
    requires r != '\U{e2}'
    requires g in {DiamondGlyph, SpadeGlyph, HeartGlyph, ClubGlyph}
    ensures Replace([r] + g, g, x) == [r] + x
  {
    forall j | 0 <= j < 1
      ensures !OccursAt([r] + g + "", g, j)
    {
      assert ([r] + g + "")[0] == r;
    }
    assert !Contains("", g);
    ReplaceOnce([r], g, "", x);
    assert [r] + g + "" == [r] + g;
    assert [r] + x + "" == [r] + x;
  }

  /** Step 1 of the chain: the rank text becomes the rank letter. */
  lemma RankConverted(c: Card)
    ensures Replace(SiteCard(c), "10", "T") == [RankChar(c.rank)] + SiteSuit(c.suit)
  {
    var g := SiteSuit(c.suit);
    assert '1' !in g;
    if RankChar(c.rank) == 'T' {
      assert !Contains(g, "10") by { AbsentFirstChar(g, "10"); }
      ReplaceOnce("", "10", g, "T");
      assert "" + "10" + g == SiteCard(c);
      assert "" + "T" + g == [RankChar(c.rank)] + g;
    } else {
      assert RankChar(c.rank) != '1' by { assert '1' !in Ranks; }
      AbsentFirstChar(SiteCard(c), "10");
      ReplaceAbsent(SiteCard(c), "10", "T");
    }
  }

  /** One glyph step of the chain on a card whose rank is already a letter:
      the card's own glyph becomes `x`, any other glyph is left alone. */
  lemma GlyphStep(r: char, g: string, target: string, x: string)
    requires r != '\U{e2}'
    requires g in {DiamondGlyph, SpadeGlyph, HeartGlyph, ClubGlyph}
    requires target in {DiamondGlyph, SpadeGlyph, HeartGlyph, ClubGlyph}
    ensures Replace([r] + g, target, x) == if g == target then [r] + x else [r] + g
  {
    if g == target {
      GlyphReplaced(r, g, x);
    } else {
      GlyphAbsent(r, g, target);
      ReplaceAbsent([r] + g, target, x);
    }
  }

  /** A two-letter string has no glyph in it. */
  lemma LettersKeep(s: string, target: string, x: string)
    requires |s| == 2 && '\U{e2}' !in s
    requires target in {DiamondGlyph, SpadeGlyph, HeartGlyph, ClubGlyph}
    ensures Replace(s, target, x) == s
  {
    AbsentFirstChar(s, target);
    ReplaceAbsent(s, target, x);
  }

  /** Converting the site's text of a card gives the card's own
      two-character string, which parses back to the card. */
  lemma ConvertSiteCard(c: Card)
    ensures ConvertCard(Some(SiteCard(c))) == Some(CardString(c))
    ensures ParseCard(ConvertText(SiteCard(c))) == Some(c)
  {
    var r, g := RankChar(c.rank), SiteSuit(c.suit);
    assert r != '\U{e2}' by { assert '\U{e2}' !in Ranks; }
    RankConverted(c);
    var s1 := [r] + g;
    var t := CardString(c);
    assert '\U{e2}' !in t by { assert '\U{e2}' !in Suits; }
    assert SuitChar(c.suit) in "shdc";
    if SuitChar(c.suit) == 'd' {
      assert g == DiamondGlyph && t == [r] + "d";
      GlyphStep(r, g, DiamondGlyph, "d");
      LettersKeep(t, SpadeGlyph, "s");
      LettersKeep(t, HeartGlyph, "h");
      LettersKeep(t, ClubGlyph, "c");
    } else if SuitChar(c.suit) == 's' {
      assert g == SpadeGlyph && t == [r] + "s";
      GlyphStep(r, g, DiamondGlyph, "d");
      GlyphStep(r, g, SpadeGlyph, "s");
      LettersKeep(t, HeartGlyph, "h");
      LettersKeep(t, ClubGlyph, "c");
    } else if SuitChar(c.suit) == 'h' {
      assert g == HeartGlyph && t == [r] + "h";
      GlyphStep(r, g, DiamondGlyph, "d");
      GlyphStep(r, g, SpadeGlyph, "s");
      GlyphStep(r, g, HeartGlyph, "h");
      LettersKeep(t, ClubGlyph, "c");
    } else {
      assert g == ClubGlyph && t == [r] + "c";
      GlyphStep(r, g, DiamondGlyph, "d");
      GlyphStep(r, g, SpadeGlyph, "s");
      GlyphStep(r, g, HeartGlyph, "h");
      GlyphStep(r, g, ClubGlyph, "c");
    }
    ParseCardString(c);
  }

  // ---------------------------------------------------------------------
  // Shown cards (`_handle_player_shows_a_card`)
  // ---------------------------------------------------------------------

  /** The cards of a "shows a ..." line: two when the text holds ", ",
      else one. */
  function ShownCards(shows: string): (r: seq<string>)
    ensures |r| == 1 || |r| == 2
  {
    if Contains(shows, ", ") then
      SplitCount(shows, ", ");
      var parts := Split(shows, ", ");
      [ConvertText(parts[0]), ConvertText(parts[1])]
    else [ConvertText(shows)]
  }

  /** No character of the site's text of a card is a comma. */
  lemma SiteCardNoComma(c: Card)
    ensures ',' !in SiteCard(c)
  {
    assert ',' !in Ranks;
    assert SiteCard(c) == SiteRank(c.rank) + SiteSuit(c.suit);
  }

  /** A line showing one card yields that card's string. */
  lemma ShowsOneCard(a: Card)
    ensures ShownCards(SiteCard(a)) == [CardString(a)]
  {
    SiteCardNoComma(a);
    AbsentFirstChar(SiteCard(a), ", ");
    ConvertSiteCard(a);
  }

  /** A line showing two cards, separated by ", ", yields both card
      strings in order. */
  lemma ShowsTwoCards(a: Card, b: Card)
    ensures ShownCards(SiteCard(a) + ", " + SiteCard(b)) == [CardString(a), CardString(b)]
  {
    var shows := SiteCard(a) + ", " + SiteCard(b);
    SiteCardNoComma(a);
    SiteCardNoComma(b);
    SplitPair(SiteCard(a), ", ", SiteCard(b));
    SplitCount(shows, ", ");
    ConvertSiteCard(a);
    ConvertSiteCard(b);
  }

  /** The update of one player's record. Showing both cards sets them; one
      card fills the first unknown slot; a single card when both are known
      must be one of them. */
  function Reveal(p: Player, cards: seq<string>, voluntary: bool): (r: Result<Player>)
    requires |cards| == 1 || |cards| == 2
    // the record changes only in its cards and its two shown counters
    ensures r.Ok? ==> (r.value.nameAndId == p.nameAndId && r.value.position == p.position &&
      r.value.nets == p.nets && r.value.gain == p.gain)
    // every shown card is known afterwards
    ensures r.Ok? ==> forall k :: 0 <= k < |cards| ==> Some(cards[k]) in {r.value.cards.0, r.value.cards.1}
    // showing one card never forgets a known card
    ensures r.Ok? && |cards| == 1 ==> (KnownCards(r.value) >= KnownCards(p) &&
      (p.cards.0.Some? ==> r.value.cards.0 == p.cards.0) &&
      (p.cards.1.Some? ==> r.value.cards.1 == p.cards.1))
    // when the record changes, the shown count is the number of known cards
    ensures r.Ok? && r.value != p ==> r.value.showedCards == KnownCards(r.value)
    // the voluntary count follows the shown count exactly on a voluntary show
    ensures r.Ok? && r.value != p && voluntary ==> r.value.voluntarilyShowedCards == r.value.showedCards
    ensures r.Ok? && !voluntary ==> r.value.voluntarilyShowedCards == p.voluntarilyShowedCards
    // the only failure: one card when the second slot is known, and it is
    // neither of the known cards
    ensures r.Err? <==> (|cards| == 1 && p.cards.1.Some? &&
      Some(cards[0]) != p.cards.0 && Some(cards[0]) != p.cards.1)
    ensures r.Err? ==> r.error == ValueError
  {
    if |cards| == 2 then
      Ok(p.(cards := (Some(cards[0]), Some(cards[1])), showedCards := 2,
            voluntarilyShowedCards := if voluntary then 2 else p.voluntarilyShowedCards))
    else if p.cards == (None, None) then
      Ok(p.(cards := (Some(cards[0]), None), showedCards := 1,
            voluntarilyShowedCards := if voluntary then 1 else p.voluntarilyShowedCards))
    else if p.cards.1.None? then
      Ok(p.(cards := (p.cards.0, Some(cards[0])), showedCards := 2,
            voluntarilyShowedCards := if voluntary then 2 else p.voluntarilyShowedCards))
    else if Some(cards[0]) != p.cards.0 && Some(cards[0]) != p.cards.1 then Err(ValueError)
    else Ok(p)
  }

  /** The index of the first player with the name, as `_get_player`'s loop
      finds it. */
  function PlayerIndex(players: seq<Player>, name: string): (r: Option<nat>)
    ensures r.Some? ==> (r.value < |players| && players[r.value].nameAndId == name &&
      forall j :: 0 <= j < r.value ==> players[j].nameAndId != name)
    ensures r.None? ==> forall j :: 0 <= j < |players| ==> players[j].nameAndId != name
  {
    if |players| == 0 then None
    else if players[0].nameAndId == name then Some(0)
    else
      var rest := PlayerIndex(players[1..], name);
      if rest.None? then None else Some(rest.value + 1)
  }

  /** `_handle_player_shows_a_card(player_list, name, shows, voluntary)`.
      A name with no player makes `_get_player` return `None`, and setting
      its cards raises `AttributeError`. */
  function HandleShows(players: seq<Player>, name: string, shows: string, voluntary: bool): (r: Result<seq<Player>>)
    ensures r.Err? && r.error == AttributeError <==> forall j :: 0 <= j < |players| ==> players[j].nameAndId != name
    // only the first player with the name changes, as `Reveal` says
    ensures r.Ok? ==> |r.value| == |players|
    ensures r.Ok? ==> exists i :: (0 <= i < |players| && players[i].nameAndId == name &&
      (forall j :: 0 <= j < i ==> players[j].nameAndId != name) &&
      Reveal(players[i], ShownCards(shows), voluntary) == Ok(r.value[i]) &&
      r.value == players[i := r.value[i]])
  {
    match PlayerIndex(players, name)
    case None => Err(AttributeError)
    case Some(i) =>
      var q :- Reveal(players[i], ShownCards(shows), voluntary);
      Ok(players[i := q])
  }

  // ---------------------------------------------------------------------
  // Positions (`_assign_player_positions`)
  // ---------------------------------------------------------------------

  /** `list.index`: the first index holding the name, or `ValueError`. */
  function NameIndex(players: seq<Player>, name: string): (r: Result<nat>)
    ensures r.Ok? ==> (r.value < |players| && players[r.value].nameAndId == name &&
      forall j :: 0 <= j < r.value ==> players[j].nameAndId != name)
    ensures r.Err? <==> forall j :: 0 <= j < |players| ==> players[j].nameAndId != name
    ensures r.Err? ==> r.error == ValueError
  {
    match PlayerIndex(players, name)
    case None => Err(ValueError)
    case Some(i) => Ok(i)
  }

  function SetPosition(ps: seq<Player>, j: nat, pos: int): seq<Player>
    requires j < |ps|
  {
    ps[j := ps[j].(position := pos)]
  }

  /** The loop `for i in range(len(players) - 2)`, from step `i` on: the
      `i`-th seat after the big blind, cyclically, gets position `2 + i`. */
  function AssignAfter(ps: seq<Player>, bb: nat, i: nat): seq<Player>
    requires bb < |ps|
    decreases |ps| - i
  {
    if i + 2 >= |ps| then ps
    else AssignAfter(SetPosition(ps, (bb + i + 1) % |ps|, 2 + i), bb, i + 1)
  }

  /** `_assign_player_positions(players, sb_player_name, bb_player_name)` */
  function AssignPlayerPositions(players: seq<Player>, sb: string, bb: string): Result<seq<Player>> {
    var s :- NameIndex(players, sb);
    var b :- NameIndex(players, bb);
    Ok(AssignAfter(SetPosition(SetPosition(players, s, 0), b, 1), b, 0))
  }

  /** How many seats seat `j` sits after the seat just after the big blind,
      going round the table, that is `(j - bb - 1) mod n`: 0 for the seat
      after the big blind, and `n - 1` for the big blind itself. */
  function Behind(n: nat, bb: nat, j: nat): (k: nat)
    requires bb < n && j < n
    ensures k < n
  {
    if j > bb then j - bb - 1 else j + n - bb - 1
  }

  /** The seat the loop's step `i` writes, `(bb + i + 1) % n`, without the
      modulus. */
  lemma StepSeat(n: nat, bb: nat, i: nat)
    requires bb < n && i < n
    ensures (bb + i + 1) % n == if bb + i + 1 < n then bb + i + 1 else bb + i + 1 - n
  {
    var x := bb + i + 1;
    if x >= n {
      assert x - n < n;
      assert x == n + (x - n);
    }
  }

  /** The seat the loop's step `i` writes is `i` seats behind. */
  lemma BehindOfStep(n: nat, bb: nat, i: nat)
    requires bb < n && i < n
    ensures (bb + i + 1) % n < n && Behind(n, bb, (bb + i + 1) % n) == i
  {
    StepSeat(n, bb, i);
  }

  /** From step `i` on, the loop sets seat `j` to `2 + Behind(j)` when that
      step is still to come and leaves every other field alone. */
  lemma {:induction false} AssignAfterMeaning(ps: seq<Player>, bb: nat, i: nat)
    requires bb < |ps|
    ensures |AssignAfter(ps, bb, i)| == |ps|
    ensures forall j :: 0 <= j < |ps| ==>
      AssignAfter(ps, bb, i)[j] == ps[j].(position := if i <= Behind(|ps|, bb, j) < |ps| - 2 then 2 + Behind(|ps|, bb, j) else ps[j].position)
    decreases |ps| - i
  {
    if i + 2 < |ps| {
      var n := |ps|;
      var w := (bb + i + 1) % n;
      BehindOfStep(n, bb, i);
      var next := SetPosition(ps, w, 2 + i);
      AssignAfterMeaning(next, bb, i + 1);
      forall j | 0 <= j < n
        ensures AssignAfter(ps, bb, i)[j] == ps[j].(position := if i <= Behind(n, bb, j) < n - 2 then 2 + Behind(n, bb, j) else ps[j].position)
      {
        if j == w {
        } else {
          assert Behind(n, bb, j) != i;
        }
      }
    }
  }

  /** After the assignment, the big blind has position 1, every seat
      behind it up to `n - 2` seats has `2 + ` its distance, and the seat
      right before the big blind keeps 0 if it is the small blind; any
      other seat keeps its old position. Only positions change. */
  lemma AssignPlayerPositionsMeaning(players: seq<Player>, sb: string, bb: string)
    ensures AssignPlayerPositions(players, sb, bb).Err? <==>
      (forall j :: 0 <= j < |players| ==> players[j].nameAndId != sb) ||
      (forall j :: 0 <= j < |players| ==> players[j].nameAndId != bb)
    ensures AssignPlayerPositions(players, sb, bb).Ok? ==>
      var q := AssignPlayerPositions(players, sb, bb).value;
      var s, b := NameIndex(players, sb).value, NameIndex(players, bb).value;
      |q| == |players| &&
      forall j :: 0 <= j < |players| ==>
        q[j] == players[j].(position :=
          if j == b then 1
          else if Behind(|players|, b, j) < |players| - 2 then 2 + Behind(|players|, b, j)
          else if j == s then 0
          else players[j].position)
  {
    if AssignPlayerPositions(players, sb, bb).Ok? {
      var s, b := NameIndex(players, sb).value, NameIndex(players, bb).value;
      var n := |players|;
      var ps := SetPosition(SetPosition(players, s, 0), b, 1);
      AssignAfterMeaning(ps, b, 0);
      assert Behind(n, b, b) == n - 1;
    }
  }

  /** The position a seat gets from its distance `k` behind the big blind
      when the small blind sits right before the big blind: 2 and up for
      the seats after the big blind, then 0 for the small blind and 1 for
      the big blind. */
  function Rotated(n: nat, k: nat): int {
    if k + 2 < n then k + 2 else k + 2 - n
  }

  /** With the small blind seated directly before a different big blind,
      the seats get the positions `0 .. n - 1`, each exactly once. */
  lemma PositionsArePermutation(players: seq<Player>, sb: string, bb: string)
    requires AssignPlayerPositions(players, sb, bb).Ok?
    requires NameIndex(players, sb).value != NameIndex(players, bb).value
    requires Behind(|players|, NameIndex(players, bb).value, NameIndex(players, sb).value) == |players| - 2
    ensures var q := AssignPlayerPositions(players, sb, bb).value;
      (forall j :: 0 <= j < |q| ==> 0 <= q[j].position < |q|) &&
      (forall i, j :: 0 <= i < j < |q| ==> q[i].position != q[j].position)
  {
    AssignPlayerPositionsMeaning(players, sb, bb);
    var q := AssignPlayerPositions(players, sb, bb).value;
    var s, b := NameIndex(players, sb).value, NameIndex(players, bb).value;
    var n := |players|;
    assert Behind(n, b, b) == n - 1;
    forall j | 0 <= j < n
      ensures q[j].position == Rotated(n, Behind(n, b, j))
    {
      if j != b && j != s {
        BehindInjective(n, b, j, s);
        BehindInjective(n, b, j, b);
      }
    }
    forall i, j | 0 <= i < j < n
      ensures q[i].position != q[j].position
    {
      BehindInjective(n, b, i, j);
    }
  }

  lemma BehindInjective(n: nat, bb: nat, i: nat, j: nat)
    requires bb < n && i < n && j < n && i != j
    ensures Behind(n, bb, i) != Behind(n, bb, j)
  {
  }
}

=== FILE: settlement.dfy ===
/** Pot settlement: `calc_payouts` and `_get_payout_for_board` from
    poker/cardutils.py, in integer cents. The source reads each player's
    contribution from the street nets and the boards from the hand; here
    they are inputs (see README). */
module Settlement {
  import opened Results
  import opened Cards
  import opened Ranking
  import opened HandOrder
  import opened Equity
  import opened Actions

  /** One entry of `hand.players` as settlement sees it: the cents put in
      (`amounts_put_in`), the ante in cents, the hole cards when both are
      known (`players_and_cards`), and the seat position. */
  datatype Seat = Seat(id: string, put: int, ante: int, cards: Option<Holding>, position: int)

  /** A pot: its value in cents and the ids that may win it. */
  datatype Pot = Pot(value: int, players: set<string>)

  /** One entry of a payout dictionary: an id and the cents it receives. */
  datatype Share = Share(id: string, cents: int)

  function SumInts(xs: seq<int>): int {
    if |xs| == 0 then 0 else xs[0] + SumInts(xs[1..])
  }

  function Puts(seats: seq<Seat>): (r: seq<int>)
    ensures |r| == |seats| && forall i :: 0 <= i < |seats| ==> r[i] == seats[i].put
  {
    seq(|seats|, i requires 0 <= i < |seats| => seats[i].put)
  }

  function Antes(seats: seq<Seat>): int {
    if |seats| == 0 then 0 else seats[0].ante + Antes(seats[1..])
  }

  function PotsValue(pots: seq<Pot>): int {
    if |pots| == 0 then 0 else pots[0].value + PotsValue(pots[1..])
  }

  function Total(shares: seq<Share>): int {
    if |shares| == 0 then 0 else shares[0].cents + Total(shares[1..])
  }

  function Ids(seats: seq<Seat>): set<string> {
    set i | 0 <= i < |seats| :: seats[i].id
  }

  // ---------------------------------------------------------------------
  // Who is still in
  // ---------------------------------------------------------------------

  /** `active_players` and `all_in_players`. */
  datatype Status = Status(active: set<string>, allIn: set<string>)

  /** The loop over `hand.all_actions()`: a fold or an all-in removes the
      player from the active set (`KeyError` if absent), an all-in also
      records the player as all in. */
  function Sweep(acts: seq<Action>, st: Status): (r: Result<Status>)
    requires st.active !! st.allIn
    ensures r.Ok? ==> r.value.active !! r.value.allIn
    ensures r.Ok? ==> r.value.active + r.value.allIn <= st.active + st.allIn
  {
    if |acts| == 0 then Ok(st)
    else
      var p := acts[0].player;
      if !IsFold(acts[0]) && !IsAllIn(acts[0]) then Sweep(acts[1..], st)
      else if p !in st.active then Err(KeyError)
      else if IsFold(acts[0]) then Sweep(acts[1..], Status(st.active - {p}, st.allIn))
      else Sweep(acts[1..], Status(st.active - {p}, st.allIn + {p}))
  }

  /** The element of a one-element set: `next(iter(s))`. */
  function Single(s: set<string>): (x: string)
    requires |s| == 1
    ensures s == {x}
  {
    SingletonShape(s);
    var x :| x in s; x
  }

  lemma SingletonShape(s: set<string>)
    requires |s| == 1
    ensures forall x, y :: x in s && y in s ==> x == y
  {
    forall x, y | x in s && y in s ensures x == y {
      if x != y {
        assert {x, y} <= s;
        assert |{x, y}| == 2;
        SubsetSize({x, y}, s);
      }
    }
  }

  /** `remaining_players` in ledger order, as seat indices. */
  function Remaining(seats: seq<Seat>, left: set<string>): (r: seq<nat>)
    ensures forall k :: 0 <= k < |r| ==> r[k] < |seats| && seats[r[k]].id in left
    ensures forall i :: 0 <= i < |seats| && seats[i].id in left ==> i in r
    decreases |seats|
  {
    if |seats| == 0 then []
    else
      var rest := Remaining(seats[..|seats| - 1], left);
      if seats[|seats| - 1].id in left then rest + [|seats| - 1] else rest
  }

  /** `remaining_players.sort(key=amounts_put_in)`: a stable insertion sort
      by contribution. */
  function SortByPut(xs: seq<nat>, seats: seq<Seat>): (r: seq<nat>)
    requires forall k :: 0 <= k < |xs| ==> xs[k] < |seats|
    ensures forall x :: x in r <==> x in xs
    ensures forall k :: 0 <= k < |r| ==> r[k] < |seats|
  {
    if |xs| == 0 then [] else InsertByPut(xs[0], SortByPut(xs[1..], seats), seats)
  }

  function InsertByPut(x: nat, sorted: seq<nat>, seats: seq<Seat>): (r: seq<nat>)
    requires x < |seats| && forall k :: 0 <= k < |sorted| ==> sorted[k] < |seats|
    ensures forall y :: y in r <==> y == x || y in sorted
    ensures forall k :: 0 <= k < |r| ==> r[k] < |seats|
  {
    if |sorted| == 0 || seats[x].put <= seats[sorted[0]].put then [x] + sorted
    else [sorted[0]] + InsertByPut(x, sorted[1..], seats)
  }

  // ---------------------------------------------------------------------
  // Side pots
  // ---------------------------------------------------------------------

  /** One pass of the inner loop for a level `limit`: every seat pays
      `limit` if it still has that much in front of it and is then in the
      pot; otherwise it pays what it has left. Returns the pot and what is
      left in front of each seat. */
  function Layer(seats: seq<Seat>, amounts: seq<int>, limit: int): (r: (Pot, seq<int>))
    requires |amounts| == |seats|
    ensures |r.1| == |amounts|
    ensures forall i :: 0 <= i < |amounts| ==> r.1[i] == if amounts[i] >= limit then amounts[i] - limit else 0
    ensures r.0.players == PayingAll(seats, amounts, limit)
  {
    if |seats| == 0 then (Pot(0, {}), [])
    else
      var (pot, rest) := Layer(seats[1..], amounts[1..], limit);
      PayingAllCons(seats, amounts, limit);
      if amounts[0] >= limit then (Pot(pot.value + limit, pot.players + {seats[0].id}), [amounts[0] - limit] + rest)
      else (Pot(pot.value + amounts[0], pot.players), [0] + rest)
  }

  /** The ids that can pay the whole level. */
  function PayingAll(seats: seq<Seat>, amounts: seq<int>, limit: int): set<string>
    requires |amounts| == |seats|
  {
    set i | 0 <= i < |seats| && amounts[i] >= limit :: seats[i].id
  }

  lemma PayingAllCons(seats: seq<Seat>, amounts: seq<int>, limit: int)
    requires |amounts| == |seats| > 0
    ensures PayingAll(seats, amounts, limit) ==
      (if amounts[0] >= limit then {seats[0].id} else {}) + PayingAll(seats[1..], amounts[1..], limit)
  {
    var tail := PayingAll(seats[1..], amounts[1..], limit);
    forall x | x in tail ensures x in PayingAll(seats, amounts, limit) {
      var i :| 0 <= i < |seats| - 1 && amounts[1..][i] >= limit && seats[1..][i].id == x;
      assert seats[i + 1] == seats[1..][i] && amounts[i + 1] == amounts[1..][i];
    }
    forall x | x in PayingAll(seats, amounts, limit)
      ensures x in (if amounts[0] >= limit then {seats[0].id} else {}) + tail
    {
      var i :| 0 <= i < |seats| && amounts[i] >= limit && seats[i].id == x;
      if i > 0 {
        assert seats[1..][i - 1] == seats[i] && amounts[1..][i - 1] == amounts[i];
      }
    }
  }

  /** The outer loop of `calc_payouts` over `remaining_players`: a seat
      with nothing left in front of it opens no pot. */
  function BuildPots(order: seq<nat>, seats: seq<Seat>, amounts: seq<int>): (r: (seq<Pot>, seq<int>))
    requires |amounts| == |seats|
    requires forall k :: 0 <= k < |order| ==> order[k] < |seats|
    ensures |r.1| == |seats|
  {
    if |order| == 0 then ([], amounts)
    else
      var limit := amounts[order[0]];
      if limit <= 0 then BuildPots(order[1..], seats, amounts)
      else
        var (pot, next) := Layer(seats, amounts, limit);
        var (pots, left) := BuildPots(order[1..], seats, next);
        ([pot] + pots, left)
  }

  /** The pots of the hand with the antes added to the first one; with no
      pot at all, `pots[0]` is an `IndexError`. */
  function SidePots(seats: seq<Seat>, left: set<string>): Result<seq<Pot>> {
    var order := SortByPut(Remaining(seats, left), seats);
    var pots := BuildPots(order, seats, Puts(seats)).0;
    if |pots| == 0 then Err(IndexError)
    else Ok([Pot(pots[0].value + Antes(seats), pots[0].players)] + pots[1..])
  }

  // ---------------------------------------------------------------------
  // Splitting across boards and among winners
  // ---------------------------------------------------------------------

  /** A pot's share for board `b` of `n`: `value // n`, plus one cent for
      each of the first `value - n * (value // n)` boards. */
  function BoardShare(value: int, n: nat, b: nat): int
    requires n > 0
  {
    value / n + (if b < value % n then 1 else 0)
  }

  function SubPots(pots: seq<Pot>, n: nat, b: nat): (r: seq<Pot>)
    requires n > 0
    ensures |r| == |pots|
  {
    if |pots| == 0 then [] else [Pot(BoardShare(pots[0].value, n, b), pots[0].players)] + SubPots(pots[1..], n, b)
  }

  /** `made_hands`: the remaining players whose two hole cards are known,
      in ledger order. */
  function Contenders(seats: seq<Seat>, left: set<string>): (r: seq<Seat>)
    ensures forall s :: s in r ==> s.cards.Some? && s.id in left
    ensures forall s :: s in seats && s.cards.Some? && s.id in left ==> s in r
  {
    if |seats| == 0 then []
    else (if seats[0].cards.Some? && seats[0].id in left then [seats[0]] else []) + Contenders(seats[1..], left)
  }

  /** A contender with the hand their hole cards make on the board. */
  datatype Entrant = Entrant(seat: Seat, hand: EvalHand)

  /** `made_hands` for one board: each contender's `EvalHand(cards, board)`. */
  function Rate(cs: seq<Seat>, board: seq<Card>): (r: seq<Entrant>)
    requires forall s :: s in cs ==> s.cards.Some?
    ensures |r| == |cs|
    ensures forall i :: 0 <= i < |cs| ==> cs[i] in cs && r[i] == Rated(cs[i], board)
  {
    seq(|cs|, i requires 0 <= i < |cs| => assert cs[i] in cs; Rated(cs[i], board))
  }

  /** One contender and its hand on `board`. */
  function Rated(s: Seat, board: seq<Card>): Entrant
    requires s.cards.Some?
  {
    Entrant(s, HandOf(s.cards.value, board))
  }

  /** The entrants allowed to win `pot`. */
  function Eligible(es: seq<Entrant>, pot: Pot): (r: seq<Entrant>)
    ensures forall e :: e in r <==> e in es && e.seat.id in pot.players
  {
    if |es| == 0 then []
    else (if es[0].seat.id in pot.players then [es[0]] else []) + Eligible(es[1..], pot)
  }

  function Hands(es: seq<Entrant>): (r: seq<EvalHand>)
    ensures |r| == |es| && forall i :: 0 <= i < |es| ==> r[i] == es[i].hand
  {
    seq(|es|, i requires 0 <= i < |es| => es[i].hand)
  }

  /** `winners` of `_split_up_pot`: the eligible entrants whose hand equals
      the best eligible hand (the first group of the descending sort that
      holds an eligible entrant). */
  function Winners(el: seq<Entrant>): (r: seq<Entrant>)
    ensures forall e :: e in r <==> e in el && Equiv(e.hand, Best(Hands(el)))
  {
    if |el| == 0 then [] else PickBest(el, Best(Hands(el)))
  }

  function PickBest(el: seq<Entrant>, best: EvalHand): (r: seq<Entrant>)
    ensures forall e :: e in r <==> e in el && Equiv(e.hand, best)
  {
    if |el| == 0 then []
    else (if Equiv(el[0].hand, best) then [el[0]] else []) + PickBest(el[1..], best)
  }

  /** Python's `<` on strings: lexicographic by code point. */
  predicate StrLess(a: string, b: string) {
    if |a| == 0 then |b| > 0
    else if |b| == 0 then false
    else if a[0] != b[0] then a[0] < b[0]
    else StrLess(a[1..], b[1..])
  }

  /** The order the odd cents follow: `winners` starts in descending id
      order (the second key of the descending sort) and is then sorted,
      stably, by position. */
  predicate Before(a: Seat, b: Seat) {
    a.position < b.position || (a.position == b.position && StrLess(b.id, a.id))
  }

  predicate ByPosition(ws: seq<Entrant>) {
    forall i, j :: 0 <= i < j < |ws| ==> ws[i].seat.position <= ws[j].seat.position
  }

  function SortWinners(ws: seq<Entrant>): (r: seq<Entrant>)
    ensures |r| == |ws| && multiset(r) == multiset(ws)
    ensures ByPosition(r)
  {
    if |ws| == 0 then []
    else
      assert ws == [ws[0]] + ws[1..];
      InsertWinner(ws[0], SortWinners(ws[1..]))
  }

  function InsertWinner(x: Entrant, sorted: seq<Entrant>): (r: seq<Entrant>)
    requires ByPosition(sorted)
    ensures |r| == |sorted| + 1 && multiset(r) == multiset(sorted) + multiset{x}
    ensures r[0] == x || (|sorted| > 0 && r[0] == sorted[0])
    ensures ByPosition(r)
  {
    if |sorted| == 0 || !Before(sorted[0].seat, x.seat) then
      ConsByPosition(x, sorted);
      [x] + sorted
    else
      var rest := InsertWinner(x, sorted[1..]);
      assert sorted == [sorted[0]] + sorted[1..];
      ConsByPosition(sorted[0], rest);
      [sorted[0]] + rest
  }

  lemma ConsByPosition(x: Entrant, rest: seq<Entrant>)
    requires ByPosition(rest)
    requires |rest| > 0 ==> x.seat.position <= rest[0].seat.position
    ensures ByPosition([x] + rest)
  {
  }

  /** Each winner in order gets `each`, and the first `extra` one more. */
  function Deal(ws: seq<Entrant>, each: int, extra: int): (r: seq<Share>)
    ensures |r| == |ws|
    ensures forall i :: 0 <= i < |ws| ==> r[i] == Share(ws[i].seat.id, each + (if i < extra then 1 else 0))
  {
    if |ws| == 0 then []
    else [Share(ws[0].seat.id, each + (if extra > 0 then 1 else 0))] + Deal(ws[1..], each, extra - 1)
  }

  /** `_split_up_pot(pot)` */
  function SplitPot(es: seq<Entrant>, pot: Pot): (r: Result<seq<Share>>)
    ensures r.Ok? ==> Total(r.value) == pot.value
  {
    var ws := SortWinners(Winners(Eligible(es, pot)));
    if |ws| == 0 then Err(ValueError)
    else
      DealTotal(ws, pot.value / |ws|, pot.value % |ws|);
      DivMod(pot.value, |ws|);
      Ok(Deal(ws, pot.value / |ws|, pot.value % |ws|))
  }

  lemma DivMod(v: int, k: nat)
    requires k > 0
    ensures k * (v / k) + v % k == v
  {
  }

  /** `res[pid] += value`, adding the key at the end when it is new. */
  function Credit(res: seq<Share>, id: string, cents: int): (r: seq<Share>)
    ensures Total(r) == Total(res) + cents
  {
    if |res| == 0 then [Share(id, cents)]
    else if res[0].id == id then [Share(id, res[0].cents + cents)] + res[1..]
    else [res[0]] + Credit(res[1..], id, cents)
  }

  function Merge(res: seq<Share>, add: seq<Share>): (r: seq<Share>)
    ensures Total(r) == Total(res) + Total(add)
    decreases |add|
  {
    if |add| == 0 then res else Merge(Credit(res, add[0].id, add[0].cents), add[1..])
  }

  /** `_get_payout_for_board`: the splits of every pot, summed per id. */
  function PayoutForBoard(es: seq<Entrant>, pots: seq<Pot>, res: seq<Share>): (r: Result<seq<Share>>)
    ensures r.Ok? ==> Total(r.value) == Total(res) + PotsValue(pots)
  {
    if |pots| == 0 then Ok(res)
    else
      var split :- SplitPot(es, pots[0]);
      PayoutForBoard(es, pots[1..], Merge(res, split))
  }

  /** The loop over the boards, from board `b` on. */
  function PerBoard(cs: seq<Seat>, boards: seq<seq<Card>>, pots: seq<Pot>, b: nat): Result<seq<seq<Share>>>
    requires forall s :: s in cs ==> s.cards.Some?
    requires b <= |boards|
    decreases |boards| - b
  {
    if b == |boards| then Ok([])
    else
      var p :- PayoutForBoard(Rate(cs, boards[b]), SubPots(pots, |boards|, b), []);
      var rest :- PerBoard(cs, boards, pots, b + 1);
      Ok([p] + rest)
  }

  /** The recombination of the per-board payouts. */
  function Recombine(payouts: seq<seq<Share>>, res: seq<Share>): seq<Share> {
    if |payouts| == 0 then res else Recombine(payouts[1..], Merge(res, payouts[0]))
  }

  /** `calc_payouts(hand)` in cents. */
  function CalcPayouts(seats: seq<Seat>, acts: seq<Action>, boards: seq<seq<Card>>): Result<seq<Share>> {
    var st :- Sweep(acts, Status(Ids(seats), {}));
    var left := st.active + st.allIn;
    if |st.active| + |st.allIn| == 1 then
      DisjointSize(st.active, st.allIn);
      Ok([Share(Single(left), SumInts(Puts(seats)) + Antes(seats))])
    else
      var pots :- SidePots(seats, left);
      var payouts :- PerBoard(Contenders(seats, left), boards, pots, 0);
      if |payouts| == 1 then Ok(payouts[0]) else Ok(Recombine(payouts, []))
  }

  lemma DisjointSize(a: set<string>, b: set<string>)
    requires a !! b
    ensures |a + b| == |a| + |b|
  {
  }

  // ---------------------------------------------------------------------
  // Conservation
  // ---------------------------------------------------------------------

  /** A layer moves money from in front of the seats into the pot. */
  lemma {:induction false} LayerConserves(seats: seq<Seat>, amounts: seq<int>, limit: int)
    requires |amounts| == |seats|
    ensures Layer(seats, amounts, limit).0.value + SumInts(Layer(seats, amounts, limit).1) == SumInts(amounts)
  {
    if |seats| > 0 {
      LayerConserves(seats[1..], amounts[1..], limit);
    }
  }

  /** Building the pots loses nothing: the pots plus what is left in front
      of the seats is everything put in. */
  lemma {:induction false} BuildPotsConserves(order: seq<nat>, seats: seq<Seat>, amounts: seq<int>)
    requires |amounts| == |seats|
    requires forall k :: 0 <= k < |order| ==> order[k] < |seats|
    ensures PotsValue(BuildPots(order, seats, amounts).0) + SumInts(BuildPots(order, seats, amounts).1) == SumInts(amounts)
  {
    if |order| > 0 {
      var limit := amounts[order[0]];
      if limit <= 0 {
        BuildPotsConserves(order[1..], seats, amounts);
      } else {
        LayerConserves(seats, amounts, limit);
        BuildPotsConserves(order[1..], seats, Layer(seats, amounts, limit).1);
      }
    }
  }

  /** The per-board shares of one pot add up to the pot. */
  lemma BoardSharesSum(value: int, n: nat)
    requires n > 0
    ensures BoardTotal(value, n, n) == value
  {
    BoardTotalPrefix(value, n, n);
  }

  function BoardTotal(value: int, n: nat, m: nat): int
    requires n > 0
  {
    if m == 0 then 0 else BoardTotal(value, n, m - 1) + BoardShare(value, n, m - 1)
  }

  lemma {:induction false} BoardTotalPrefix(value: int, n: nat, m: nat)
    requires n > 0
    ensures BoardTotal(value, n, m) == m * (value / n) + (if m < value % n then m else value % n)
  {
    if m > 0 {
      BoardTotalPrefix(value, n, m - 1);
    }
  }

  /** The total of every board's sub-pots, over the first `m` boards. */
  function SubTotal(pots: seq<Pot>, n: nat, m: nat): int
    requires n > 0
  {
    if m == 0 then 0 else SubTotal(pots, n, m - 1) + PotsValue(SubPots(pots, n, m - 1))
  }

  lemma {:induction false} SubTotalCons(pots: seq<Pot>, n: nat, m: nat)
    requires n > 0 && |pots| > 0
    ensures SubTotal(pots, n, m) == BoardTotal(pots[0].value, n, m) + SubTotal(pots[1..], n, m)
  {
    if m > 0 {
      SubTotalCons(pots, n, m - 1);
    }
  }

  /** Splitting every pot across `n` boards keeps the money. */
  lemma {:induction false} SubPotsConserve(pots: seq<Pot>, n: nat)
    requires n > 0
    ensures SubTotal(pots, n, n) == PotsValue(pots)
  {
    if |pots| == 0 {
      SubTotalEmpty(n, n);
    } else {
      SubTotalCons(pots, n, n);
      SubPotsConserve(pots[1..], n);
      BoardSharesSum(pots[0].value, n);
    }
  }

  lemma {:induction false} SubTotalEmpty(n: nat, m: nat)
    requires n > 0
    ensures SubTotal([], n, m) == 0
  {
    if m > 0 {
      SubTotalEmpty(n, m - 1);
    }
  }

  lemma {:induction false} DealTotal(ws: seq<Entrant>, each: int, extra: int)
    requires 0 <= extra <= |ws|
    ensures Total(Deal(ws, each, extra)) == |ws| * each + extra
  {
    if |ws| > 0 {
      DealTotal(ws[1..], each, if extra > 0 then extra - 1 else 0);
      if extra == 0 {
        DealSame(ws[1..], each, -1, 0);
      }
    }
  }

  lemma DealSame(ws: seq<Entrant>, each: int, e1: int, e2: int)
    requires e1 <= 0 && e2 <= 0
    ensures Deal(ws, each, e1) == Deal(ws, each, e2)
  {
  }

  /** The payouts of the boards from `b` on share out the sub-pots of
      those boards. */
  lemma {:induction false} PerBoardTotal(cs: seq<Seat>, boards: seq<seq<Card>>, pots: seq<Pot>, b: nat)
    requires forall s :: s in cs ==> s.cards.Some?
    requires b <= |boards|
    requires PerBoard(cs, boards, pots, b).Ok?
    ensures |boards| > 0 ==>
      Totals(PerBoard(cs, boards, pots, b).value) == SubTotal(pots, |boards|, |boards|) - SubTotal(pots, |boards|, b)
    ensures |PerBoard(cs, boards, pots, b).value| == |boards| - b
    decreases |boards| - b
  {
    if b < |boards| {
      PerBoardTotal(cs, boards, pots, b + 1);
      var n := |boards|;
      var p := PayoutForBoard(Rate(cs, boards[b]), SubPots(pots, n, b), []);
      var rest := PerBoard(cs, boards, pots, b + 1);
      assert p.Ok? && rest.Ok?;
      var all := PerBoard(cs, boards, pots, b).value;
      assert all == [p.value] + rest.value;
      assert all[1..] == rest.value;
      assert Total(p.value) == PotsValue(SubPots(pots, n, b));
      assert SubTotal(pots, n, b + 1) == SubTotal(pots, n, b) + PotsValue(SubPots(pots, n, b));
    }
  }

  function Totals(payouts: seq<seq<Share>>): int {
    if |payouts| == 0 then 0 else Total(payouts[0]) + Totals(payouts[1..])
  }

  lemma {:induction false} RecombineTotal(payouts: seq<seq<Share>>, res: seq<Share>)
    ensures Total(Recombine(payouts, res)) == Total(res) + Totals(payouts)
  {
    if |payouts| > 0 {
      RecombineTotal(payouts[1..], Merge(res, payouts[0]));
    }
  }

  /** With at least one board, a contested hand pays out exactly its pots,
      antes included. */
  lemma PayoutsArePots(seats: seq<Seat>, acts: seq<Action>, boards: seq<seq<Card>>)
    requires |boards| > 0
    ensures CalcPayouts(seats, acts, boards).Ok? ==> Sweep(acts, Status(Ids(seats), {})).Ok?
    ensures CalcPayouts(seats, acts, boards).Ok? ==>
      var st := Sweep(acts, Status(Ids(seats), {})).value;
      |st.active| + |st.allIn| != 1 ==>
        SidePots(seats, st.active + st.allIn).Ok? &&
        Total(CalcPayouts(seats, acts, boards).value) == PotsValue(SidePots(seats, st.active + st.allIn).value)
  {
    if CalcPayouts(seats, acts, boards).Ok? {
      PayoutsReachPots(seats, acts, boards);
    }
  }

  lemma PayoutsReachPots(seats: seq<Seat>, acts: seq<Action>, boards: seq<seq<Card>>)
    requires |boards| > 0
    requires CalcPayouts(seats, acts, boards).Ok?
    ensures Sweep(acts, Status(Ids(seats), {})).Ok?
    ensures var st := Sweep(acts, Status(Ids(seats), {})).value;
      |st.active| + |st.allIn| != 1 ==>
        SidePots(seats, st.active + st.allIn).Ok? &&
        Total(CalcPayouts(seats, acts, boards).value) == PotsValue(SidePots(seats, st.active + st.allIn).value)
  {
    var st := Sweep(acts, Status(Ids(seats), {})).value;
    var left := st.active + st.allIn;
    if |st.active| + |st.allIn| != 1 {
      var pots := SidePots(seats, left).value;
      var cs := Contenders(seats, left);
      BoardsPayPots(cs, boards, pots);
    }
  }

  /** Whatever the number of boards, the per-board payouts put together
      hand out the pots. */
  lemma BoardsPayPots(cs: seq<Seat>, boards: seq<seq<Card>>, pots: seq<Pot>)
    requires |boards| > 0
    requires forall s :: s in cs ==> s.cards.Some?
    requires PerBoard(cs, boards, pots, 0).Ok?
    ensures var payouts := PerBoard(cs, boards, pots, 0).value;
      Total(if |payouts| == 1 then payouts[0] else Recombine(payouts, [])) == PotsValue(pots)
  {
    PerBoardTotal(cs, boards, pots, 0);
    SubTotalEmpty(|boards|, 0);
    SubPotsConserve(pots, |boards|);
    var payouts := PerBoard(cs, boards, pots, 0).value;
    if |payouts| != 1 {
      RecombineTotal(payouts, []);
    } else {
      assert Totals(payouts) == Total(payouts[0]) + Totals([]);
    }
  }

  /** The pots hold the antes plus everything put in, less what is still in
      front of the seats. */
  lemma SidePotsValue(seats: seq<Seat>, left: set<string>)
    requires SidePots(seats, left).Ok?
    ensures PotsValue(SidePots(seats, left).value) ==
      SumInts(Puts(seats)) + Antes(seats) - SumInts(BuildPots(SortByPut(Remaining(seats, left), seats), seats, Puts(seats)).1)
  {
    var order := SortByPut(Remaining(seats, left), seats);
    BuildPotsConserves(order, seats, Puts(seats));
    var pots := BuildPots(order, seats, Puts(seats)).0;
    assert PotsValue(SidePots(seats, left).value) == pots[0].value + Antes(seats) + PotsValue(pots[1..]);
  }

  predicate AllZero(xs: seq<int>) {
    forall i :: 0 <= i < |xs| ==> xs[i] == 0
  }

  predicate NonNegative(xs: seq<int>) {
    forall i :: 0 <= i < |xs| ==> xs[i] >= 0
  }

  lemma {:induction false} SumZero(xs: seq<int>)
    requires AllZero(xs)
    ensures SumInts(xs) == 0
  {
    if |xs| > 0 {
      SumZero(xs[1..]);
    }
  }

  /** Nothing positive left in front of the seats opens no pot. */
  lemma {:induction false} NoPots(order: seq<nat>, seats: seq<Seat>, amounts: seq<int>)
    requires |amounts| == |seats|
    requires forall k :: 0 <= k < |order| ==> order[k] < |seats|
    requires forall i :: 0 <= i < |amounts| ==> amounts[i] <= 0
    ensures BuildPots(order, seats, amounts) == ([], amounts)
  {
    if |order| > 0 {
      NoPots(order[1..], seats, amounts);
    }
  }

  /** If a seat still in the loop has the most in front of it, the pots
      take everything once any pot is opened. */
  lemma {:induction false} Drains(order: seq<nat>, seats: seq<Seat>, amounts: seq<int>, r: nat)
    requires |amounts| == |seats|
    requires forall k :: 0 <= k < |order| ==> order[k] < |seats|
    requires r in order
    requires forall i :: 0 <= i < |amounts| ==> amounts[i] <= amounts[r]
    ensures |BuildPots(order, seats, amounts).0| > 0 || NonNegative(amounts) ==> AllZero(BuildPots(order, seats, amounts).1)
  {
    var limit := amounts[order[0]];
    if order[0] == r {
      if limit > 0 {
        var next := Layer(seats, amounts, limit).1;
        NoPots(order[1..], seats, next);
      } else {
        NoPots(order[1..], seats, amounts);
      }
    } else {
      assert r in order[1..];
      if limit <= 0 {
        Drains(order[1..], seats, amounts, r);
      } else {
        var next := Layer(seats, amounts, limit).1;
        Drains(order[1..], seats, next, r);
      }
    }
  }

  /** The players still in the hand once the actions are swept, when the
      sweep succeeds. */
  ghost predicate TopContributorStays(seats: seq<Seat>, acts: seq<Action>) {
    Sweep(acts, Status(Ids(seats), {})).Ok? &&
    exists i :: 0 <= i < |seats| &&
      seats[i].id in Sweep(acts, Status(Ids(seats), {})).value.active + Sweep(acts, Status(Ids(seats), {})).value.allIn &&
      forall j :: 0 <= j < |seats| ==> seats[j].put <= seats[i].put
  }

  /** Money is conserved: with at least one board, and a player still in
      the hand who put in the most, the payouts add up to everything put in
      plus the antes. */
  lemma PayoutConservation(seats: seq<Seat>, acts: seq<Action>, boards: seq<seq<Card>>)
    requires |boards| > 0
    requires CalcPayouts(seats, acts, boards).Ok?
    requires TopContributorStays(seats, acts)
    ensures Total(CalcPayouts(seats, acts, boards).value) == SumInts(Puts(seats)) + Antes(seats)
  {
    PayoutsArePots(seats, acts, boards);
    var st := Sweep(acts, Status(Ids(seats), {})).value;
    if |st.active| + |st.allIn| != 1 {
      ContestedConservation(seats, acts, boards);
    } else {
      SoleSurvivorTotal(seats, acts, boards);
    }
  }

  lemma SoleSurvivorTotal(seats: seq<Seat>, acts: seq<Action>, boards: seq<seq<Card>>)
    requires Sweep(acts, Status(Ids(seats), {})).Ok?
    requires var st := Sweep(acts, Status(Ids(seats), {})).value;
      |st.active| + |st.allIn| == 1
    ensures CalcPayouts(seats, acts, boards).Ok?
    ensures Total(CalcPayouts(seats, acts, boards).value) == SumInts(Puts(seats)) + Antes(seats)
  {
    var st := Sweep(acts, Status(Ids(seats), {})).value;
    DisjointSize(st.active, st.allIn);
    var x := Single(st.active + st.allIn);
    var share := Share(x, SumInts(Puts(seats)) + Antes(seats));
    Uncontested(seats, acts, boards, x);
    assert Total([share]) == share.cents + Total([share][1..]);
  }

  lemma ContestedConservation(seats: seq<Seat>, acts: seq<Action>, boards: seq<seq<Card>>)
    requires Sweep(acts, Status(Ids(seats), {})).Ok?
    requires TopContributorStays(seats, acts)
    requires var st := Sweep(acts, Status(Ids(seats), {})).value;
      SidePots(seats, st.active + st.allIn).Ok?
    requires var st := Sweep(acts, Status(Ids(seats), {})).value;
      CalcPayouts(seats, acts, boards).Ok? &&
      Total(CalcPayouts(seats, acts, boards).value) == PotsValue(SidePots(seats, st.active + st.allIn).value)
    ensures Total(CalcPayouts(seats, acts, boards).value) == SumInts(Puts(seats)) + Antes(seats)
  {
    var st := Sweep(acts, Status(Ids(seats), {})).value;
    var i := TopContributor(seats, acts);
    SidePotsTakeAll(seats, st.active + st.allIn, i);
  }

  /** A remaining seat that put in the most. */
  lemma TopContributor(seats: seq<Seat>, acts: seq<Action>) returns (i: nat)
    requires Sweep(acts, Status(Ids(seats), {})).Ok?
    requires TopContributorStays(seats, acts)
    ensures var st := Sweep(acts, Status(Ids(seats), {})).value;
      i < |seats| && seats[i].id in st.active + st.allIn &&
      forall j :: 0 <= j < |seats| ==> seats[j].put <= seats[i].put
  {
    var st := Sweep(acts, Status(Ids(seats), {})).value;
    i :| 0 <= i < |seats| && seats[i].id in st.active + st.allIn &&
      forall j :: 0 <= j < |seats| ==> seats[j].put <= seats[i].put;
  }

  /** With a remaining seat that put in the most, the pots (antes
      included) hold everything put in. */
  lemma {:induction false} SidePotsTakeAll(seats: seq<Seat>, left: set<string>, i: nat)
    requires SidePots(seats, left).Ok?
    requires i < |seats| && seats[i].id in left
    requires forall j :: 0 <= j < |seats| ==> seats[j].put <= seats[i].put
    ensures PotsValue(SidePots(seats, left).value) == SumInts(Puts(seats)) + Antes(seats)
  {
    SidePotsValue(seats, left);
    var order := SortByPut(Remaining(seats, left), seats);
    Drains(order, seats, Puts(seats), i);
    SumZero(BuildPots(order, seats, Puts(seats)).1);
  }

  /** When everyone but one player has folded, that player takes
      everything put in plus the antes, whatever the boards. */
  lemma Uncontested(seats: seq<Seat>, acts: seq<Action>, boards: seq<seq<Card>>, x: string)
    requires Sweep(acts, Status(Ids(seats), {})).Ok?
    requires Sweep(acts, Status(Ids(seats), {})).value.active + Sweep(acts, Status(Ids(seats), {})).value.allIn == {x}
    ensures CalcPayouts(seats, acts, boards) == Ok([Share(x, SumInts(Puts(seats)) + Antes(seats))])
  {
    var st := Sweep(acts, Status(Ids(seats), {})).value;
    DisjointSize(st.active, st.allIn);
    assert |st.active| + |st.allIn| == 1;
    assert Single(st.active + st.allIn) == x;
  }

  /** Without boards nobody is paid. */
  lemma NoBoards(seats: seq<Seat>, acts: seq<Action>)
    ensures (CalcPayouts(seats, acts, []).Ok? &&
             |Sweep(acts, Status(Ids(seats), {})).value.active + Sweep(acts, Status(Ids(seats), {})).value.allIn| != 1)
      ==> CalcPayouts(seats, acts, []) == Ok([])
  {
    if CalcPayouts(seats, acts, []).Ok? {
      var st := Sweep(acts, Status(Ids(seats), {})).value;
      DisjointSize(st.active, st.allIn);
      var left := st.active + st.allIn;
      if |left| != 1 {
        assert |st.active| + |st.allIn| != 1;
        var pots := SidePots(seats, left).value;
        assert PerBoard(Contenders(seats, left), [], pots, 0) == Ok([]);
        assert Recombine([], []) == [];
      }
    }
  }

  /** A pot with at least one eligible entrant has at least one winner. */
  lemma WinnersNonEmpty(el: seq<Entrant>)
    requires |el| > 0
    ensures |Winners(el)| > 0
  {
    var best := Best(Hands(el));
    var i :| 0 <= i < |el| && Hands(el)[i] == best;
    LtIrreflexive(best);
    assert el[i] in Winners(el);
  }

  /** `_split_up_pot`: a `ValueError` exactly when no entrant may win the
      pot; otherwise the winners, in position order, get `value // k` each
      and the first `value % k` of them one cent more. */
  lemma SplitPotShares(es: seq<Entrant>, pot: Pot)
    ensures SplitPot(es, pot).Err? <==> |Eligible(es, pot)| == 0
    ensures SplitPot(es, pot).Err? ==> SplitPot(es, pot).error == ValueError
    ensures SplitPot(es, pot).Ok? ==> ByPosition(SortWinners(Winners(Eligible(es, pot))))
    ensures SplitPot(es, pot).Ok? ==> SplitPot(es, pot).value == Deal(SortWinners(Winners(Eligible(es, pot))),
      pot.value / |Winners(Eligible(es, pot))|, pot.value % |Winners(Eligible(es, pot))|)
  {
    var el := Eligible(es, pot);
    if |el| > 0 {
      WinnersNonEmpty(el);
    }
  }

  /** With complete hands, the entrants sharing a pot are exactly the
      eligible ones whose hand no eligible hand beats. */
  lemma WinnersUnbeaten(el: seq<Entrant>)
    requires forall e :: e in el ==> Complete(e.hand)
    ensures forall e :: e in Winners(el) <==> e in el && forall o :: o in el ==> !Lt(e.hand, o.hand)
  {
    if |el| > 0 {
      var hands := Hands(el);
      BestClassUnbeaten(hands);
      forall e | e in el
        ensures Equiv(e.hand, Best(hands)) <==> forall o :: o in el ==> !Lt(e.hand, o.hand)
      {
        var i :| 0 <= i < |el| && el[i] == e;
        assert forall o :: o in el ==> exists j :: 0 <= j < |el| && el[j] == o;
      }
    }
  }
}

=== FILE: straight_detection.dfy ===
/** What the two run scans of `_calc_hand` are guaranteed to find: five
    consecutive ranks, or the wheel (5, 4, 3, 2 and an ace), anywhere in the
    input always rank at least a straight, and the same cards inside one
    suit always rank a straight flush. */
module StraightDetection {
  import opened Results
  import opened Cards
  import opened Ranking
  import opened Grouping
  import opened HandShapes
  import opened HandComposition

  /** Some card of `cs` has rank index `r`. */
  ghost predicate HasRank(cs: seq<Card>, r: int) {
    exists x :: x in cs && x.rank == r
  }

  /** Some card of `cs` has rank index `r` and suit `s`. */
  ghost predicate HasCard(cs: seq<Card>, r: int, s: Suit) {
    exists x :: x in cs && x.rank == r && x.suit == s
  }

  /** Rank `r` is in the run `best` built so far, or still ahead in `cs`. */
  ghost predicate Reachable(best: seq<Card>, cs: seq<Card>, r: int) {
    || (|best| > 0 && best[0].rank <= r < best[0].rank + |best|)
    || HasRank(cs, r)
  }

  /** Strictly increasing rank indices, as in the distinct cards of one suit. */
  ghost predicate StrictRanks(cs: seq<Card>) {
    forall i, j :: 0 <= i < j < |cs| ==> cs[i].rank < cs[j].rank
  }

  /** No card ahead is below the run's last rank; with `strict`, none equals it. */
  ghost predicate Follows(best: seq<Card>, cs: seq<Card>, strict: bool) {
    |best| > 0 ==> forall x :: x in cs ==> x.rank >= best[|best| - 1].rank + (if strict then 1 else 0)
  }

  // ---------------------------------------------------------------------
  // Facts about the cards ahead of the scan
  // ---------------------------------------------------------------------

  lemma HasRankSplit(cs: seq<Card>, r: int)
    requires |cs| > 0 && HasRank(cs, r)
    ensures cs[0].rank == r || HasRank(cs[1..], r)
  {
    var x :| x in cs && x.rank == r;
    if x != cs[0] {
      assert x in cs[1..];
    }
  }

  /** Over rank-sorted cards the first card has the lowest rank index. */
  lemma HeadIsLowest(cs: seq<Card>)
    requires |cs| > 0 && SortedByRank(cs)
    ensures forall x :: x in cs ==> cs[0].rank <= x.rank
    ensures forall r :: HasRank(cs, r) ==> cs[0].rank <= r
  {
    forall x | x in cs ensures cs[0].rank <= x.rank {
      var i :| 0 <= i < |cs| && cs[i] == x;
      if i > 0 {
        assert Le(cs[0], cs[i]);
      }
    }
  }

  lemma TailFacts(cs: seq<Card>, strict: bool)
    requires |cs| > 0 && SortedByRank(cs) && (strict ==> StrictRanks(cs))
    ensures SortedByRank(cs[1..]) && (strict ==> StrictRanks(cs[1..]))
    ensures forall x :: x in cs[1..] ==> x in cs && x.rank >= cs[0].rank + (if strict then 1 else 0)
  {
    SortedTail(cs);
    forall x | x in cs[1..]
      ensures x in cs && x.rank >= cs[0].rank + (if strict then 1 else 0)
    {
      var i :| 0 <= i < |cs[1..]| && cs[1..][i] == x;
      assert cs[i + 1] == x && Le(cs[0], cs[i + 1]);
    }
    if strict {
      forall i, j | 0 <= i < j < |cs| - 1 ensures cs[1..][i].rank < cs[1..][j].rank {
        assert cs[1..][i] == cs[i + 1] && cs[1..][j] == cs[j + 1];
      }
    }
  }

  // ---------------------------------------------------------------------
  // One step of the scan keeps the wanted ranks reachable
  // ---------------------------------------------------------------------

  /** Starting a new run at the head keeps every wanted rank reachable. */
  lemma Restart(cs: seq<Card>, lo: int, n: nat)
    requires |cs| > 0 && SortedByRank(cs) && n >= 1
    requires forall r :: lo <= r < lo + n ==> HasRank(cs, r)
    ensures cs[0].rank <= lo
    ensures forall r :: lo <= r < lo + n ==> Reachable([cs[0]], cs[1..], r)
  {
    HeadIsLowest(cs);
    assert HasRank(cs, lo);
    forall r | lo <= r < lo + n ensures Reachable([cs[0]], cs[1..], r) {
      HasRankSplit(cs, r);
    }
  }

  /** Appending the head to the run keeps every wanted rank reachable. */
  lemma Extend(cs: seq<Card>, best: seq<Card>, lo: int, n: nat)
    requires |cs| > 0 && |best| > 0 && IsRun(best)
    requires best[|best| - 1].rank == cs[0].rank - 1
    requires forall r :: lo <= r < lo + n ==> Reachable(best, cs, r)
    ensures IsRun(best + [cs[0]]) && (best + [cs[0]])[0] == best[0]
    ensures forall r :: lo <= r < lo + n ==> Reachable(best + [cs[0]], cs[1..], r)
  {
    var b := best + [cs[0]];
    assert b[|best|].rank == best[0].rank + |best|;
    assert b[0] == best[0] && |b| == |best| + 1;
    forall r | lo <= r < lo + n ensures Reachable(b, cs[1..], r) {
      assert Reachable(best, cs, r);
      if HasRank(cs, r) {
        HasRankSplit(cs, r);
      }
    }
  }

  /** Passing over a card of the run's last rank keeps every wanted rank reachable. */
  lemma SkipDuplicate(cs: seq<Card>, best: seq<Card>, lo: int, n: nat)
    requires |cs| > 0 && |best| > 0 && IsRun(best)
    requires best[|best| - 1].rank == cs[0].rank
    requires forall r :: lo <= r < lo + n ==> Reachable(best, cs, r)
    ensures forall r :: lo <= r < lo + n ==> Reachable(best, cs[1..], r)
  {
    assert best[|best| - 1].rank == best[0].rank + |best| - 1;
    forall r | lo <= r < lo + n ensures Reachable(best, cs[1..], r) {
      assert Reachable(best, cs, r);
      if HasRank(cs, r) {
        HasRankSplit(cs, r);
      }
    }
  }

  /** A restart after a gap cannot lose a wanted rank: they all lie beyond
      the run, so they are all still ahead. */
  lemma Gap(cs: seq<Card>, best: seq<Card>, lo: int, n: nat)
    requires |cs| > 0 && 0 < |best| < 5 && IsRun(best) && SortedByRank(cs)
    requires cs[0].rank > best[|best| - 1].rank + 1
    requires best[0].rank <= lo && 1 <= n <= 5
    requires forall r :: lo <= r < lo + n ==> Reachable(best, cs, r)
    requires n < 5 ==> forall x :: x in cs ==> x.rank < lo + n
    ensures forall r :: lo <= r < lo + n ==> HasRank(cs, r)
  {
    var last := best[|best| - 1].rank;
    assert last == best[0].rank + |best| - 1;
    HeadIsLowest(cs);
    assert cs[0] in cs;
    assert !HasRank(cs, last + 1);
    assert !Reachable(best, cs, last + 1);
    assert lo > last;
    forall r | lo <= r < lo + n ensures HasRank(cs, r) {
      assert Reachable(best, cs, r);
    }
  }

  // ---------------------------------------------------------------------
  // The scan
  // ---------------------------------------------------------------------

  /** The scan's invariant: when the `n` ranks from `lo` up are each in the
      current run or still ahead, the scan ends with five cards or with a
      run spanning all of them. For `n < 5` no card ahead may lie beyond
      those ranks (the wheel's 5 to 2 are the weakest ranks). */
  lemma {:induction false} ScanSpans(cs: seq<Card>, best: seq<Card>, skip: bool, lo: int, n: nat)
    requires 1 <= n <= 5 && |best| <= 5 && IsRun(best)
    requires SortedByRank(cs) && (!skip ==> StrictRanks(cs))
    requires Follows(best, cs, !skip)
    requires |best| > 0 ==> best[0].rank <= lo
    requires forall r :: lo <= r < lo + n ==> Reachable(best, cs, r)
    requires n < 5 ==> forall x :: x in cs ==> x.rank < lo + n
    ensures var b := Scan(cs, best, skip);
      |b| == 5 || (|b| > 0 && b[0].rank <= lo && lo + n <= b[0].rank + |b|)
    decreases |cs|
  {
    if |cs| == 0 {
      assert Reachable(best, cs, lo);
      assert Reachable(best, cs, lo + n - 1);
    } else {
      var c, rest := cs[0], cs[1..];
      TailFacts(cs, !skip);
      if |best| == 0 {
        forall r | lo <= r < lo + n ensures HasRank(cs, r) {
          assert Reachable(best, cs, r);
        }
        Restart(cs, lo, n);
        ScanSpans(rest, [c], skip, lo, n);
      } else if |best| == 5 {
      } else if best[|best| - 1].rank == c.rank - 1 {
        Extend(cs, best, lo, n);
        ScanSpans(rest, best + [c], skip, lo, n);
      } else if skip && best[|best| - 1].rank == c.rank {
        SkipDuplicate(cs, best, lo, n);
        ScanSpans(rest, best, skip, lo, n);
      } else {
        assert c in cs;
        Gap(cs, best, lo, n);
        Restart(cs, lo, n);
        ScanSpans(rest, [c], skip, lo, n);
      }
    }
  }

  /** Five consecutive ranks ahead of an empty run: the scan finds five cards. */
  lemma ScanFindsFive(cs: seq<Card>, skip: bool, lo: int)
    requires SortedByRank(cs) && (!skip ==> StrictRanks(cs))
    requires forall r :: lo <= r < lo + 5 ==> HasRank(cs, r)
    ensures |Scan(cs, [], skip)| == 5
  {
    ScanSpans(cs, [], skip, lo, 5);
    ScanFacts(cs, [], skip);
  }

  /** The ranks 5, 4, 3 and 2 ahead of an empty run: the scan finds five
      cards, or the four from the 5 down. */
  lemma ScanFindsWheelBase(cs: seq<Card>, skip: bool)
    requires SortedByRank(cs) && (!skip ==> StrictRanks(cs))
    requires forall r :: Five <= r < Five + 4 ==> HasRank(cs, r)
    ensures var b := Scan(cs, [], skip); |b| == 5 || (|b| == 4 && b[0].rank == Five)
  {
    ScanSpans(cs, [], skip, Five, 4);
    ScanFacts(cs, [], skip);
  }

  /** An ace among rank-sorted cards is the first card's rank. */
  lemma AceLeads(cs: seq<Card>)
    requires |cs| > 0 && SortedByRank(cs) && HasRank(cs, Ace)
    ensures cs[0].rank == Ace
  {
    HeadIsLowest(cs);
  }

  /** The outcome of the scan over cards holding five consecutive ranks or
      the wheel. */
  lemma RunOrWheelFound(cs: seq<Card>, skip: bool, lo: int)
    requires |cs| > 0 && SortedByRank(cs) && (!skip ==> StrictRanks(cs))
    requires || (forall r :: lo <= r < lo + 5 ==> HasRank(cs, r))
             || (HasRank(cs, Ace) && forall r :: Five <= r < Five + 4 ==> HasRank(cs, r))
    ensures RunOrWheel(Scan(cs, [], skip), cs[0]).Some?
  {
    if forall r :: lo <= r < lo + 5 ==> HasRank(cs, r) {
      ScanFindsFive(cs, skip, lo);
    } else {
      ScanFindsWheelBase(cs, skip);
      AceLeads(cs);
    }
  }

  // ---------------------------------------------------------------------
  // Straights
  // ---------------------------------------------------------------------

  lemma StraightSorted(sorted: seq<Card>, lo: int)
    requires |sorted| > 0 && SortedByRank(sorted)
    requires || (forall r :: lo <= r < lo + 5 ==> HasRank(sorted, r))
             || (HasRank(sorted, Ace) && forall r :: Five <= r < Five + 4 ==> HasRank(sorted, r))
    ensures Strength(Classify(Analyze(sorted)).category) >= Strength(Straight)
  {
    RunOrWheelFound(sorted, true, lo);
    var a := Analyze(sorted);
    assert a.straight.Some?;
    ClassifyAtLeast(a);
  }

  lemma HasRankSorted(cards: seq<Card>)
    ensures forall r :: HasRank(SortByRank(cards), r) <==> HasRank(cards, r)
  {
    SortedMembers(cards);
    forall r ensures HasRank(SortByRank(cards), r) <==> HasRank(cards, r) {
      if HasRank(cards, r) {
        var x :| x in cards && x.rank == r;
        assert x in SortByRank(cards);
      }
    }
  }

  /** Five consecutive ranks among the cards, from rank index `lo` to
      `lo + 4`, always rank at least a straight, duplicates of a rank or not. */
  lemma StraightDetected(cards: seq<Card>, lo: int)
    requires |cards| > 0
    requires forall r :: lo <= r < lo + 5 ==> HasRank(cards, r)
    ensures Strength(CalcHand(cards).category) >= Strength(Straight)
  {
    SortedMembers(cards);
    HasRankSorted(cards);
    StraightSorted(SortByRank(cards), lo);
  }

  /** An ace with a 5, 4, 3 and 2 always ranks at least a straight. */
  lemma WheelDetected(cards: seq<Card>)
    requires |cards| > 0
    requires HasRank(cards, Ace) && forall r :: Five <= r < Five + 4 ==> HasRank(cards, r)
    ensures Strength(CalcHand(cards).category) >= Strength(Straight)
  {
    SortedMembers(cards);
    HasRankSorted(cards);
    StraightSorted(SortByRank(cards), Five);
  }

  // ---------------------------------------------------------------------
  // Straight flushes
  // ---------------------------------------------------------------------

  lemma StraightDistinct(v: seq<Card>)
    requires IsStraight(v)
    ensures Distinct(v)
  {
    if !IsRun(v) {
      assert forall i :: 0 <= i < 4 ==> v[i] == v[..4][i];
    }
  }

  /** A straight found in a group needs five of its cards. */
  lemma FoundNeedsFive(g: seq<Card>)
    requires |g| > 0 && RunOrWheel(Scan(g, [], false), g[0]).Some?
    ensures |g| >= 5
  {
    ScanFacts(g, [], false);
    var v := RunOrWheel(Scan(g, [], false), g[0]).value;
    RunOrWheelFacts(Scan(g, [], false), g[0]);
    StraightDistinct(v);
    SetOfSize(v);
    SetOfSize(g);
    assert g[0] in g;
    assert SetOf(v) <= SetOf(g);
    SubsetSize(SetOf(v), SetOf(g));
  }

  /** The straight-flush loop succeeds once one of its groups holds a straight. */
  lemma {:induction false} StraightFlushInFinds(groups: seq<seq<Card>>, g: seq<Card>)
    requires g in groups && |g| > 0
    requires RunOrWheel(Scan(g, [], false), g[0]).Some?
    ensures StraightFlushIn(groups).Some?
  {
    var h := groups[0];
    if h == g {
      FoundNeedsFive(g);
    } else if |h| >= 5 && RunOrWheel(Scan(h, [], false), h[0]).Some? {
    } else {
      assert g in groups[1..];
      StraightFlushInFinds(groups[1..], g);
    }
  }

  /** The suit group of distinct rank-sorted cards: strictly increasing
      ranks, and the suit's cards of every rank. */
  lemma SuitGroupFacts(sorted: seq<Card>, s: Suit)
    requires SortedByRank(sorted) && Distinct(sorted)
    ensures var g := Filter(sorted, s, BySuit);
      && SortedByRank(g) && StrictRanks(g)
      && forall r :: HasCard(sorted, r, s) ==> HasRank(g, r)
  {
    var g := Filter(sorted, s, BySuit);
    FilterMembers(sorted, s, BySuit);
    FilterSorted(sorted, s, BySuit);
    FilterDistinct(sorted, s, BySuit);
    forall i, j | 0 <= i < j < |g| ensures g[i].rank < g[j].rank {
      assert g[i] in g && g[j] in g;
      assert Le(g[i], g[j]) && g[i] != g[j];
    }
    forall r | HasCard(sorted, r, s) ensures HasRank(g, r) {
      var x :| x in sorted && x.rank == r && x.suit == s;
      assert x in g;
    }
  }

  lemma StraightFlushSorted(sorted: seq<Card>, s: Suit, lo: int)
    requires |sorted| > 0 && SortedByRank(sorted) && Distinct(sorted)
    requires || (forall r :: lo <= r < lo + 5 ==> HasCard(sorted, r, s))
             || (HasCard(sorted, Ace, s) && forall r :: Five <= r < Five + 4 ==> HasCard(sorted, r, s))
    ensures Classify(Analyze(sorted)).category == StraightFlush
  {
    var g := Filter(sorted, s, BySuit);
    SuitGroupFacts(sorted, s);
    assert HasCard(sorted, lo, s) || HasCard(sorted, Ace, s);
    var x :| x in sorted && x.suit == s;
    GroupOfCard(sorted, BySuit, x);
    assert HasRank(g, x.rank);
    RunOrWheelFound(g, false, lo);
    StraightFlushInFinds(SplitBy(sorted, BySuit), g);
    ClassifyAtLeast(Analyze(sorted));
  }

  lemma HasCardSorted(cards: seq<Card>)
    ensures forall r, s :: HasCard(SortByRank(cards), r, s) <==> HasCard(cards, r, s)
  {
    SortedMembers(cards);
    forall r, s ensures HasCard(SortByRank(cards), r, s) <==> HasCard(cards, r, s) {
      if HasCard(cards, r, s) {
        var x :| x in cards && x.rank == r && x.suit == s;
        assert x in SortByRank(cards);
      }
    }
  }

  /** Five consecutive ranks of one suit among distinct cards always rank a
      straight flush. */
  lemma StraightFlushDetected(cards: seq<Card>, s: Suit, lo: int)
    requires |cards| > 0 && Distinct(cards)
    requires forall r :: lo <= r < lo + 5 ==> HasCard(cards, r, s)
    ensures CalcHand(cards).category == StraightFlush
  {
    HasCardSorted(cards);
    DistinctSortByRank(cards);
    SortedMembers(cards);
    StraightFlushSorted(SortByRank(cards), s, lo);
  }

  /** The ace, 5, 4, 3 and 2 of one suit among distinct cards always rank a
      straight flush. */
  lemma WheelFlushDetected(cards: seq<Card>, s: Suit)
    requires |cards| > 0 && Distinct(cards)
    requires HasCard(cards, Ace, s) && forall r :: Five <= r < Five + 4 ==> HasCard(cards, r, s)
    ensures CalcHand(cards).category == StraightFlush
  {
    HasCardSorted(cards);
    DistinctSortByRank(cards);
    SortedMembers(cards);
    StraightFlushSorted(SortByRank(cards), s, Five);
  }
}

=== FILE: strings.dfy ===
/** The Python `str` operations the modelled code relies on: `sep in s`,
    `s.split(sep)` and `s.replace(old, new)`. Python's `split` and
    `replace` scan left to right and cut at non-overlapping occurrences;
    `replace` is therefore `new.join(s.split(old))`. */
module Strings {
  import opened Results

  /** `sep` occurs in `s` starting at index `i`. */
  predicate OccursAt(s: string, sep: string, i: int) {
    0 <= i && i + |sep| <= |s| && s[i..i + |sep|] == sep
  }

  lemma OccursShift(s: string, sep: string, j: int)
    requires |s| > 0 && j >= 0
    ensures OccursAt(s, sep, j + 1) <==> OccursAt(s[1..], sep, j)
  {
    if j + 1 + |sep| <= |s| {
      assert s[1..][j..j + |sep|] == s[j + 1..j + 1 + |sep|];
    }
  }

  /** `s.find(sep)`: the first index where `sep` occurs, if any. */
  function Find(s: string, sep: string): (r: Option<nat>)
    ensures r.Some? ==> OccursAt(s, sep, r.value)
    ensures r.Some? ==> forall j :: 0 <= j < r.value ==> !OccursAt(s, sep, j)
    ensures r.None? ==> forall j :: !OccursAt(s, sep, j)
    decreases |s|
  {
    if |sep| > |s| then None
    else if s[..|sep|] == sep then Some(0)
    else
      var rest := Find(s[1..], sep);
      FindShift(s, sep, rest);
      if rest.None? then None else Some(rest.value + 1)
  }

  /** How the result of `Find` on `s[1..]` carries over to `s`. */
  lemma FindShift(s: string, sep: string, rest: Option<nat>)
    requires |s| > 0 && |sep| <= |s| && s[..|sep|] != sep
    requires rest.Some? ==> OccursAt(s[1..], sep, rest.value)
    requires rest.Some? ==> forall j :: 0 <= j < rest.value ==> !OccursAt(s[1..], sep, j)
    requires rest.None? ==> forall j :: !OccursAt(s[1..], sep, j)
    ensures rest.Some? ==> OccursAt(s, sep, rest.value + 1)
    ensures rest.Some? ==> forall j :: 0 <= j < rest.value + 1 ==> !OccursAt(s, sep, j)
    ensures rest.None? ==> forall j :: !OccursAt(s, sep, j)
  {
    forall j | 0 < j
      ensures OccursAt(s, sep, j) <==> OccursAt(s[1..], sep, j - 1)
    {
      OccursShift(s, sep, j - 1);
    }
    assert !OccursAt(s, sep, 0);
  }

  /** `sep in s` */
  predicate Contains(s: string, sep: string) {
    Find(s, sep).Some?
  }

  lemma ContainsIff(s: string, sep: string)
    ensures Contains(s, sep) <==> exists j :: OccursAt(s, sep, j)
  {
    if Contains(s, sep) {
      assert OccursAt(s, sep, Find(s, sep).value);
    }
  }

  /** `s.split(sep)` for a non-empty separator (the modelled code only
      splits on the constants `' @ '`, `', '` and `'-'`). */
  function Split(s: string, sep: string): (parts: seq<string>)
    requires |sep| > 0
    ensures |parts| >= 1
    decreases |s|
  {
    match Find(s, sep)
    case None => [s]
    case Some(i) => [s[..i]] + Split(s[i + |sep|..], sep)
  }

  /** `sep.join(parts)` */
  function Join(parts: seq<string>, sep: string): string {
    if |parts| == 0 then ""
    else if |parts| == 1 then parts[0]
    else parts[0] + sep + Join(parts[1..], sep)
  }

  /** `s.replace(old, new)` */
  function Replace(s: string, target: string, repl: string): string
    requires |target| > 0
  {
    Join(Split(s, target), repl)
  }

  /** Splitting and re-joining with the same separator gives `s` back. */
  lemma {:induction false} SplitJoin(s: string, sep: string)
    requires |sep| > 0
    ensures Join(Split(s, sep), sep) == s
    decreases |s|
  {
    match Find(s, sep)
    case None =>
    case Some(i) =>
      var rest := s[i + |sep|..];
      assert Split(s, sep) == [s[..i]] + Split(rest, sep);
      SplitJoin(rest, sep);
      JoinCons(s[..i], Split(rest, sep), sep);
      Reassemble(s, sep, i);
  }

  lemma Reassemble(s: string, sep: string, i: nat)
    requires OccursAt(s, sep, i)
    ensures s == s[..i] + sep + s[i + |sep|..]
  {
    assert s == s[..i] + s[i..i + |sep|] + s[i + |sep|..];
  }

  lemma JoinCons(first: string, parts: seq<string>, sep: string)
    requires |parts| >= 1
    ensures Join([first] + parts, sep) == first + sep + Join(parts, sep)
  {
    assert ([first] + parts)[1..] == parts;
  }

  /** No piece of a split contains the separator. */
  lemma {:induction false} SplitPiecesFree(s: string, sep: string)
    requires |sep| > 0
    ensures forall k :: 0 <= k < |Split(s, sep)| ==> !Contains(Split(s, sep)[k], sep)
    decreases |s|
  {
    match Find(s, sep)
    case None =>
    case Some(i) =>
      var rest := s[i + |sep|..];
      SplitPiecesFree(rest, sep);
      PrefixFree(s, sep, i);
  }

  /** Before the first occurrence there is none. */
  lemma PrefixFree(s: string, sep: string, i: nat)
    requires |sep| > 0 && i <= |s|
    requires forall j :: 0 <= j < i ==> !OccursAt(s, sep, j)
    ensures !Contains(s[..i], sep)
  {
    if Contains(s[..i], sep) {
      var j := Find(s[..i], sep).value;
      assert s[..i][j..j + |sep|] == s[j..j + |sep|];
      assert OccursAt(s, sep, j);
    }
  }

  /** The separator occurs exactly when the split has more than one piece. */
  lemma SplitCount(s: string, sep: string)
    requires |sep| > 0
    ensures Contains(s, sep) <==> |Split(s, sep)| >= 2
  {
  }

  /** Replacing a substring that does not occur changes nothing. */
  lemma ReplaceAbsent(s: string, target: string, repl: string)
    requires |target| > 0 && !Contains(s, target)
    ensures Replace(s, target, repl) == s
  {
  }

  /** Replacing a substring with itself changes nothing. */
  lemma ReplaceSame(s: string, target: string)
    requires |target| > 0
    ensures Replace(s, target, target) == s
  {
    SplitJoin(s, target);
  }

  /** A character that does not occur in `s` begins no occurrence. */
  lemma AbsentFirstChar(s: string, sep: string)
    requires |sep| > 0 && sep[0] !in s
    ensures !Contains(s, sep)
  {
  }

  /** Replacing the only occurrence of `target`, found after a prefix `a`
      that holds no earlier occurrence, swaps in `repl` at that place. */
  lemma ReplaceOnce(a: string, target: string, b: string, repl: string)
    requires |target| > 0
    requires forall j :: 0 <= j < |a| ==> !OccursAt(a + target + b, target, j)
    requires !Contains(b, target)
    ensures Replace(a + target + b, target, repl) == a + repl + b
  {
    var s := a + target + b;
    assert s[|a|..|a| + |target|] == target;
    assert OccursAt(s, target, |a|);
    var i := Find(s, target).value;
    assert |a| < i ==> !OccursAt(s, target, |a|);
    assert s[..|a|] == a && s[|a| + |target|..] == b;
    assert Split(s, target) == [a] + Split(b, target);
    assert Split(b, target) == [b];
    JoinCons(a, [b], repl);
  }

  /** Two pieces free of the separator's first character, joined by the
      separator, split back into those two pieces. */
  lemma SplitPair(x: string, sep: string, y: string)
    requires |sep| > 0 && sep[0] !in x && sep[0] !in y
    ensures Split(x + sep + y, sep) == [x, y]
  {
    var s := x + sep + y;
    assert s[|x|..|x| + |sep|] == sep;
    assert OccursAt(s, sep, |x|);
    var i := Find(s, sep).value;
    forall j | 0 <= j < |x|
      ensures !OccursAt(s, sep, j)
    {
      assert s[j] == x[j];
    }
    assert |x| < i ==> !OccursAt(s, sep, |x|);
    assert i < |x| ==> !OccursAt(s, sep, i);
    assert s[..i] == x && s[i + |sep|..] == y;
    AbsentFirstChar(y, sep);
  }
}
